=== FILE: README.md ===
# fluctlight event integrity and ingestion, in Dafny

A model of the core of the fluctlight Matrix federation node (`fluctlight-router`).
It covers how the node reads, checks, interns, stores and replays room events
(PDUs), and how it answers the key endpoints of the Matrix Server-Server API:

- **Canonical JSON** (`canonical_hash.dfy`, module `CanonicalHash`):
  - the `ValueRef` value type, where integers must be within ±(2^53−1), floats are
    rejected, and map entries are sorted by key when parsed;
  - the first-match `get_from_map` / `pop_from_map`;
  - compact serialisation;
  - `verify_content_hash`, the "Calculating the content hash for an event" rule of
    the Matrix Server-Server API.
- **Identifiers and the string interner** (`matrix_types.dfy`, `interner.dfy`):
  - `Id<T>`, whose validation accepts every string;
  - the typed interners, with a monotone id counter that panics at `usize::MAX`.
    Handle equality is id equality, handle ordering is content ordering, and the
    invariant that makes the two agree is stated.
- **PDUs** (`pdu_ref.dfy`, `pdu_owned.dfy`, `pdu_arc.dfy`):
  - the borrowed and owned event types, with the `type`-string dispatch, the
    state-key variant per content type and the empty-state-key rule;
  - which fields are skipped when written, and the field-preserving upcast;
  - the interning conversion `PDUArc::from_pdu_ref`.
- **Signing and verification** (`server_keys.dfy`): `Signable::sign`,
  `ServerKeys::sign`, `Verifiable::verify`, `Hashable::hash` and
  `EventHashable::generate_event_id`. This is the "Signing JSON" scheme and the
  room-version-4 event id of the Matrix specification.
- **EDUs** (`edu.dfy`): `parse_edu_ref` and its `Display` rendering.
- **Transaction ingestion and room replay**:
  - `playground.dfy`: the state, the per-event checks and `render_contents`;
  - `ingest.dfy`: `ingest_transaction`;
  - `replay.dfy`: `load_persistent_room` and `load_persistent_rooms`.
- **Key endpoints** (`routes_federation.dfy`): `get_federation_v1_version`,
  `get_key_v2_server`, and both versions of `post_key_v2_query`.

Support modules:

- `wrappers.dfy`: `Option`, `Result` and a two-way `Outcome`.
- `strings.dfy`: Rust's `str` ordering, decimal text and joining.
- `sorted_maps.dfy`: `BTreeMap` / `VecMap1` as strictly key-sorted association
  lists.
- `json.dfy`: the JSON tree a serde visitor sees, and serde-derive's struct
  field rules. A string remembers whether its literal holds a backslash escape,
  because a borrowed `&str` field cannot read such a literal while an owned one
  (`String`, `Box<Id>`, `Cow`) can.
- `serde_struct.dfy`: how a `#[derive(Serialize)]` struct becomes a canonical
  map.
- `crypto.dfy`: SHA-256, base64 and Ed25519 as uninterpreted functions.

### How the pipeline is modelled

The node's state is a plain value, a `Playground.State`:

- persistent rooms: room id → blobs, in room-id order;
- ephemeral rooms: room id → events by id, timestamp index, interner.

The server-key cache is a function `(server, key id) → public key`. Each step
(parse, checks, event id, interning) is passed to the pipeline as a function
value in a `Playground.Steps` record. `Playground.RealSteps` builds that record
from the real definitions in the other modules, and `Playground.RealStepsSound`
shows that it meets what the pipeline relies on. So every property of `Ingest`
and `Replay` holds for the real functions, with the interner corrected as
described under "## Findings" (as written, interning a new event id never
returns).

Panics are modelled as failures:

- an `unwrap` on `None` or on an `Err`;
- an `expect("Signature already validated")` on a malformed signature;
- the interner's `usize::MAX` limit.

Each failure carries the panic message.

### Behaviour worth knowing

The model follows the code, including where it differs from the Matrix
specification or from what a reader might expect:

- **Event ids hash `hashes`.** An event id is computed over `PDURef`'s
  serialisation. That serialisation includes `hashes` and leaves out only
  `signatures`. The reference hash of the Matrix Server-Server API likewise
  keeps `hashes`, which its redaction algorithm preserves, and removes
  `signatures` and `unsigned`.
- **Content hashes drop `hashes` entirely.** The content-hash check pops
  `hashes`, `age_ts`, `signatures`, `event_id` and `unsigned` before hashing, as
  the Matrix content-hash rule does.
- **Borrowed strings cannot hold escapes.** Most string fields of the borrowed
  types are `&str` or `&Id<T>`. serde_json cannot lend such a field a string
  whose literal contains a backslash escape (`"a\nb"`, `"!a\/b:x"`), so the
  whole parse fails. The `Cow` sender and user-id state key, and every field of
  the owned `PDU` that can hold non-empty text, accept such literals. The owned
  empty state key is a `&str` too, but only `""` reads as it. A message event whose `body` holds an
  escape makes `render_contents` panic.
- **Ingestion never updates the timestamp index.** `ingest_transaction` never
  writes `pdus_by_timestamp`; only replay does.
- **The persistent append only fires for one room.** It happens only for the
  hard-coded room `!jhTIqlwlxKKoPPHIgH:synapse-dev.demi.ro`.
- **A panicking super-public event poisons the log.** The persistent loop appends
  the blob before the ephemeral loop checks it. An event of that room without
  `signatures` makes ingestion panic, but its blob stays, and every later
  replay of the room panics on it (see "## Findings").
- **Every recorded result is `Ok(())`.** This holds even when the signature or
  hash check failed.

## Model

| member | source | states |
|---|---|---|
| MatrixTypes.TryFromStr | fluctlight-router/src/matrix_types.rs:19-55 | Building an identifier never fails; the identifier has the requested kind and its text is exactly the input |
| MatrixTypes.FromStrAsStr | fluctlight-router/src/matrix_types.rs:32-55 | `try_from_str` and `as_str` are inverse: re-parsing an identifier's text gives the same identifier |
| MatrixTypes.OrderIsTotal | fluctlight-router/src/matrix_types.rs:63-80 | Identifier order is a strict total order whose equivalence is string equality: equal iff neither is less, never both less |
| MatrixTypes.Deserialize | fluctlight-router/src/matrix_types.rs:82-91 | Deserialising a borrowed identifier (`&Id<T>`) succeeds iff the JSON value is a string literal without escapes, and yields that string |
| MatrixTypes.DeserializeBoxed | fluctlight-router/src/matrix_types.rs:93-103 | Deserialising a `Box<Id<T>>` succeeds iff the JSON value is a string literal, escaped or not, and yields its text |
| MatrixTypes.DeserializeToValue | fluctlight-router/src/matrix_types.rs:82-103 | An identifier written as JSON reads back as itself into a `Box<Id>`; it reads back into a borrowed `&Id` exactly when its text needs no escape, and then as itself |
| Interner.EmptyTyped | fluctlight-router/src/interner.rs:31-38 | The default typed interner holds nothing and satisfies the interner invariant |
| Interner.GetOrInsertTyped | fluctlight-router/src/interner.rs:97-118 | Fails only for a new string when `next_id` is `usize::MAX`; a present string returns its stored id and leaves the interner unchanged; a new one gets id `next_id`, the counter advances by one and only that string is added; the handle dereferences to the input; the invariant (ids distinct and below `next_id`, one id per string) is preserved |
| Interner.GetOrInsertIdempotent | fluctlight-router/src/interner.rs:97-118 | Interning the same string twice returns the same handle and changes nothing the second time |
| Interner.HandleEqualityAgrees | fluctlight-router/src/interner.rs:40-57 | Within one valid interner, id equality of handles coincides with equality of their strings and with neither being less in content order |
| Interner.Empty | fluctlight-router/src/interner.rs:197-201 | A new interner is valid and every typed interner in it is empty |
| Interner.GetOrInsert | fluctlight-router/src/interner.rs:124-128 | The untyped entry point behaves as the typed interner of the value's kind and leaves the other typed interners untouched |
| Interner.GetOrInsertExtends | fluctlight-router/src/interner.rs:97-128 | Interning never takes a string away or changes an id already handed out |
| Interner.IdToArcNeverReturns | fluctlight-router/src/interner.rs:207-211 | `ToArc for Id<T>` as written calls itself on the same receiver and returns for no stack depth |
| Interner.NewIdNeverInterned | fluctlight-router/src/interner.rs:207-211 | As written, interning an identifier the interner does not hold yet never returns |
| CanonicalHash.VisitNumber | fluctlight-router/src/canonical_hash.rs:143-178 | A number is accepted iff it is an integer within ±(2^53−1), and every float is rejected |
| CanonicalHash.Parse | fluctlight-router/src/canonical_hash.rs:134-251 | Parsing succeeds iff every number in the document is admissible, and then every map of the result, at any depth, has its keys in order |
| CanonicalHash.ParsePlain | fluctlight-router/src/canonical_hash.rs:180-201 | The visitor takes borrowed and owned strings alike, so resolving a document's escapes does not change what it parses to |
| CanonicalHash.SortEntries | fluctlight-router/src/canonical_hash.rs:215-236 | Sorting a map's entries yields key order, is a permutation, and keeps the entries of each key in their original order |
| CanonicalHash.SortOrderedIsIdentity | fluctlight-router/src/canonical_hash.rs:215-236 | Entries already in key order are left as they are |
| CanonicalHash.ParseUnparse | fluctlight-router/src/canonical_hash.rs:134-251 | A canonical value within range, written as JSON and parsed again, is the same value |
| CanonicalHash.PlainWrite | fluctlight-router/src/canonical_hash.rs:253-279 | The serialiser writes every string with an escape exactly where its text needs one; resolving those escapes gives the plain document of the value |
| CanonicalHash.WriteUnescaped | fluctlight-router/src/canonical_hash.rs:253-279 | A value none of whose strings needs an escape is written without any escape |
| CanonicalHash.WriteRoundTrip | fluctlight-router/src/canonical_hash.rs:134-279 | A canonical value within range, serialised and parsed again, is the same value, escapes included |
| CanonicalHash.GetFromMap | fluctlight-router/src/canonical_hash.rs:83-101 | The value of the first entry with the queried key; `None` iff the value is not a map or no entry has the key |
| CanonicalHash.PopFromMap | fluctlight-router/src/canonical_hash.rs:103-122 | Returns what `get_from_map` returns and removes exactly that first matching entry, keeping the others in order; unchanged when nothing matches |
| CanonicalHash.GetAfterPop | fluctlight-router/src/canonical_hash.rs:103-122 | Popping one key does not change what another key reads |
| CanonicalHash.UnescapeEscape | fluctlight-router/src/canonical_hash.rs:253-279 | The string escaping used when serialising is lossless: unescaping the escaped text gives the string back |
| CanonicalHash.CheckHashes | fluctlight-router/src/canonical_hash.rs:15-69 | Missing `hashes` and missing `sha256` each give their own error; a non-string `sha256` gives its error exactly when that is the case; a redacted event passes whatever its stored hash; a mismatch reports the stored hash |
| CanonicalHash.VerifyContentHash | fluctlight-router/src/canonical_hash.rs:11-70 | A blob that does not parse gives the deserialisation error, and only such a blob does |
| CanonicalHash.CheckHashesCompares | fluctlight-router/src/canonical_hash.rs:28-69 | For an unredacted event with a string hash, the check passes iff the stored hash equals the hash of the event with `hashes`, `age_ts`, `signatures`, `event_id` and `unsigned` popped, and otherwise reports both hashes |
| CanonicalHash.ContentHashRule | fluctlight-router/src/canonical_hash.rs:11-70 | On a blob with unique top-level keys, that rule is the Matrix one: the stored hash is compared with the hash of the event without those five keys |
| PduRef.Parse | fluctlight-router/src/pdu_ref.rs:62-100 | A blob whose `type` cannot be read fails, and a parsed event carries the type it was dispatched on |
| PduRef.ParseFits | fluctlight-router/src/pdu_ref.rs:62-100 | A parsed event's content variant is the one its type selects (Other for unknown types), its state key has that content's variant, and its envelope is well formed |
| PduRef.KindOfTypeInverse | fluctlight-router/src/pdu_ref.rs:62-100 | Each specific content variant is selected by exactly one type string |
| PduRef.ParseStateKey | fluctlight-router/src/pdu_ref.rs:244-329 | The parsed state key is read from `state_key`: Empty from `""`, a user id from any string literal (escaped or not), a server name from a literal without escapes, an absent key from a missing or null field |
| PduRef.NonEmptyStateKeyRejected | fluctlight-router/src/pdu_ref.rs:202-227 | A create, join-rules, power-levels or history-visibility event whose `state_key` is a non-empty string fails to parse |
| PduRef.UpcastWithParts | fluctlight-router/src/pdu_ref.rs:122-140 | Upcast keeps every envelope field and maps content and state key through their own upcasts |
| PduRef.UpcastAnyIsIdentity | fluctlight-router/src/pdu_ref.rs:348-358 | Upcasting an already general event changes nothing |
| PduRef.GetSignatures | fluctlight-router/src/pdu_ref.rs:48-60 | The first server entry equal to the query, or `None` iff there is none |
| PduRef.GetSignaturesIsLookup | fluctlight-router/src/pdu_ref.rs:48-60 | On a sorted signature map the first match is the map lookup |
| PduRef.FieldNamesSorted | fluctlight-router/src/pdu_ref.rs:14-39 | The declared field order is strictly sorted by JSON key, so the written top-level keys are in order |
| PduRef.RefToValueOptionals | fluctlight-router/src/pdu_ref.rs:14-39 | `signatures` is never written; `hashes`, `origin` and `prev_state` are written iff present |
| PduRef.RefToValueShape | fluctlight-router/src/pdu_ref.rs:229-242 | `state_key` is written iff `has_state`, omitted iff `missing_state`, and an empty key is written as `""`; `type` and `content` are always written |
| PduRef.RefToValueCanonical | fluctlight-router/src/pdu_ref.rs:367-396 | A well-formed event's serialisation is canonical: every map at every depth has its keys in order |
| PduRef.RefRoundTrip | fluctlight-router/src/pdu_ref.rs:62-100 | Parsing what a well-formed event serialises to gives the event back, without its signatures, when none of the written strings needs an escape |
| PduRef.RoomIdRead | fluctlight-router/src/pdu_ref.rs:14-100 | A parsed event's room id is its `room_id` member read as a borrowed string; a document whose `room_id` holds an escape does not parse |
| PduRef.ParseKeepsPlain | fluctlight-router/src/pdu_ref.rs:14-100 | A document that `parse_pdu_ref` accepts parses to the same event once its escapes are resolved |
| PduOwned.ParsePdu | fluctlight-router/src/pdu_owned.rs:15-51 | The owned parser reads every string literal, escaped or not, and uses the same type dispatch; its result carries the dispatched type, fits it, and is well formed |
| PduOwned.ParseAgreesWithRef | fluctlight-router/src/pdu_owned.rs:15-51 | `parse_pdu` accepts every document `parse_pdu_ref` accepts and reads the same event from it |
| PduOwned.ToValueOptionals | fluctlight-router/src/pdu_owned.rs:73-94 | `signatures`, `hashes`, `origin` and `prev_state` are written exactly when present |
| PduOwned.ToValueStateKey | fluctlight-router/src/pdu_owned.rs:73-94 | `state_key` is always written: an absent key as `null`, an empty key as `""` |
| PduOwned.ToValueCanonical | fluctlight-router/src/pdu_owned.rs:73-94 | The owned serialisation of a well-formed event is canonical |
| PduOwned.RoundTrip | fluctlight-router/src/pdu_owned.rs:15-51 | Parsing an owned event's serialisation gives the event back, signatures included, whatever escapes its strings need |
| PduOwned.WithSignatures | fluctlight-router/src/pdu_owned.rs:96-108 | The signatures accessor changes that field and nothing else |
| PduOwned.WithHashes | fluctlight-router/src/pdu_owned.rs:110-118 | The hashes accessor changes that field and nothing else |
| PduOwned.AccessorLaws | fluctlight-router/src/pdu_owned.rs:96-118 | The accessors read what was written, writing back what was read changes nothing, and each leaves the other field alone |
| PduArc.InternSeq | fluctlight-router/src/pdu_arc.rs:37-41 | An interned event list keeps length and order, each handle's string equal to its source; every handle is held; failure only at the interner limit |
| PduArc.InternSignatures | fluctlight-router/src/pdu_arc.rs:65-81 | The nested server → key → signature map keeps its structure and contents |
| PduArc.AliasesFromRef | fluctlight-router/src/pdu_arc.rs:215-229 | Single stays Single and Multiple stays Multiple with the same aliases in order |
| PduArc.ContentFromRef | fluctlight-router/src/pdu_arc.rs:167-235 | The content variant is kept, strings are interned with equal contents, and power-level integers are copied |
| PduArc.StateFromRef | fluctlight-router/src/pdu_arc.rs:244-255 | The state-key variant is kept, with an interned identifier of equal content |
| PduArc.FromPduRef | fluctlight-router/src/pdu_arc.rs:34-86 | Erasing the handles of the converted event gives the source event back field by field; all handles are held by the grown interner, which only extends the old one by at most the event's string count; failure only at the interner limit |
| PduArc.FromPduRefSucceeds | fluctlight-router/src/pdu_arc.rs:34-86 | With room for the event's strings the conversion does not fail |
| PduArc.HeldByLater | fluctlight-router/src/pdu_arc.rs:17-32 | An interned event stays valid while its interner keeps growing |
| ServerKeys.OwnSignatures | fluctlight-router/src/server_keys.rs:88-94 | One signature per configured key pair, under the same key id, over the same bytes |
| ServerKeys.AddSignatures | fluctlight-router/src/server_keys.rs:96-100 | The own server's entry is set to the new signatures, replacing any old one; every other server's entry is kept |
| ServerKeys.SignPdu | fluctlight-router/src/server_keys.rs:77-101 | Signing changes only `signatures`: own entry over the text with signatures removed, other servers kept |
| ServerKeys.SigningTextIgnoresSignatures | fluctlight-router/src/server_keys.rs:77-82 | The signed bytes do not depend on the signatures already present |
| ServerKeys.SignDocument | fluctlight-router/src/server_keys.rs:45-69 | The key-document signing does the same for a `ServerKeys` document |
| ServerKeys.CheckSignature | fluctlight-router/src/server_keys.rs:131-136 | A signature is checked iff it decodes from base64 to exactly 64 bytes; otherwise `verify` panics |
| ServerKeys.VerifyEntries | fluctlight-router/src/server_keys.rs:125-153 | Rejection is always "No keys succeeded", and a panic is always the malformed-signature one |
| ServerKeys.VerifyEntriesFirstDecides | fluctlight-router/src/server_keys.rs:125-153 | Unknown key ids and failing checks are skipped; the first entry with a known key whose check does not simply fail decides (Ok if it verifies, panic if malformed), and with none it is "No keys succeeded" |
| ServerKeys.Verify | fluctlight-router/src/server_keys.rs:118-123 | "Not signed by the expected server" iff the server has no entry; otherwise the loop over that entry decides |
| ServerKeys.VerifyPdu | fluctlight-router/src/server_keys.rs:105-123 | Verifying an event over its `PDURef` text reports a missing server entry in the same way |
| ServerKeys.OwnSignaturesVerify | fluctlight-router/src/server_keys.rs:125-153 | With sound keys all present in the cache, the node's own signatures verify |
| ServerKeys.SignedPduVerifies | fluctlight-router/src/server_keys.rs:77-153 | An event with a state key, signed by the node, verifies against the node's keys |
| ServerKeys.MissingStateTextsDiffer | fluctlight-router/src/server_keys.rs:77-111 | For an event without a state key, the owned text that is signed (with `state_key: null`) differs from the `PDURef` text that is verified (no `state_key`) |
| ServerKeys.SignedDocumentVerifies | fluctlight-router/src/server_keys.rs:45-69 | A key document signed by the node verifies against the node's keys |
| ServerKeys.HashPdu | fluctlight-router/src/server_keys.rs:159-186 | `hashes` ends up present; `sha256` is the hash of the event without `hashes` only when absent before, an existing one is kept; other hash entries survive; nothing else changes |
| ServerKeys.HashIdempotent | fluctlight-router/src/server_keys.rs:177-186 | Hashing twice is hashing once |
| ServerKeys.EventId | fluctlight-router/src/server_keys.rs:215-243 | An event id is `$` followed by the URL-safe base64 of SHA-256 over the serialised text |
| ServerKeys.EventIdOfText | fluctlight-router/src/server_keys.rs:215-243 | Event ids depend only on the serialised text |
| ServerKeys.RefEventIdIgnoresSignatures | fluctlight-router/src/server_keys.rs:215-243 | A parsed event's id does not depend on its signatures |
| ServerKeys.SigningKeepsRefEventId | fluctlight-router/src/server_keys.rs:215-243 | Signing an event leaves its id unchanged |
| ServerKeys.OwnedEventIdMatchesRef | fluctlight-router/src/server_keys.rs:215-243 | For an unsigned event with a state key, the owned and borrowed forms produce the same id |
| ServerKeys.DocumentOptionals | fluctlight-router/src/server_keys.rs:14-24 | `old_verify_keys` and `signatures` are written iff present, `verify_keys` iff non-empty |
| ServerKeys.DocumentAlways | fluctlight-router/src/server_keys.rs:14-24 | `server_name` and `valid_until_ts` are always written, the latter as `null` when absent |
| Edu.TypeOnly | fluctlight-router/src/edu_ref.rs:10-13 | Succeeds iff the blob is an object with exactly one string `edu_type` |
| Edu.DecodeStatus | fluctlight-router/src/edu_ref.rs:91-97 | Accepts exactly `offline`, `unavailable` and `online`, whether or not the literal is escaped, and also the unit-variant map form `{"online": null}`; the status read is the one named |
| Edu.StatusName | fluctlight-router/src/edu_ref.rs:99-107 | A presence status displays as one of those three lowercase names |
| Edu.StatusRoundTrip | fluctlight-router/src/edu_ref.rs:91-107 | Displaying a status and decoding the name gives the status back, in string and in map form |
| Edu.ParseAs | fluctlight-router/src/edu_ref.rs:46-53 | Parsing with a content decoder keeps `edu_type` and the decoded content |
| Edu.ParseEdu | fluctlight-router/src/edu_ref.rs:21-44 | An unreadable `edu_type` fails; a parsed EDU keeps its type, and its content variant is Presence, Typing, Receipt for the three known types and Unknown for every other |
| Edu.UnknownEduAccepted | fluctlight-router/src/edu_ref.rs:37-40 | Any other type, written without escapes, with an object content parses as Unknown |
| Edu.EscapedTypeRejected | fluctlight-router/src/edu_ref.rs:10-22 | An EDU whose `edu_type` literal holds an escape fails to parse, whatever the type |
| Edu.DecodeUnknown | fluctlight-router/src/edu_ref.rs:139-140 | Unknown content accepts exactly JSON objects, whatever their members, and the empty array |
| Edu.DecodeUpdate | fluctlight-router/src/edu_ref.rs:81-89 | A presence update's `last_active_ago` fits in 32 bits |
| Edu.ReceiptCountsRooms | fluctlight-router/src/edu_ref.rs:109-114 | The room count a receipt displays is the number of distinct rooms its `room_receipts` object names; a room named twice counts once |
| Edu.RoundTrip | fluctlight-router/src/edu_ref.rs:21-44 | A well-formed EDU none of whose strings needs an escape, written as JSON, parses back to itself |
| Edu.Render | fluctlight-router/src/edu_ref.rs:172-200 | The rendering always starts with `<edu_type>: ` followed by the content's text |
| Edu.RenderLines | fluctlight-router/src/edu_ref.rs:176-198 | Typing renders `<user> in <room>`, receipt `<n> room receipts`, unknown `unknown EDU`, and an empty presence nothing |
| Edu.WritePresence | fluctlight-router/src/edu_ref.rs:180-191 | Presence renders its `user=status` items joined by `, `, with no leading or trailing separator |
| Playground.DefaultRoom | fluctlight-router/src/playground.rs:567-570 | A new room has no events, an empty timestamp index and a valid empty interner |
| Playground.Checks | fluctlight-router/src/playground.rs:561-565 | Panics iff the event has no signatures or a signature is malformed; otherwise it records the verification outcome and the content-hash result of the blob |
| Playground.SignatureOutcome | fluctlight-router/src/playground.rs:663-664 | The recorded signature check passes iff `verify` returned Ok, and keeps its error otherwise |
| Playground.InternEvent | fluctlight-router/src/playground.rs:669-671 | Interning the event id and then the event: the id handle and the converted event satisfy the interning contract; failure only at the limit |
| Playground.InternLoaded | fluctlight-router/src/playground.rs:573-574 | The same contract for the replay order, event first and id second |
| Playground.StoreEvent | fluctlight-router/src/playground.rs:681-690 | Storing an event keys it by its event id with both check outcomes, overwrites an earlier event with that id, touches no other id and never touches the timestamp index |
| Playground.MessageBody | fluctlight-router/src/playground.rs:78-87 | A message body is read iff the blob's `content` is an object with exactly one `body`, which must be a string literal without escapes |
| Playground.Summary | fluctlight-router/src/playground.rs:36-70 | The rendering fails (panics) exactly for an `m.room.message` event whose body cannot be read |
| Playground.EscapedBodyPanics | fluctlight-router/src/playground.rs:62-87 | An `m.room.message` event whose `body` holds an escape, such as `"a\nb"`, makes the rendering panic |
| Playground.RenderContents | fluctlight-router/src/playground.rs:36-70 | Rendering a stored interned event gives the same text as rendering the event it was made from |
| Playground.RenderStored | fluctlight-router/src/playground.rs:36-70 | A stored record renders as the event that was stored |
| Playground.RealStepsSound | fluctlight-router/src/playground.rs:558-574 | The real parse, check, event-id and interning steps meet what ingestion and replay assume of them |
| Ingest.ParsedPdus | fluctlight-router/src/playground.rs:622-633 | Parsing keeps exactly the PDUs that parse, with their blobs; a failing one is dropped |
| Ingest.Overwrite | fluctlight-router/src/playground.rs:660 | `origin` is set to the transaction origin and nothing else changes |
| Ingest.OriginKept | fluctlight-router/src/playground.rs:604 | Parsing the origin never fails and keeps its text |
| Ingest.IngestOne | fluctlight-router/src/playground.rs:659-692 | A panicking check aborts; a PDU for an unknown room changes nothing and gets no result; otherwise it is stored in its room under its id (computed after the origin overwrite) and no other room changes |
| Ingest.Note | fluctlight-router/src/playground.rs:691 | A stored event adds the result `Ok(())` under its id; nothing else changes |
| Ingest.IngestAll | fluctlight-router/src/playground.rs:658-694 | No room is created or removed, and no timestamp index changes |
| Ingest.IngestAllFails | fluctlight-router/src/playground.rs:661-663 | One panicking event aborts the whole batch |
| Ingest.IngestAllSucceeds | fluctlight-router/src/playground.rs:658-694 | Without panics and with room in every interner, the batch completes |
| Ingest.IngestAllStores | fluctlight-router/src/playground.rs:666-690 | Each room's ids are its old ids plus the ids of the batch's events for that room |
| Ingest.IngestAllAnswers | fluctlight-router/src/playground.rs:666-692 | An event gets a result iff its room exists |
| Ingest.IngestAllOk | fluctlight-router/src/playground.rs:691 | Every recorded result is `Ok(())`, whatever the checks said |
| Ingest.IngestAllRecords | fluctlight-router/src/playground.rs:681-690 | Each stored record is either untouched from before or is, for some batch event with that id, its interned event, blob and check outcomes |
| Ingest.IngestAllLastWins | fluctlight-router/src/playground.rs:666-690 | For an id that batch events of an existing room carry, the stored record is that of the last such event |
| Ingest.IngestAllKeepsOthers | fluctlight-router/src/playground.rs:666-690 | An id that no batch event of the room carries keeps its old record, or stays absent |
| Ingest.PersistOne | fluctlight-router/src/playground.rs:639-649 | Only an event of the hard-coded room appends its blob verbatim; the `unwrap` panics iff that room is not persisted; other rooms are unchanged |
| Ingest.PersistAll | fluctlight-router/src/playground.rs:637-656 | No persistent room is created or removed |
| Ingest.PersistAllFails | fluctlight-router/src/playground.rs:647 | An event for the hard-coded room, when that room is not persisted, makes the transaction panic |
| Ingest.PersistAllOthers | fluctlight-router/src/playground.rs:637-656 | Every other persistent room is unchanged |
| Ingest.PersistAllAppends | fluctlight-router/src/playground.rs:637-656 | The hard-coded room's log grows by exactly that room's blobs of the batch, in order |
| Ingest.EduLog | fluctlight-router/src/playground.rs:610-620 | One log line per EDU |
| Ingest.IngestTransaction | fluctlight-router/src/playground.rs:594-697 | No room appears or disappears, persistent rooms stay sorted, and every EDU is logged |
| Ingest.TransactionStores | fluctlight-router/src/playground.rs:658-694 | The transaction stores each parsed event of an existing room under its id, answers exactly those ids, and answers each `Ok(())` |
| Ingest.TransactionPersists | fluctlight-router/src/playground.rs:637-656 | The hard-coded room's log gains that room's blobs; other persistent rooms are unchanged; an event for it when it is not persisted panics |
| Ingest.TransactionPanics | fluctlight-router/src/playground.rs:661-663 | A parsed event whose checks panic makes the transaction panic |
| Ingest.IngestAllChecked | fluctlight-router/src/playground.rs:658-663 | A batch that comes through had every event's checks answer without a panic |
| Ingest.PersistAllUnchanged | fluctlight-router/src/playground.rs:637-656 | Without the hard-coded room in the store, the persistent loop panics or changes nothing |
| Ingest.PersistentLeft | fluctlight-router/src/playground.rs:637-663 | The persistent store a call leaves whether or not a check panics afterwards: the hard-coded room's log has gained that room's blobs of the batch, no other room changes, and without that room nothing changes |
| Ingest.PoisonedLog | fluctlight-router/src/playground.rs:637-663 | An event of the hard-coded room whose checks panic makes the transaction panic, yet its blob stays in that room's log, and every later replay of the room panics |
| Ingest.UnsignedPoisonsLog | fluctlight-router/src/playground.rs:648-662 | With the node's checks, one event of the hard-coded room without `signatures` is enough: the transaction panics and every later replay of the room panics |
| Ingest.PersistentLeftChecked | fluctlight-router/src/playground.rs:637-663 | Running the ephemeral loop, with every check, before the persistent loop: when any check panics, or the loop fails otherwise, the store is left as it was; when the ephemeral loop comes through, it is what the call as written leaves |
| Ingest.CheckedLogUnpoisoned | fluctlight-router/src/playground.rs:637-663 | In that order a transaction whose checks panic leaves the hard-coded room's log, and so its replay, as before |
| Ingest.EdusOnlyLogged | fluctlight-router/src/playground.rs:610-620 | EDUs never change the state or the results |
| Ingest.RetransmitStores | fluctlight-router/src/playground.rs:666-690 | Ingesting the same transaction again adds no event ids |
| Ingest.RetransmitAnswers | fluctlight-router/src/playground.rs:691 | Ingesting the same transaction again gives the same results |
| Ingest.RetransmitPersists | fluctlight-router/src/playground.rs:648 | Ingesting the same transaction again appends its blobs a second time: the persistent log is not idempotent |
| Replay.LoadParsed | fluctlight-router/src/playground.rs:559-589 | A parsed event whose checks fail aborts; with room in its interner it is stored; its room (created if absent) then holds it under its id with the check outcomes and its timestamp indexed to that id; every other room is unchanged |
| Replay.LoadOne | fluctlight-router/src/playground.rs:557-589 | A blob that does not parse, or whose checks panic, aborts; otherwise its room (created if absent) stores the event under its id and indexes its timestamp to that id; no other room changes |
| Replay.LoadBlobsFails | fluctlight-router/src/playground.rs:557-563 | A blob that does not parse, or whose signatures are missing or malformed so that its checks panic, makes the whole replay panic, wherever it stands |
| Replay.LoadBlobsRooms | fluctlight-router/src/playground.rs:567-570 | Replay adds exactly the rooms of the replayed events |
| Replay.LoadBlobsIds | fluctlight-router/src/playground.rs:589 | Each room's ids are its old ids plus the ids of its replayed events |
| Replay.LoadBlobsTimestamps | fluctlight-router/src/playground.rs:587-588 | Each room's timestamp index gains exactly the timestamps of its replayed events |
| Replay.LoadBlobsLastWins | fluctlight-router/src/playground.rs:587-588 | For equal timestamps, the later event replaces the earlier one in the index |
| Replay.LoadBlobsKeepsOthers | fluctlight-router/src/playground.rs:587-588 | A timestamp that none of the room's replayed events carries keeps its old index entry, or stays absent |
| Replay.LoadOneRecord | fluctlight-router/src/playground.rs:557-589 | One blob records its event under its id in its room and leaves every other id of every room as it was |
| Replay.LoadBlobsRecordsLast | fluctlight-router/src/playground.rs:589 | Of several blobs of a room that name the same event, the last one's record is what the room holds |
| Replay.LoadBlobsKeepsRecord | fluctlight-router/src/playground.rs:589 | An id that no blob of the room names keeps its old record, or stays absent |
| Replay.LoadBlobsAppend | fluctlight-router/src/playground.rs:556-591 | Replaying two lists in turn is replaying their concatenation |
| Replay.LoadPersistentRoom | fluctlight-router/src/playground.rs:544-592 | A room that is not persisted panics; otherwise its blobs are replayed in order and the persistent state is unchanged |
| Replay.LoadPersistentRoomFails | fluctlight-router/src/playground.rs:544-563 | A persisted room holding a blob that does not parse, or whose checks panic, can never be replayed, whatever the ephemeral store |
| Replay.RoomIds | fluctlight-router/src/playground.rs:529-536 | The persisted room ids, in order, exactly those |
| Replay.LoadRoomsReplaysAll | fluctlight-router/src/playground.rs:538-541 | Loading rooms one by one is replaying all their blobs, concatenated in room order |
| Replay.LoadPersistentRoomsReplaysAll | fluctlight-router/src/playground.rs:529-542 | Loading every persistent room is replaying every persisted blob in room-id order |
| RoutesFederation.FederationVersion | fluctlight-router/src/routes_federation.rs:64-82 | The version endpoint reports the name `fluctlight` and the package version |
| RoutesFederation.FederationVersionIgnoresPath | fluctlight-router/src/routes_federation.rs:69-81 | The answer is the same whatever version the path names |
| RoutesFederation.SelectKeys | fluctlight-router/src/routes_federation.rs:88-99 | A key is included iff no key id was requested or the id equals the key's name |
| RoutesFederation.SelectKeysEntries | fluctlight-router/src/routes_federation.rs:88-99 | The selected keys are in key-id order, each mapped to its public key's base64 |
| RoutesFederation.EarliestExpiry | fluctlight-router/src/routes_federation.rs:101-106 | `None` iff there are no keys; otherwise some key's expiry, no later in seconds than any other |
| RoutesFederation.EarliestExpiryFirst | fluctlight-router/src/routes_federation.rs:101-106 | On a tie in seconds, the first key in key-id order wins |
| RoutesFederation.KeyServer | fluctlight-router/src/routes_federation.rs:84-134 | The document names the node, carries the selected keys and the earliest expiry, and is signed only by the node, over its text without signatures |
| RoutesFederation.SignaturesOnlyOwn | fluctlight-router/src/routes_federation.rs:116-131 | The document's signature map has exactly one server, the node |
| RoutesFederation.KeyServerVerifies | fluctlight-router/src/routes_federation.rs:116-131 | The node's key document verifies against the node's keys |
| RoutesFederation.KeyServerUnknownKey | fluctlight-router/src/routes_federation.rs:88-99 | Asking for an unknown key id gives a document without `verify_keys` |
| RoutesFederation.OwnKeyQuery | fluctlight-router/src/routes_federation.rs:136-184 | The older key query answers exactly one document, with no keys and an empty `old_verify_keys` |
| RoutesFederation.OwnKeyQueryIgnoresQuery | fluctlight-router/src/routes_federation.rs:142-146 | Its answer does not depend on the query |
| RoutesFederation.OwnKeyQueryNamesOtherServer | fluctlight-router/src/routes_federation.rs:155-176 | The document names `fluctlight-dev.demi.ro` but is signed under the node's own name |
| RoutesFederation.CachedKeys | fluctlight-router/src/routes_federation/post_key_query.rs:67-86 | At most one cached document per queried server, in server-name order |
| RoutesFederation.CachedServers | fluctlight-router/src/routes_federation/post_key_query.rs:73-83 | A queried server is answered iff the cache has its document |
| RoutesFederation.CachedKeysAreCachedServers | fluctlight-router/src/routes_federation/post_key_query.rs:78-82 | The answer is the cached documents of those servers, in order |
| RoutesFederation.CachedKeysIgnoreKeyIds | fluctlight-router/src/routes_federation/post_key_query.rs:73-76 | Requested key ids and timestamps do not change the answer |
| RoutesFederation.CachedKeysResponseShape | fluctlight-router/src/routes_federation/post_key_query.rs:31-35 | `server_keys` is written iff the answer is non-empty, with one document per answered server |

## Left out

- I/O, logging and timing are left out: every `eprintln!`/`println!`, the transaction id and timestamp (used only in a log line), and `print_memory_usage`. None of them affects results or state.
- The locks behind `with_persistent_mut`/`with_ephemeral_mut` are left out. Each critical section is a sequential state update.
- A panic is a `Failure` of the whole call, and the `Failure` holds no state. For `ingest_transaction` the persistent store a panicking call leaves behind is modelled separately (`Ingest.PersistentLeft`, see "## Findings"). The events the ephemeral loop stored before the panicking one, and what the locks do when a closure panics, are not modelled; the lock helpers are not part of this model.
- SHA-256, base64 and Ed25519 are uninterpreted functions (`Crypto.Primitives`), as are serde_json's byte output and its UTF-8 encoding; they are foreign library code. Sign-then-verify is proved under the stated assumption that verification accepts what signing produced.
- MatrixTypes.ServerNameOf: `Id<User>::server_name` is not part of this model's source. The model assumes it is the text after the first `:`.
- The real `State` is not part of this model's source. The server-key cache is a lookup function and the node's key pairs a sorted map.
- `TimeStamp` is modelled as milliseconds in a `nat`, with `as_secs` as the floor of a division by 1000. Integer widths (`u64`, `usize`) are modelled only where the code checks them: the interner limit, and JSON `u32`/`u64`/`i64` decoding.
- Ingest.IngestTransaction: the persistent half re-parses each event with `parse_pdu` and appends the blob only when that succeeds, computing an event id that is only logged. The model keeps the room-id gate and the verbatim append and leaves out the re-parse: once `parse_pdu_ref` has accepted a blob, `parse_pdu` accepts it too and reads the same `room_id` (`PduOwned.ParseAgreesWithRef`), so its error arm, which would skip the append, is never taken.
- CanonicalHash.SortEntries: `sort_unstable_by` may put entries with equal keys in any order. The model sorts stably, which is one of the orders it allows.
- Edu.DecodeReceipt: `VecMap1` is modelled as a sorted map with `BTreeMap`'s semantics, so the last value wins on a repeated key. The same holds for the `VecMap1` maps `hashes` and `signatures` that PduRef.Parse reads (pdu_ref.rs lines 21 and 45).
- PduRef.Parse: object keys are kept as text whether or not they are written with an escape. The maps with borrowed keys (`hashes`, `signatures`, and the power levels' `events` and `users`) would reject an escaped key; the model reads it like a plain one.
- Edu.ParseEdu: in the same way, an escaped room id among a receipt's `room_receipts` keys is read like a plain one, where the borrowed `&Id<Room>` key would reject it.
- PduRef.Parse: a derived struct also reads a JSON array, its fields by position. The model reads that form only for the structs without fields (`EmptyContent`, `UnknownContent`), so a PDU, or a content with fields, written as an array is rejected here.
- Edu.ParseEdu: for the same reason, an EDU or a known EDU content written as a JSON array is rejected here.
- PduRef.RefRoundTrip: requires that no written string needs an escape. Only the borrowed fields need that; the `Cow` sender and user-id state key would read back from an escaped literal too.
- The interner's `Arc` sharing and the memory layout of `ArcStr` are left out. A handle is an id and a string.
- `pdu_arc.rs` `AnyState::Other` is built from an `Option<&str>` with `to_string`, which does not type-check as shown. The model keeps the option.
- The response shape of `get_key_v2_server` lives in a file outside this model. It is modelled with the `ServerKeys` document shape, and its empty `old_verify_keys` map is written as present.
- The `todo!()` dispatcher of `routes_federation.rs` (lines 13-62) is left out; it is HTTP glue. Because of it, the older `post_key_v2_query` is unreachable; it is modelled anyway.
- RoutesFederation.FederationVersion: `CARGO_PKG_VERSION` is a build-time constant, so it is a parameter.
- RoutesFederation.CachedKeys: the cached documents are pre-rendered JSON (`RenderedJson`). They are modelled as key documents, and rendering is left out.
- `render_pdu` (pretty-printing) and `ParsedPDU` fields used only for display are left out.
- The network and disk helpers of `playground.rs`, `persistence.rs`, the HTTP server and the request glue are left out; they are I/O.

## Findings

| source | as written | input that shows it | evidently intended | confidence | as-written member | corrected member |
|---|---|---|---|---|---|---|
| fluctlight-router/src/interner.rs:207-211 | `ToArc for Id<T>` calls `self.to_arc()`, which resolves to the same method, so it recurses until the stack overflows | Interning any event id the room's interner does not hold yet, such as the first event ingested into a room (playground.rs:670) | Build the `Arc` from the identifier's text, as `ToArc for str` does | not executed | Interner.NewIdNeverInterned | Interner.GetOrInsert |
| fluctlight-router/src/playground.rs:637-663 | The persistent loop appends each blob of the hard-coded room before the ephemeral loop checks it, and a panic in a check (the `signatures` `unwrap` at line 662, or a malformed signature) leaves the appended blob in place | With that room persisted, a transaction holding an event of that room that has no `signatures` key; replay later reaches the same `unwrap` at line 561 | Append to the persistent log only events whose checks come through, so that a panicking transaction leaves the log, and its replay, as they were | not executed | Ingest.PoisonedLog | Ingest.PersistentLeftChecked |

=== FILE: canonical_hash.dfy ===
/** The canonical JSON value of `canonical_hash.rs` (`ValueRef`), its parser,
    its serialisation, and the content-hash check of a PDU ("Calculating the
    content hash for an event" in the Matrix Server-Server API).

    The same `Value` tree is also the output form of every typed serialisation
    in the model: serde writes a struct as a map of its fields in declaration
    order, and `Serialize` below turns the tree into the compact text
    `serde_json` writes. */
module CanonicalHash {
  import opened Wrappers
  import Strings
  import Json
  import Crypto

  datatype Value =
    | Null
    | Boolean(b: bool)
    | Number(n: int)
    | String(s: string)
    | List(items: seq<Value>)
    | Map(entries: seq<Entry>)

  /** A map entry. JSON object keys are always strings, so the key is one. */
  datatype Entry = Entry(key: string, value: Value)

  /** 2^53 - 1, the largest integer Canonical JSON admits. */
  const MaxSafeInteger: int := 0x1F_FFFF_FFFF_FFFF

  datatype ParseError = IntegerOutOfRange(v: int) | FloatNotAllowed

  // ---------------------------------------------------------------------
  // Parsing: `ValueRefVisitor`

  /** Every number in the document is an integer within ±(2^53 - 1). */
  ghost predicate Admissible(j: Json.Json)
    decreases j
  {
    match j
    case JInt(v) => -MaxSafeInteger <= v <= MaxSafeInteger
    case JFloat => false
    case JArray(items) => forall i :: 0 <= i < |items| ==> Admissible(items[i])
    case JObject(ms) => forall i :: 0 <= i < |ms| ==> Admissible(ms[i].value)
    case _ => true
  }

  /** Map keys in non-decreasing order. */
  ghost predicate KeysOrdered(es: seq<Entry>) {
    forall i, j :: 0 <= i < j < |es| ==> Strings.Le(es[i].key, es[j].key)
  }

  /** Every map of the value, at any depth, has its keys in order. */
  ghost predicate Canonical(v: Value)
    decreases v
  {
    match v
    case List(items) => forall i :: 0 <= i < |items| ==> Canonical(items[i])
    case Map(es) => KeysOrdered(es) && forall i :: 0 <= i < |es| ==> Canonical(es[i].value)
    case _ => true
  }

  /** `visit_i64` accepts -(2^53)+1 ..= 2^53-1, `visit_u64` rejects values above
      2^53-1, and `visit_f64` rejects every float. */
  function VisitNumber(j: Json.Json): (r: Result<Value, ParseError>)
    requires j.JInt? || j.JFloat?
    ensures r.Success? <==> j.JInt? && -MaxSafeInteger <= j.i <= MaxSafeInteger
    ensures r.Success? ==> r.value == Number(j.i)
    ensures j.JFloat? ==> r == Failure(FloatNotAllowed)
  {
    match Json.NumberVisitOf(j)
    case VisitI64(v) =>
      if -MaxSafeInteger <= v <= MaxSafeInteger then Success(Number(v))
      else Failure(IntegerOutOfRange(v))
    case VisitU64(u) =>
      if u > MaxSafeInteger then Failure(IntegerOutOfRange(u)) else Success(Number(u))
    case VisitF64 => Failure(FloatNotAllowed)
  }

  /** `serde_json::from_str::<ValueRef>`: the document tree with every map's
      entries sorted by key. */
  function Parse(j: Json.Json): (r: Result<Value, ParseError>)
    ensures r.Success? <==> Admissible(j)
    ensures r.Success? ==> Canonical(r.value)
    decreases j
  {
    match j
    case JNull => Success(Null)
    case JBool(b) => Success(Boolean(b))
    case JInt(_) => VisitNumber(j)
    case JFloat => VisitNumber(j)
    case JString(s) => Success(String(s))
    case JEscaped(s) => Success(String(s))
    case JArray(items) =>
      var vs :- ParseItems(items);
      Success(List(vs))
    case JObject(ms) =>
      var es :- ParseMembers(ms);
      var sorted := SortEntries(es);
      assert forall i :: 0 <= i < |sorted| ==> Canonical(sorted[i].value) by {
        forall i | 0 <= i < |sorted| ensures Canonical(sorted[i].value) {
          assert sorted[i] in multiset(es);
        }
      }
      Success(Map(sorted))
  }

  function ParseItems(items: seq<Json.Json>): (r: Result<seq<Value>, ParseError>)
    ensures r.Success? <==> forall i :: 0 <= i < |items| ==> Admissible(items[i])
    ensures r.Success? ==> |r.value| == |items|
    ensures r.Success? ==> forall i :: 0 <= i < |r.value| ==> Canonical(r.value[i])
    decreases items
  {
    if |items| == 0 then Success([])
    else
      var head :- Parse(items[0]);
      var tail :- ParseItems(items[1..]);
      assert forall i :: 0 < i < |items| ==> items[i] == items[1..][i - 1];
      Success([head] + tail)
  }

  function ParseMembers(ms: seq<Json.Member>): (r: Result<seq<Entry>, ParseError>)
    ensures r.Success? <==> forall i :: 0 <= i < |ms| ==> Admissible(ms[i].value)
    ensures r.Success? ==> |r.value| == |ms|
    ensures r.Success? ==> forall i :: 0 <= i < |r.value| ==> r.value[i].key == ms[i].key && Canonical(r.value[i].value)
    decreases ms
  {
    if |ms| == 0 then Success([])
    else
      var head :- Parse(ms[0].value);
      var tail :- ParseMembers(ms[1..]);
      assert forall i :: 0 < i < |ms| ==> ms[i] == ms[1..][i - 1];
      Success([Entry(ms[0].key, head)] + tail)
  }

  // ---------------------------------------------------------------------
  // Sorting map entries by key (`sort_unstable_by` on the key)

  /** The entries with key `k`, in their order. */
  function KeyRun(es: seq<Entry>, k: string): seq<Entry>
    decreases |es|
  {
    if |es| == 0 then []
    else (if es[0].key == k then [es[0]] else []) + KeyRun(es[1..], k)
  }

  /** Inserts `e` after every entry whose key is not greater than its own. */
  function InsertEntry(e: Entry, s: seq<Entry>): seq<Entry>
    decreases |s|
  {
    if |s| == 0 then [e]
    else if Strings.Lt(e.key, s[0].key) then [e] + s
    else [s[0]] + InsertEntry(e, s[1..])
  }

  /** Insertion sort by key. The result is ordered, is a permutation of the
      input, and keeps entries with equal keys in their document order. */
  function SortEntries(es: seq<Entry>): (r: seq<Entry>)
    ensures KeysOrdered(r)
    ensures multiset(r) == multiset(es)
    ensures forall k :: KeyRun(r, k) == KeyRun(es, k)
    decreases |es|
  {
    if |es| == 0 then []
    else
      var sorted := SortEntries(es[..|es| - 1]);
      SortStep(es, sorted);
      InsertEntry(es[|es| - 1], sorted)
  }

  /** Inserting the last entry into the sorted prefix sorts the whole list. */
  lemma SortStep(es: seq<Entry>, sorted: seq<Entry>)
    requires |es| > 0
    requires KeysOrdered(sorted)
    requires multiset(sorted) == multiset(es[..|es| - 1])
    requires forall k :: KeyRun(sorted, k) == KeyRun(es[..|es| - 1], k)
    ensures KeysOrdered(InsertEntry(es[|es| - 1], sorted))
    ensures multiset(InsertEntry(es[|es| - 1], sorted)) == multiset(es)
    ensures forall k :: KeyRun(InsertEntry(es[|es| - 1], sorted), k) == KeyRun(es, k)
  {
    var prefix := es[..|es| - 1];
    var last := es[|es| - 1];
    InsertEntryOrdered(last, sorted);
    assert es == prefix + [last];
    forall k ensures KeyRun(InsertEntry(last, sorted), k) == KeyRun(es, k) {
      InsertEntryKeyRun(last, sorted, k);
      KeyRunAppend(prefix, [last], k);
    }
  }

  lemma {:induction false} KeyRunAppend(a: seq<Entry>, b: seq<Entry>, k: string)
    ensures KeyRun(a + b, k) == KeyRun(a, k) + KeyRun(b, k)
    decreases |a|
  {
    if |a| > 0 {
      assert (a + b)[1..] == a[1..] + b;
      KeyRunAppend(a[1..], b, k);
    } else {
      assert a + b == b;
    }
  }

  lemma OrderedCons(x: Entry, s: seq<Entry>)
    requires KeysOrdered(s)
    requires forall y :: y in s ==> Strings.Le(x.key, y.key)
    ensures KeysOrdered([x] + s)
  {
    var r := [x] + s;
    forall i, j | 0 <= i < j < |r| ensures Strings.Le(r[i].key, r[j].key) {
      if i == 0 {
        assert r[j] == s[j - 1] && r[j] in s;
      } else {
        assert r[i] == s[i - 1] && r[j] == s[j - 1];
      }
    }
  }

  lemma {:induction false} InsertEntryOrdered(e: Entry, s: seq<Entry>)
    requires KeysOrdered(s)
    ensures KeysOrdered(InsertEntry(e, s))
    ensures multiset(InsertEntry(e, s)) == multiset(s) + multiset{e}
    decreases |s|
  {
    if |s| == 0 {
    } else if Strings.Lt(e.key, s[0].key) {
      forall y | y in s ensures Strings.Le(e.key, y.key) {
        var i :| 0 <= i < |s| && s[i] == y;
        if i > 0 && s[0].key != y.key {
          assert Strings.Le(s[0].key, s[i].key);
          Strings.LtTransitive(e.key, s[0].key, y.key);
        }
      }
      OrderedCons(e, s);
    } else {
      assert s == [s[0]] + s[1..];
      Strings.LtTotal(e.key, s[0].key);
      InsertEntryOrdered(e, s[1..]);
      var rest := InsertEntry(e, s[1..]);
      forall y | y in rest ensures Strings.Le(s[0].key, y.key) {
        assert y in multiset(rest);
        if y != e {
          assert y in multiset(s[1..]);
          var i :| 0 <= i < |s[1..]| && s[1..][i] == y;
          assert s[i + 1] == y;
        }
      }
      OrderedCons(s[0], rest);
    }
  }

  lemma {:induction false} InsertEntryKeyRun(e: Entry, s: seq<Entry>, k: string)
    requires KeysOrdered(s)
    ensures KeyRun(InsertEntry(e, s), k) == KeyRun(s, k) + (if e.key == k then [e] else [])
    decreases |s|
  {
    if |s| == 0 {
      KeyRunCons(e, [], k);
    } else if Strings.Lt(e.key, s[0].key) {
      KeyRunCons(e, s, k);
      if e.key == k {
        KeyRunAbsent(s, k);
      }
    } else {
      var rest := InsertEntry(e, s[1..]);
      assert InsertEntry(e, s) == [s[0]] + rest;
      KeyRunCons(s[0], rest, k);
      OrderedTail(s);
      InsertEntryKeyRun(e, s[1..], k);
    }
  }

  /** The run of `k` in a list is its head's share and its tail's run. */
  lemma KeyRunCons(x: Entry, r: seq<Entry>, k: string)
    ensures KeyRun([x] + r, k) == (if x.key == k then [x] else []) + KeyRun(r, k)
  {
    assert ([x] + r)[1..] == r;
  }

  lemma OrderedTail(s: seq<Entry>)
    requires KeysOrdered(s) && |s| > 0
    ensures KeysOrdered(s[1..])
  {
    forall i, j | 0 <= i < j < |s| - 1 ensures Strings.Le(s[1..][i].key, s[1..][j].key) {
      assert s[1..][i] == s[i + 1] && s[1..][j] == s[j + 1];
    }
  }

  /** In an ordered list whose head key is above `k`, no entry has key `k`. */
  lemma {:induction false} KeyRunAbsent(s: seq<Entry>, k: string)
    requires KeysOrdered(s) && |s| > 0 && Strings.Lt(k, s[0].key)
    ensures KeyRun(s, k) == []
    decreases |s|
  {
    Strings.LtIrreflexive(k);
    if |s| > 1 {
      assert Strings.Le(s[0].key, s[1].key);
      if s[0].key != s[1].key {
        Strings.LtTransitive(k, s[0].key, s[1].key);
      }
      KeyRunAbsent(s[1..], k);
    }
  }

  /** Sorting leaves already ordered entries as they are. */
  lemma {:induction false} SortOrderedIsIdentity(es: seq<Entry>)
    requires KeysOrdered(es)
    ensures SortEntries(es) == es
    decreases |es|
  {
    if |es| > 0 {
      var prefix := es[..|es| - 1];
      var last := es[|es| - 1];
      assert es == prefix + [last];
      assert KeysOrdered(prefix) by {
        forall i, j | 0 <= i < j < |prefix| ensures Strings.Le(prefix[i].key, prefix[j].key) {
          assert prefix[i] == es[i] && prefix[j] == es[j];
        }
      }
      SortOrderedIsIdentity(prefix);
      assert forall i :: 0 <= i < |prefix| ==> prefix[i] == es[i];
      InsertAtEnd(last, prefix);
      assert SortEntries(es) == InsertEntry(last, SortEntries(prefix));
    }
  }

  lemma {:induction false} InsertAtEnd(e: Entry, s: seq<Entry>)
    requires forall i :: 0 <= i < |s| ==> Strings.Le(s[i].key, e.key)
    ensures InsertEntry(e, s) == s + [e]
    decreases |s|
  {
    if |s| > 0 {
      assert Strings.Le(s[0].key, e.key);
      if s[0].key == e.key {
        Strings.LtIrreflexive(e.key);
      } else {
        Strings.LtAsymmetric(s[0].key, e.key);
      }
      assert forall i :: 0 <= i < |s[1..]| ==> s[1..][i] == s[i + 1];
      InsertAtEnd(e, s[1..]);
      assert s == [s[0]] + s[1..];
    }
  }

  // ---------------------------------------------------------------------
  // Round trip: a canonical value written back as a document parses to itself

  /** Every number of the value is within ±(2^53 - 1). */
  ghost predicate InRange(v: Value)
    decreases v
  {
    match v
    case Number(n) => -MaxSafeInteger <= n <= MaxSafeInteger
    case List(items) => forall i :: 0 <= i < |items| ==> InRange(items[i])
    case Map(es) => forall i :: 0 <= i < |es| ==> InRange(es[i].value)
    case _ => true
  }

  /** The document a value stands for, every string as a plain literal of
      its text: what an owned reader sees of the written document
      (`PlainWrite`), and the document itself when no string needs an escape
      (`WriteUnescaped`). */
  function Unparse(v: Value): Json.Json
    decreases v
  {
    match v
    case Null => Json.JNull
    case Boolean(b) => Json.JBool(b)
    case Number(n) => Json.JInt(n)
    case String(s) => Json.JString(s)
    case List(items) => Json.JArray(UnparseItems(items))
    case Map(es) => Json.JObject(UnparseEntries(es))
  }

  function UnparseItems(items: seq<Value>): (r: seq<Json.Json>)
    ensures |r| == |items|
    decreases items
  {
    if |items| == 0 then [] else [Unparse(items[0])] + UnparseItems(items[1..])
  }

  function UnparseEntries(es: seq<Entry>): (r: seq<Json.Member>)
    ensures |r| == |es|
    decreases es
  {
    if |es| == 0 then [] else [Json.Member(es[0].key, Unparse(es[0].value))] + UnparseEntries(es[1..])
  }

  /** The document `serde_json` writes for a value: each string as the
      literal `Json.Text` gives, escaped exactly when its text needs it. */
  function Write(v: Value): Json.Json
    decreases v
  {
    match v
    case Null => Json.JNull
    case Boolean(b) => Json.JBool(b)
    case Number(n) => Json.JInt(n)
    case String(s) => Json.Text(s)
    case List(items) => Json.JArray(WriteItems(items))
    case Map(es) => Json.JObject(WriteEntries(es))
  }

  function WriteItems(items: seq<Value>): (r: seq<Json.Json>)
    ensures |r| == |items|
    decreases items
  {
    if |items| == 0 then [] else [Write(items[0])] + WriteItems(items[1..])
  }

  function WriteEntries(es: seq<Entry>): (r: seq<Json.Member>)
    ensures |r| == |es|
    decreases es
  {
    if |es| == 0 then [] else [Json.Member(es[0].key, Write(es[0].value))] + WriteEntries(es[1..])
  }

  /** No string of the value, at any depth, needs an escape. Keys are not
      looked at. */
  ghost predicate Unescaped(v: Value)
    decreases v
  {
    match v
    case String(s) => !Json.NeedsEscape(s)
    case List(items) => forall i :: 0 <= i < |items| ==> Unescaped(items[i])
    case Map(es) => forall i :: 0 <= i < |es| ==> Unescaped(es[i].value)
    case _ => true
  }

  /** Resolving the escapes of the written document gives `Unparse`. */
  lemma {:induction false} PlainWrite(v: Value)
    ensures Json.Plain(Write(v)) == Unparse(v)
    decreases v
  {
    match v
    case List(items) => PlainWriteItems(items);
    case Map(es) => PlainWriteEntries(es);
    case _ =>
  }

  lemma {:induction false} PlainWriteItems(items: seq<Value>)
    ensures Json.PlainItems(WriteItems(items)) == UnparseItems(items)
    decreases items
  {
    if |items| > 0 {
      PlainWrite(items[0]);
      PlainWriteItems(items[1..]);
    }
  }

  lemma {:induction false} PlainWriteEntries(es: seq<Entry>)
    ensures Json.PlainMembers(WriteEntries(es)) == UnparseEntries(es)
    decreases es
  {
    if |es| > 0 {
      PlainWrite(es[0].value);
      PlainWriteEntries(es[1..]);
    }
  }

  /** A value none of whose strings needs an escape is written as `Unparse`. */
  lemma {:induction false} WriteUnescaped(v: Value)
    requires Unescaped(v)
    ensures Write(v) == Unparse(v)
    decreases v
  {
    match v
    case List(items) => WriteUnescapedItems(items);
    case Map(es) => WriteUnescapedEntries(es);
    case _ =>
  }

  lemma {:induction false} WriteUnescapedItems(items: seq<Value>)
    requires forall i :: 0 <= i < |items| ==> Unescaped(items[i])
    ensures WriteItems(items) == UnparseItems(items)
    decreases items
  {
    if |items| > 0 {
      WriteUnescaped(items[0]);
      WriteUnescapedItems(items[1..]);
    }
  }

  lemma {:induction false} WriteUnescapedEntries(es: seq<Entry>)
    requires forall i :: 0 <= i < |es| ==> Unescaped(es[i].value)
    ensures WriteEntries(es) == UnparseEntries(es)
    decreases es
  {
    if |es| > 0 {
      WriteUnescaped(es[0].value);
      WriteUnescapedEntries(es[1..]);
    }
  }

  /** `ValueRefVisitor` takes borrowed and owned strings alike, so escapes
      make no difference to it. */
  lemma {:induction false} ParsePlain(j: Json.Json)
    ensures Parse(Json.Plain(j)) == Parse(j)
    decreases j
  {
    match j
    case JArray(items) =>
      ParsePlainItems(items);
    case JObject(ms) =>
      ParsePlainMembers(ms);
    case _ =>
  }

  lemma {:induction false} ParsePlainItems(items: seq<Json.Json>)
    ensures ParseItems(Json.PlainItems(items)) == ParseItems(items)
    decreases items
  {
    if |items| > 0 {
      ParsePlain(items[0]);
      ParsePlainItems(items[1..]);
      assert Json.PlainItems(items)[1..] == Json.PlainItems(items[1..]);
    }
  }

  lemma {:induction false} ParsePlainMembers(ms: seq<Json.Member>)
    ensures ParseMembers(Json.PlainMembers(ms)) == ParseMembers(ms)
    decreases ms
  {
    if |ms| > 0 {
      ParsePlain(ms[0].value);
      ParsePlainMembers(ms[1..]);
      assert Json.PlainMembers(ms)[1..] == Json.PlainMembers(ms[1..]);
    }
  }

  /** What `serde_json` writes for a canonical value parses back to it. */
  lemma WriteRoundTrip(v: Value)
    requires Canonical(v) && InRange(v)
    ensures Parse(Write(v)) == Success(v)
  {
    ParsePlain(Write(v));
    PlainWrite(v);
    ParseUnparse(v);
  }

  lemma {:induction false} ParseUnparse(v: Value)
    requires Canonical(v) && InRange(v)
    ensures Parse(Unparse(v)) == Success(v)
    decreases v
  {
    match v
    case List(items) =>
      ParseUnparseItems(items);
      ParseUnparseList(items);
    case Map(es) =>
      ParseUnparseEntries(es);
      ParseUnparseMap(es);
    case _ =>
  }

  /** An array whose items read back reads back. */
  lemma ParseUnparseList(items: seq<Value>)
    requires ParseItems(UnparseItems(items)) == Success(items)
    ensures Parse(Unparse(List(items))) == Success(List(items))
  {
  }

  /** An object whose members read back, already in key order, reads back
      unchanged by the sort. */
  lemma ParseUnparseMap(es: seq<Entry>)
    requires KeysOrdered(es) && ParseMembers(UnparseEntries(es)) == Success(es)
    ensures Parse(Unparse(Map(es))) == Success(Map(es))
  {
    SortOrderedIsIdentity(es);
  }

  lemma {:induction false} ParseUnparseItems(items: seq<Value>)
    requires forall i :: 0 <= i < |items| ==> Canonical(items[i]) && InRange(items[i])
    ensures ParseItems(UnparseItems(items)) == Success(items)
    decreases items
  {
    if |items| > 0 {
      ParseUnparse(items[0]);
      ParseUnparseItems(items[1..]);
      var u := UnparseItems(items);
      assert u[0] == Unparse(items[0]) && u[1..] == UnparseItems(items[1..]);
      assert items == [items[0]] + items[1..];
    }
  }

  lemma {:induction false} ParseUnparseEntries(es: seq<Entry>)
    requires forall i :: 0 <= i < |es| ==> Canonical(es[i].value) && InRange(es[i].value)
    ensures ParseMembers(UnparseEntries(es)) == Success(es)
    decreases es
  {
    if |es| > 0 {
      var u := UnparseEntries(es);
      assert u[0] == Json.Member(es[0].key, Unparse(es[0].value)) && u[1..] == UnparseEntries(es[1..]);
      ParseUnparse(es[0].value);
      assert Parse(u[0].value) == Success(es[0].value);
      assert forall i :: 0 <= i < |es[1..]| ==> es[1..][i] == es[i + 1];
      ParseUnparseEntries(es[1..]);
      assert ParseMembers(u[1..]) == Success(es[1..]);
      assert ParseMembers(u) == Success([Entry(es[0].key, es[0].value)] + es[1..]);
      assert es == [Entry(es[0].key, es[0].value)] + es[1..];
    }
  }

  // ---------------------------------------------------------------------
  // `get_from_map` / `pop_from_map`

  /** Position of the first entry with key `key`. */
  function FindKey(es: seq<Entry>, key: string): (r: Option<nat>)
    ensures r.Some? ==> r.value < |es| && es[r.value].key == key
    ensures r.Some? ==> forall j :: 0 <= j < r.value ==> es[j].key != key
    ensures r.None? ==> forall j :: 0 <= j < |es| ==> es[j].key != key
    decreases |es|
  {
    if |es| == 0 then None
    else if es[0].key == key then Some(0)
    else
      match FindKey(es[1..], key)
      case None => None
      case Some(i) => Some(i + 1)
  }

  /** The value of the first entry whose key equals `key`; `None` for a value
      that is not a map or has no such entry. */
  function GetFromMap(v: Value, key: string): (r: Option<Value>)
    ensures r.Some? <==> v.Map? && exists i :: 0 <= i < |v.entries| && v.entries[i].key == key
    ensures r.Some? ==> exists i :: 0 <= i < |v.entries| && v.entries[i] == Entry(key, r.value) &&
                                     (forall j :: 0 <= j < i ==> v.entries[j].key != key)
  {
    if !v.Map? then None
    else match FindKey(v.entries, key)
      case None => None
      case Some(i) => Some(v.entries[i].value)
  }

  /** Removes the first entry whose key equals `key` and returns the map
      without it and the entry's value. */
  function PopFromMap(v: Value, key: string): (r: (Value, Option<Value>))
    ensures r.1 == GetFromMap(v, key)
    ensures r.1.None? ==> r.0 == v
    ensures r.1.Some? ==>
              && v.Map? && r.0.Map?
              && exists i :: 0 <= i < |v.entries| && v.entries[i] == Entry(key, r.1.value) &&
                   (forall j :: 0 <= j < i ==> v.entries[j].key != key) &&
                   r.0.entries == v.entries[..i] + v.entries[i + 1..]
  {
    if !v.Map? then (v, None)
    else match FindKey(v.entries, key)
      case None => (v, None)
      case Some(i) => (Map(v.entries[..i] + v.entries[i + 1..]), Some(v.entries[i].value))
  }

  // ---------------------------------------------------------------------
  // Serialisation: compact `serde_json` text

  function HexDigit(d: nat): char
    requires d < 16
  {
    "0123456789abcdef"[d]
  }

  /** `serde_json`'s escape of one character of a string. */
  function EscapeChar(c: char): string {
    if c == '"' then "\\\""
    else if c == '\\' then "\\\\"
    else if c == '\n' then "\\n"
    else if c == '\r' then "\\r"
    else if c == '\t' then "\\t"
    else if c as int == 0x08 then "\\b"
    else if c as int == 0x0C then "\\f"
    else if c as int < 0x20 then "\\u00" + [HexDigit(c as int / 16), HexDigit(c as int % 16)]
    else [c]
  }

  function Escape(s: string): string
    decreases |s|
  {
    if |s| == 0 then "" else EscapeChar(s[0]) + Escape(s[1..])
  }

  function Quote(s: string): string {
    "\"" + Escape(s) + "\""
  }

  function Serialize(v: Value): string
    decreases v
  {
    match v
    case Null => "null"
    case Boolean(b) => if b then "true" else "false"
    case Number(n) => Strings.IntToString(n)
    case String(s) => Quote(s)
    case List(items) => "[" + SerializeItems(items) + "]"
    case Map(es) => "{" + SerializeEntries(es) + "}"
  }

  function SerializeItems(items: seq<Value>): string
    decreases items
  {
    if |items| == 0 then ""
    else if |items| == 1 then Serialize(items[0])
    else Serialize(items[0]) + "," + SerializeItems(items[1..])
  }

  function SerializeEntries(es: seq<Entry>): string
    decreases es
  {
    if |es| == 0 then ""
    else
      var head := Quote(es[0].key) + ":" + Serialize(es[0].value);
      if |es| == 1 then head else head + "," + SerializeEntries(es[1..])
  }

  // The inverse of `Escape`: it reads back exactly the escapes `Escape`
  // writes. It is not a full JSON string reader (surrogate-pair escapes are
  // rejected, raw control characters accepted) and is used only to show
  // that `Escape` loses nothing (`UnescapeEscape`).

  function HexValue(c: char): Option<nat> {
    if '0' <= c <= '9' then Some(c as int - '0' as int)
    else if 'a' <= c <= 'f' then Some(c as int - 'a' as int + 10)
    else if 'A' <= c <= 'F' then Some(c as int - 'A' as int + 10)
    else None
  }

  /** The character an escape sequence at the start of `t` stands for, and the
      length of the sequence. */
  function UnescapeSequence(t: string): (r: Option<(char, nat)>)
    requires |t| > 0 && t[0] == '\\'
    ensures r.Some? ==> 2 <= r.value.1 <= |t|
  {
    if |t| < 2 then None
    else if t[1] == '"' then Some(('"', 2))
    else if t[1] == '\\' then Some(('\\', 2))
    else if t[1] == '/' then Some(('/', 2))
    else if t[1] == 'b' then Some((0x08 as char, 2))
    else if t[1] == 'f' then Some((0x0C as char, 2))
    else if t[1] == 'n' then Some(('\n', 2))
    else if t[1] == 'r' then Some(('\r', 2))
    else if t[1] == 't' then Some(('\t', 2))
    else if t[1] == 'u' && |t| >= 6 then
      var h := [HexValue(t[2]), HexValue(t[3]), HexValue(t[4]), HexValue(t[5])];
      if h[0].None? || h[1].None? || h[2].None? || h[3].None? then None
      else
        var code := h[0].value * 4096 + h[1].value * 256 + h[2].value * 16 + h[3].value;
        if 0xD800 <= code < 0xE000 then None else Some((code as char, 6))
    else None
  }

  /** The string an escaped text stands for; `None` when it is malformed or
      holds a bare quote. */
  function Unescape(t: string): Option<string>
    decreases |t|
  {
    if |t| == 0 then Some("")
    else if t[0] == '"' then None
    else if t[0] != '\\' then
      match Unescape(t[1..])
      case None => None
      case Some(rest) => Some([t[0]] + rest)
    else
      match UnescapeSequence(t)
      case None => None
      case Some((c, n)) =>
        match Unescape(t[n..])
        case None => None
        case Some(rest) => Some([c] + rest)
  }

  /** A control character without a short escape reads back from `\u00XX`. */
  lemma UnescapeControl(c: char, t: string)
    requires c as int < 0x20 && c != '\n' && c != '\r' && c != '\t' && c as int != 0x08 && c as int != 0x0C
    ensures Unescape(EscapeChar(c) + t) == match Unescape(t) case None => None case Some(rest) => Some([c] + rest)
  {
    var x := EscapeChar(c) + t;
    assert x[6..] == t;
    assert x[1] == 'u' && x[2] == '0' && x[3] == '0';
    assert x[4] == HexDigit(c as int / 16) && x[5] == HexDigit(c as int % 16);
  }

  /** A character with a two-character escape reads back from it. */
  lemma UnescapeShort(c: char, t: string)
    requires c == '"' || c == '\\' || c == '\n' || c == '\r' || c == '\t' || c as int == 0x08 || c as int == 0x0C
    ensures Unescape(EscapeChar(c) + t) == match Unescape(t) case None => None case Some(rest) => Some([c] + rest)
  {
    assert (EscapeChar(c) + t)[2..] == t;
  }

  /** A character written as itself reads back as itself. */
  lemma UnescapePlain(c: char, t: string)
    requires c as int >= 0x20 && c != '"' && c != '\\'
    ensures Unescape(EscapeChar(c) + t) == match Unescape(t) case None => None case Some(rest) => Some([c] + rest)
  {
    assert EscapeChar(c) == [c];
    assert ([c] + t)[1..] == t;
  }

  lemma UnescapeChar(c: char, t: string)
    ensures Unescape(EscapeChar(c) + t) == match Unescape(t) case None => None case Some(rest) => Some([c] + rest)
  {
    if c == '"' || c == '\\' || c == '\n' || c == '\r' || c == '\t' || c as int == 0x08 || c as int == 0x0C {
      UnescapeShort(c, t);
    } else if c as int < 0x20 {
      UnescapeControl(c, t);
    } else {
      UnescapePlain(c, t);
    }
  }

  /** Reading back what `Escape` writes gives the original string. */
  lemma {:induction false} UnescapeEscape(s: string)
    ensures Unescape(Escape(s)) == Some(s)
    decreases |s|
  {
    if |s| > 0 {
      var t := Escape(s[1..]);
      assert Escape(s) == EscapeChar(s[0]) + t;
      UnescapeChar(s[0], t);
      UnescapeEscape(s[1..]);
      assert s == [s[0]] + s[1..];
    }
  }

  // ---------------------------------------------------------------------
  // `verify_content_hash`

  datatype HashError =
    | CouldNotDeserialize(cause: ParseError)
    | MissingHashes
    | MissingSha256
    | Sha256NotString
    | Mismatch(existing: string, computed: string)

  /** SHA-256 of the serialised value, in standard unpadded base64. */
  function ContentHash(c: Crypto.Primitives, v: Value): string {
    c.base64Std(c.sha256(Serialize(v)))
  }

  /** The `sha256` entry of the `hashes` map, when both are present. */
  function Sha256Field(v: Value): Option<Value> {
    var hashes := GetFromMap(v, "hashes");
    if hashes.None? then None else GetFromMap(hashes.value, "sha256")
  }

  /** The stored `hashes.sha256`, when it is a string. */
  function StoredHash(v: Value): Option<string> {
    var sha := Sha256Field(v);
    if sha.Some? && sha.value.String? then Some(sha.value.s) else None
  }

  /** `unsigned.redacted_by` is present. */
  function Redacted(v: Value): bool {
    var unsigned := GetFromMap(v, "unsigned");
    unsigned.Some? && GetFromMap(unsigned.value, "redacted_by").Some?
  }

  /** `verify_content_hash`: parses the event, then checks its hashes. */
  function VerifyContentHash(c: Crypto.Primitives, blob: Json.Json, printCanonical: bool): (r: Result<(), HashError>)
    ensures Parse(blob).Failure? ==> r == Failure(CouldNotDeserialize(Parse(blob).error))
    ensures Parse(blob).Success? && r.Failure? ==> !r.error.CouldNotDeserialize?
  {
    match Parse(blob)
    case Failure(e) => Failure(CouldNotDeserialize(e))
    case Success(v) => CheckHashes(c, v, printCanonical)
  }

  /** The checks after parsing. The stored hash is read before anything is
      removed; `age_ts`, `signatures`, `event_id` and `unsigned` are removed
      before the hash is recomputed; a redacted event and a run that only
      prints the canonical form pass without comparing. */
  function CheckHashes(c: Crypto.Primitives, v: Value, printCanonical: bool): (r: Result<(), HashError>)
    ensures GetFromMap(v, "hashes").None? ==> r == Failure(MissingHashes)
    ensures GetFromMap(v, "hashes").Some? && Sha256Field(v).None? ==> r == Failure(MissingSha256)
    ensures r == Failure(Sha256NotString) <==> Sha256Field(v).Some? && !Sha256Field(v).value.String?
    ensures StoredHash(v).Some? && (printCanonical || Redacted(v)) ==> r == Success(())
    ensures r.Failure? && r.error.Mismatch? ==> StoredHash(v) == Some(r.error.existing) && !Redacted(v) && !printCanonical
    ensures r.Failure? ==> !r.error.CouldNotDeserialize?
  {
    var (v1, hashes) := PopFromMap(v, "hashes");
    if hashes.None? then Failure(MissingHashes)
    else
      var sha := GetFromMap(hashes.value, "sha256");
      if sha.None? then Failure(MissingSha256)
      else if !sha.value.String? then Failure(Sha256NotString)
      else
        var existing := sha.value.s;
        var (v2, _) := PopFromMap(v1, "age_ts");
        var (v3, _) := PopFromMap(v2, "signatures");
        var (v4, _) := PopFromMap(v3, "event_id");
        var (v5, unsigned) := PopFromMap(v4, "unsigned");
        assert unsigned == GetFromMap(v, "unsigned") by {
          GetAfterPop(v, "hashes", "unsigned");
          GetAfterPop(v1, "age_ts", "unsigned");
          GetAfterPop(v2, "signatures", "unsigned");
          GetAfterPop(v3, "event_id", "unsigned");
        }
        if unsigned.Some? && GetFromMap(unsigned.value, "redacted_by").Some? then Success(())
        else if printCanonical then Success(())
        else
          var computed := ContentHash(c, v5);
          if existing != computed then Failure(Mismatch(existing, computed)) else Success(())
  }

  /** Dropping the entry at `i`, whose key is not `k`, shifts the first
      match of `k` down by one when it came after `i`. */
  lemma {:induction false} FindKeyRemove(s: seq<Entry>, i: nat, k: string)
    requires i < |s| && s[i].key != k
    ensures FindKey(s[..i] + s[i + 1..], k) ==
            match FindKey(s, k)
            case None => None
            case Some(p) => Some(if p < i then p else p - 1)
    decreases i
  {
    if i == 0 {
      assert s[..0] + s[1..] == s[1..];
    } else {
      var t := s[..i] + s[i + 1..];
      assert t[0] == s[0];
      if s[0].key != k {
        assert t[1..] == s[1..][..i - 1] + s[1..][i..];
        FindKeyRemove(s[1..], i - 1, k);
      }
    }
  }

  /** Removing one key does not change what another key reads. */
  lemma GetAfterPop(v: Value, popped: string, k: string)
    requires popped != k
    ensures GetFromMap(PopFromMap(v, popped).0, k) == GetFromMap(v, k)
  {
    if v.Map? {
      match FindKey(v.entries, popped)
      case None =>
      case Some(i) =>
        var w := v.entries[..i] + v.entries[i + 1..];
        assert PopFromMap(v, popped).0 == Map(w);
        FindKeyRemove(v.entries, i, k);
        match FindKey(v.entries, k)
        case None =>
        case Some(p) =>
          if p < i {
            assert w[p] == v.entries[p];
          } else {
            assert w[p - 1] == v.entries[p];
          }
    }
  }

  // The content-hash rule against a reference definition: the stored hash is
  // compared with the hash of the event without the stripped keys.

  const StrippedKeys: set<string> := {"hashes", "age_ts", "signatures", "event_id", "unsigned"}

  /** The entries whose key is not in `ks`, in order. */
  function Without(es: seq<Entry>, ks: set<string>): seq<Entry>
    decreases |es|
  {
    if |es| == 0 then []
    else
      var rest := Without(es[1..], ks);
      if es[0].key in ks then rest else [es[0]] + rest
  }

  lemma {:induction false} WithoutMember(es: seq<Entry>, ks: set<string>, e: Entry)
    ensures e in Without(es, ks) <==> e in es && e.key !in ks
    decreases |es|
  {
    if |es| > 0 {
      WithoutMember(es[1..], ks, e);
      assert e in es <==> e == es[0] || e in es[1..] by {
        assert es == [es[0]] + es[1..];
      }
    }
  }

  ghost predicate UniqueKeys(es: seq<Entry>) {
    forall i, j :: 0 <= i < j < |es| ==> es[i].key != es[j].key
  }

  lemma {:induction false} WithoutNone(es: seq<Entry>, ks: set<string>)
    requires forall i :: 0 <= i < |es| ==> es[i].key !in ks
    ensures Without(es, ks) == es
    decreases |es|
  {
    if |es| > 0 {
      assert forall i :: 0 <= i < |es[1..]| ==> es[1..][i] == es[i + 1];
      WithoutNone(es[1..], ks);
      assert es == [es[0]] + es[1..];
    }
  }

  lemma {:induction false} WithoutWithout(es: seq<Entry>, a: set<string>, b: set<string>)
    ensures Without(Without(es, a), b) == Without(es, a + b)
    decreases |es|
  {
    if |es| > 0 {
      WithoutWithout(es[1..], a, b);
      if es[0].key !in a {
        assert ([es[0]] + Without(es[1..], a))[1..] == Without(es[1..], a);
      }
    }
  }

  lemma UniqueCons(x: Entry, r: seq<Entry>)
    requires UniqueKeys(r)
    requires forall e :: e in r ==> e.key != x.key
    ensures UniqueKeys([x] + r)
  {
    var t := [x] + r;
    forall i, j | 0 <= i < j < |t| ensures t[i].key != t[j].key {
      if i == 0 {
        assert t[j] == r[j - 1] && t[j] in r;
      } else {
        assert t[i] == r[i - 1] && t[j] == r[j - 1];
      }
    }
  }

  lemma {:induction false} UniqueWithout(es: seq<Entry>, ks: set<string>)
    requires UniqueKeys(es)
    ensures UniqueKeys(Without(es, ks))
    decreases |es|
  {
    if |es| > 0 {
      assert UniqueKeys(es[1..]) by {
        forall i, j | 0 <= i < j < |es[1..]| ensures es[1..][i].key != es[1..][j].key {
          assert es[1..][i] == es[i + 1] && es[1..][j] == es[j + 1];
        }
      }
      UniqueWithout(es[1..], ks);
      if es[0].key !in ks {
        forall e | e in Without(es[1..], ks) ensures e.key != es[0].key {
          WithoutMember(es[1..], ks, e);
          var j :| 0 <= j < |es[1..]| && es[1..][j] == e;
          assert es[j + 1] == e;
        }
        UniqueCons(es[0], Without(es[1..], ks));
      }
    }
  }

  /** Dropping the only entry with key `k` is filtering `k` out. */
  lemma {:induction false} RemoveUnique(es: seq<Entry>, i: nat, k: string)
    requires i < |es| && es[i].key == k
    requires forall j :: 0 <= j < |es| && j != i ==> es[j].key != k
    ensures es[..i] + es[i + 1..] == Without(es, {k})
    decreases i
  {
    var tail := es[1..];
    if i == 0 {
      assert forall j :: 0 <= j < |tail| ==> tail[j] == es[j + 1];
      WithoutNone(tail, {k});
      assert es[..0] + es[1..] == tail;
    } else {
      assert forall j :: 0 <= j < |tail| && j != i - 1 ==> tail[j] == es[j + 1];
      RemoveUnique(tail, i - 1, k);
      assert Without(es, {k}) == [es[0]] + Without(tail, {k});
      assert es[..i] == [es[0]] + tail[..i - 1];
      assert es[i + 1..] == tail[i..];
    }
  }

  /** With unique keys, popping a key is filtering it out. */
  lemma PopUnique(es: seq<Entry>, k: string)
    requires UniqueKeys(es)
    ensures PopFromMap(Map(es), k).0 == Map(Without(es, {k}))
  {
    match FindKey(es, k)
    case None => WithoutNone(es, {k});
    case Some(i) => RemoveUnique(es, i, k);
  }

  lemma PopStep(es: seq<Entry>, ks: set<string>, k: string)
    requires UniqueKeys(es)
    ensures PopFromMap(Map(Without(es, ks)), k).0 == Map(Without(es, ks + {k}))
  {
    UniqueWithout(es, ks);
    PopUnique(Without(es, ks), k);
    WithoutWithout(es, ks, {k});
  }

  /** Without redaction and printing, the check compares the stored hash
      with the hash of what is left after the pops. */
  lemma CheckHashesCompares(c: Crypto.Primitives, v: Value)
    requires StoredHash(v).Some? && !Redacted(v)
    ensures var stripped := PopFromMap(PopFromMap(PopFromMap(PopFromMap(PopFromMap(
              v, "hashes").0, "age_ts").0, "signatures").0, "event_id").0, "unsigned").0;
            var stored := StoredHash(v).value;
            var expected := ContentHash(c, stripped);
            CheckHashes(c, v, false) == if stored == expected then Success(()) else Failure(Mismatch(stored, expected))
  {
    var (v1, hashes) := PopFromMap(v, "hashes");
    assert hashes.Some?;
    var sha := GetFromMap(hashes.value, "sha256");
    assert sha == Sha256Field(v);
    assert sha.Some? && sha.value.String?;
    var v2 := PopFromMap(v1, "age_ts").0;
    var v3 := PopFromMap(v2, "signatures").0;
    var v4 := PopFromMap(v3, "event_id").0;
    var (v5, unsigned) := PopFromMap(v4, "unsigned");
    assert unsigned == GetFromMap(v, "unsigned") by {
      GetAfterPop(v, "hashes", "unsigned");
      GetAfterPop(v1, "age_ts", "unsigned");
      GetAfterPop(v2, "signatures", "unsigned");
      GetAfterPop(v3, "event_id", "unsigned");
    }
    assert !(unsigned.Some? && GetFromMap(unsigned.value, "redacted_by").Some?);
  }

  /** Popping the five stripped keys one after another from an object with
      unique keys leaves the object without them. */
  lemma StripChain(es: seq<Entry>)
    requires UniqueKeys(es)
    ensures PopFromMap(PopFromMap(PopFromMap(PopFromMap(PopFromMap(
              Map(es), "hashes").0, "age_ts").0, "signatures").0, "event_id").0, "unsigned").0
            == Map(Without(es, StrippedKeys))
  {
    var v := Map(es);
    WithoutNone(es, {});
    assert {} + {"hashes"} == {"hashes"};
    PopStep(es, {}, "hashes");
    var v1 := PopFromMap(v, "hashes").0;
    assert v1 == Map(Without(es, {"hashes"}));
    PopStep(es, {"hashes"}, "age_ts");
    var v2 := PopFromMap(v1, "age_ts").0;
    assert {"hashes"} + {"age_ts"} == {"hashes", "age_ts"};
    PopStep(es, {"hashes", "age_ts"}, "signatures");
    var v3 := PopFromMap(v2, "signatures").0;
    assert {"hashes", "age_ts"} + {"signatures"} == {"hashes", "age_ts", "signatures"};
    PopStep(es, {"hashes", "age_ts", "signatures"}, "event_id");
    var v4 := PopFromMap(v3, "event_id").0;
    assert {"hashes", "age_ts", "signatures"} + {"event_id"} == {"hashes", "age_ts", "signatures", "event_id"};
    PopStep(es, {"hashes", "age_ts", "signatures", "event_id"}, "unsigned");
    var v5 := PopFromMap(v4, "unsigned").0;
    assert {"hashes", "age_ts", "signatures", "event_id"} + {"unsigned"} == StrippedKeys;
    assert v5 == Map(Without(es, StrippedKeys));
  }

  /** The content-hash check on an event with unique top-level keys, not
      redacted and not only printed: it passes exactly when the stored hash
      equals the hash of the event without `hashes`, `age_ts`, `signatures`,
      `event_id` and `unsigned`, and otherwise reports both hashes. */
  lemma ContentHashRule(c: Crypto.Primitives, blob: Json.Json)
    requires Parse(blob).Success? && Parse(blob).value.Map? && UniqueKeys(Parse(blob).value.entries)
    requires StoredHash(Parse(blob).value).Some? && !Redacted(Parse(blob).value)
    ensures var stored := StoredHash(Parse(blob).value).value;
            var expected := ContentHash(c, Map(Without(Parse(blob).value.entries, StrippedKeys)));
            VerifyContentHash(c, blob, false) == if stored == expected then Success(()) else Failure(Mismatch(stored, expected))
  {
    var v := Parse(blob).value;
    StripChain(v.entries);
    CheckHashesCompares(c, v);
  }
}

=== FILE: crypto.dfy ===
/** The cryptographic and encoding primitives the node calls into: SHA-256
    (FIPS 180-4), unpadded base64 in the standard and URL-safe alphabets
    (sections 4, 5 and 3.2 of RFC 4648) and Ed25519 (section 5.1 of RFC 8032).

    Their internals are foreign library code, so they are kept uninterpreted:
    a `Primitives` value is any choice of total functions, and every property
    of the model holds whichever functions are chosen. Messages are the JSON
    text the node produces; hashing and signing see its UTF-8 bytes. */
module Crypto {
  import opened Wrappers

  newtype byte = x: int | 0 <= x < 256

  type Bytes = seq<byte>

  datatype Primitives = Primitives(
    sha256: string -> Bytes,
    base64Std: Bytes -> string,
    base64Url: Bytes -> string,
    /** `base64::decode_config(_, STANDARD_NO_PAD)`; `None` when the text is not base64. */
    base64StdDecode: string -> Option<Bytes>,
    /** Ed25519 signing with a secret key and no noise, so it is deterministic. */
    sign: (Bytes, string) -> Bytes,
    /** Ed25519 verification with a public key. */
    verify: (Bytes, string, Bytes) -> bool
  )

  /** Length of an Ed25519 signature: `Signature::from_slice` accepts only this. */
  const SignatureLength: nat := 64

  /** An Ed25519 key pair of the node (`ServerKeyPair`), with the public key's
      base64 text and the end of its validity in milliseconds. */
  datatype ServerKeyPair = ServerKeyPair(
    secretKey: Bytes,
    publicKey: Bytes,
    publicKeyBase64: string,
    validUntil: nat
  )
}

=== FILE: edu.dfy ===
/** Ephemeral data units (`edu_ref.rs`): typing notices, presence updates and
    read receipts that arrive in a transaction's `edus` list. The node parses
    them by their `edu_type` and only ever displays them. */
module Edu {
  import opened Wrappers
  import Strings
  import SortedMaps
  import Json
  import opened CanonicalHash
  import opened SerdeStruct

  // ---------------------------------------------------------------------
  // Data model

  /** `PresenceStatus`, written in lower case both when parsed and when
      displayed. */
  datatype PresenceStatus = Offline | Unavailable | Online

  /** `UserPresenceUpdateRef`; `last_active_ago` is a `u32`. */
  datatype PresenceUpdate = PresenceUpdate(
    currentlyActive: Option<bool>,
    lastActiveAgo: nat,
    presence: PresenceStatus,
    statusMsg: Option<string>,
    userId: string)

  /** `ReadReceiptMetadata`; `ts` is a `u64`. */
  datatype ReadReceiptMetadata = ReadReceiptMetadata(threadId: Option<string>, ts: nat)

  /** `UserReadReceipt`. */
  datatype UserReadReceipt = UserReadReceipt(data: ReadReceiptMetadata, eventIds: seq<string>)

  /** `RoomReceipt`: the receipt under the `m.read` key. */
  datatype RoomReceipt = RoomReceipt(mRead: UserReadReceipt)

  /** `AnyEDUContentRef`: one variant per content type `parse_edu_ref` knows. */
  datatype Content =
    | Typing(roomId: string, typing: bool, userId: string)
    | Presence(push: seq<PresenceUpdate>)
    | Receipt(roomReceipts: SortedMaps.Assoc<RoomReceipt>)
    | Unknown

  /** `EDURef<AnyEDUContentRef>`. */
  datatype Edu = Edu(content: Content, eduType: string)

  const PresenceType := "m.presence"
  const TypingType := "m.typing"
  const ReceiptType := "m.receipt"

  /** The content variant agrees with the type: each known type has its own
      variant and every other type has `Unknown`. */
  predicate Dispatched(e: Edu) {
    match e.content
    case Typing(_, _, _) => e.eduType == TypingType
    case Presence(_) => e.eduType == PresenceType
    case Receipt(_) => e.eduType == ReceiptType
    case Unknown => e.eduType != TypingType && e.eduType != PresenceType && e.eduType != ReceiptType
  }

  // ---------------------------------------------------------------------
  // Parsing

  /** The lower-case name of a status, as `Display` writes it and as
      `rename_all = "lowercase"` reads it. */
  function StatusName(s: PresenceStatus): (r: string)
    ensures r in {"offline", "unavailable", "online"}
  {
    match s
    case Offline => "offline"
    case Unavailable => "unavailable"
    case Online => "online"
  }

  /** `Deserialize for PresenceStatus`: exactly the three lower-case names,
      either as a string or, as `serde_json` reads a unit variant, as an
      object with one member whose key is the name and whose value is
      `null`. A variant name is matched as an identifier, which may be an
      owned string, so an escaped literal is read too. */
  function DecodeStatus(j: Json.Json): (r: Json.DecodeResult<PresenceStatus>)
    ensures r.Success? <==>
              || (Json.IsText(j) && j.s in {"offline", "unavailable", "online"})
              || (&& j.JObject? && |j.members| == 1 && j.members[0].value == Json.JNull
                  && j.members[0].key in {"offline", "unavailable", "online"})
    ensures r.Success? && Json.IsText(j) ==> StatusName(r.value) == j.s
    ensures r.Success? && j.JObject? ==> StatusName(r.value) == j.members[0].key
  {
    if Json.IsText(j) then StatusNamed(j.s)
    else if j.JObject? && |j.members| == 1 then
      var name :- StatusNamed(j.members[0].key);
      if j.members[0].value == Json.JNull then Success(name)
      else Failure("invalid type: expected unit")
    else Failure("invalid type: expected a string")
  }

  /** The variant a name stands for. */
  function StatusNamed(name: string): (r: Json.DecodeResult<PresenceStatus>)
    ensures r.Success? <==> name in {"offline", "unavailable", "online"}
    ensures r.Success? ==> StatusName(r.value) == name
  {
    match name
    case "offline" => Success(Offline)
    case "unavailable" => Success(Unavailable)
    case "online" => Success(Online)
    case _ => Failure("unknown variant")
  }

  /** `TypingRef`. The room and user identifiers are `&Id<T>`, whose
      validation accepts every string. */
  function DecodeTyping(j: Json.Json): (r: Json.DecodeResult<Content>)
    ensures r.Success? ==> r.value.Typing?
  {
    var ms :- Json.Members(j);
    var roomId :- Json.Required(ms, "room_id", Json.DecodeString);
    var typing :- Json.Required(ms, "typing", Json.DecodeBool);
    var userId :- Json.Required(ms, "user_id", Json.DecodeString);
    Success(Typing(roomId, typing, userId))
  }

  /** `UserPresenceUpdateRef`. */
  function DecodeUpdate(j: Json.Json): (r: Json.DecodeResult<PresenceUpdate>)
    ensures r.Success? ==> r.value.lastActiveAgo < Json.U32Limit
  {
    var ms :- Json.Members(j);
    var currentlyActive :- Json.Optional(ms, "currently_active", Json.DecodeBool);
    var lastActiveAgo :- Json.Required(ms, "last_active_ago", Json.DecodeU32);
    var presence :- Json.Required(ms, "presence", DecodeStatus);
    var statusMsg :- Json.Optional(ms, "status_msg", Json.DecodeString);
    var userId :- Json.Required(ms, "user_id", Json.DecodeString);
    Success(PresenceUpdate(currentlyActive, lastActiveAgo, presence, statusMsg, userId))
  }

  /** `PresenceRef`: the `push` list. */
  function DecodePresence(j: Json.Json): (r: Json.DecodeResult<Content>)
    ensures r.Success? ==> r.value.Presence?
  {
    var ms :- Json.Members(j);
    var push :- Json.Required(ms, "push", (x: Json.Json) => Json.DecodeSeq(x, DecodeUpdate));
    Success(Presence(push))
  }

  /** `ReadReceiptMetadata`. */
  function DecodeMetadata(j: Json.Json): (r: Json.DecodeResult<ReadReceiptMetadata>)
    ensures r.Success? ==> r.value.ts < Json.U64Limit
  {
    var ms :- Json.Members(j);
    var threadId :- Json.Optional(ms, "thread_id", Json.DecodeString);
    var ts :- Json.Required(ms, "ts", Json.DecodeU64);
    Success(ReadReceiptMetadata(threadId, ts))
  }

  /** `UserReadReceipt`. */
  function DecodeUserReceipt(j: Json.Json): (r: Json.DecodeResult<UserReadReceipt>)
    ensures r.Success? ==> r.value.data.ts < Json.U64Limit
  {
    var ms :- Json.Members(j);
    var data :- Json.Required(ms, "data", DecodeMetadata);
    var eventIds :- Json.Required(ms, "event_ids", (x: Json.Json) => Json.DecodeSeq(x, Json.DecodeString));
    Success(UserReadReceipt(data, eventIds))
  }

  /** `RoomReceipt`: the `m.read` member. */
  function DecodeRoomReceipt(j: Json.Json): (r: Json.DecodeResult<RoomReceipt>)
    ensures r.Success? ==> r.value.mRead.data.ts < Json.U64Limit
  {
    var ms :- Json.Members(j);
    var mRead :- Json.Required(ms, "m.read", DecodeUserReceipt);
    Success(RoomReceipt(mRead))
  }

  /** `ReceiptRef`: the `room_receipts` map, one entry per room. */
  function DecodeReceipt(j: Json.Json): (r: Json.DecodeResult<Content>)
    ensures r.Success? ==> r.value.Receipt? && SortedMaps.Sorted(r.value.roomReceipts)
  {
    var ms :- Json.Members(j);
    var roomReceipts :- Json.Required(ms, "room_receipts", (x: Json.Json) => Json.DecodeMap(x, DecodeRoomReceipt));
    Success(Receipt(roomReceipts))
  }

  /** `UnknownContent {}`: any object, whatever its members, or the empty
      array, a derived struct's positional form with no fields. */
  function DecodeUnknown(j: Json.Json): (r: Json.DecodeResult<Content>)
    ensures r.Success? <==> j.JObject? || j == Json.JArray([])
    ensures r.Success? ==> r.value == Unknown
  {
    var _ :- Json.DecodeEmptyStruct(j);
    Success(Unknown)
  }

  /** `EDUTypeOnly`: the `edu_type` member alone. */
  function TypeOnly(j: Json.Json): (r: Json.DecodeResult<string>)
    ensures r.Success? <==> j.JObject? && Json.CountKey(j.members, "edu_type") == 1 && Json.Lookup(j.members, "edu_type").value.JString?
    ensures r.Success? ==> Json.Lookup(j.members, "edu_type") == Some(Json.JString(r.value))
  {
    var ms :- Json.Members(j);
    Json.Required(ms, "edu_type", Json.DecodeString)
  }

  /** `EDURef<C>` read with the content decoder `dc`, then upcast: the
      `edu_type` is kept and the content becomes its `AnyEDUContentRef`
      variant. */
  function ParseAs(j: Json.Json, dc: Json.Json -> Json.DecodeResult<Content>): (r: Json.DecodeResult<Edu>)
    ensures r.Success? ==> TypeOnly(j) == Success(r.value.eduType)
    ensures r.Success? ==> Json.CountKey(j.members, "content") == 1 && dc(Json.Lookup(j.members, "content").value) == Success(r.value.content)
  {
    var ms :- Json.Members(j);
    var content :- Json.Required(ms, "content", dc);
    var eduType :- Json.Required(ms, "edu_type", Json.DecodeString);
    Success(Edu(content, eduType))
  }

  /** `parse_edu_ref`: read the type alone, then the whole document with the
      content type the type selects; any other type is read as unknown
      content. */
  function ParseEdu(j: Json.Json): (r: Json.DecodeResult<Edu>)
    ensures TypeOnly(j).Failure? ==> r.Failure?
    ensures r.Success? ==> TypeOnly(j) == Success(r.value.eduType) && Dispatched(r.value)
    ensures r.Success? ==> Json.CountKey(j.members, "content") == 1
  {
    var t :- TypeOnly(j);
    match t
    case "m.presence" => ParseAs(j, DecodePresence)
    case "m.typing" => ParseAs(j, DecodeTyping)
    case "m.receipt" => ParseAs(j, DecodeReceipt)
    case _ => ParseAs(j, DecodeUnknown)
  }

  /** An EDU of a type the node does not know is accepted whenever its
      `content` is an object: unknown types are never an error, as long as
      the type is written without escapes. */
  lemma UnknownEduAccepted(ms: seq<Json.Member>, t: string, content: seq<Json.Member>)
    requires t != TypingType && t != PresenceType && t != ReceiptType
    requires Json.CountKey(ms, "edu_type") == 1 && Json.Lookup(ms, "edu_type") == Some(Json.JString(t))
    requires Json.CountKey(ms, "content") == 1 && Json.Lookup(ms, "content") == Some(Json.JObject(content))
    ensures ParseEdu(Json.JObject(ms)) == Success(Edu(Unknown, t))
  {
  }

  /** `edu_type` is borrowed: an EDU whose type is written with an escape,
      known or not, does not parse. */
  lemma EscapedTypeRejected(ms: seq<Json.Member>, t: string)
    requires Json.Lookup(ms, "edu_type") == Some(Json.JEscaped(t))
    ensures ParseEdu(Json.JObject(ms)).Failure?
  {
  }

  /** A receipt EDU displays the number of distinct rooms its
      `room_receipts` object names: a room named twice counts once. */
  lemma ReceiptCountsRooms(j: Json.Json)
    requires ParseEdu(j).Success? && ParseEdu(j).value.content.Receipt?
    ensures var body := Json.Lookup(j.members, "content").value;
            && body.JObject?
            && Json.CountKey(body.members, "room_receipts") == 1
            && var rooms := Json.Lookup(body.members, "room_receipts").value;
               rooms.JObject? && |ParseEdu(j).value.content.roomReceipts| == |Json.KeySet(rooms.members)|
  {
    var e := ParseEdu(j).value;
    var body := Json.Lookup(j.members, "content").value;
    assert DecodeReceipt(body) == Success(e.content);
    var rooms := Json.Lookup(body.members, "room_receipts").value;
    var m := Json.DecodeMap(rooms, DecodeRoomReceipt);
    assert m == Success(e.content.roomReceipts);
    SortedMaps.KeysCount(e.content.roomReceipts);
  }

  // ---------------------------------------------------------------------
  // Display

  /** `<user>=<status>`, one presence update. */
  function UpdateText(u: PresenceUpdate): string {
    u.userId + "=" + StatusName(u.presence)
  }

  function UpdateTexts(push: seq<PresenceUpdate>): (r: seq<string>)
    ensures |r| == |push| && forall i :: 0 <= i < |push| ==> r[i] == UpdateText(push[i])
  {
    seq(|push|, i requires 0 <= i < |push| => UpdateText(push[i]))
  }

  /** What follows `<edu_type>: ` for each kind of content. */
  function ContentText(c: Content): string {
    match c
    case Typing(roomId, _, userId) => userId + " in " + roomId
    case Presence(push) => Strings.Join(UpdateTexts(push), ", ")
    case Receipt(roomReceipts) => Strings.NatToString(|roomReceipts|) + " room receipts"
    case Unknown => "unknown EDU"
  }

  /** `Display for EDURef<AnyEDUContentRef>`. */
  function Render(e: Edu): (r: string)
    ensures Strings.StartsWith(r, e.eduType + ": ")
    ensures r[|e.eduType| + 2..] == ContentText(e.content)
  {
    var prefix := e.eduType + ": ";
    var r := prefix + ContentText(e.content);
    assert r[..|prefix|] == prefix;
    r
  }

  /** The presence arm of `Display`, written as the source writes it: a
      `first` flag puts `, ` before every update but the first. It writes
      exactly the updates joined by `, `. */
  method WritePresence(push: seq<PresenceUpdate>) returns (out: string)
    ensures out == Strings.Join(UpdateTexts(push), ", ")
  {
    var texts := UpdateTexts(push);
    out := "";
    var first := true;
    var i := 0;
    while i < |push|
      invariant 0 <= i <= |push|
      invariant first <==> i == 0
      invariant out == Strings.Join(texts[..i], ", ")
    {
      assert texts[..i + 1] == texts[..i] + [texts[i]];
      if first {
        first := false;
      } else {
        out := out + ", ";
        Strings.JoinAppend(texts[..i], texts[i], ", ");
      }
      out := out + UpdateText(push[i]);
      i := i + 1;
    }
    assert texts[..|push|] == texts;
  }

  /** The typing, receipt and unknown lines. */
  lemma RenderLines(e: Edu)
    ensures e.content.Typing? ==> Render(e) == e.eduType + ": " + e.content.userId + " in " + e.content.roomId
    ensures e.content.Receipt? ==> Render(e) == e.eduType + ": " + Strings.NatToString(|e.content.roomReceipts|) + " room receipts"
    ensures e.content.Unknown? ==> Render(e) == e.eduType + ": unknown EDU"
    ensures e.content.Presence? && |e.content.push| == 0 ==> Render(e) == e.eduType + ": "
  {
    var prefix := e.eduType + ": ";
    assert Render(e) == prefix + Render(e)[|prefix|..];
    if e.content.Unknown? {
      assert prefix + "unknown EDU" == e.eduType + ": unknown EDU";
    }
  }

  // ---------------------------------------------------------------------
  // Writing EDUs: how a sending server lays out the documents the parser
  // reads. The node itself never writes an EDU.

  function TypingValue(roomId: string, typing: bool, userId: string): Value {
    Struct([Always("room_id", String(roomId)), Always("typing", Boolean(typing)), Always("user_id", String(userId))])
  }

  function UpdateFields(u: PresenceUpdate): seq<Option<Entry>> {
    [SkipNone("currently_active", u.currentlyActive, (b: bool) => Boolean(b)),
     Always("last_active_ago", Number(u.lastActiveAgo)),
     Always("presence", String(StatusName(u.presence))),
     SkipNone("status_msg", u.statusMsg, StringValue),
     Always("user_id", String(u.userId))]
  }

  function UpdateValue(u: PresenceUpdate): Value {
    Struct(UpdateFields(u))
  }

  function PushValue(push: seq<PresenceUpdate>): (r: Value)
    ensures r.List? && |r.items| == |push| && forall i :: 0 <= i < |push| ==> r.items[i] == UpdateValue(push[i])
  {
    List(seq(|push|, i requires 0 <= i < |push| => UpdateValue(push[i])))
  }

  function MetadataFields(m: ReadReceiptMetadata): seq<Option<Entry>> {
    [SkipNone("thread_id", m.threadId, StringValue), Always("ts", Number(m.ts))]
  }

  function UserReceiptValue(u: UserReadReceipt): Value {
    Struct([Always("data", Struct(MetadataFields(u.data))), Always("event_ids", StringList(u.eventIds))])
  }

  function RoomReceiptValue(r: RoomReceipt): Value {
    Struct([Always("m.read", UserReceiptValue(r.mRead))])
  }

  function ContentValue(c: Content): Value {
    match c
    case Typing(roomId, typing, userId) => TypingValue(roomId, typing, userId)
    case Presence(push) => Struct([Always("push", PushValue(push))])
    case Receipt(roomReceipts) => Struct([Always("room_receipts", AssocValue(roomReceipts, RoomReceiptValue))])
    case Unknown => Map([])
  }

  function EduValue(e: Edu): Value {
    Struct([Always("content", ContentValue(e.content)), Always("edu_type", String(e.eduType))])
  }

  /** What the integer widths and the map representation admit. */
  ghost predicate WellFormed(e: Edu) {
    && Dispatched(e)
    && (e.content.Presence? ==> forall i :: 0 <= i < |e.content.push| ==> e.content.push[i].lastActiveAgo < Json.U32Limit)
    && (e.content.Receipt? ==> ReceiptsWellFormed(e.content.roomReceipts))
  }

  ghost predicate ReceiptsWellFormed(m: SortedMaps.Assoc<RoomReceipt>) {
    && SortedMaps.Sorted(m)
    && forall i :: 0 <= i < |m| ==> m[i].1.mRead.data.ts < Json.U64Limit
  }

  // ---------------------------------------------------------------------
  // Round trip: every well-formed EDU parses back from its document

  const TypingNames: seq<string> := ["room_id", "typing", "user_id"]
  const UpdateNames: seq<string> := ["currently_active", "last_active_ago", "presence", "status_msg", "user_id"]
  const MetadataNames: seq<string> := ["thread_id", "ts"]
  const UserReceiptNames: seq<string> := ["data", "event_ids"]
  const EduNames: seq<string> := ["content", "edu_type"]

  lemma NamesSorted()
    ensures StrictlySorted(TypingNames) && StrictlySorted(UpdateNames) && StrictlySorted(MetadataNames)
    ensures StrictlySorted(UserReceiptNames) && StrictlySorted(EduNames)
  {
    LtLiteral(TypingNames[0], TypingNames[1], 0);
    LtLiteral(TypingNames[1], TypingNames[2], 0);
    SortedFromAdjacent(TypingNames);
    LtLiteral(UpdateNames[0], UpdateNames[1], 0);
    LtLiteral(UpdateNames[1], UpdateNames[2], 0);
    LtLiteral(UpdateNames[2], UpdateNames[3], 0);
    LtLiteral(UpdateNames[3], UpdateNames[4], 0);
    SortedFromAdjacent(UpdateNames);
    LtLiteral(MetadataNames[0], MetadataNames[1], 1);
    SortedFromAdjacent(MetadataNames);
    LtLiteral(UserReceiptNames[0], UserReceiptNames[1], 0);
    SortedFromAdjacent(UserReceiptNames);
    LtLiteral(EduNames[0], EduNames[1], 0);
    SortedFromAdjacent(EduNames);
  }

  lemma StatusRoundTrip(s: PresenceStatus)
    ensures DecodeStatus(Json.JString(StatusName(s))) == Success(s)
    ensures DecodeStatus(Json.JEscaped(StatusName(s))) == Success(s)
    ensures DecodeStatus(Json.JObject([Json.Member(StatusName(s), Json.JNull)])) == Success(s)
  {
  }

  lemma TypingRoundTrip(roomId: string, typing: bool, userId: string)
    ensures DecodeTyping(Unparse(TypingValue(roomId, typing, userId))) == Success(Typing(roomId, typing, userId))
  {
    var fields := [Always("room_id", String(roomId)), Always("typing", Boolean(typing)), Always("user_id", String(userId))];
    NamesSorted();
    StructRequired(fields, TypingNames, 0, Json.DecodeString, roomId);
    StructRequired(fields, TypingNames, 1, Json.DecodeBool, typing);
    StructRequired(fields, TypingNames, 2, Json.DecodeString, userId);
  }

  /** The first three fields of a written presence update read back. */
  lemma UpdateReadFirst(u: PresenceUpdate)
    requires u.lastActiveAgo < Json.U32Limit
    ensures var ms := UnparseEntries(Present(UpdateFields(u)));
            && Json.Optional(ms, "currently_active", Json.DecodeBool) == Success(u.currentlyActive)
            && Json.Required(ms, "last_active_ago", Json.DecodeU32) == Success(u.lastActiveAgo)
            && Json.Required(ms, "presence", DecodeStatus) == Success(u.presence)
  {
    var fields := UpdateFields(u);
    NamesSorted();
    StructOptional(fields, UpdateNames, 0, Json.DecodeBool, u.currentlyActive);
    StructRequired(fields, UpdateNames, 1, Json.DecodeU32, u.lastActiveAgo);
    StatusRoundTrip(u.presence);
    StructRequired(fields, UpdateNames, 2, DecodeStatus, u.presence);
  }

  /** The last two fields of a written presence update read back. */
  lemma UpdateReadLast(u: PresenceUpdate)
    ensures var ms := UnparseEntries(Present(UpdateFields(u)));
            && Json.Optional(ms, "status_msg", Json.DecodeString) == Success(u.statusMsg)
            && Json.Required(ms, "user_id", Json.DecodeString) == Success(u.userId)
  {
    var fields := UpdateFields(u);
    NamesSorted();
    StructOptional(fields, UpdateNames, 3, Json.DecodeString, u.statusMsg);
    StructRequired(fields, UpdateNames, 4, Json.DecodeString, u.userId);
  }

  lemma UpdateRoundTrip(u: PresenceUpdate)
    requires u.lastActiveAgo < Json.U32Limit
    ensures DecodeUpdate(Unparse(UpdateValue(u))) == Success(u)
  {
    UpdateReadFirst(u);
    UpdateReadLast(u);
  }

  lemma PushRoundTrip(push: seq<PresenceUpdate>)
    requires forall i :: 0 <= i < |push| ==> push[i].lastActiveAgo < Json.U32Limit
    ensures Json.DecodeSeq(Unparse(PushValue(push)), DecodeUpdate) == Success(push)
  {
    var items := PushValue(push).items;
    forall i | 0 <= i < |push| ensures DecodeUpdate(UnparseItems(items)[i]) == Success(push[i]) {
      UnparseItemsAt(items, i);
      UpdateRoundTrip(push[i]);
    }
    var r := Json.DecodeSeq(Unparse(PushValue(push)), DecodeUpdate);
    assert r.Success?;
    assert r.value == push;
  }

  lemma PresenceRoundTrip(push: seq<PresenceUpdate>)
    requires forall i :: 0 <= i < |push| ==> push[i].lastActiveAgo < Json.U32Limit
    ensures DecodePresence(Unparse(ContentValue(Presence(push)))) == Success(Presence(push))
  {
    PushRoundTrip(push);
    StructRequired([Always("push", PushValue(push))], ["push"], 0,
                   (x: Json.Json) => Json.DecodeSeq(x, DecodeUpdate), push);
  }

  lemma MetadataRoundTrip(m: ReadReceiptMetadata)
    requires m.ts < Json.U64Limit
    ensures DecodeMetadata(Unparse(Struct(MetadataFields(m)))) == Success(m)
  {
    NamesSorted();
    StructOptional(MetadataFields(m), MetadataNames, 0, Json.DecodeString, m.threadId);
    StructRequired(MetadataFields(m), MetadataNames, 1, Json.DecodeU64, m.ts);
  }

  lemma UserReceiptRoundTrip(u: UserReadReceipt)
    requires u.data.ts < Json.U64Limit
    ensures DecodeUserReceipt(Unparse(UserReceiptValue(u))) == Success(u)
  {
    var fields := [Always("data", Struct(MetadataFields(u.data))), Always("event_ids", StringList(u.eventIds))];
    NamesSorted();
    MetadataRoundTrip(u.data);
    StringListRoundTrip(u.eventIds);
    StructRequired(fields, UserReceiptNames, 0, DecodeMetadata, u.data);
    StructRequired(fields, UserReceiptNames, 1, (x: Json.Json) => Json.DecodeSeq(x, Json.DecodeString), u.eventIds);
  }

  lemma RoomReceiptRoundTrip(r: RoomReceipt)
    requires r.mRead.data.ts < Json.U64Limit
    ensures DecodeRoomReceipt(Unparse(RoomReceiptValue(r))) == Success(r)
  {
    UserReceiptRoundTrip(r.mRead);
    StructRequired([Always("m.read", UserReceiptValue(r.mRead))], ["m.read"], 0, DecodeUserReceipt, r.mRead);
  }

  lemma ReceiptRoundTrip(m: SortedMaps.Assoc<RoomReceipt>)
    requires ReceiptsWellFormed(m)
    ensures DecodeReceipt(Unparse(ContentValue(Receipt(m)))) == Success(Receipt(m))
  {
    forall i | 0 <= i < |m| ensures DecodeRoomReceipt(Unparse(RoomReceiptValue(m[i].1))) == Success(m[i].1) {
      RoomReceiptRoundTrip(m[i].1);
    }
    AssocRoundTrip(m, RoomReceiptValue, DecodeRoomReceipt);
    StructRequired([Always("room_receipts", AssocValue(m, RoomReceiptValue))], ["room_receipts"], 0,
                   (x: Json.Json) => Json.DecodeMap(x, DecodeRoomReceipt), m);
  }

  /** The content decoder the type selects reads the written content back. */
  lemma ContentRoundTrip(e: Edu)
    requires WellFormed(e)
    ensures e.eduType == PresenceType ==> DecodePresence(Unparse(ContentValue(e.content))) == Success(e.content)
    ensures e.eduType == TypingType ==> DecodeTyping(Unparse(ContentValue(e.content))) == Success(e.content)
    ensures e.eduType == ReceiptType ==> DecodeReceipt(Unparse(ContentValue(e.content))) == Success(e.content)
    ensures e.content.Unknown? ==> DecodeUnknown(Unparse(ContentValue(e.content))) == Success(e.content)
  {
    match e.content
    case Typing(roomId, typing, userId) => TypingRoundTrip(roomId, typing, userId);
    case Presence(push) => PresenceRoundTrip(push);
    case Receipt(m) => ReceiptRoundTrip(m);
    case Unknown =>
  }

  /** `parse_edu_ref` reads back every well-formed EDU from the document
      `serde_json` writes for it, when no string in it needs an escape: every
      string of an EDU is borrowed (`EscapedTypeRejected`). */
  lemma RoundTrip(e: Edu)
    requires WellFormed(e) && Unescaped(EduValue(e))
    ensures ParseEdu(Write(EduValue(e))) == Success(e)
  {
    WriteUnescaped(EduValue(e));
    var fields := [Always("content", ContentValue(e.content)), Always("edu_type", String(e.eduType))];
    NamesSorted();
    StructRequired(fields, EduNames, 1, Json.DecodeString, e.eduType);
    ContentRoundTrip(e);
    StructLookup(fields, EduNames, 0);
  }
}

=== FILE: ingest.dfy ===
/** `ingest_transaction` (`playground.rs` 594-697): a transaction's EDUs are
    parsed and logged, its PDUs parsed, the parsed PDUs of the super-public
    room appended to the persistent store, and every parsed PDU checked and,
    when its room is loaded, stored in the ephemeral store.

    Each step is stated over any `Steps` that keep `Sound`; the node runs
    `RealSteps`. A panic anywhere is a `Failure` with no state;
    `PersistentLeft` is the persistent store such a call leaves behind. */
module Ingest {
  import opened Wrappers
  import SortedMaps
  import Json
  import MatrixTypes
  import PduArc
  import Edu
  import Replay
  import opened Interner
  import opened Playground

  type Rooms = map<string, EphemeralRoom>

  /** The per-event answer `ingest_transaction` returns. */
  type Results = map<string, Result<(), string>>

  // ---------------------------------------------------------------------
  // Parsing the PDUs

  /** Every entry is a PDU together with the blob it was parsed from. */
  ghost predicate ParsedFrom(s: Steps, parsed: seq<(Pdu, Json.Json)>) {
    forall k :: 0 <= k < |parsed| ==> s.parse(parsed[k].1) == Success(parsed[k].0)
  }

  /** The PDUs that parse, in transaction order, each with its blob; the
      others are logged and dropped. */
  function ParsedPdus(s: Steps, pdus: seq<Json.Json>): (r: seq<(Pdu, Json.Json)>)
    ensures ParsedFrom(s, r)
    ensures forall k :: 0 <= k < |r| ==> r[k].1 in pdus
    ensures forall j :: j in pdus && s.parse(j).Success? ==> (s.parse(j).value, j) in r
    ensures |r| <= |pdus|
    decreases |pdus|
  {
    if |pdus| == 0 then []
    else
      var rest := ParsedPdus(s, pdus[1..]);
      assert forall j :: j in pdus ==> j == pdus[0] || j in pdus[1..];
      match s.parse(pdus[0])
      case Success(p) => [(p, pdus[0])] + rest
      case Failure(_) => rest
  }

  // ---------------------------------------------------------------------
  // The ephemeral half

  /** `origin` overwritten with the transaction's origin, as ingestion does
      before verifying and naming the event. Nothing else changes. */
  function Overwrite(p: Pdu, origin: string): (r: Pdu)
    ensures r.origin == Some(origin) && r.(origin := p.origin) == p
  {
    p.(origin := Some(origin))
  }

  /** The room, when loaded, has room for `n` more strings. */
  ghost predicate HasRoom(rooms: Rooms, rid: string, n: nat) {
    rid in rooms ==> PduArc.Room(rooms[rid].interner, n)
  }

  /** How ingesting `p0` with its blob changes its room: the event is stored
      under the id `eventId` gives the PDU with its origin overwritten, with
      the outcomes of the checks; the timestamp index is not touched. */
  ghost predicate IngestedInto(s: Steps, origin: string, before: EphemeralRoom, after: EphemeralRoom, p0: Pdu, blob: Json.Json) {
    var p := Overwrite(p0, origin);
    var id := s.eventId(p);
    && after.pdusByTimestamp == before.pdusByTimestamp
    && StoredIn(before, after, id, p)
    && Recorded(s, after.pdus[id], id, p, blob)
  }

  /** One parsed PDU: the origin overwritten, checked whatever its room, then
      stored only when its room is loaded. Returns the event id it was
      stored under. */
  function IngestOne(s: Steps, origin: string, rooms: Rooms, p0: Pdu, blob: Json.Json)
    : (r: Result<(Rooms, Option<string>), string>)
    requires Sound(s)
    ensures s.check(Overwrite(p0, origin), blob).Failure? ==> r == Failure(s.check(Overwrite(p0, origin), blob).error)
    ensures s.check(Overwrite(p0, origin), blob).Success? && HasRoom(rooms, p0.roomId, StepSize(Overwrite(p0, origin)))
            ==> r.Success?
    ensures r.Success? && p0.roomId !in rooms ==> r.value == (rooms, None)
    ensures r.Success? ==> r.value.0.Keys == rooms.Keys
    ensures r.Success? ==> forall rid :: rid in rooms && rid != p0.roomId ==> r.value.0[rid] == rooms[rid]
    ensures r.Success? && p0.roomId in rooms ==>
              && r.value.1 == Some(s.eventId(Overwrite(p0, origin)))
              && IngestedInto(s, origin, rooms[p0.roomId], r.value.0[p0.roomId], p0, blob)
  {
    var p := Overwrite(p0, origin);
    var checked :- s.check(p, blob);
    if p.roomId !in rooms then Success((rooms, None))
    else
      var id := s.eventId(p);
      var (room, _) :- StoreEvent(s.internIngested, rooms[p.roomId], id, p, blob, checked);
      Success((rooms[p.roomId := room], Some(id)))
  }

  /** `pdu_results.insert(event_id, Ok(()))` for a stored event. */
  function Note(results: Results, stored: Option<string>): (r: Results)
    ensures r.Keys == results.Keys + (if stored.Some? then {stored.value} else {})
    ensures forall id :: id in r ==> r[id] == (if stored == Some(id) then Success(()) else results[id])
  {
    if stored.Some? then results[stored.value := Success(())] else results
  }

  /** The ephemeral loop over the parsed PDUs, in order. */
  function IngestAll(s: Steps, origin: string, rooms: Rooms, parsed: seq<(Pdu, Json.Json)>, results: Results)
    : (r: Result<(Rooms, Results), string>)
    requires Sound(s)
    ensures r.Success? ==> r.value.0.Keys == rooms.Keys
    ensures r.Success? ==> forall rid :: rid in rooms ==> r.value.0[rid].pdusByTimestamp == rooms[rid].pdusByTimestamp
    decreases |parsed|
  {
    if |parsed| == 0 then Success((rooms, results))
    else
      var (rooms1, stored) :- IngestOne(s, origin, rooms, parsed[0].0, parsed[0].1);
      IngestAll(s, origin, rooms1, parsed[1..], Note(results, stored))
  }

  /** The event ids the batch gives the PDUs of room `rid`. */
  ghost function IdsFor(s: Steps, origin: string, parsed: seq<(Pdu, Json.Json)>, rid: string): set<string> {
    set k | 0 <= k < |parsed| && parsed[k].0.roomId == rid :: s.eventId(Overwrite(parsed[k].0, origin))
  }

  /** The event ids the batch gives the PDUs of any room in `rids`. */
  ghost function IdsIn(s: Steps, origin: string, parsed: seq<(Pdu, Json.Json)>, rids: set<string>): set<string> {
    set k | 0 <= k < |parsed| && parsed[k].0.roomId in rids :: s.eventId(Overwrite(parsed[k].0, origin))
  }

  /** The PDUs the interners must have room for. */
  function BatchSize(origin: string, parsed: seq<(Pdu, Json.Json)>): nat
    decreases |parsed|
  {
    if |parsed| == 0 then 0 else StepSize(Overwrite(parsed[0].0, origin)) + BatchSize(origin, parsed[1..])
  }

  lemma IdsCons(s: Steps, origin: string, parsed: seq<(Pdu, Json.Json)>, rid: string, rids: set<string>)
    requires |parsed| > 0
    ensures var id := s.eventId(Overwrite(parsed[0].0, origin));
            && IdsFor(s, origin, parsed, rid) == (if parsed[0].0.roomId == rid then {id} else {}) + IdsFor(s, origin, parsed[1..], rid)
            && IdsIn(s, origin, parsed, rids) == (if parsed[0].0.roomId in rids then {id} else {}) + IdsIn(s, origin, parsed[1..], rids)
  {
    assert forall k :: 0 < k < |parsed| ==> parsed[k] == parsed[1..][k - 1];
    assert forall k :: 0 <= k < |parsed| - 1 ==> parsed[1..][k] == parsed[k + 1];
  }

  /** A panic on any PDU (no signatures, a malformed signature) fails the
      whole transaction, whatever its room. */
  lemma {:induction false} IngestAllFails(s: Steps, origin: string, rooms: Rooms, parsed: seq<(Pdu, Json.Json)>,
                                          results: Results, k: nat)
    requires Sound(s)
    requires k < |parsed| && s.check(Overwrite(parsed[k].0, origin), parsed[k].1).Failure?
    ensures IngestAll(s, origin, rooms, parsed, results).Failure?
    decreases |parsed|
  {
    var first := IngestOne(s, origin, rooms, parsed[0].0, parsed[0].1);
    if k > 0 && first.Success? {
      assert parsed[1..][k - 1] == parsed[k];
      IngestAllFails(s, origin, first.value.0, parsed[1..], Note(results, first.value.1), k - 1);
    }
  }

  /** With every check answering and room in every interner for the whole
      batch, the loop finishes. */
  lemma {:induction false} IngestAllSucceeds(s: Steps, origin: string, rooms: Rooms, parsed: seq<(Pdu, Json.Json)>,
                                             results: Results)
    requires Sound(s)
    requires forall k :: 0 <= k < |parsed| ==> s.check(Overwrite(parsed[k].0, origin), parsed[k].1).Success?
    requires forall rid :: rid in rooms ==> PduArc.Room(rooms[rid].interner, BatchSize(origin, parsed))
    ensures IngestAll(s, origin, rooms, parsed, results).Success?
    decreases |parsed|
  {
    if |parsed| > 0 {
      var p0 := parsed[0].0;
      var step := StepSize(Overwrite(p0, origin));
      var rest := BatchSize(origin, parsed[1..]);
      if p0.roomId in rooms {
        PduArc.RoomLess(rooms[p0.roomId].interner, step + rest, step);
      }
      var first := IngestOne(s, origin, rooms, p0, parsed[0].1);
      var rooms1 := first.value.0;
      forall rid | rid in rooms1 ensures PduArc.Room(rooms1[rid].interner, rest) {
        if rid == p0.roomId {
          PduArc.RoomLeft(rooms[rid].interner, rooms1[rid].interner, step, rest);
        } else {
          PduArc.RoomLess(rooms[rid].interner, step + rest, rest);
        }
      }
      forall k | 0 <= k < |parsed[1..]| ensures s.check(Overwrite(parsed[1..][k].0, origin), parsed[1..][k].1).Success? {
        assert parsed[1..][k] == parsed[k + 1];
      }
      IngestAllSucceeds(s, origin, rooms1, parsed[1..], Note(results, first.value.1));
    }
  }

  /** Every answer is `Ok(())`. */
  ghost predicate AllOk(results: Results) {
    forall id :: id in results ==> results[id] == Success(())
  }

  /** Which events the loop stores: each loaded room gains exactly the ids
      its PDUs in the batch are given. */
  lemma {:induction false} IngestAllStores(s: Steps, origin: string, rooms: Rooms, parsed: seq<(Pdu, Json.Json)>,
                                           results: Results)
    requires Sound(s)
    ensures var r := IngestAll(s, origin, rooms, parsed, results);
            r.Success? ==> forall rid :: rid in rooms ==>
              r.value.0[rid].pdus.Keys == rooms[rid].pdus.Keys + IdsFor(s, origin, parsed, rid)
    decreases |parsed|
  {
    var r := IngestAll(s, origin, rooms, parsed, results);
    if |parsed| > 0 && r.Success? {
      var (rooms1, stored) := IngestOne(s, origin, rooms, parsed[0].0, parsed[0].1).value;
      IngestAllStores(s, origin, rooms1, parsed[1..], Note(results, stored));
      forall rid | rid in rooms
        ensures r.value.0[rid].pdus.Keys == rooms[rid].pdus.Keys + IdsFor(s, origin, parsed, rid)
      {
        IdsCons(s, origin, parsed, rid, {});
      }
    }
  }

  /** The answers name exactly the events stored in loaded rooms. */
  lemma {:induction false} IngestAllAnswers(s: Steps, origin: string, rooms: Rooms, parsed: seq<(Pdu, Json.Json)>,
                                            results: Results)
    requires Sound(s)
    ensures var r := IngestAll(s, origin, rooms, parsed, results);
            r.Success? ==> r.value.1.Keys == results.Keys + IdsIn(s, origin, parsed, rooms.Keys)
    decreases |parsed|
  {
    var r := IngestAll(s, origin, rooms, parsed, results);
    if |parsed| > 0 && r.Success? {
      var (rooms1, stored) := IngestOne(s, origin, rooms, parsed[0].0, parsed[0].1).value;
      IngestAllAnswers(s, origin, rooms1, parsed[1..], Note(results, stored));
      IdsCons(s, origin, parsed, "", rooms.Keys);
    }
  }

  /** Every answer is `Ok(())`. */
  lemma {:induction false} IngestAllOk(s: Steps, origin: string, rooms: Rooms, parsed: seq<(Pdu, Json.Json)>,
                                       results: Results)
    requires Sound(s) && AllOk(results)
    ensures var r := IngestAll(s, origin, rooms, parsed, results);
            r.Success? ==> AllOk(r.value.1)
    decreases |parsed|
  {
    var r := IngestAll(s, origin, rooms, parsed, results);
    if |parsed| > 0 && r.Success? {
      var (rooms1, stored) := IngestOne(s, origin, rooms, parsed[0].0, parsed[0].1).value;
      IngestAllOk(s, origin, rooms1, parsed[1..], Note(results, stored));
    }
  }

  /** The event stored under `id` in room `rid` came from a PDU of the
      batch, with the outcomes of its checks. */
  ghost predicate FromBatch(s: Steps, origin: string, parsed: seq<(Pdu, Json.Json)>, rid: string, id: string, rec: ParsedPdu) {
    exists k :: 0 <= k < |parsed| && parsed[k].0.roomId == rid && FromEntry(s, origin, parsed[k], id, rec)
  }

  ghost predicate FromEntry(s: Steps, origin: string, e: (Pdu, Json.Json), id: string, rec: ParsedPdu) {
    var p := Overwrite(e.0, origin);
    s.eventId(p) == id && Recorded(s, rec, id, p, e.1)
  }

  /** What the loop stores: every event of a loaded room either was there
      before and is untouched, or was stored from a PDU of the batch for
      that room. */
  lemma {:induction false} IngestAllRecords(s: Steps, origin: string, rooms: Rooms, parsed: seq<(Pdu, Json.Json)>,
                                            results: Results)
    requires Sound(s)
    ensures var r := IngestAll(s, origin, rooms, parsed, results);
            r.Success? ==>
              forall rid, id :: rid in rooms && id in r.value.0[rid].pdus ==>
                || (id in rooms[rid].pdus && r.value.0[rid].pdus[id] == rooms[rid].pdus[id])
                || FromBatch(s, origin, parsed, rid, id, r.value.0[rid].pdus[id])
    decreases |parsed|
  {
    var r := IngestAll(s, origin, rooms, parsed, results);
    if |parsed| > 0 && r.Success? {
      var first := IngestOne(s, origin, rooms, parsed[0].0, parsed[0].1);
      var (rooms1, stored) := first.value;
      IngestAllRecords(s, origin, rooms1, parsed[1..], Note(results, stored));
      var after := r.value.0;
      forall rid, id | rid in rooms && id in after[rid].pdus
        ensures || (id in rooms[rid].pdus && after[rid].pdus[id] == rooms[rid].pdus[id])
                || FromBatch(s, origin, parsed, rid, id, after[rid].pdus[id])
      {
        var rec := after[rid].pdus[id];
        if !(id in rooms1[rid].pdus && rec == rooms1[rid].pdus[id]) {
          var k :| 0 <= k < |parsed[1..]| && parsed[1..][k].0.roomId == rid && FromEntry(s, origin, parsed[1..][k], id, rec);
          assert parsed[k + 1] == parsed[1..][k];
        } else if !(id in rooms[rid].pdus && rec == rooms[rid].pdus[id]) {
          assert rid == parsed[0].0.roomId;
          assert FromEntry(s, origin, parsed[0], id, rec);
        }
      }
    }
  }

  /** The last PDU of the batch for room `rid` that is given the id `id`,
      if any: `pdus.insert` keeps the last event stored under an id. */
  ghost function LastWithId(s: Steps, origin: string, parsed: seq<(Pdu, Json.Json)>, rid: string, id: string)
    : (r: Option<(Pdu, Json.Json)>)
    ensures r.Some? ==> exists k :: 0 <= k < |parsed| && parsed[k] == r.value && Carries(s, origin, parsed[k], rid, id)
                                    && forall k' :: k < k' < |parsed| ==> !Carries(s, origin, parsed[k'], rid, id)
    ensures r.None? ==> forall k :: 0 <= k < |parsed| ==> !Carries(s, origin, parsed[k], rid, id)
    decreases |parsed|
  {
    if |parsed| == 0 then None
    else
      var rest := LastWithId(s, origin, parsed[1..], rid, id);
      assert forall k :: 0 < k < |parsed| ==> parsed[k] == parsed[1..][k - 1];
      if rest.Some? then
        ghost var k :| 0 <= k < |parsed[1..]| && parsed[1..][k] == rest.value && Carries(s, origin, parsed[1..][k], rid, id)
                       && forall k' :: k < k' < |parsed[1..]| ==> !Carries(s, origin, parsed[1..][k'], rid, id);
        assert forall k' :: k + 1 < k' < |parsed| ==> parsed[k'] == parsed[1..][k' - 1];
        rest
      else if Carries(s, origin, parsed[0], rid, id) then Some(parsed[0])
      else None
  }

  /** A batch entry is a PDU of room `rid` that is given the id `id`. */
  ghost predicate Carries(s: Steps, origin: string, e: (Pdu, Json.Json), rid: string, id: string) {
    e.0.roomId == rid && s.eventId(Overwrite(e.0, origin)) == id
  }

  /** Of several batch PDUs of a loaded room given the same id, the last
      one is what the room holds under that id. */
  lemma {:induction false} IngestAllLastWins(s: Steps, origin: string, rooms: Rooms, parsed: seq<(Pdu, Json.Json)>,
                                             results: Results, rid: string, id: string)
    requires Sound(s)
    ensures var r := IngestAll(s, origin, rooms, parsed, results);
            r.Success? && rid in rooms && LastWithId(s, origin, parsed, rid, id).Some? ==>
              && id in r.value.0[rid].pdus
              && FromEntry(s, origin, LastWithId(s, origin, parsed, rid, id).value, id, r.value.0[rid].pdus[id])
    decreases |parsed|
  {
    var r := IngestAll(s, origin, rooms, parsed, results);
    if |parsed| > 0 && r.Success? && rid in rooms && LastWithId(s, origin, parsed, rid, id).Some? {
      var (rooms1, stored) := IngestOne(s, origin, rooms, parsed[0].0, parsed[0].1).value;
      if LastWithId(s, origin, parsed[1..], rid, id).Some? {
        IngestAllLastWins(s, origin, rooms1, parsed[1..], Note(results, stored), rid, id);
      } else {
        IngestAllKeepsOthers(s, origin, rooms1, parsed[1..], Note(results, stored), rid, id);
      }
    }
  }

  /** An id that no batch PDU of a loaded room is given keeps its old event
      in that room, or stays absent. */
  lemma {:induction false} IngestAllKeepsOthers(s: Steps, origin: string, rooms: Rooms, parsed: seq<(Pdu, Json.Json)>,
                                                results: Results, rid: string, id: string)
    requires Sound(s)
    ensures var r := IngestAll(s, origin, rooms, parsed, results);
            r.Success? && rid in rooms && LastWithId(s, origin, parsed, rid, id).None? ==>
              && (id in r.value.0[rid].pdus <==> id in rooms[rid].pdus)
              && (id in rooms[rid].pdus ==> r.value.0[rid].pdus[id] == rooms[rid].pdus[id])
    decreases |parsed|
  {
    var r := IngestAll(s, origin, rooms, parsed, results);
    if |parsed| > 0 && r.Success? && rid in rooms && LastWithId(s, origin, parsed, rid, id).None? {
      var (rooms1, stored) := IngestOne(s, origin, rooms, parsed[0].0, parsed[0].1).value;
      IngestAllKeepsOthers(s, origin, rooms1, parsed[1..], Note(results, stored), rid, id);
    }
  }

  // ---------------------------------------------------------------------
  // The persistent half

  /** One parsed PDU of the persistent loop: the blob of a PDU of the
      super-public room is appended to that room, which must exist. The
      source parses the blob once more with `parse_pdu` and reads the room
      id from that. With the real parse step the owned parser accepts
      whatever the borrowed one accepted and yields the same event
      (`PduOwned.ParseAgreesWithRef`), so its error arm is never taken and
      the room id is the one parsed already. */
  function PersistOne(persistent: SortedMaps.Assoc<PersistentRoom>, p: Pdu, blob: Json.Json)
    : (r: Result<SortedMaps.Assoc<PersistentRoom>, string>)
    requires SortedMaps.Sorted(persistent)
    ensures r.Failure? <==> p.roomId == SuperPublicRoom && SuperPublicRoom !in SortedMaps.Keys(persistent)
    ensures r.Failure? ==> r.error == UnwrapNone
    ensures r.Success? ==> SortedMaps.Sorted(r.value) && SortedMaps.Keys(r.value) == SortedMaps.Keys(persistent)
    ensures r.Success? && p.roomId == SuperPublicRoom ==>
              SortedMaps.Get(r.value, SuperPublicRoom)
                == Some(PersistentRoom(SortedMaps.Get(persistent, SuperPublicRoom).value.pduBlobs + [blob]))
    ensures r.Success? && p.roomId != SuperPublicRoom ==> r.value == persistent
    ensures r.Success? ==> forall rid :: rid != SuperPublicRoom ==> SortedMaps.Get(r.value, rid) == SortedMaps.Get(persistent, rid)
  {
    if p.roomId != SuperPublicRoom then Success(persistent)
    else
      match SortedMaps.Get(persistent, p.roomId)
      case None => Failure(UnwrapNone)
      case Some(room) => Success(SortedMaps.Insert(persistent, p.roomId, PersistentRoom(room.pduBlobs + [blob])))
  }

  /** The persistent loop over the parsed PDUs, in order. */
  function PersistAll(persistent: SortedMaps.Assoc<PersistentRoom>, parsed: seq<(Pdu, Json.Json)>)
    : (r: Result<SortedMaps.Assoc<PersistentRoom>, string>)
    requires SortedMaps.Sorted(persistent)
    ensures r.Success? ==> SortedMaps.Sorted(r.value) && SortedMaps.Keys(r.value) == SortedMaps.Keys(persistent)
    ensures r.Failure? ==> r.error == UnwrapNone
    decreases |parsed|
  {
    if |parsed| == 0 then Success(persistent)
    else
      var persistent1 :- PersistOne(persistent, parsed[0].0, parsed[0].1);
      PersistAll(persistent1, parsed[1..])
  }

  /** The blobs of the super-public room's PDUs, in order. */
  function SuperBlobs(parsed: seq<(Pdu, Json.Json)>): (r: seq<Json.Json>)
    ensures |r| <= |parsed|
    decreases |parsed|
  {
    if |parsed| == 0 then []
    else (if parsed[0].0.roomId == SuperPublicRoom then [parsed[0].1] else []) + SuperBlobs(parsed[1..])
  }

  ghost predicate MentionsSuper(parsed: seq<(Pdu, Json.Json)>) {
    exists k :: 0 <= k < |parsed| && parsed[k].0.roomId == SuperPublicRoom
  }

  lemma MentionsCons(parsed: seq<(Pdu, Json.Json)>)
    requires |parsed| > 0
    ensures MentionsSuper(parsed) <==> parsed[0].0.roomId == SuperPublicRoom || MentionsSuper(parsed[1..])
  {
    if MentionsSuper(parsed) && parsed[0].0.roomId != SuperPublicRoom {
      var k :| 0 <= k < |parsed| && parsed[k].0.roomId == SuperPublicRoom;
      assert parsed[1..][k - 1] == parsed[k];
    }
    if MentionsSuper(parsed[1..]) {
      var k :| 0 <= k < |parsed[1..]| && parsed[1..][k].0.roomId == SuperPublicRoom;
      assert parsed[k + 1] == parsed[1..][k];
    }
  }

  /** The persistent loop panics exactly when the batch holds a PDU of the
      super-public room and that room is not in the store. */
  lemma {:induction false} PersistAllFails(persistent: SortedMaps.Assoc<PersistentRoom>, parsed: seq<(Pdu, Json.Json)>)
    requires SortedMaps.Sorted(persistent)
    ensures PersistAll(persistent, parsed).Failure?
            <==> SuperPublicRoom !in SortedMaps.Keys(persistent) && MentionsSuper(parsed)
    decreases |parsed|
  {
    if |parsed| > 0 {
      MentionsCons(parsed);
      var first := PersistOne(persistent, parsed[0].0, parsed[0].1);
      if first.Success? {
        PersistAllFails(first.value, parsed[1..]);
      }
    }
  }

  /** The persistent loop changes no room but the super-public one. */
  lemma {:induction false} PersistAllOthers(persistent: SortedMaps.Assoc<PersistentRoom>, parsed: seq<(Pdu, Json.Json)>,
                                            rid: string)
    requires SortedMaps.Sorted(persistent) && rid != SuperPublicRoom
    ensures PersistAll(persistent, parsed).Success? ==>
              SortedMaps.Get(PersistAll(persistent, parsed).value, rid) == SortedMaps.Get(persistent, rid)
    decreases |parsed|
  {
    if |parsed| > 0 {
      var first := PersistOne(persistent, parsed[0].0, parsed[0].1);
      if first.Success? {
        PersistAllOthers(first.value, parsed[1..], rid);
      }
    }
  }

  /** The persistent loop appends the super-public room's blobs, in
      transaction order, to that room. */
  lemma {:induction false} PersistAllAppends(persistent: SortedMaps.Assoc<PersistentRoom>, parsed: seq<(Pdu, Json.Json)>)
    requires SortedMaps.Sorted(persistent) && SuperPublicRoom in SortedMaps.Keys(persistent)
    ensures var r := PersistAll(persistent, parsed);
            && r.Success?
            && SortedMaps.Get(r.value, SuperPublicRoom)
                 == Some(PersistentRoom(SortedMaps.Get(persistent, SuperPublicRoom).value.pduBlobs + SuperBlobs(parsed)))
    decreases |parsed|
  {
    var before := SortedMaps.Get(persistent, SuperPublicRoom).value.pduBlobs;
    if |parsed| == 0 {
      assert before + [] == before;
    } else {
      var (p, blob) := parsed[0];
      var next := PersistOne(persistent, p, blob).value;
      PersistAllAppends(next, parsed[1..]);
      var rest := SuperBlobs(parsed[1..]);
      if p.roomId == SuperPublicRoom {
        assert SortedMaps.Get(next, SuperPublicRoom) == Some(PersistentRoom(before + [blob]));
        assert SuperBlobs(parsed) == [blob] + rest;
        AppendAssoc(before, [blob], rest);
      } else {
        assert SortedMaps.Get(next, SuperPublicRoom) == Some(PersistentRoom(before));
        assert SuperBlobs(parsed) == rest;
      }
    }
  }

  lemma AppendAssoc<T>(a: seq<T>, b: seq<T>, c: seq<T>)
    ensures a + b + c == a + (b + c)
  {
  }

  // ---------------------------------------------------------------------
  // The transaction

  /** What ingesting a transaction yields: the new state, the answer per
      stored event, and per EDU its rendering or its parse error, which is
      only logged. */
  datatype Ingested = Ingested(state: State, results: Results, eduLog: seq<Result<string, string>>)

  /** The EDU loop: each EDU parsed and rendered for the log. */
  function EduLog(edus: seq<Json.Json>): (r: seq<Result<string, string>>)
    ensures |r| == |edus|
  {
    seq(|edus|, k requires 0 <= k < |edus| =>
      match Edu.ParseEdu(edus[k])
      case Success(e) => Success(Edu.Render(e))
      case Failure(err) => Failure(err))
  }

  /** `ingest_transaction`. The origin must be a server name (the `unwrap`
      at the start); the transaction id and timestamp are only logged. */
  function IngestTransaction(s: Steps, state: State, transactionId: string, origin: string, originServerTs: nat,
                             pdus: seq<Json.Json>, edus: seq<Json.Json>): (r: Result<Ingested, string>)
    requires Sound(s) && SortedMaps.Sorted(state.persistent)
    ensures r.Success? ==> SortedMaps.Sorted(r.value.state.persistent)
    ensures r.Success? ==> SortedMaps.Keys(r.value.state.persistent) == SortedMaps.Keys(state.persistent)
    ensures r.Success? ==> r.value.state.ephemeral.Keys == state.ephemeral.Keys
    ensures r.Success? ==> |r.value.eduLog| == |edus|
  {
    var originId := MatrixTypes.TryFromStr(MatrixTypes.ServerName, origin);
    if originId.Failure? then Failure(UnwrapErr)
    else
    var eduLog := EduLog(edus);
    var parsed := ParsedPdus(s, pdus);
    var persistent :- PersistAll(state.persistent, parsed);
    var (rooms, results) :- IngestAll(s, MatrixTypes.AsStr(originId.value), state.ephemeral, parsed, map[]);
    Success(Ingested(State(persistent, rooms), results, eduLog))
  }

  /** The origin string names the transaction's PDUs. */
  lemma OriginKept(origin: string)
    ensures MatrixTypes.TryFromStr(MatrixTypes.ServerName, origin).Success?
    ensures MatrixTypes.AsStr(MatrixTypes.TryFromStr(MatrixTypes.ServerName, origin).value) == origin
  {
  }

  /** What a transaction stores in the ephemeral store: each loaded room
      gains exactly the ids of its parsed PDUs, and the answers name exactly
      those events, every one `Ok(())`. */
  lemma TransactionStores(s: Steps, state: State, transactionId: string, origin: string, originServerTs: nat,
                          pdus: seq<Json.Json>, edus: seq<Json.Json>)
    requires Sound(s) && SortedMaps.Sorted(state.persistent)
    ensures var r := IngestTransaction(s, state, transactionId, origin, originServerTs, pdus, edus);
            var parsed := ParsedPdus(s, pdus);
            r.Success? ==>
              && (forall rid :: rid in state.ephemeral ==>
                    r.value.state.ephemeral[rid].pdus.Keys == state.ephemeral[rid].pdus.Keys + IdsFor(s, origin, parsed, rid))
              && r.value.results.Keys == IdsIn(s, origin, parsed, state.ephemeral.Keys)
              && AllOk(r.value.results)
  {
    OriginKept(origin);
    var parsed := ParsedPdus(s, pdus);
    var persistent := PersistAll(state.persistent, parsed);
    if persistent.Success? {
      IngestAllStores(s, origin, state.ephemeral, parsed, map[]);
      IngestAllAnswers(s, origin, state.ephemeral, parsed, map[]);
      IngestAllOk(s, origin, state.ephemeral, parsed, map[]);
    }
  }

  /** What a transaction does to the persistent store: the blobs of the
      super-public room's PDUs are appended to that room, in order, and no
      other room changes; when that room is missing and the transaction has
      a PDU for it, the transaction panics. */
  lemma TransactionPersists(s: Steps, state: State, transactionId: string, origin: string, originServerTs: nat,
                            pdus: seq<Json.Json>, edus: seq<Json.Json>)
    requires Sound(s) && SortedMaps.Sorted(state.persistent)
    ensures var r := IngestTransaction(s, state, transactionId, origin, originServerTs, pdus, edus);
            var parsed := ParsedPdus(s, pdus);
            && (SuperPublicRoom !in SortedMaps.Keys(state.persistent) && MentionsSuper(parsed) ==> r.Failure?)
            && (r.Success? ==> forall rid :: rid != SuperPublicRoom ==>
                  SortedMaps.Get(r.value.state.persistent, rid) == SortedMaps.Get(state.persistent, rid))
            && (r.Success? && SuperPublicRoom in SortedMaps.Keys(state.persistent) ==>
                  SortedMaps.Get(r.value.state.persistent, SuperPublicRoom)
                    == Some(PersistentRoom(SortedMaps.Get(state.persistent, SuperPublicRoom).value.pduBlobs + SuperBlobs(parsed))))
  {
    OriginKept(origin);
    var parsed := ParsedPdus(s, pdus);
    PersistAllFails(state.persistent, parsed);
    forall rid | rid != SuperPublicRoom
      ensures PersistAll(state.persistent, parsed).Success? ==>
                SortedMaps.Get(PersistAll(state.persistent, parsed).value, rid) == SortedMaps.Get(state.persistent, rid)
    {
      PersistAllOthers(state.persistent, parsed, rid);
    }
    if SuperPublicRoom in SortedMaps.Keys(state.persistent) {
      PersistAllAppends(state.persistent, parsed);
    }
  }

  /** A transaction with a PDU whose checks panic fails as a whole. */
  lemma TransactionPanics(s: Steps, state: State, transactionId: string, origin: string, originServerTs: nat,
                          pdus: seq<Json.Json>, edus: seq<Json.Json>, k: nat)
    requires Sound(s) && SortedMaps.Sorted(state.persistent)
    requires k < |ParsedPdus(s, pdus)|
    requires var e := ParsedPdus(s, pdus)[k]; s.check(Overwrite(e.0, origin), e.1).Failure?
    ensures IngestTransaction(s, state, transactionId, origin, originServerTs, pdus, edus).Failure?
  {
    OriginKept(origin);
    var parsed := ParsedPdus(s, pdus);
    var persistent := PersistAll(state.persistent, parsed);
    if persistent.Success? {
      IngestAllFails(s, origin, state.ephemeral, parsed, map[], k);
    }
  }

  /** EDUs are only logged: whatever EDUs a transaction carries, it stores
      the same events and gives the same answers. */
  lemma EdusOnlyLogged(s: Steps, state: State, transactionId: string, origin: string, originServerTs: nat,
                       pdus: seq<Json.Json>, edus1: seq<Json.Json>, edus2: seq<Json.Json>)
    requires Sound(s) && SortedMaps.Sorted(state.persistent)
    ensures var r1 := IngestTransaction(s, state, transactionId, origin, originServerTs, pdus, edus1);
            var r2 := IngestTransaction(s, state, transactionId, origin, originServerTs, pdus, edus2);
            && (r1.Success? <==> r2.Success?)
            && (r1.Success? ==> r1.value.state == r2.value.state && r1.value.results == r2.value.results)
  {
  }

  /** A transaction sent twice (the sending server retries it) stores no new
      event ids the second time... */
  lemma RetransmitStores(s: Steps, state: State, transactionId: string, origin: string, originServerTs: nat,
                         pdus: seq<Json.Json>, edus: seq<Json.Json>)
    requires Sound(s) && SortedMaps.Sorted(state.persistent)
    ensures var r1 := IngestTransaction(s, state, transactionId, origin, originServerTs, pdus, edus);
            r1.Success? ==>
              var r2 := IngestTransaction(s, r1.value.state, transactionId, origin, originServerTs, pdus, edus);
              r2.Success? ==> forall rid :: rid in r1.value.state.ephemeral ==>
                r2.value.state.ephemeral[rid].pdus.Keys == r1.value.state.ephemeral[rid].pdus.Keys
  {
    var r1 := IngestTransaction(s, state, transactionId, origin, originServerTs, pdus, edus);
    if r1.Success? {
      TransactionStores(s, state, transactionId, origin, originServerTs, pdus, edus);
      TransactionStores(s, r1.value.state, transactionId, origin, originServerTs, pdus, edus);
    }
  }

  /** ... and gives the same answers... */
  lemma RetransmitAnswers(s: Steps, state: State, transactionId: string, origin: string, originServerTs: nat,
                          pdus: seq<Json.Json>, edus: seq<Json.Json>)
    requires Sound(s) && SortedMaps.Sorted(state.persistent)
    ensures var r1 := IngestTransaction(s, state, transactionId, origin, originServerTs, pdus, edus);
            r1.Success? ==>
              var r2 := IngestTransaction(s, r1.value.state, transactionId, origin, originServerTs, pdus, edus);
              r2.Success? ==> r2.value.results == r1.value.results
  {
    var r1 := IngestTransaction(s, state, transactionId, origin, originServerTs, pdus, edus);
    if r1.Success? {
      var r2 := IngestTransaction(s, r1.value.state, transactionId, origin, originServerTs, pdus, edus);
      if r2.Success? {
        TransactionStores(s, state, transactionId, origin, originServerTs, pdus, edus);
        TransactionStores(s, r1.value.state, transactionId, origin, originServerTs, pdus, edus);
        SameAnswers(r1.value.results, r2.value.results);
      }
    }
  }

  lemma SameAnswers(a: Results, b: Results)
    requires a.Keys == b.Keys && AllOk(a) && AllOk(b)
    ensures a == b
  {
  }

  /** ... but the persistent store gets the super-public room's blobs a
      second time. */
  lemma RetransmitPersists(s: Steps, state: State, transactionId: string, origin: string, originServerTs: nat,
                           pdus: seq<Json.Json>, edus: seq<Json.Json>)
    requires Sound(s) && SortedMaps.Sorted(state.persistent)
    requires SuperPublicRoom in SortedMaps.Keys(state.persistent)
    ensures var r1 := IngestTransaction(s, state, transactionId, origin, originServerTs, pdus, edus);
            r1.Success? ==>
              var r2 := IngestTransaction(s, r1.value.state, transactionId, origin, originServerTs, pdus, edus);
              var blobs := SuperBlobs(ParsedPdus(s, pdus));
              r2.Success? ==>
                SortedMaps.Get(r2.value.state.persistent, SuperPublicRoom)
                  == Some(PersistentRoom(SortedMaps.Get(state.persistent, SuperPublicRoom).value.pduBlobs + blobs + blobs))
  {
    var r1 := IngestTransaction(s, state, transactionId, origin, originServerTs, pdus, edus);
    if r1.Success? {
      var mid := r1.value.state;
      var r2 := IngestTransaction(s, mid, transactionId, origin, originServerTs, pdus, edus);
      TransactionPersists(s, state, transactionId, origin, originServerTs, pdus, edus);
      if r2.Success? {
        TransactionPersists(s, mid, transactionId, origin, originServerTs, pdus, edus);
      }
    }
  }

  // ---------------------------------------------------------------------
  // What a panicking transaction leaves behind

  /** The persistent store `ingest_transaction` leaves, whether or not it
      panics afterwards. The persistent loop runs to its end before the
      ephemeral loop checks a single event, so the blobs it appended stay
      when a check then panics. When the persistent loop itself panics it
      has appended nothing: that happens only when the super-public room is
      missing, and then no earlier event appended anything either. */
  function PersistentLeft(s: Steps, state: State, pdus: seq<Json.Json>): (r: SortedMaps.Assoc<PersistentRoom>)
    requires SortedMaps.Sorted(state.persistent)
    ensures SortedMaps.Sorted(r) && SortedMaps.Keys(r) == SortedMaps.Keys(state.persistent)
    ensures SuperPublicRoom !in SortedMaps.Keys(state.persistent) ==> r == state.persistent
    ensures SuperPublicRoom in SortedMaps.Keys(state.persistent) ==>
              SortedMaps.Get(r, SuperPublicRoom)
                == Some(PersistentRoom(SortedMaps.Get(state.persistent, SuperPublicRoom).value.pduBlobs
                                       + SuperBlobs(ParsedPdus(s, pdus))))
    ensures forall rid :: rid != SuperPublicRoom ==> SortedMaps.Get(r, rid) == SortedMaps.Get(state.persistent, rid)
  {
    var parsed := ParsedPdus(s, pdus);
    PersistAllKeepsOthers(state.persistent, parsed);
    if SuperPublicRoom in SortedMaps.Keys(state.persistent) then
      PersistAllAppends(state.persistent, parsed);
      PersistAll(state.persistent, parsed).value
    else
      PersistAllUnchanged(state.persistent, parsed);
      match PersistAll(state.persistent, parsed)
      case Success(persistent) => persistent
      case Failure(_) => state.persistent
  }

  lemma PersistAllKeepsOthers(persistent: SortedMaps.Assoc<PersistentRoom>, parsed: seq<(Pdu, Json.Json)>)
    requires SortedMaps.Sorted(persistent)
    ensures PersistAll(persistent, parsed).Success? ==>
              forall rid :: rid != SuperPublicRoom ==>
                SortedMaps.Get(PersistAll(persistent, parsed).value, rid) == SortedMaps.Get(persistent, rid)
  {
    forall rid | rid != SuperPublicRoom
      ensures PersistAll(persistent, parsed).Success? ==>
                SortedMaps.Get(PersistAll(persistent, parsed).value, rid) == SortedMaps.Get(persistent, rid)
    {
      PersistAllOthers(persistent, parsed, rid);
    }
  }

  /** Without the super-public room the persistent loop either panics or
      changes nothing. */
  lemma {:induction false} PersistAllUnchanged(persistent: SortedMaps.Assoc<PersistentRoom>, parsed: seq<(Pdu, Json.Json)>)
    requires SortedMaps.Sorted(persistent) && SuperPublicRoom !in SortedMaps.Keys(persistent)
    ensures PersistAll(persistent, parsed).Success? ==> PersistAll(persistent, parsed).value == persistent
    decreases |parsed|
  {
    if |parsed| > 0 {
      var first := PersistOne(persistent, parsed[0].0, parsed[0].1);
      if first.Success? {
        PersistAllUnchanged(first.value, parsed[1..]);
      }
    }
  }

  /** An event of the super-public room has its blob among that room's
      blobs. */
  lemma {:induction false} SuperBlobsHas(parsed: seq<(Pdu, Json.Json)>, k: nat)
    requires k < |parsed| && parsed[k].0.roomId == SuperPublicRoom
    ensures parsed[k].1 in SuperBlobs(parsed)
    decreases |parsed|
  {
    if k > 0 {
      assert parsed[1..][k - 1] == parsed[k];
      SuperBlobsHas(parsed[1..], k - 1);
    }
  }

  /** A super-public event whose checks panic poisons that room's log: the
      transaction panics, yet the event's blob stays appended to the
      persistent store, and from then on every replay of the room panics on
      it, whatever the ephemeral store holds. */
  lemma PoisonedLog(s: Steps, state: State, transactionId: string, origin: string, originServerTs: nat,
                    pdus: seq<Json.Json>, edus: seq<Json.Json>, k: nat, ephemeral: Rooms)
    requires Sound(s) && SortedMaps.Sorted(state.persistent) && SuperPublicRoom in SortedMaps.Keys(state.persistent)
    requires k < |ParsedPdus(s, pdus)|
    requires var e := ParsedPdus(s, pdus)[k];
             && e.0.roomId == SuperPublicRoom
             && s.check(Overwrite(e.0, origin), e.1).Failure?
             && s.check(e.0, e.1).Failure?
    ensures IngestTransaction(s, state, transactionId, origin, originServerTs, pdus, edus).Failure?
    ensures ParsedPdus(s, pdus)[k].1 in SortedMaps.Get(PersistentLeft(s, state, pdus), SuperPublicRoom).value.pduBlobs
    ensures Replay.LoadPersistentRoom(s, State(PersistentLeft(s, state, pdus), ephemeral), SuperPublicRoom).Failure?
  {
    var parsed := ParsedPdus(s, pdus);
    TransactionPanics(s, state, transactionId, origin, originServerTs, pdus, edus, k);
    SuperBlobsHas(parsed, k);
    Replay.LoadPersistentRoomFails(s, State(PersistentLeft(s, state, pdus), ephemeral), SuperPublicRoom, parsed[k].1);
  }

  /** With steps that check as the node does, one super-public event
      without `signatures` is enough: both the ingestion and the replay
      `unwrap` of the signatures panic on it. */
  lemma UnsignedPoisonsLog(env: Env, s: Steps, state: State, transactionId: string, origin: string, originServerTs: nat,
                           pdus: seq<Json.Json>, edus: seq<Json.Json>, k: nat, ephemeral: Rooms)
    requires Sound(s) && forall p, blob :: s.check(p, blob) == Checks(env, p, blob)
    requires SortedMaps.Sorted(state.persistent) && SuperPublicRoom in SortedMaps.Keys(state.persistent)
    requires k < |ParsedPdus(s, pdus)|
    requires var e := ParsedPdus(s, pdus)[k]; e.0.roomId == SuperPublicRoom && e.0.signatures.None?
    ensures IngestTransaction(s, state, transactionId, origin, originServerTs, pdus, edus).Failure?
    ensures Replay.LoadPersistentRoom(s, State(PersistentLeft(s, state, pdus), ephemeral), SuperPublicRoom).Failure?
  {
    var e := ParsedPdus(s, pdus)[k];
    assert s.check(Overwrite(e.0, origin), e.1) == Checks(env, Overwrite(e.0, origin), e.1);
    assert s.check(e.0, e.1) == Checks(env, e.0, e.1);
    PoisonedLog(s, state, transactionId, origin, originServerTs, pdus, edus, k, ephemeral);
  }

  /** The order that keeps the log clean: the ephemeral loop, which runs
      every check, first, and the persistent loop only once it has come
      through. A transaction whose ephemeral loop panics (on a check or at
      the interner's limit) then leaves the persistent store as it was; one
      whose loop comes through appends what the call as written appends. */
  function PersistentLeftChecked(s: Steps, state: State, origin: string, pdus: seq<Json.Json>): (r: SortedMaps.Assoc<PersistentRoom>)
    requires Sound(s) && SortedMaps.Sorted(state.persistent)
    ensures SortedMaps.Sorted(r) && SortedMaps.Keys(r) == SortedMaps.Keys(state.persistent)
    ensures forall k :: 0 <= k < |ParsedPdus(s, pdus)| && s.check(Overwrite(ParsedPdus(s, pdus)[k].0, origin), ParsedPdus(s, pdus)[k].1).Failure?
              ==> r == state.persistent
    ensures r == state.persistent || r == PersistentLeft(s, state, pdus)
    ensures IngestAll(s, origin, state.ephemeral, ParsedPdus(s, pdus), map[]).Success? ==> r == PersistentLeft(s, state, pdus)
    ensures IngestAll(s, origin, state.ephemeral, ParsedPdus(s, pdus), map[]).Failure? ==> r == state.persistent
  {
    var parsed := ParsedPdus(s, pdus);
    IngestAllChecked(s, origin, state.ephemeral, parsed, map[]);
    if IngestAll(s, origin, state.ephemeral, parsed, map[]).Failure? then state.persistent
    else PersistentLeft(s, state, pdus)
  }

  /** A batch that comes through had every check answer. */
  lemma IngestAllChecked(s: Steps, origin: string, rooms: Rooms, parsed: seq<(Pdu, Json.Json)>, results: Results)
    requires Sound(s)
    ensures IngestAll(s, origin, rooms, parsed, results).Success? ==>
              forall k :: 0 <= k < |parsed| ==> s.check(Overwrite(parsed[k].0, origin), parsed[k].1).Success?
  {
    forall k | 0 <= k < |parsed| && s.check(Overwrite(parsed[k].0, origin), parsed[k].1).Failure?
      ensures IngestAll(s, origin, rooms, parsed, results).Failure?
    {
      IngestAllFails(s, origin, rooms, parsed, results, k);
    }
  }

  /** In that order, a transaction whose checks panic on a super-public
      event changes nothing a later replay of the room does. */
  lemma CheckedLogUnpoisoned(s: Steps, state: State, origin: string, pdus: seq<Json.Json>, k: nat, ephemeral: Rooms)
    requires Sound(s) && SortedMaps.Sorted(state.persistent)
    requires k < |ParsedPdus(s, pdus)|
    requires var e := ParsedPdus(s, pdus)[k]; s.check(Overwrite(e.0, origin), e.1).Failure?
    ensures SortedMaps.Get(PersistentLeftChecked(s, state, origin, pdus), SuperPublicRoom)
              == SortedMaps.Get(state.persistent, SuperPublicRoom)
    ensures Replay.LoadPersistentRoom(s, State(PersistentLeftChecked(s, state, origin, pdus), ephemeral), SuperPublicRoom)
            == Replay.LoadPersistentRoom(s, State(state.persistent, ephemeral), SuperPublicRoom)
  {
  }
}

=== FILE: interner.dfy ===
/** The string interner (`interner.rs`). Each typed interner hands out one
    handle (`ArcStr<T>`) per distinct string, numbered from a counter that
    only grows. Handles compare equal by id but are ordered by content; in a
    well-formed interner the two agree.

    The interner is a value threaded through the callers: every operation
    returns the new interner with its result. */
module Interner {
  import opened Wrappers
  import Strings
  import MatrixTypes

  /** `usize::MAX` on a 64-bit target. */
  const UsizeMax: nat := 0xFFFF_FFFF_FFFF_FFFF

  const LimitMessage: string := "Reached interner's limit!"

  /** `ArcStr<T>`: the id (`IntStr<T>`) and the shared content. */
  datatype Handle = Handle(id: nat, content: string)

  /** `ArcStr`'s `PartialEq`: by id only. */
  predicate HandleEq(a: Handle, b: Handle) {
    a.id == b.id
  }

  /** `ArcStr`'s `Ord`: by content only. */
  predicate HandleLt(a: Handle, b: Handle) {
    Strings.Lt(a.content, b.content)
  }

  /** `Deref` / `Borrow`: the content. */
  function Deref(h: Handle): string {
    h.content
  }

  /** `TypedInterner<T>`. The `BTreeSet` is ordered by content, so it holds at
      most one handle per string: it is kept as the map from each content to
      its id. */
  datatype TypedInterner = TypedInterner(strings: map<string, nat>, nextId: nat)

  /** The structure's invariant: one id per element, ids below the counter
      and pairwise distinct, and the counter within `usize`. */
  ghost predicate Valid(t: TypedInterner) {
    && |t.strings| == t.nextId
    && t.nextId <= UsizeMax
    && (forall s :: s in t.strings ==> t.strings[s] < t.nextId)
    && (forall s1, s2 :: s1 in t.strings && s2 in t.strings && t.strings[s1] == t.strings[s2] ==> s1 == s2)
  }

  /** The handle is the one the interner holds for its content. */
  ghost predicate Holds(t: TypedInterner, h: Handle) {
    h.content in t.strings && t.strings[h.content] == h.id
  }

  /** `TypedInterner::default`. */
  function EmptyTyped(): (r: TypedInterner)
    ensures Valid(r)
    ensures forall s :: s !in r.strings
  {
    TypedInterner(map[], 0)
  }

  /** `TypedInterner::get_or_insert`. A string already present gets its
      stored handle and nothing changes; a new string gets the next id and is
      added; reaching `usize::MAX` panics instead of reusing an id. */
  function GetOrInsertTyped(t: TypedInterner, value: string): (r: Result<(TypedInterner, Handle), string>)
    ensures r.Failure? <==> value !in t.strings && t.nextId == UsizeMax
    ensures r.Success? ==> Deref(r.value.1) == value && Holds(r.value.0, r.value.1)
    ensures value in t.strings ==> r.Success? && r.value.0 == t && r.value.1.id == t.strings[value]
    ensures r.Success? && value !in t.strings ==>
              && r.value.1.id == t.nextId
              && r.value.0.nextId == t.nextId + 1
              && r.value.0.strings.Keys == t.strings.Keys + {value}
              && (forall s :: s in t.strings ==> r.value.0.strings[s] == t.strings[s])
    ensures Valid(t) && r.Success? ==> Valid(r.value.0)
  {
    if value in t.strings then
      Success((t, Handle(t.strings[value], value)))
    else if t.nextId == UsizeMax then
      Failure(LimitMessage)
    else
      var id := t.nextId;
      var t' := TypedInterner(t.strings[value := id], id + 1);
      Success((t', Handle(id, value)))
  }

  /** Within one interner, handle equality (by id) holds exactly when the
      contents are equal, which is exactly when neither orders before the
      other: `Eq` and `Ord` agree. */
  lemma HandleEqualityAgrees(t: TypedInterner, a: Handle, b: Handle)
    requires Valid(t) && Holds(t, a) && Holds(t, b)
    ensures HandleEq(a, b) <==> a.content == b.content
    ensures HandleEq(a, b) <==> !HandleLt(a, b) && !HandleLt(b, a)
  {
    Strings.LtTotal(a.content, b.content);
    Strings.LtIrreflexive(a.content);
  }

  /** Interning twice gives the same handle and leaves the interner as the
      first call left it. */
  lemma GetOrInsertIdempotent(t: TypedInterner, value: string)
    requires GetOrInsertTyped(t, value).Success?
    ensures var (t1, h1) := GetOrInsertTyped(t, value).value;
            GetOrInsertTyped(t1, value) == Success((t1, h1))
  {
  }

  /** The typed interners of an `Interner`: ids of events, users, server
      names, rooms, keys, and plain strings. */
  datatype Slot = Events | Users | ServerNames | Rooms | Keys | Strs

  datatype Interner = Interner(
    events: TypedInterner,
    users: TypedInterner,
    serverNames: TypedInterner,
    rooms: TypedInterner,
    keys: TypedInterner,
    strs: TypedInterner
  )

  /** `Internable::get_typed_interner`. */
  function Typed(i: Interner, slot: Slot): TypedInterner {
    match slot
    case Events => i.events
    case Users => i.users
    case ServerNames => i.serverNames
    case Rooms => i.rooms
    case Keys => i.keys
    case Strs => i.strs
  }

  function WithTyped(i: Interner, slot: Slot, t: TypedInterner): (r: Interner)
    ensures Typed(r, slot) == t
    ensures forall other :: other != slot ==> Typed(r, other) == Typed(i, other)
  {
    match slot
    case Events => i.(events := t)
    case Users => i.(users := t)
    case ServerNames => i.(serverNames := t)
    case Rooms => i.(rooms := t)
    case Keys => i.(keys := t)
    case Strs => i.(strs := t)
  }

  ghost predicate ValidInterner(i: Interner) {
    forall slot :: Valid(Typed(i, slot))
  }

  /** `Interner::new`. */
  function Empty(): (r: Interner)
    ensures ValidInterner(r)
    ensures forall slot, s :: s !in Typed(r, slot).strings
  {
    var t := EmptyTyped();
    Interner(t, t, t, t, t, t)
  }

  /** `Interner::get_or_insert`: interns in the typed interner for the
      value's type; the other five are untouched. */
  function GetOrInsert(i: Interner, slot: Slot, value: string): (r: Result<(Interner, Handle), string>)
    ensures r.Success? <==> GetOrInsertTyped(Typed(i, slot), value).Success?
    ensures r.Success? ==> Typed(r.value.0, slot) == GetOrInsertTyped(Typed(i, slot), value).value.0
    ensures r.Success? ==> r.value.1 == GetOrInsertTyped(Typed(i, slot), value).value.1
    ensures r.Success? ==> forall other :: other != slot ==> Typed(r.value.0, other) == Typed(i, other)
    ensures r.Success? && ValidInterner(i) ==> ValidInterner(r.value.0)
  {
    var (t, h) :- GetOrInsertTyped(Typed(i, slot), value);
    Success((WithTyped(i, slot, t), h))
  }

  /** Interning only ever adds: every string the interner held keeps its id. */
  ghost predicate Extends(before: Interner, after: Interner) {
    forall slot, s :: s in Typed(before, slot).strings ==>
      s in Typed(after, slot).strings && Typed(after, slot).strings[s] == Typed(before, slot).strings[s]
  }

  lemma GetOrInsertExtends(i: Interner, slot: Slot, value: string)
    requires GetOrInsert(i, slot, value).Success?
    ensures Extends(i, GetOrInsert(i, slot, value).value.0)
  {
  }

  lemma ExtendsTransitive(a: Interner, b: Interner, c: Interner)
    requires Extends(a, b) && Extends(b, c)
    ensures Extends(a, c)
  {
  }

  // `ToArc for Id<T>` as written: its body calls `to_arc` on the same
  // receiver, which resolves to the same method, so it recurses until the
  // stack runs out. `frames` is the number of calls the stack has room for.

  function IdToArcAsWritten(id: MatrixTypes.Id, frames: nat): Option<string>
    decreases frames
  {
    if frames == 0 then None else IdToArcAsWritten(id, frames - 1)
  }

  lemma {:induction false} IdToArcNeverReturns(id: MatrixTypes.Id, frames: nat)
    ensures IdToArcAsWritten(id, frames).None?
    decreases frames
  {
    if frames > 0 {
      IdToArcNeverReturns(id, frames - 1);
    }
  }

  /** `get_or_insert` on an identifier with the `to_arc` above: `None` when the
      call does not return. */
  function GetOrInsertIdAsWritten(t: TypedInterner, id: MatrixTypes.Id, frames: nat): Option<Result<(TypedInterner, Handle), string>> {
    var value := MatrixTypes.AsStr(id);
    if value in t.strings then Some(Success((t, Handle(t.strings[value], value))))
    else if t.nextId == UsizeMax then Some(Failure(LimitMessage))
    else
      match IdToArcAsWritten(id, frames)
      case None => None
      case Some(inner) => Some(Success((TypedInterner(t.strings[value := t.nextId], t.nextId + 1), Handle(t.nextId, inner))))
  }

  /** As written, interning an identifier the interner does not hold yet never
      returns, however deep the stack: e.g. the first event id of an empty
      interner. */
  lemma NewIdNeverInterned(t: TypedInterner, id: MatrixTypes.Id, frames: nat)
    requires MatrixTypes.AsStr(id) !in t.strings && t.nextId < UsizeMax
    ensures GetOrInsertIdAsWritten(t, id, frames).None?
  {
    IdToArcNeverReturns(id, frames);
  }
}

=== FILE: json.dfy ===
/** The JSON documents the node receives (`&RawValue` blobs), kept as the syntax
    tree a serde visitor walks: object members stay in document order,
    duplicate keys are kept, and a string remembers whether its literal holds
    a backslash escape, which decides whether `serde_json` can lend it out
    as a borrowed `&str` or only hand over an owned copy.

    This module also states how `serde_json` feeds numbers to a visitor and the
    rules of `#[derive(Deserialize)]` structs that every typed parser relies on. */
module Json {
  import opened Wrappers
  import SortedMaps

  /** A JSON value. `JInt` is an integer literal (no fraction, no exponent)
      other than `-0`; `-0` and every other number literal is `JFloat`, since
      `serde_json` reads them as an `f64`. `JString` is a string literal
      without a backslash escape and `JEscaped` one with at least one (`\"`,
      `\n`, `\/`, `\u0041`, ...); `s` is the text the literal stands for. */
  datatype Json =
    | JNull
    | JBool(b: bool)
    | JInt(i: int)
    | JFloat
    | JString(s: string)
    | JEscaped(s: string)
    | JArray(items: seq<Json>)
    | JObject(members: seq<Member>)

  /** An object member. The key is kept as its text whether or not it was
      written with an escape. */
  datatype Member = Member(key: string, value: Json)

  /** A string literal of either form. */
  predicate IsText(j: Json) {
    j.JString? || j.JEscaped?
  }

  /** The characters `serde_json` writes as an escape: the quote, the
      backslash and the control characters below U+0020. */
  predicate MustEscape(c: char) {
    c == '"' || c == '\\' || c < ' '
  }

  predicate NeedsEscape(s: string) {
    exists i :: 0 <= i < |s| && MustEscape(s[i])
  }

  /** The literal `serde_json` writes for the text `s`. */
  function Text(s: string): (r: Json)
    ensures IsText(r) && r.s == s
    ensures r.JEscaped? <==> NeedsEscape(s)
  {
    if NeedsEscape(s) then JEscaped(s) else JString(s)
  }

  /** The document with every escape resolved: each string as the plain
      literal of its text. An owned `String` reads `j` as a borrowed `&str`
      reads `Plain(j)`. */
  function Plain(j: Json): (r: Json)
    ensures IsText(j) ==> r == JString(j.s)
    ensures !IsText(j) && !j.JArray? && !j.JObject? ==> r == j
    decreases j
  {
    match j
    case JEscaped(s) => JString(s)
    case JArray(items) => JArray(PlainItems(items))
    case JObject(ms) => JObject(PlainMembers(ms))
    case _ => j
  }

  function PlainItems(items: seq<Json>): (r: seq<Json>)
    ensures |r| == |items|
    decreases items
  {
    if |items| == 0 then [] else [Plain(items[0])] + PlainItems(items[1..])
  }

  function PlainMembers(ms: seq<Member>): (r: seq<Member>)
    ensures |r| == |ms|
    decreases ms
  {
    if |ms| == 0 then [] else [Member(ms[0].key, Plain(ms[0].value))] + PlainMembers(ms[1..])
  }

  const U32Limit: int := 0x1_0000_0000
  const I64Limit: int := 0x8000_0000_0000_0000
  const U64Limit: int := 0x1_0000_0000_0000_0000

  /** Which visitor method `serde_json` calls for a number literal. Integers
      in `u64` range go to `visit_u64`, negative integers in `i64` range to
      `visit_i64`, and every other number is parsed as an `f64`. */
  datatype NumberVisit = VisitU64(u: nat) | VisitI64(v: int) | VisitF64

  function NumberVisitOf(j: Json): (r: NumberVisit)
    requires j.JInt? || j.JFloat?
    ensures r.VisitU64? ==> j.JInt? && r.u == j.i < U64Limit
    ensures r.VisitI64? ==> j.JInt? && r.v == j.i && -I64Limit <= j.i < 0
    ensures r.VisitF64? <==> j.JFloat? || j.i < -I64Limit || j.i >= U64Limit
  {
    match j
    case JInt(v) =>
      if 0 <= v < U64Limit then VisitU64(v)
      else if -I64Limit <= v < 0 then VisitI64(v)
      else VisitF64
    case JFloat => VisitF64
  }

  type DecodeResult<T> = Result<T, string>

  // Primitive deserialisers, as serde implements them for Rust's types.

  function DecodeBool(j: Json): (r: DecodeResult<bool>)
    ensures r.Success? <==> j.JBool?
    ensures r.Success? ==> r.value == j.b
  {
    if j.JBool? then Success(j.b) else Failure("invalid type: expected a boolean")
  }

  /** `&str`: only a literal without escapes can be borrowed from the
      document; an escaped one is the `expected a borrowed string` error. */
  function DecodeString(j: Json): (r: DecodeResult<string>)
    ensures r.Success? <==> j.JString?
    ensures r.Success? ==> r.value == j.s
  {
    if j.JString? then Success(j.s)
    else if j.JEscaped? then Failure("invalid type: string, expected a borrowed string")
    else Failure("invalid type: expected a string")
  }

  /** `String` and `Cow<str>`: any string literal, escaped or not. */
  function DecodeOwned(j: Json): (r: DecodeResult<string>)
    ensures r.Success? <==> IsText(j)
    ensures r.Success? ==> r.value == j.s
  {
    if IsText(j) then Success(j.s) else Failure("invalid type: expected a string")
  }

  /** `u64`: accepted from `visit_u64`; a negative `visit_i64` is out of range. */
  function DecodeU64(j: Json): (r: DecodeResult<nat>)
    ensures r.Success? <==> j.JInt? && 0 <= j.i < U64Limit
    ensures r.Success? ==> r.value == j.i
  {
    if !(j.JInt? || j.JFloat?) then Failure("invalid type: expected u64")
    else match NumberVisitOf(j)
      case VisitU64(u) => Success(u)
      case VisitI64(_) => Failure("invalid value: expected u64")
      case VisitF64 => Failure("invalid type: floating point, expected u64")
  }

  /** `u32`: like `u64`, then narrowed with a range check. */
  function DecodeU32(j: Json): (r: DecodeResult<nat>)
    ensures r.Success? <==> j.JInt? && 0 <= j.i < U32Limit
    ensures r.Success? ==> r.value == j.i
  {
    var u :- DecodeU64(j);
    if u < U32Limit then Success(u) else Failure("invalid value: expected u32")
  }

  /** `i64`: negatives from `visit_i64`, non-negatives from `visit_u64` narrowed. */
  function DecodeI64(j: Json): (r: DecodeResult<int>)
    ensures r.Success? <==> j.JInt? && -I64Limit <= j.i < I64Limit
    ensures r.Success? ==> r.value == j.i
  {
    if !(j.JInt? || j.JFloat?) then Failure("invalid type: expected i64")
    else match NumberVisitOf(j)
      case VisitU64(u) => if u < I64Limit then Success(u) else Failure("invalid value: expected i64")
      case VisitI64(v) => Success(v)
      case VisitF64 => Failure("invalid type: floating point, expected i64")
  }

  /** `Option<T>`: `null` is `None`, anything else must decode as `T`. */
  function DecodeOption<T>(j: Json, d: Json -> DecodeResult<T>): (r: DecodeResult<Option<T>>)
    ensures j.JNull? ==> r == Success(None)
    ensures !j.JNull? ==> (r.Success? <==> d(j).Success?)
    ensures !j.JNull? && r.Success? ==> r.value == Some(d(j).value)
  {
    if j.JNull? then Success(None)
    else
      var v :- d(j);
      Success(Some(v))
  }

  /** `Vec<T>` / `SmallVec<[T; N]>`: a JSON array, element by element. */
  function DecodeSeq<T>(j: Json, d: Json -> DecodeResult<T>): (r: DecodeResult<seq<T>>)
    ensures r.Success? <==> j.JArray? && forall i :: 0 <= i < |j.items| ==> d(j.items[i]).Success?
    ensures r.Success? ==> |r.value| == |j.items|
    ensures r.Success? ==> forall i :: 0 <= i < |j.items| ==> r.value[i] == d(j.items[i]).value
  {
    if j.JArray? then DecodeItems(j.items, d) else Failure("invalid type: expected a sequence")
  }

  function DecodeItems<T>(items: seq<Json>, d: Json -> DecodeResult<T>): (r: DecodeResult<seq<T>>)
    ensures r.Success? <==> forall i :: 0 <= i < |items| ==> d(items[i]).Success?
    ensures r.Success? ==> |r.value| == |items|
    ensures r.Success? ==> forall i :: 0 <= i < |items| ==> r.value[i] == d(items[i]).value
    decreases |items|
  {
    if |items| == 0 then Success([])
    else
      var head :- d(items[0]);
      var tail :- DecodeItems(items[1..], d);
      assert forall i :: 0 < i < |items| ==> items[i] == items[1..][i - 1];
      Success([head] + tail)
  }

  /** `BTreeMap<K, V>` with string keys: a JSON object whose values all decode,
      inserted in document order so that the last of two equal keys wins. */
  function DecodeMap<T>(j: Json, d: Json -> DecodeResult<T>): (r: DecodeResult<SortedMaps.Assoc<T>>)
    ensures r.Success? <==> j.JObject? && forall i :: 0 <= i < |j.members| ==> d(j.members[i].value).Success?
    ensures r.Success? ==> SortedMaps.Sorted(r.value)
    ensures r.Success? ==> SortedMaps.Keys(r.value) == KeySet(j.members)
  {
    if j.JObject? then
      var entries :- DecodeEntries(j.members, d);
      Success(SortedMaps.FromEntries(entries, []))
    else Failure("invalid type: expected a map")
  }

  function DecodeEntries<T>(ms: seq<Member>, d: Json -> DecodeResult<T>): (r: DecodeResult<seq<(string, T)>>)
    ensures r.Success? <==> forall i :: 0 <= i < |ms| ==> d(ms[i].value).Success?
    ensures r.Success? ==> |r.value| == |ms|
    ensures r.Success? ==> forall i :: 0 <= i < |ms| ==> r.value[i] == (ms[i].key, d(ms[i].value).value)
    decreases |ms|
  {
    if |ms| == 0 then Success([])
    else
      var head :- d(ms[0].value);
      var tail :- DecodeEntries(ms[1..], d);
      assert forall i :: 0 < i < |ms| ==> ms[i] == ms[1..][i - 1];
      Success([(ms[0].key, head)] + tail)
  }

  function KeySet(ms: seq<Member>): set<string> {
    set i | 0 <= i < |ms| :: ms[i].key
  }

  /** How many members carry key `k`. */
  function CountKey(ms: seq<Member>, k: string): nat
    decreases |ms|
  {
    if |ms| == 0 then 0
    else (if ms[0].key == k then 1 else 0) + CountKey(ms[1..], k)
  }

  /** The value of the first member with key `k`. */
  function Lookup(ms: seq<Member>, k: string): (r: Option<Json>)
    ensures r.Some? <==> CountKey(ms, k) > 0
    ensures r.Some? ==> exists i :: 0 <= i < |ms| && ms[i] == Member(k, r.value)
    decreases |ms|
  {
    if |ms| == 0 then None
    else if ms[0].key == k then Some(ms[0].value)
    else
      var r := Lookup(ms[1..], k);
      assert forall i :: 0 < i < |ms| ==> ms[i] == ms[1..][i - 1];
      r
  }

  /** A field of a derived struct. Unknown members are ignored; a field named
      twice is the `duplicate field` error; an absent field is reported as `None`. */
  function Field(ms: seq<Member>, name: string): (r: DecodeResult<Option<Json>>)
    ensures r.Failure? <==> CountKey(ms, name) > 1
    ensures r == Success(None) <==> CountKey(ms, name) == 0
    ensures r.Success? && r.value.Some? ==> Lookup(ms, name) == r.value
  {
    if CountKey(ms, name) > 1 then Failure("duplicate field")
    else Success(Lookup(ms, name))
  }

  /** A required field: absent is the `missing field` error. */
  function Required<T>(ms: seq<Member>, name: string, d: Json -> DecodeResult<T>): (r: DecodeResult<T>)
    ensures r.Success? <==> CountKey(ms, name) == 1 && d(Lookup(ms, name).value).Success?
    ensures r.Success? ==> r.value == d(Lookup(ms, name).value).value
  {
    var f :- Field(ms, name);
    if f.None? then Failure("missing field") else d(f.value)
  }

  /** An `Option<T>` field: absent and `null` are both `None`. */
  function Optional<T>(ms: seq<Member>, name: string, d: Json -> DecodeResult<T>): (r: DecodeResult<Option<T>>)
    ensures CountKey(ms, name) == 0 ==> r == Success(None)
    ensures CountKey(ms, name) == 1 ==> r == DecodeOption(Lookup(ms, name).value, d)
    ensures CountKey(ms, name) > 1 ==> r.Failure?
  {
    var f :- Field(ms, name);
    if f.None? then Success(None) else DecodeOption(f.value, d)
  }

  /** The members of a JSON object. A derived struct also reads a JSON
      array, its fields by position; the model reads that form only for the
      structs without fields (`DecodeEmptyStruct`). */
  function Members(j: Json): (r: DecodeResult<seq<Member>>)
    ensures r.Success? <==> j.JObject?
    ensures r.Success? ==> r.value == j.members
  {
    if j.JObject? then Success(j.members) else Failure("invalid type: expected a map")
  }

  /** A derived struct without fields: any object, whatever its members, or
      the empty array (a longer array leaves trailing elements, an error). */
  function DecodeEmptyStruct(j: Json): (r: DecodeResult<()>)
    ensures r.Success? <==> j.JObject? || j == JArray([])
  {
    if j.JObject? || j == JArray([]) then Success(())
    else Failure("invalid type: expected a struct")
  }

  /** When every value the decoder yields has property `p`, so does every
      value of a decoded map. */
  lemma DecodeMapValues<T>(j: Json, d: Json -> DecodeResult<T>, p: T -> bool)
    requires j.JObject?
    requires forall i :: 0 <= i < |j.members| && d(j.members[i].value).Success? ==> p(d(j.members[i].value).value)
    ensures DecodeMap(j, d).Success? ==> SortedMaps.AllValues(DecodeMap(j, d).value, p)
  {
    var es := DecodeEntries(j.members, d);
    if es.Success? {
      SortedMaps.FromEntriesValues(es.value, [], p);
    }
  }

  // ---------------------------------------------------------------------
  // Resolving escapes

  /** The member, if any, with its escapes resolved. */
  function PlainField(f: Option<Json>): (r: Option<Json>)
    ensures r.Some? <==> f.Some?
    ensures f.Some? ==> r.value == Plain(f.value)
  {
    if f.None? then None else Some(Plain(f.value))
  }

  /** A decoder that reads the escape-resolved document exactly as it read
      the original, whenever it accepted the original. */
  ghost predicate KeepsPlain<T>(d: Json -> DecodeResult<T>) {
    forall x {:trigger d(Plain(x))} :: d(x).Success? ==> d(Plain(x)) == d(x)
  }

  /** The same for a decoder of an optional member. */
  ghost predicate KeepsPlainField<T>(d: Option<Json> -> DecodeResult<T>) {
    forall f {:trigger d(PlainField(f))} :: d(f).Success? ==> d(PlainField(f)) == d(f)
  }

  /** The primitive decoders keep their results: a literal they accept
      stays the same literal or, for the owned string, the same text. */
  lemma PrimitivesKeepPlain()
    ensures KeepsPlain(DecodeBool) && KeepsPlain(DecodeString) && KeepsPlain(DecodeOwned)
    ensures KeepsPlain(DecodeU64) && KeepsPlain(DecodeU32) && KeepsPlain(DecodeI64)
  {
  }

  /** Resolving escapes keeps every key, so a key is found as often and at
      the same member. */
  lemma {:induction false} LookupPlain(ms: seq<Member>, k: string)
    ensures CountKey(PlainMembers(ms), k) == CountKey(ms, k)
    ensures Lookup(PlainMembers(ms), k) == PlainField(Lookup(ms, k))
    decreases |ms|
  {
    if |ms| > 0 {
      LookupPlain(ms[1..], k);
      assert PlainMembers(ms)[1..] == PlainMembers(ms[1..]);
    }
  }

  lemma FieldPlain(ms: seq<Member>, name: string)
    ensures Field(PlainMembers(ms), name).Success? <==> Field(ms, name).Success?
    ensures Field(ms, name).Success? ==> Field(PlainMembers(ms), name).value == PlainField(Field(ms, name).value)
  {
    LookupPlain(ms, name);
  }

  lemma RequiredPlain<T>(ms: seq<Member>, name: string, d: Json -> DecodeResult<T>)
    requires KeepsPlain(d)
    ensures Required(ms, name, d).Success? ==> Required(PlainMembers(ms), name, d) == Required(ms, name, d)
  {
    LookupPlain(ms, name);
  }

  lemma OptionalPlain<T>(ms: seq<Member>, name: string, d: Json -> DecodeResult<T>)
    requires KeepsPlain(d)
    ensures Optional(ms, name, d).Success? ==> Optional(PlainMembers(ms), name, d) == Optional(ms, name, d)
  {
    LookupPlain(ms, name);
  }

  lemma {:induction false} ItemsPlain<T>(items: seq<Json>, d: Json -> DecodeResult<T>)
    requires KeepsPlain(d)
    ensures DecodeItems(items, d).Success? ==> DecodeItems(PlainItems(items), d) == DecodeItems(items, d)
    decreases |items|
  {
    if |items| > 0 && DecodeItems(items, d).Success? {
      ItemsPlain(items[1..], d);
      assert PlainItems(items)[1..] == PlainItems(items[1..]);
    }
  }

  /** A sequence of values that each keep their result keeps it too. */
  lemma SeqPlain<T>(j: Json, d: Json -> DecodeResult<T>)
    requires KeepsPlain(d)
    ensures DecodeSeq(j, d).Success? ==> DecodeSeq(Plain(j), d) == DecodeSeq(j, d)
  {
    if j.JArray? {
      ItemsPlain(j.items, d);
    }
  }

  lemma {:induction false} EntriesPlain<T>(ms: seq<Member>, d: Json -> DecodeResult<T>)
    requires KeepsPlain(d)
    ensures DecodeEntries(ms, d).Success? ==> DecodeEntries(PlainMembers(ms), d) == DecodeEntries(ms, d)
    decreases |ms|
  {
    if |ms| > 0 && DecodeEntries(ms, d).Success? {
      EntriesPlain(ms[1..], d);
      assert PlainMembers(ms)[1..] == PlainMembers(ms[1..]);
    }
  }

  /** So does a map of such values: its keys are not touched. */
  lemma MapPlain<T>(j: Json, d: Json -> DecodeResult<T>)
    requires KeepsPlain(d)
    ensures DecodeMap(j, d).Success? ==> DecodeMap(Plain(j), d) == DecodeMap(j, d)
  {
    if j.JObject? {
      EntriesPlain(j.members, d);
    }
  }

  lemma EmptyStructPlain(j: Json)
    ensures DecodeEmptyStruct(j).Success? ==> DecodeEmptyStruct(Plain(j)) == DecodeEmptyStruct(j)
  {
  }
}

=== FILE: matrix_types.dfy ===
/** Matrix identifiers (`matrix_types.rs`): `Id<T>` is a string tagged with
    the kind of thing it names. Validation accepts every string, comparison
    and equality are those of the underlying string, and serialisation is
    transparent. */
module MatrixTypes {
  import opened Wrappers
  import Strings
  import Json
  import CanonicalHash

  /** The marker types `User`, `Device`, `Room`, `Event`, `ServerName`, `Key`. */
  datatype Kind = User | Device | Room | Event | ServerName | Key

  datatype Id = Id(kind: Kind, content: string)

  /** `MatrixId::validate`: no kind overrides the default, which accepts. */
  function Validate(kind: Kind, s: string): (r: Result<(), string>)
    ensures r.Success?
  {
    Success(())
  }

  /** `try_from_str` and `try_boxed_from_str`: validate, then reinterpret the
      string as an identifier of that kind. Borrowing and boxing differ only
      in ownership, which the model does not track. */
  function TryFromStr(kind: Kind, s: string): (r: Result<Id, string>)
    ensures r.Success?
    ensures r.value.kind == kind && AsStr(r.value) == s
  {
    if Validate(kind, s).Failure? then Failure("invalid identifier") else Success(Id(kind, s))
  }

  /** `as_str` / `AsRef<str>`. */
  function AsStr(id: Id): string {
    id.content
  }

  /** An identifier is recovered from its text. */
  lemma FromStrAsStr(id: Id)
    ensures TryFromStr(id.kind, AsStr(id)) == Success(id)
  {
  }

  /** `Ord` / `PartialOrd`: the order of the underlying strings. */
  predicate Lt(a: Id, b: Id)
    requires a.kind == b.kind
  {
    Strings.Lt(AsStr(a), AsStr(b))
  }

  /** Identifiers of one kind are totally ordered, and `PartialEq` agrees
      with the order: two are equal exactly when neither is below the other. */
  lemma {:induction false} OrderIsTotal(a: Id, b: Id)
    requires a.kind == b.kind
    ensures a == b <==> !Lt(a, b) && !Lt(b, a)
    ensures !(Lt(a, b) && Lt(b, a))
  {
    Strings.LtTotal(a.content, b.content);
    Strings.LtIrreflexive(a.content);
    if Lt(a, b) {
      Strings.LtAsymmetric(a.content, b.content);
    }
  }

  /** `Deserialize` for `&Id<T>`: a borrowed string, so a literal without
      escapes, validated. */
  function Deserialize(kind: Kind, j: Json.Json): (r: Json.DecodeResult<Id>)
    ensures r.Success? <==> j.JString?
    ensures r.Success? ==> r.value.kind == kind && AsStr(r.value) == j.s
  {
    var s :- Json.DecodeString(j);
    TryFromStr(kind, s)
  }

  /** `Deserialize` for `Box<Id<T>>`: an owned string, escaped or not,
      validated. */
  function DeserializeBoxed(kind: Kind, j: Json.Json): (r: Json.DecodeResult<Id>)
    ensures r.Success? <==> Json.IsText(j)
    ensures r.Success? ==> r.value.kind == kind && AsStr(r.value) == j.s
  {
    var s :- Json.DecodeOwned(j);
    TryFromStr(kind, s)
  }

  /** `#[serde(transparent)]` serialisation: the identifier's string. */
  function ToValue(id: Id): CanonicalHash.Value {
    CanonicalHash.String(id.content)
  }

  /** What is written reads back as the same identifier through `Box<Id<T>>`
      always, and through `&Id<T>` exactly when the text needs no escape. */
  lemma DeserializeToValue(id: Id)
    ensures DeserializeBoxed(id.kind, CanonicalHash.Write(ToValue(id))) == Success(id)
    ensures Deserialize(id.kind, CanonicalHash.Write(ToValue(id))).Success? <==> !Json.NeedsEscape(AsStr(id))
    ensures !Json.NeedsEscape(AsStr(id)) ==> Deserialize(id.kind, CanonicalHash.Write(ToValue(id))) == Success(id)
  {
  }

  /** The server part of a user id such as `@alice:example.org`: the text
      after the first ':', or the empty string when there is none. The real
      `server_name()` is not part of this model; this is its usual meaning. */
  function ServerNameOf(user: string): (r: string)
    ensures ':' in user ==> exists i :: 0 <= i < |user| && user[i] == ':' && ':' !in user[..i] && r == user[i + 1..]
    ensures ':' !in user ==> r == ""
  {
    match ColonIndex(user)
    case None => ""
    case Some(i) => user[i + 1..]
  }

  /** Position of the first ':'. */
  function ColonIndex(s: string): (r: Option<nat>)
    ensures r.Some? ==> r.value < |s| && s[r.value] == ':' && ':' !in s[..r.value]
    ensures r.None? ==> ':' !in s
    decreases |s|
  {
    if |s| == 0 then None
    else if s[0] == ':' then Some(0)
    else
      assert s == [s[0]] + s[1..];
      match ColonIndex(s[1..])
      case None => None
      case Some(i) =>
        assert s[..i + 1] == [s[0]] + s[1..][..i];
        Some(i + 1)
  }
}

=== FILE: pdu_arc.dfy ===
/** The interned PDU of `pdu_arc.rs`. `PDUArc::from_pdu_ref` copies a parsed
    PDU, replacing every identifier and string by the interner's shared handle
    for it. The interner is threaded through the conversion: each field takes
    the interner the previous field left, in the order the struct literal
    lists them.

    Maps keep their order: each is built from an already ordered map, and
    handles order by content, so the sequence of pairs is the same. */
module PduArc {
  import opened Wrappers
  import SortedMaps
  import opened Interner
  import PduRef

  type Pdu = PduRef.Pdu

  /** A map whose keys are interned, in key order. */
  type ArcAssoc<V> = seq<(Handle, V)>

  datatype ArcAliases = Single(alias: Handle) | Multiple(aliases: seq<Handle>)

  datatype ArcContent =
    | Member(membership: Handle)
    | Create(creator: Handle)
    | JoinRules(joinRule: Handle)
    | PowerLevels(ban: int, events: ArcAssoc<int>, eventsDefault: int, kick: int, redact: int,
                  stateDefault: int, users: ArcAssoc<int>, usersDefault: int)
    | HistoryVisibility(historyVisibility: Handle)
    | RoomAliases(aliases: ArcAliases)
    | Other

  /** `pdu_arc::AnyState`. The `Other` key keeps the source's option. */
  datatype ArcState = UserId(user: Handle) | ServerName(server: Handle) | Empty | OtherKey(key: Option<string>)

  /** `pdu_arc::Signatures`: server handle → key handle → signature. */
  type ArcSignatures = ArcAssoc<ArcAssoc<string>>

  datatype PduArc = PduArc(
    authEvents: seq<Handle>,
    content: ArcContent,
    depth: nat,
    hashes: Option<ArcAssoc<string>>,
    origin: Option<Handle>,
    originServerTs: nat,
    prevEvents: seq<Handle>,
    prevState: Option<seq<Handle>>,
    roomId: Handle,
    sender: Handle,
    signatures: Option<ArcSignatures>,
    stateKey: ArcState,
    pduType: Handle
  )

  // ---------------------------------------------------------------------
  // Reading the strings back out of the handles

  function EraseSeq(hs: seq<Handle>): (r: seq<string>)
    ensures |r| == |hs| && forall k :: 0 <= k < |hs| ==> r[k] == hs[k].content
  {
    seq(|hs|, k requires 0 <= k < |hs| => hs[k].content)
  }

  function EraseKeys<V>(m: ArcAssoc<V>): (r: SortedMaps.Assoc<V>)
    ensures |r| == |m| && forall k :: 0 <= k < |m| ==> r[k] == (m[k].0.content, m[k].1)
  {
    seq(|m|, k requires 0 <= k < |m| => (m[k].0.content, m[k].1))
  }

  function EraseSignatures(s: ArcSignatures): (r: PduRef.Signatures)
    ensures |r| == |s| && forall k :: 0 <= k < |s| ==> r[k] == (s[k].0.content, EraseKeys(s[k].1))
  {
    seq(|s|, k requires 0 <= k < |s| => (s[k].0.content, EraseKeys(s[k].1)))
  }

  function EraseAliases(a: ArcAliases): PduRef.RoomAliasesList {
    match a
    case Single(h) => PduRef.Single(h.content)
    case Multiple(hs) => PduRef.Multiple(EraseSeq(hs))
  }

  function EraseContent(c: ArcContent): PduRef.AnyContent {
    match c
    case Member(h) => PduRef.Member(h.content)
    case Create(h) => PduRef.Create(h.content)
    case JoinRules(h) => PduRef.JoinRules(h.content)
    case PowerLevels(ban, events, eventsDefault, kick, redact, stateDefault, users, usersDefault) =>
      PduRef.PowerLevels(PduRef.PowerLevelsContent(ban, EraseKeys(events), eventsDefault, kick, redact,
                                                   stateDefault, EraseKeys(users), usersDefault))
    case HistoryVisibility(h) => PduRef.HistoryVisibility(h.content)
    case RoomAliases(a) => PduRef.RoomAliases(EraseAliases(a))
    case Other => PduRef.Other
  }

  function EraseState(s: ArcState): PduRef.AnyState {
    match s
    case UserId(h) => PduRef.UserId(h.content)
    case ServerName(h) => PduRef.ServerName(h.content)
    case Empty => PduRef.Empty
    case OtherKey(k) => PduRef.OtherKey(k)
  }

  /** The PDU an interned PDU stands for. */
  function Erase(a: PduArc): Pdu {
    PduRef.PduOf(
      EraseSeq(a.authEvents), EraseContent(a.content), a.depth,
      if a.hashes.Some? then Some(EraseKeys(a.hashes.value)) else None,
      if a.origin.Some? then Some(a.origin.value.content) else None,
      a.originServerTs, EraseSeq(a.prevEvents),
      if a.prevState.Some? then Some(EraseSeq(a.prevState.value)) else None,
      a.roomId.content, a.sender.content,
      if a.signatures.Some? then Some(EraseSignatures(a.signatures.value)) else None,
      EraseState(a.stateKey), a.pduType.content)
  }

  // ---------------------------------------------------------------------
  // Which interner holds each handle

  ghost predicate HeldSeq(i: Interner, slot: Slot, hs: seq<Handle>) {
    forall k :: 0 <= k < |hs| ==> Holds(Typed(i, slot), hs[k])
  }

  ghost predicate HeldKeys<V>(i: Interner, slot: Slot, m: ArcAssoc<V>) {
    forall k :: 0 <= k < |m| ==> Holds(Typed(i, slot), m[k].0)
  }

  ghost predicate HeldSignatures(i: Interner, s: ArcSignatures) {
    forall k :: 0 <= k < |s| ==> Holds(Typed(i, ServerNames), s[k].0) && HeldKeys(i, Keys, s[k].1)
  }

  ghost predicate HeldContent(i: Interner, c: ArcContent) {
    match c
    case Member(h) => Holds(Typed(i, Strs), h)
    case Create(h) => Holds(Typed(i, Strs), h)
    case JoinRules(h) => Holds(Typed(i, Strs), h)
    case PowerLevels(_, events, _, _, _, _, users, _) => HeldKeys(i, Strs, events) && HeldKeys(i, Users, users)
    case HistoryVisibility(h) => Holds(Typed(i, Strs), h)
    case RoomAliases(Single(h)) => Holds(Typed(i, Strs), h)
    case RoomAliases(Multiple(hs)) => HeldSeq(i, Strs, hs)
    case Other => true
  }

  ghost predicate HeldState(i: Interner, s: ArcState) {
    match s
    case UserId(h) => Holds(Typed(i, Users), h)
    case ServerName(h) => Holds(Typed(i, ServerNames), h)
    case _ => true
  }

  /** Every handle of the PDU is the one its typed interner holds for its
      content: event ids in the event interner, users in the user interner,
      and so on, free strings in the string interner. */
  ghost predicate HeldBy(i: Interner, a: PduArc) {
    && HeldSeq(i, Events, a.authEvents)
    && HeldContent(i, a.content)
    && (a.hashes.Some? ==> HeldKeys(i, Strs, a.hashes.value))
    && (a.origin.Some? ==> Holds(Typed(i, ServerNames), a.origin.value))
    && HeldSeq(i, Events, a.prevEvents)
    && (a.prevState.Some? ==> HeldSeq(i, Events, a.prevState.value))
    && Holds(Typed(i, Rooms), a.roomId)
    && Holds(Typed(i, Users), a.sender)
    && (a.signatures.Some? ==> HeldSignatures(i, a.signatures.value))
    && HeldState(i, a.stateKey)
    && Holds(Typed(i, Strs), a.pduType)
  }

  /** A handle stays held as the interner grows. */
  lemma HoldsLater(a: Interner, b: Interner, slot: Slot, h: Handle)
    requires Extends(a, b) && Holds(Typed(a, slot), h)
    ensures Holds(Typed(b, slot), h)
  {
  }

  lemma HeldContentLater(a: Interner, b: Interner, c: ArcContent)
    requires Extends(a, b) && HeldContent(a, c)
    ensures HeldContent(b, c)
  {
  }

  lemma HeldSignaturesLater(a: Interner, b: Interner, s: ArcSignatures)
    requires Extends(a, b) && HeldSignatures(a, s)
    ensures HeldSignatures(b, s)
  {
    forall k | 0 <= k < |s| ensures Holds(Typed(b, ServerNames), s[k].0) && HeldKeys(b, Keys, s[k].1) {
      HoldsLater(a, b, ServerNames, s[k].0);
    }
  }

  /** What a grown interner adds does not take handles away. */
  lemma HeldByLater(a: Interner, b: Interner, p: PduArc)
    requires Extends(a, b) && HeldBy(a, p)
    ensures HeldBy(b, p)
  {
    HeldContentLater(a, b, p.content);
    if p.signatures.Some? {
      HeldSignaturesLater(a, b, p.signatures.value);
    }
  }

  // ---------------------------------------------------------------------
  // Interning the fields

  /** An interner with room for `n` more strings in each typed interner. */
  ghost predicate Room(i: Interner, n: nat) {
    forall slot :: Typed(i, slot).nextId + n <= UsizeMax
  }

  /** The interner grew by at most `n` strings in each typed interner. */
  ghost predicate Grew(a: Interner, b: Interner, n: nat) {
    forall slot :: Typed(b, slot).nextId <= Typed(a, slot).nextId + n
  }

  lemma RoomLeft(a: Interner, b: Interner, used: nat, left: nat)
    requires Room(a, used + left) && Grew(a, b, used)
    ensures Room(b, left)
  {
  }

  /** `get_or_insert` on one string succeeds when there is room for it. */
  lemma InternOne(i: Interner, slot: Slot, s: string)
    requires Room(i, 1)
    ensures GetOrInsert(i, slot, s).Success?
  {
  }

  /** `get_or_insert` adds at most one string, to its own typed interner. */
  lemma InternGrows(i: Interner, slot: Slot, s: string)
    requires GetOrInsert(i, slot, s).Success?
    ensures Grew(i, GetOrInsert(i, slot, s).value.0, 1)
    ensures Extends(i, GetOrInsert(i, slot, s).value.0)
  {
    GetOrInsertExtends(i, slot, s);
  }

  /** `.iter().map(|x| interner.get_or_insert(x)).collect()`: the handles in
      order, one per element; the first failure stops it. */
  function InternSeq(i: Interner, slot: Slot, xs: seq<string>): (r: Result<(Interner, seq<Handle>), string>)
    ensures r.Success? ==> EraseSeq(r.value.1) == xs
    ensures r.Success? ==> Extends(i, r.value.0) && HeldSeq(r.value.0, slot, r.value.1)
    ensures r.Success? && ValidInterner(i) ==> ValidInterner(r.value.0)
    ensures r.Success? ==> Grew(i, r.value.0, |xs|)
    ensures r.Failure? ==> r.error == LimitMessage
    decreases |xs|
  {
    if |xs| == 0 then Success((i, []))
    else
      var (i1, h) :- GetOrInsert(i, slot, xs[0]);
      InternGrows(i, slot, xs[0]);
      var (i2, hs) :- InternSeq(i1, slot, xs[1..]);
      HoldsLater(i1, i2, slot, h);
      ExtendsTransitive(i, i1, i2);
      assert EraseSeq([h] + hs) == xs;
      Success((i2, [h] + hs))
  }

  /** With room for every element, interning a sequence succeeds. */
  lemma {:induction false} InternSeqSucceeds(i: Interner, slot: Slot, xs: seq<string>)
    requires Room(i, |xs|)
    ensures InternSeq(i, slot, xs).Success?
    decreases |xs|
  {
    if |xs| > 0 {
      InternOne(i, slot, xs[0]);
      var i1 := GetOrInsert(i, slot, xs[0]).value.0;
      InternGrows(i, slot, xs[0]);
      RoomLeft(i, i1, 1, |xs| - 1);
      InternSeqSucceeds(i1, slot, xs[1..]);
    }
  }

  /** A map's keys interned in order, each paired with its value. */
  function InternKeys<V>(i: Interner, slot: Slot, m: SortedMaps.Assoc<V>): (r: Result<(Interner, ArcAssoc<V>), string>)
    ensures r.Success? ==> EraseKeys(r.value.1) == m
    ensures r.Success? ==> Extends(i, r.value.0) && HeldKeys(r.value.0, slot, r.value.1)
    ensures r.Success? && ValidInterner(i) ==> ValidInterner(r.value.0)
    ensures r.Success? ==> Grew(i, r.value.0, |m|)
    ensures r.Failure? ==> r.error == LimitMessage
  {
    var keys := seq(|m|, k requires 0 <= k < |m| => m[k].0);
    var (i1, hs) :- InternSeq(i, slot, keys);
    var r := seq(|m|, k requires 0 <= k < |m| => (hs[k], m[k].1));
    assert forall k :: 0 <= k < |m| ==> EraseKeys(r)[k] == m[k];
    Success((i1, r))
  }

  /** With room for every key, interning a map succeeds. */
  lemma InternKeysSucceeds<V>(i: Interner, slot: Slot, m: SortedMaps.Assoc<V>)
    requires Room(i, |m|)
    ensures InternKeys(i, slot, m).Success?
  {
    InternSeqSucceeds(i, slot, seq(|m|, k requires 0 <= k < |m| => m[k].0));
  }

  /** How many strings a signature map interns: each server and its keys. */
  function SignaturesSize(s: PduRef.Signatures): nat {
    if |s| == 0 then 0 else 1 + |s[0].1| + SignaturesSize(s[1..])
  }

  /** One server's entry: its name, then its key ids. */
  function InternServer(i: Interner, e: (string, SortedMaps.Assoc<string>)): (r: Result<(Interner, (Handle, ArcAssoc<string>)), string>)
    ensures r.Success? ==> r.value.1.0.content == e.0 && EraseKeys(r.value.1.1) == e.1
    ensures r.Success? ==> Extends(i, r.value.0)
    ensures r.Success? ==> Holds(Typed(r.value.0, ServerNames), r.value.1.0) && HeldKeys(r.value.0, Keys, r.value.1.1)
    ensures r.Success? && ValidInterner(i) ==> ValidInterner(r.value.0)
    ensures r.Success? ==> Grew(i, r.value.0, 1 + |e.1|)
    ensures r.Failure? ==> r.error == LimitMessage
  {
    var (i1, server) :- GetOrInsert(i, ServerNames, e.0);
    InternGrows(i, ServerNames, e.0);
    var (i2, keys) :- InternKeys(i1, Keys, e.1);
    HoldsLater(i1, i2, ServerNames, server);
    ExtendsTransitive(i, i1, i2);
    Success((i2, (server, keys)))
  }

  /** The signature map, server by server in order. */
  function InternSignatures(i: Interner, s: PduRef.Signatures): (r: Result<(Interner, ArcSignatures), string>)
    ensures r.Success? ==> EraseSignatures(r.value.1) == s
    ensures r.Success? ==> Extends(i, r.value.0) && HeldSignatures(r.value.0, r.value.1)
    ensures r.Success? && ValidInterner(i) ==> ValidInterner(r.value.0)
    ensures r.Success? ==> Grew(i, r.value.0, SignaturesSize(s))
    ensures r.Failure? ==> r.error == LimitMessage
    decreases |s|
  {
    if |s| == 0 then Success((i, []))
    else
      var (i1, entry) :- InternServer(i, s[0]);
      var (i2, rest) :- InternSignatures(i1, s[1..]);
      SignaturesCons(i, i1, i2, s, entry, rest);
      var r := [entry] + rest;
      Success((i2, r))
  }

  /** One server's entry in front of the rest of the map. */
  lemma SignaturesCons(i: Interner, i1: Interner, i2: Interner, s: PduRef.Signatures,
                       entry: (Handle, ArcAssoc<string>), rest: ArcSignatures)
    requires |s| > 0 && entry.0.content == s[0].0 && EraseKeys(entry.1) == s[0].1
    requires Extends(i, i1) && Holds(Typed(i1, ServerNames), entry.0) && HeldKeys(i1, Keys, entry.1)
    requires Grew(i, i1, 1 + |s[0].1|)
    requires EraseSignatures(rest) == s[1..] && Extends(i1, i2) && HeldSignatures(i2, rest)
    requires Grew(i1, i2, SignaturesSize(s[1..]))
    ensures EraseSignatures([entry] + rest) == s
    ensures Extends(i, i2) && HeldSignatures(i2, [entry] + rest)
    ensures Grew(i, i2, SignaturesSize(s))
  {
    var r := [entry] + rest;
    HoldsLater(i1, i2, ServerNames, entry.0);
    forall k | 0 <= k < |entry.1| ensures Holds(Typed(i2, Keys), entry.1[k].0) {
      HoldsLater(i1, i2, Keys, entry.1[k].0);
    }
    ExtendsTransitive(i, i1, i2);
    assert EraseSignatures(r)[0] == s[0];
    assert forall k :: 1 <= k < |r| ==> EraseSignatures(r)[k] == EraseSignatures(rest)[k - 1];
  }

  /** How many strings a content interns. */
  function ContentSize(c: PduRef.AnyContent): nat {
    match c
    case PowerLevels(l) => |l.events| + |l.users|
    case RoomAliases(Multiple(xs)) => |xs|
    case Other => 0
    case _ => 1
  }

  /** `get_or_insert` of one string, with what the callers need of it. */
  function InternOneOf(i: Interner, slot: Slot, x: string): (r: Result<(Interner, Handle), string>)
    ensures r.Success? ==> r.value.1.content == x
    ensures r.Success? ==> Extends(i, r.value.0) && Holds(Typed(r.value.0, slot), r.value.1)
    ensures r.Success? && ValidInterner(i) ==> ValidInterner(r.value.0)
    ensures r.Success? ==> Grew(i, r.value.0, 1)
    ensures r.Failure? ==> r.error == LimitMessage
    ensures Room(i, 1) ==> r.Success?
  {
    var r := GetOrInsert(i, slot, x);
    if r.Success? then InternGrows(i, slot, x); r else r
  }

  /** The power levels: event types and user ids interned, levels copied. */
  function LevelsFromRef(i: Interner, l: PduRef.PowerLevelsContent): (r: Result<(Interner, ArcContent), string>)
    ensures r.Success? ==> EraseContent(r.value.1) == PduRef.PowerLevels(l)
    ensures r.Success? ==> Extends(i, r.value.0) && HeldContent(r.value.0, r.value.1)
    ensures r.Success? && ValidInterner(i) ==> ValidInterner(r.value.0)
    ensures r.Success? ==> Grew(i, r.value.0, |l.events| + |l.users|)
    ensures r.Failure? ==> r.error == LimitMessage
  {
    var (i1, events) :- InternKeys(i, Strs, l.events);
    var (i2, users) :- InternKeys(i1, Users, l.users);
    ExtendsTransitive(i, i1, i2);
    forall k | 0 <= k < |events| ensures Holds(Typed(i2, Strs), events[k].0) {
      HoldsLater(i1, i2, Strs, events[k].0);
    }
    Success((i2, PowerLevels(l.ban, events, l.eventsDefault, l.kick, l.redact, l.stateDefault, users, l.usersDefault)))
  }

  /** `RoomAliasesList::from_ref`: one alias or a list, interned. */
  function AliasesFromRef(i: Interner, a: PduRef.RoomAliasesList): (r: Result<(Interner, ArcAliases), string>)
    ensures r.Success? ==> EraseAliases(r.value.1) == a
    ensures r.Success? ==> Extends(i, r.value.0) && HeldContent(r.value.0, RoomAliases(r.value.1))
    ensures r.Success? && ValidInterner(i) ==> ValidInterner(r.value.0)
    ensures r.Success? ==> Grew(i, r.value.0, ContentSize(PduRef.RoomAliases(a)))
    ensures r.Failure? ==> r.error == LimitMessage
  {
    match a
    case Single(alias) =>
      var (i1, h) :- InternOneOf(i, Strs, alias);
      Success((i1, Single(h)))
    case Multiple(aliases) =>
      var (i1, hs) :- InternSeq(i, Strs, aliases);
      Success((i1, Multiple(hs)))
  }

  /** `AnyContent::from_ref`: the same variant, its strings interned and its
      integers copied. */
  function ContentFromRef(i: Interner, c: PduRef.AnyContent): (r: Result<(Interner, ArcContent), string>)
    ensures r.Success? ==> EraseContent(r.value.1) == c
    ensures r.Success? ==> Extends(i, r.value.0) && HeldContent(r.value.0, r.value.1)
    ensures r.Success? && ValidInterner(i) ==> ValidInterner(r.value.0)
    ensures r.Success? ==> Grew(i, r.value.0, ContentSize(c))
    ensures r.Failure? ==> r.error == LimitMessage
  {
    match c
    case Member(m) =>
      var (i1, h) :- InternOneOf(i, Strs, m);
      Success((i1, Member(h)))
    case Create(creator) =>
      var (i1, h) :- InternOneOf(i, Strs, creator);
      Success((i1, Create(h)))
    case JoinRules(rule) =>
      var (i1, h) :- InternOneOf(i, Strs, rule);
      Success((i1, JoinRules(h)))
    case PowerLevels(l) => LevelsFromRef(i, l)
    case HistoryVisibility(v) =>
      var (i1, h) :- InternOneOf(i, Strs, v);
      Success((i1, HistoryVisibility(h)))
    case RoomAliases(a) =>
      var (i1, aliases) :- AliasesFromRef(i, a);
      Success((i1, RoomAliases(aliases)))
    case Other => Success((i, Other))
  }

  /** How many strings a state key interns. */
  function StateSize(s: PduRef.AnyState): nat {
    if s.UserId? || s.ServerName? then 1 else 0
  }

  /** `AnyState::from_ref`: the same variant, an identifier interned. */
  function StateFromRef(i: Interner, s: PduRef.AnyState): (r: Result<(Interner, ArcState), string>)
    ensures r.Success? ==> EraseState(r.value.1) == s
    ensures r.Success? ==> Extends(i, r.value.0) && HeldState(r.value.0, r.value.1)
    ensures r.Success? && ValidInterner(i) ==> ValidInterner(r.value.0)
    ensures r.Success? ==> Grew(i, r.value.0, StateSize(s))
    ensures r.Failure? ==> r.error == LimitMessage
  {
    match s
    case UserId(u) =>
      var (i1, h) :- InternOneOf(i, Users, u);
      Success((i1, UserId(h)))
    case ServerName(n) =>
      var (i1, h) :- InternOneOf(i, ServerNames, n);
      Success((i1, ServerName(h)))
    case Empty => Success((i, Empty))
    case OtherKey(k) => Success((i, OtherKey(k)))
  }

  // ---------------------------------------------------------------------
  // Optional fields: `Option::map` of the conversion

  function InternOptionSeq(i: Interner, xs: Option<seq<string>>): (r: Result<(Interner, Option<seq<Handle>>), string>)
    ensures r.Success? ==> r.value.1.Some? == xs.Some? && (xs.Some? ==> EraseSeq(r.value.1.value) == xs.value)
    ensures r.Success? ==> Extends(i, r.value.0) && (r.value.1.Some? ==> HeldSeq(r.value.0, Events, r.value.1.value))
    ensures r.Success? && ValidInterner(i) ==> ValidInterner(r.value.0)
    ensures r.Success? ==> Grew(i, r.value.0, if xs.Some? then |xs.value| else 0)
    ensures r.Failure? ==> r.error == LimitMessage
  {
    if xs.None? then Success((i, None))
    else
      var (i1, hs) :- InternSeq(i, Events, xs.value);
      Success((i1, Some(hs)))
  }

  function InternOptionKeys(i: Interner, m: Option<SortedMaps.Assoc<string>>): (r: Result<(Interner, Option<ArcAssoc<string>>), string>)
    ensures r.Success? ==> r.value.1.Some? == m.Some? && (m.Some? ==> EraseKeys(r.value.1.value) == m.value)
    ensures r.Success? ==> Extends(i, r.value.0) && (r.value.1.Some? ==> HeldKeys(r.value.0, Strs, r.value.1.value))
    ensures r.Success? && ValidInterner(i) ==> ValidInterner(r.value.0)
    ensures r.Success? ==> Grew(i, r.value.0, if m.Some? then |m.value| else 0)
    ensures r.Failure? ==> r.error == LimitMessage
  {
    if m.None? then Success((i, None))
    else
      var (i1, hs) :- InternKeys(i, Strs, m.value);
      Success((i1, Some(hs)))
  }

  function InternOptionOne(i: Interner, x: Option<string>): (r: Result<(Interner, Option<Handle>), string>)
    ensures r.Success? ==> r.value.1.Some? == x.Some? && (x.Some? ==> r.value.1.value.content == x.value)
    ensures r.Success? ==> Extends(i, r.value.0) && (r.value.1.Some? ==> Holds(Typed(r.value.0, ServerNames), r.value.1.value))
    ensures r.Success? && ValidInterner(i) ==> ValidInterner(r.value.0)
    ensures r.Success? ==> Grew(i, r.value.0, if x.Some? then 1 else 0)
    ensures r.Failure? ==> r.error == LimitMessage
  {
    if x.None? then Success((i, None))
    else
      var (i1, h) :- InternOneOf(i, ServerNames, x.value);
      Success((i1, Some(h)))
  }

  function InternOptionSignatures(i: Interner, s: Option<PduRef.Signatures>): (r: Result<(Interner, Option<ArcSignatures>), string>)
    ensures r.Success? ==> r.value.1.Some? == s.Some? && (s.Some? ==> EraseSignatures(r.value.1.value) == s.value)
    ensures r.Success? ==> Extends(i, r.value.0) && (r.value.1.Some? ==> HeldSignatures(r.value.0, r.value.1.value))
    ensures r.Success? && ValidInterner(i) ==> ValidInterner(r.value.0)
    ensures r.Success? ==> Grew(i, r.value.0, if s.Some? then SignaturesSize(s.value) else 0)
    ensures r.Failure? ==> r.error == LimitMessage
  {
    if s.None? then Success((i, None))
    else
      var (i1, hs) :- InternSignatures(i, s.value);
      Success((i1, Some(hs)))
  }

  // ---------------------------------------------------------------------
  // `PDUArc::from_pdu_ref`, in three stages of the struct literal

  function OptionSize<T>(o: Option<T>, size: T -> nat): nat {
    if o.Some? then size(o.value) else 0
  }

  function SeqSize(xs: seq<string>): nat { |xs| }

  function KeysSize(m: SortedMaps.Assoc<string>): nat { |m| }

  function OneSize(x: string): nat { 1 }

  /** The most strings a conversion can add to any one typed interner. */
  function Size(p: Pdu): nat {
    |p.authEvents| + ContentSize(p.content) + OptionSize(p.hashes, KeysSize) + OptionSize(p.origin, OneSize)
    + |p.prevEvents| + OptionSize(p.prevState, SeqSize) + 2
    + OptionSize(p.signatures, SignaturesSize) + StateSize(p.stateKey) + 1
  }

  /** `auth_events`, `content`, `hashes`, `origin`. */
  datatype Front = Front(authEvents: seq<Handle>, content: ArcContent, hashes: Option<ArcAssoc<string>>, origin: Option<Handle>)

  ghost predicate FrontOf(f: Front, p: Pdu) {
    && EraseSeq(f.authEvents) == p.authEvents
    && EraseContent(f.content) == p.content
    && f.hashes.Some? == p.hashes.Some? && (p.hashes.Some? ==> EraseKeys(f.hashes.value) == p.hashes.value)
    && f.origin.Some? == p.origin.Some? && (p.origin.Some? ==> f.origin.value.content == p.origin.value)
  }

  ghost predicate HeldFront(i: Interner, f: Front) {
    && HeldSeq(i, Events, f.authEvents)
    && HeldContent(i, f.content)
    && (f.hashes.Some? ==> HeldKeys(i, Strs, f.hashes.value))
    && (f.origin.Some? ==> Holds(Typed(i, ServerNames), f.origin.value))
  }

  function FrontSize(p: Pdu): nat {
    |p.authEvents| + ContentSize(p.content) + OptionSize(p.hashes, KeysSize) + OptionSize(p.origin, OneSize)
  }

  function FrontFromRef(i: Interner, p: Pdu): (r: Result<(Interner, Front), string>)
    ensures r.Success? ==> FrontOf(r.value.1, p)
    ensures r.Success? ==> Extends(i, r.value.0) && HeldFront(r.value.0, r.value.1)
    ensures r.Success? && ValidInterner(i) ==> ValidInterner(r.value.0)
    ensures r.Success? ==> Grew(i, r.value.0, FrontSize(p))
    ensures r.Failure? ==> r.error == LimitMessage
  {
    var (i1, auth) :- InternSeq(i, Events, p.authEvents);
    var (i2, content) :- ContentFromRef(i1, p.content);
    var (i3, hashes) :- InternOptionKeys(i2, p.hashes);
    var (i4, origin) :- InternOptionOne(i3, p.origin);
    var f := Front(auth, content, hashes, origin);
    FrontHeld(i, i1, i2, i3, i4, p, f);
    Success((i4, f))
  }

  lemma FrontHeld(i: Interner, i1: Interner, i2: Interner, i3: Interner, i4: Interner, p: Pdu, f: Front)
    requires Extends(i, i1) && Extends(i1, i2) && Extends(i2, i3) && Extends(i3, i4)
    requires HeldSeq(i1, Events, f.authEvents) && HeldContent(i2, f.content)
    requires f.hashes.Some? ==> HeldKeys(i3, Strs, f.hashes.value)
    requires f.origin.Some? ==> Holds(Typed(i4, ServerNames), f.origin.value)
    requires Grew(i, i1, |p.authEvents|) && Grew(i1, i2, ContentSize(p.content))
    requires Grew(i2, i3, OptionSize(p.hashes, KeysSize)) && Grew(i3, i4, OptionSize(p.origin, OneSize))
    ensures Extends(i, i4) && HeldFront(i4, f) && Grew(i, i4, FrontSize(p))
  {
    ExtendsTransitive(i, i1, i2);
    ExtendsTransitive(i, i2, i3);
    ExtendsTransitive(i, i3, i4);
    ExtendsTransitive(i1, i2, i3);
    ExtendsTransitive(i1, i3, i4);
    ExtendsTransitive(i2, i3, i4);
    HeldSeqLater(i1, i4, Events, f.authEvents);
    HeldContentLater(i2, i4, f.content);
    if f.hashes.Some? {
      HeldKeysLater(i3, i4, Strs, f.hashes.value);
    }
  }

  lemma HeldSeqLater(a: Interner, b: Interner, slot: Slot, hs: seq<Handle>)
    requires Extends(a, b) && HeldSeq(a, slot, hs)
    ensures HeldSeq(b, slot, hs)
  {
    forall k | 0 <= k < |hs| ensures Holds(Typed(b, slot), hs[k]) {
      HoldsLater(a, b, slot, hs[k]);
    }
  }

  lemma HeldKeysLater<V>(a: Interner, b: Interner, slot: Slot, m: ArcAssoc<V>)
    requires Extends(a, b) && HeldKeys(a, slot, m)
    ensures HeldKeys(b, slot, m)
  {
    forall k | 0 <= k < |m| ensures Holds(Typed(b, slot), m[k].0) {
      HoldsLater(a, b, slot, m[k].0);
    }
  }

  /** `prev_events`, `prev_state`, `room_id`, `sender`. */
  datatype Middle = Middle(prevEvents: seq<Handle>, prevState: Option<seq<Handle>>, roomId: Handle, sender: Handle)

  ghost predicate MiddleOf(m: Middle, p: Pdu) {
    && EraseSeq(m.prevEvents) == p.prevEvents
    && m.prevState.Some? == p.prevState.Some? && (p.prevState.Some? ==> EraseSeq(m.prevState.value) == p.prevState.value)
    && m.roomId.content == p.roomId
    && m.sender.content == p.sender
  }

  ghost predicate HeldMiddle(i: Interner, m: Middle) {
    && HeldSeq(i, Events, m.prevEvents)
    && (m.prevState.Some? ==> HeldSeq(i, Events, m.prevState.value))
    && Holds(Typed(i, Rooms), m.roomId)
    && Holds(Typed(i, Users), m.sender)
  }

  function MiddleSize(p: Pdu): nat {
    |p.prevEvents| + OptionSize(p.prevState, SeqSize) + 2
  }

  function MiddleFromRef(i: Interner, p: Pdu): (r: Result<(Interner, Middle), string>)
    ensures r.Success? ==> MiddleOf(r.value.1, p)
    ensures r.Success? ==> Extends(i, r.value.0) && HeldMiddle(r.value.0, r.value.1)
    ensures r.Success? && ValidInterner(i) ==> ValidInterner(r.value.0)
    ensures r.Success? ==> Grew(i, r.value.0, MiddleSize(p))
    ensures r.Failure? ==> r.error == LimitMessage
  {
    var (i1, prev) :- InternSeq(i, Events, p.prevEvents);
    var (i2, prevState) :- InternOptionSeq(i1, p.prevState);
    var (i3, room) :- InternOneOf(i2, Rooms, p.roomId);
    var (i4, sender) :- InternOneOf(i3, Users, p.sender);
    var m := Middle(prev, prevState, room, sender);
    MiddleHeld(i, i1, i2, i3, i4, p, m);
    Success((i4, m))
  }

  lemma MiddleHeld(i: Interner, i1: Interner, i2: Interner, i3: Interner, i4: Interner, p: Pdu, m: Middle)
    requires Extends(i, i1) && Extends(i1, i2) && Extends(i2, i3) && Extends(i3, i4)
    requires HeldSeq(i1, Events, m.prevEvents)
    requires m.prevState.Some? ==> HeldSeq(i2, Events, m.prevState.value)
    requires Holds(Typed(i3, Rooms), m.roomId) && Holds(Typed(i4, Users), m.sender)
    requires Grew(i, i1, |p.prevEvents|) && Grew(i1, i2, OptionSize(p.prevState, SeqSize))
    requires Grew(i2, i3, 1) && Grew(i3, i4, 1)
    ensures Extends(i, i4) && HeldMiddle(i4, m) && Grew(i, i4, MiddleSize(p))
  {
    ExtendsTransitive(i, i1, i2);
    ExtendsTransitive(i, i2, i3);
    ExtendsTransitive(i, i3, i4);
    ExtendsTransitive(i1, i2, i3);
    ExtendsTransitive(i1, i3, i4);
    ExtendsTransitive(i2, i3, i4);
    HeldSeqLater(i1, i4, Events, m.prevEvents);
    if m.prevState.Some? {
      HeldSeqLater(i2, i4, Events, m.prevState.value);
    }
    HoldsLater(i3, i4, Rooms, m.roomId);
  }

  /** `signatures`, `state_key`, `pdu_type`. */
  datatype Back = Back(signatures: Option<ArcSignatures>, stateKey: ArcState, pduType: Handle)

  ghost predicate BackOf(b: Back, p: Pdu) {
    && b.signatures.Some? == p.signatures.Some? && (p.signatures.Some? ==> EraseSignatures(b.signatures.value) == p.signatures.value)
    && EraseState(b.stateKey) == p.stateKey
    && b.pduType.content == p.pduType
  }

  ghost predicate HeldBack(i: Interner, b: Back) {
    && (b.signatures.Some? ==> HeldSignatures(i, b.signatures.value))
    && HeldState(i, b.stateKey)
    && Holds(Typed(i, Strs), b.pduType)
  }

  function BackSize(p: Pdu): nat {
    OptionSize(p.signatures, SignaturesSize) + StateSize(p.stateKey) + 1
  }

  function BackFromRef(i: Interner, p: Pdu): (r: Result<(Interner, Back), string>)
    ensures r.Success? ==> BackOf(r.value.1, p)
    ensures r.Success? ==> Extends(i, r.value.0) && HeldBack(r.value.0, r.value.1)
    ensures r.Success? && ValidInterner(i) ==> ValidInterner(r.value.0)
    ensures r.Success? ==> Grew(i, r.value.0, BackSize(p))
    ensures r.Failure? ==> r.error == LimitMessage
  {
    var (i1, signatures) :- InternOptionSignatures(i, p.signatures);
    var (i2, state) :- StateFromRef(i1, p.stateKey);
    var (i3, pduType) :- InternOneOf(i2, Strs, p.pduType);
    var b := Back(signatures, state, pduType);
    BackHeld(i, i1, i2, i3, p, b);
    Success((i3, b))
  }

  lemma BackHeld(i: Interner, i1: Interner, i2: Interner, i3: Interner, p: Pdu, b: Back)
    requires Extends(i, i1) && Extends(i1, i2) && Extends(i2, i3)
    requires b.signatures.Some? ==> HeldSignatures(i1, b.signatures.value)
    requires HeldState(i2, b.stateKey) && Holds(Typed(i3, Strs), b.pduType)
    requires Grew(i, i1, OptionSize(p.signatures, SignaturesSize)) && Grew(i1, i2, StateSize(p.stateKey)) && Grew(i2, i3, 1)
    ensures Extends(i, i3) && HeldBack(i3, b) && Grew(i, i3, BackSize(p))
  {
    ExtendsTransitive(i, i1, i2);
    ExtendsTransitive(i, i2, i3);
    ExtendsTransitive(i1, i2, i3);
    if b.signatures.Some? {
      HeldSignaturesLater(i1, i3, b.signatures.value);
    }
    assert HeldState(i3, b.stateKey) by {
      if b.stateKey.UserId? {
        HoldsLater(i2, i3, Users, b.stateKey.user);
      } else if b.stateKey.ServerName? {
        HoldsLater(i2, i3, ServerNames, b.stateKey.server);
      }
    }
  }

  function Assemble(p: Pdu, f: Front, m: Middle, b: Back): PduArc {
    PduArc(f.authEvents, f.content, p.depth, f.hashes, f.origin, p.originServerTs,
           m.prevEvents, m.prevState, m.roomId, m.sender, b.signatures, b.stateKey, b.pduType)
  }

  /** `PDUArc::from_pdu_ref`. Every string of the PDU is replaced by its
      handle, the integers are copied, and nothing else changes: erasing the
      handles gives the PDU back. The interner only grows, by at most
      `Size(p)` strings per typed interner, and holds every handle of the
      result; the only failure is an interner at its limit. */
  function FromPduRef(i: Interner, p: Pdu): (r: Result<(Interner, PduArc), string>)
    ensures r.Success? ==> Erase(r.value.1) == p
    ensures r.Success? ==> Extends(i, r.value.0) && HeldBy(r.value.0, r.value.1)
    ensures r.Success? && ValidInterner(i) ==> ValidInterner(r.value.0)
    ensures r.Success? ==> Grew(i, r.value.0, Size(p))
    ensures r.Failure? ==> r.error == LimitMessage
  {
    var (i1, f) :- FrontFromRef(i, p);
    var (i2, m) :- MiddleFromRef(i1, p);
    var (i3, b) :- BackFromRef(i2, p);
    var a := Assemble(p, f, m, b);
    AssembleHeld(i, i1, i2, i3, p, f, m, b);
    Success((i3, a))
  }

  lemma AssembleHeld(i: Interner, i1: Interner, i2: Interner, i3: Interner, p: Pdu, f: Front, m: Middle, b: Back)
    requires FrontOf(f, p) && MiddleOf(m, p) && BackOf(b, p)
    requires Extends(i, i1) && Extends(i1, i2) && Extends(i2, i3)
    requires HeldFront(i1, f) && HeldMiddle(i2, m) && HeldBack(i3, b)
    requires Grew(i, i1, FrontSize(p)) && Grew(i1, i2, MiddleSize(p)) && Grew(i2, i3, BackSize(p))
    ensures Erase(Assemble(p, f, m, b)) == p
    ensures Extends(i, i3) && HeldBy(i3, Assemble(p, f, m, b)) && Grew(i, i3, Size(p))
  {
    ExtendsTransitive(i, i1, i2);
    ExtendsTransitive(i, i2, i3);
    ExtendsTransitive(i1, i2, i3);
    HeldSeqLater(i1, i3, Events, f.authEvents);
    HeldContentLater(i1, i3, f.content);
    if f.hashes.Some? {
      HeldKeysLater(i1, i3, Strs, f.hashes.value);
    }
    if f.origin.Some? {
      HoldsLater(i1, i3, ServerNames, f.origin.value);
    }
    HeldSeqLater(i2, i3, Events, m.prevEvents);
    if m.prevState.Some? {
      HeldSeqLater(i2, i3, Events, m.prevState.value);
    }
    HoldsLater(i2, i3, Rooms, m.roomId);
    HoldsLater(i2, i3, Users, m.sender);
  }

  // ---------------------------------------------------------------------
  // The conversion fails only at the interner's limit

  lemma RoomLess(i: Interner, n: nat, m: nat)
    requires Room(i, n) && m <= n
    ensures Room(i, m)
  {
  }

  lemma ContentSucceeds(i: Interner, c: PduRef.AnyContent)
    requires Room(i, ContentSize(c))
    ensures ContentFromRef(i, c).Success?
  {
    match c
    case PowerLevels(l) =>
      InternKeysSucceeds(i, Strs, l.events);
      var i1 := InternKeys(i, Strs, l.events).value.0;
      RoomLeft(i, i1, |l.events|, |l.users|);
      InternKeysSucceeds(i1, Users, l.users);
    case RoomAliases(Multiple(aliases)) =>
      InternSeqSucceeds(i, Strs, aliases);
    case _ =>
  }

  lemma {:induction false} SignaturesSucceed(i: Interner, s: PduRef.Signatures)
    requires Room(i, SignaturesSize(s))
    ensures InternSignatures(i, s).Success?
    decreases |s|
  {
    if |s| > 0 {
      RoomLess(i, SignaturesSize(s), 1);
      var i1 := GetOrInsert(i, ServerNames, s[0].0).value.0;
      InternGrows(i, ServerNames, s[0].0);
      RoomLeft(i, i1, 1, |s[0].1| + SignaturesSize(s[1..]));
      InternKeysSucceeds(i1, Keys, s[0].1);
      var i2 := InternKeys(i1, Keys, s[0].1).value.0;
      RoomLeft(i1, i2, |s[0].1|, SignaturesSize(s[1..]));
      SignaturesSucceed(i2, s[1..]);
    }
  }

  lemma FrontSucceeds(i: Interner, p: Pdu)
    requires Room(i, FrontSize(p))
    ensures FrontFromRef(i, p).Success?
  {
    var rest := ContentSize(p.content) + OptionSize(p.hashes, KeysSize) + OptionSize(p.origin, OneSize);
    InternSeqSucceeds(i, Events, p.authEvents);
    var i1 := InternSeq(i, Events, p.authEvents).value.0;
    RoomLeft(i, i1, |p.authEvents|, rest);
    RoomLess(i1, rest, ContentSize(p.content));
    ContentSucceeds(i1, p.content);
    var i2 := ContentFromRef(i1, p.content).value.0;
    RoomLeft(i1, i2, ContentSize(p.content), OptionSize(p.hashes, KeysSize) + OptionSize(p.origin, OneSize));
    if p.hashes.Some? {
      InternKeysSucceeds(i2, Strs, p.hashes.value);
    }
    var i3 := InternOptionKeys(i2, p.hashes).value.0;
    RoomLeft(i2, i3, OptionSize(p.hashes, KeysSize), OptionSize(p.origin, OneSize));
  }

  lemma MiddleSucceeds(i: Interner, p: Pdu)
    requires Room(i, MiddleSize(p))
    ensures MiddleFromRef(i, p).Success?
  {
    InternSeqSucceeds(i, Events, p.prevEvents);
    var i1 := InternSeq(i, Events, p.prevEvents).value.0;
    RoomLeft(i, i1, |p.prevEvents|, OptionSize(p.prevState, SeqSize) + 2);
    if p.prevState.Some? {
      InternSeqSucceeds(i1, Events, p.prevState.value);
    }
    var i2 := InternOptionSeq(i1, p.prevState).value.0;
    RoomLeft(i1, i2, OptionSize(p.prevState, SeqSize), 2);
    var i3 := InternOneOf(i2, Rooms, p.roomId).value.0;
    RoomLeft(i2, i3, 1, 1);
  }

  lemma BackSucceeds(i: Interner, p: Pdu)
    requires Room(i, BackSize(p))
    ensures BackFromRef(i, p).Success?
  {
    if p.signatures.Some? {
      RoomLess(i, BackSize(p), SignaturesSize(p.signatures.value));
      SignaturesSucceed(i, p.signatures.value);
    }
    var i1 := InternOptionSignatures(i, p.signatures).value.0;
    RoomLeft(i, i1, OptionSize(p.signatures, SignaturesSize), StateSize(p.stateKey) + 1);
    var i2 := StateFromRef(i1, p.stateKey).value.0;
    RoomLeft(i1, i2, StateSize(p.stateKey), 1);
  }

  /** With room for `Size(p)` more strings in every typed interner, the
      conversion succeeds: `get_or_insert` panics only at `usize::MAX`. */
  lemma FromPduRefSucceeds(i: Interner, p: Pdu)
    requires Room(i, Size(p))
    ensures FromPduRef(i, p).Success?
  {
    RoomLess(i, Size(p), FrontSize(p));
    FrontSucceeds(i, p);
    var i1 := FrontFromRef(i, p).value.0;
    RoomLeft(i, i1, FrontSize(p), MiddleSize(p) + BackSize(p));
    RoomLess(i1, MiddleSize(p) + BackSize(p), MiddleSize(p));
    MiddleSucceeds(i1, p);
    var i2 := MiddleFromRef(i1, p).value.0;
    RoomLeft(i1, i2, MiddleSize(p), BackSize(p));
    BackSucceeds(i2, p);
  }
}

=== FILE: pdu_owned.dfy ===
/** The owned PDU of `pdu_owned.rs`. It has the same fields, content types
    and state-key types as `PDURef`, and `parse_pdu` uses the same dispatch on
    the event type, so the model shares `PduRef`'s types and parser. Its
    fields own their strings, so it reads every string literal, escaped or
    not: `parse_pdu` reads a document as `parse_pdu_ref` reads the same
    document with its escapes resolved (`Json.Plain`). The two also differ in
    how they are written: the owned PDU writes its signatures when it has
    them and always writes its state key. */
module PduOwned {
  import opened Wrappers
  import SortedMaps
  import Json
  import opened CanonicalHash
  import opened SerdeStruct
  import opened PduRef

  /** `parse_pdu`: the type alone first, then the whole document with the
      content and state-key types the type selects. */
  function ParsePdu(j: Json.Json): (r: Json.DecodeResult<Pdu>)
    ensures TypeOnly(Json.Plain(j)).Failure? ==> r.Failure?
    ensures r.Success? ==> TypeOnly(Json.Plain(j)) == Success(r.value.pduType)
    ensures r.Success? ==> Fits(r.value) && EnvelopeWellFormed(r.value)
  {
    ParseFits(Json.Plain(j));
    PduRef.Parse(Json.Plain(j))
  }

  /** `parse_pdu` accepts every document `parse_pdu_ref` accepts and reads
      the same event from it. */
  lemma ParseAgreesWithRef(j: Json.Json)
    ensures PduRef.Parse(j).Success? ==> ParsePdu(j) == PduRef.Parse(j)
  {
    ParseKeepsPlain(j);
  }

  /** `#[derive(Serialize)]` for `PDU<C>`: `hashes`, `origin`, `prev_state`
      and `signatures` skipped when `None`; `state_key` always written. */
  function ToValue(p: Pdu): Value {
    Struct(OwnedFields(p))
  }

  function OwnedFields(p: Pdu): seq<Option<Entry>> {
    EnvelopeFields(p, ContentValue(p.content), Some(StateValue(p.stateKey)), true)
  }

  /** What is written of the optional fields: each exactly when present. */
  lemma ToValueOptionals(p: Pdu)
    ensures GetFromMap(ToValue(p), "signatures") == (if p.signatures.Some? then Some(SignaturesValue(p.signatures.value)) else None)
    ensures GetFromMap(ToValue(p), "hashes") == (if p.hashes.Some? then Some(StringMapValue(p.hashes.value)) else None)
    ensures GetFromMap(ToValue(p), "origin") == (if p.origin.Some? then Some(String(p.origin.value)) else None)
    ensures GetFromMap(ToValue(p), "prev_state") == (if p.prevState.Some? then Some(StringList(p.prevState.value)) else None)
  {
    var fields := OwnedFields(p);
    FieldNamesSorted();
    PresentGet(fields, FieldNames, 3);
    PresentGet(fields, FieldNames, 4);
    PresentGet(fields, FieldNames, 7);
    PresentGet(fields, FieldNames, 10);
  }

  /** The state key is always written, even an absent `Other` key, which is
      written as `null`; the empty key is written as `""`. */
  lemma ToValueStateKey(p: Pdu)
    ensures GetFromMap(ToValue(p), "state_key") == Some(StateValue(p.stateKey))
    ensures p.stateKey == OtherKey(None) ==> GetFromMap(ToValue(p), "state_key") == Some(Null)
    ensures p.stateKey.Empty? ==> GetFromMap(ToValue(p), "state_key") == Some(String(""))
  {
    FieldNamesSorted();
    PresentGet(OwnedFields(p), FieldNames, 11);
  }

  /** A well-formed PDU is written as a canonical map. */
  lemma ToValueCanonical(p: Pdu)
    requires WellFormed(p)
    ensures Canonical(ToValue(p))
  {
    var fields := OwnedFields(p);
    FieldNamesSorted();
    ContentCanonical(p.content);
    if p.hashes.Some? {
      AssocCanonical(p.hashes.value, StringValue);
    }
    if p.signatures.Some? {
      var s := p.signatures.value;
      forall i | 0 <= i < |s| ensures Canonical(StringMapValue(s[i].1)) {
        AssocCanonical(s[i].1, StringValue);
      }
      AssocCanonical(s, StringMapValue);
    }
    StructCanonical(fields, FieldNames);
  }

  /** `parse_pdu` reads back exactly what the owned PDU writes, signatures
      included, whatever escapes its strings need. */
  lemma RoundTrip(p: Pdu)
    requires WellFormed(p) && Fits(p)
    ensures ParsePdu(Write(ToValue(p))) == Success(p)
  {
    PlainWrite(ToValue(p));
    ParseWritten(p, Some(StateValue(p.stateKey)), true);
  }

  // ---------------------------------------------------------------------
  // `Signable` and `Hashable`: the fields the traits reach

  /** `Signable::signatures`. */
  function SignaturesOf(p: Pdu): Option<Signatures> {
    p.signatures
  }

  /** Writing through `Signable::signatures_mut`. */
  function WithSignatures(p: Pdu, s: Option<Signatures>): (r: Pdu)
    ensures EnvelopeOf(r).(signatures := None) == EnvelopeOf(p).(signatures := None)
    ensures r.content == p.content && r.stateKey == p.stateKey
  {
    p.(signatures := s)
  }

  /** `Hashable::hashes_mut`, read. */
  function HashesOf(p: Pdu): Option<SortedMaps.Assoc<string>> {
    p.hashes
  }

  /** `Hashable::hashes_mut`, written. */
  function WithHashes(p: Pdu, h: Option<SortedMaps.Assoc<string>>): (r: Pdu)
    ensures EnvelopeOf(r).(hashes := None) == EnvelopeOf(p).(hashes := None)
    ensures r.content == p.content && r.stateKey == p.stateKey
  {
    p.(hashes := h)
  }

  /** The accessors reach exactly one field each: what is written is what is
      read back, writing back what was read changes nothing, and the other
      accessor does not see the write. */
  lemma AccessorLaws(p: Pdu, s: Option<Signatures>, h: Option<SortedMaps.Assoc<string>>)
    ensures SignaturesOf(WithSignatures(p, s)) == s && WithSignatures(p, SignaturesOf(p)) == p
    ensures HashesOf(WithHashes(p, h)) == h && WithHashes(p, HashesOf(p)) == p
    ensures HashesOf(WithSignatures(p, s)) == HashesOf(p) && SignaturesOf(WithHashes(p, h)) == SignaturesOf(p)
  {
  }
}

=== FILE: pdu_ref.dfy ===
/** Persistent data units (room events) as `pdu_ref.rs` parses and writes
    them. A PDU is an envelope of fixed fields around a content and a state
    key whose types depend on the event type: `PduOf<C, S>` is the envelope
    for content type `C` and state-key type `S`, and `Pdu` the envelope over
    the closed enums `AnyContent` / `AnyState` that every typed PDU is
    upcast into.

    Identifiers (`Id<Event>`, `Id<Room>`, …) are kept as their strings. Most
    fields borrow from the document (`&str`, `&Id<T>`), and a borrowed field
    takes only a string literal without escapes (`Json.DecodeString`); the
    sender and a member event's user-id state key are `Cow`s, which take any
    string literal (`Json.DecodeOwned`). `pdu_owned.rs` has the same fields,
    all owned, so `PduOwned` reuses these types and this parser on the
    document with its escapes resolved. */
module PduRef {
  import opened Wrappers
  import Strings
  import SortedMaps
  import Json
  import opened CanonicalHash
  import opened SerdeStruct

  type Assoc<V> = SortedMaps.Assoc<V>

  // ---------------------------------------------------------------------
  // Data

  /** `PowerLevelsContent`: each level a `PowerLevel(i64)`. */
  datatype PowerLevelsContent = PowerLevelsContent(
    ban: int,
    events: Assoc<int>,
    eventsDefault: int,
    kick: int,
    redact: int,
    stateDefault: int,
    users: Assoc<int>,
    usersDefault: int
  )

  /** `RoomAliasesList`, untagged: a single alias or a list. */
  datatype RoomAliasesList = Single(alias: string) | Multiple(aliases: seq<string>)

  /** `AnyContentRef`. The single-field content structs are kept as their
      field; `EmptyContent` has no fields. */
  datatype AnyContent =
    | Member(membership: string)
    | Create(creator: string)
    | JoinRules(joinRule: string)
    | PowerLevels(levels: PowerLevelsContent)
    | HistoryVisibility(historyVisibility: string)
    | RoomAliases(aliases: RoomAliasesList)
    | Other

  /** `AnyStateRef`: a user id, a server name, the empty key, or the optional
      string of an event type without a content type of its own. */
  datatype AnyState = UserId(user: string) | ServerName(server: string) | Empty | OtherKey(key: Option<string>)

  /** `SignaturesRef`: server name → key id → base64 signature. */
  type Signatures = Assoc<Assoc<string>>

  /** `PDURef<Content>`, with `S` the content type's `StateKey`. */
  datatype PduOf<C, S> = PduOf(
    authEvents: seq<string>,
    content: C,
    depth: nat,
    hashes: Option<Assoc<string>>,
    origin: Option<string>,
    originServerTs: nat,
    prevEvents: seq<string>,
    prevState: Option<seq<string>>,
    roomId: string,
    sender: string,
    signatures: Option<Signatures>,
    stateKey: S,
    pduType: string
  )

  type Pdu = PduOf<AnyContent, AnyState>

  /** The fields of a PDU other than its content and state key. */
  datatype Envelope = Envelope(
    authEvents: seq<string>,
    depth: nat,
    hashes: Option<Assoc<string>>,
    origin: Option<string>,
    originServerTs: nat,
    prevEvents: seq<string>,
    prevState: Option<seq<string>>,
    roomId: string,
    sender: string,
    signatures: Option<Signatures>,
    pduType: string
  )

  function EnvelopeOf<C, S>(p: PduOf<C, S>): Envelope {
    Envelope(p.authEvents, p.depth, p.hashes, p.origin, p.originServerTs, p.prevEvents,
             p.prevState, p.roomId, p.sender, p.signatures, p.pduType)
  }

  /** The same envelope around another content and state key. */
  function WithParts<C, S>(p: Pdu, content: C, stateKey: S): (r: PduOf<C, S>)
    ensures EnvelopeOf(r) == EnvelopeOf(p)
  {
    PduOf(p.authEvents, content, p.depth, p.hashes, p.origin, p.originServerTs, p.prevEvents,
          p.prevState, p.roomId, p.sender, p.signatures, stateKey, p.pduType)
  }

  // ---------------------------------------------------------------------
  // `upcast`

  /** `PDURef::upcast`: the content goes through the content type's `upcast`,
      the state key through `upcast_state`, and every envelope field moves
      across unchanged. */
  function Upcast<C, S>(p: PduOf<C, S>, upcastContent: C -> AnyContent, upcastState: S -> AnyState): (r: Pdu)
    ensures EnvelopeOf(r) == EnvelopeOf(p)
    ensures r.content == upcastContent(p.content) && r.stateKey == upcastState(p.stateKey)
  {
    PduOf(p.authEvents, upcastContent(p.content), p.depth, p.hashes, p.origin, p.originServerTs,
          p.prevEvents, p.prevState, p.roomId, p.sender, p.signatures, upcastState(p.stateKey), p.pduType)
  }

  // Each content type's `upcast` and `upcast_state`: wrap in its variant.

  function UpcastMember(m: string): AnyContent { Member(m) }
  function UpcastCreate(creator: string): AnyContent { Create(creator) }
  function UpcastHistoryVisibility(v: string): AnyContent { HistoryVisibility(v) }
  function UpcastJoinRules(rule: string): AnyContent { JoinRules(rule) }
  function UpcastPowerLevels(l: PowerLevelsContent): AnyContent { PowerLevels(l) }
  function UpcastRoomAliases(a: RoomAliasesList): AnyContent { RoomAliases(a) }
  function UpcastOther(u: ()): AnyContent { Other }
  function UpcastUserKey(u: string): AnyState { UserId(u) }
  function UpcastServerNameKey(n: string): AnyState { ServerName(n) }
  function UpcastEmptyKey(u: ()): AnyState { Empty }
  function UpcastOtherKey(k: Option<string>): AnyState { OtherKey(k) }

  /** `AnyContentRef`'s own `upcast` and `upcast_state` return their argument,
      so upcasting an upcast PDU changes nothing. */
  lemma UpcastAnyIsIdentity(p: Pdu)
    ensures Upcast(p, (c: AnyContent) => c, (s: AnyState) => s) == p
  {
  }

  /** Upcasting undoes taking the content and state key apart: a PDU is the
      upcast of its own envelope around any parts that upcast to its own. */
  lemma UpcastWithParts<C, S>(p: Pdu, c: C, s: S, upcastContent: C -> AnyContent, upcastState: S -> AnyState)
    requires upcastContent(c) == p.content && upcastState(s) == p.stateKey
    ensures Upcast(WithParts(p, c, s), upcastContent, upcastState) == p
  {
  }

  // ---------------------------------------------------------------------
  // Dispatch on the event type

  datatype ContentKind =
    | MemberKind | CreateKind | JoinRulesKind | PowerLevelsKind | HistoryVisibilityKind | RoomAliasesKind | OtherKind

  function KindOf(c: AnyContent): ContentKind {
    match c
    case Member(_) => MemberKind
    case Create(_) => CreateKind
    case JoinRules(_) => JoinRulesKind
    case PowerLevels(_) => PowerLevelsKind
    case HistoryVisibility(_) => HistoryVisibilityKind
    case RoomAliases(_) => RoomAliasesKind
    case Other => OtherKind
  }

  /** The event types that have a content type of their own. */
  const TypeTable: map<string, ContentKind> := map[
    "m.room.member" := MemberKind,
    "m.room.create" := CreateKind,
    "m.room.history_visibility" := HistoryVisibilityKind,
    "m.room.join_rules" := JoinRulesKind,
    "m.room.power_levels" := PowerLevelsKind,
    "m.room.aliases" := RoomAliasesKind
  ]

  /** The content kind an event type selects; any other type is `Other`. */
  function KindOfType(t: string): ContentKind {
    if t in TypeTable then TypeTable[t] else OtherKind
  }

  /** The state-key type each content type declares (`PDUContentType::StateKey`):
      members are keyed by user id, aliases by server name, events without a
      content type by an optional string, and the rest by the empty key. */
  predicate StateFits(c: AnyContent, s: AnyState) {
    match c
    case Member(_) => s.UserId?
    case RoomAliases(_) => s.ServerName?
    case Other => s.OtherKey?
    case _ => s.Empty?
  }

  /** The content and state key are those the event type selects. */
  predicate Fits(p: Pdu) {
    KindOf(p.content) == KindOfType(p.pduType) && StateFits(p.content, p.stateKey)
  }

  /** `has_state` of `AnyContentRef`: only an `Other` key can be absent. */
  predicate HasState(s: AnyState) {
    match s
    case OtherKey(k) => k.Some?
    case _ => true
  }

  /** `missing_state`. */
  predicate MissingState(s: AnyState) {
    !HasState(s)
  }

  // ---------------------------------------------------------------------
  // Well-formed values: what the Rust types guarantee

  predicate IsU64(n: int) {
    0 <= n < Json.U64Limit
  }

  predicate IsI64(n: int) {
    -Json.I64Limit <= n < Json.I64Limit
  }

  ghost predicate LevelsWellFormed(l: PowerLevelsContent) {
    && IsI64(l.ban) && IsI64(l.eventsDefault) && IsI64(l.kick) && IsI64(l.redact)
    && IsI64(l.stateDefault) && IsI64(l.usersDefault)
    && SortedMaps.Sorted(l.events) && SortedMaps.AllValues(l.events, IsI64)
    && SortedMaps.Sorted(l.users) && SortedMaps.AllValues(l.users, IsI64)
  }

  ghost predicate ContentWellFormed(c: AnyContent) {
    c.PowerLevels? ==> LevelsWellFormed(c.levels)
  }

  ghost predicate SignaturesSorted(s: Signatures) {
    SortedMaps.Sorted(s) && SortedMaps.AllValues(s, SortedMaps.Sorted)
  }

  /** Integers fit their Rust types and every map is in key order. */
  ghost predicate EnvelopeWellFormed<C, S>(p: PduOf<C, S>) {
    && IsU64(p.depth) && IsU64(p.originServerTs)
    && (p.hashes.Some? ==> SortedMaps.Sorted(p.hashes.value))
    && (p.signatures.Some? ==> SignaturesSorted(p.signatures.value))
  }

  ghost predicate WellFormed(p: Pdu) {
    EnvelopeWellFormed(p) && ContentWellFormed(p.content)
  }

  // ---------------------------------------------------------------------
  // Deserialisation

  function EventList(j: Json.Json): Json.DecodeResult<seq<string>> {
    Json.DecodeSeq(j, Json.DecodeString)
  }

  function StringMap(j: Json.Json): (r: Json.DecodeResult<Assoc<string>>)
    ensures r.Success? ==> SortedMaps.Sorted(r.value)
  {
    Json.DecodeMap(j, Json.DecodeString)
  }

  function SignaturesMap(j: Json.Json): (r: Json.DecodeResult<Signatures>)
    ensures r.Success? ==> SignaturesSorted(r.value)
  {
    if j.JObject? then
      Json.DecodeMapValues(j, StringMap, (m: Assoc<string>) => SortedMaps.Sorted(m));
      Json.DecodeMap(j, StringMap)
    else Json.DecodeMap(j, StringMap)
  }

  function LevelMap(j: Json.Json): (r: Json.DecodeResult<Assoc<int>>)
    ensures r.Success? ==> SortedMaps.Sorted(r.value) && SortedMaps.AllValues(r.value, IsI64)
  {
    if j.JObject? then
      Json.DecodeMapValues(j, Json.DecodeI64, IsI64);
      Json.DecodeMap(j, Json.DecodeI64)
    else Json.DecodeMap(j, Json.DecodeI64)
  }

  /** A struct with one required string field; other members are ignored. */
  function StringField(j: Json.Json, name: string): (r: Json.DecodeResult<string>)
    ensures r.Success? <==> j.JObject? && Json.CountKey(j.members, name) == 1 && Json.Lookup(j.members, name).value.JString?
    ensures r.Success? ==> Json.Lookup(j.members, name) == Some(Json.JString(r.value))
  {
    var ms :- Json.Members(j);
    Json.Required(ms, name, Json.DecodeString)
  }

  function DecodeMember(j: Json.Json): Json.DecodeResult<string> {
    StringField(j, "membership")
  }

  function DecodeCreate(j: Json.Json): Json.DecodeResult<string> {
    StringField(j, "creator")
  }

  function DecodeJoinRules(j: Json.Json): Json.DecodeResult<string> {
    StringField(j, "join_rule")
  }

  function DecodeHistoryVisibility(j: Json.Json): Json.DecodeResult<string> {
    StringField(j, "history_visibility")
  }

  /** Untagged: a string is `Single`, else a list of strings is `Multiple`. */
  function DecodeAliasesList(j: Json.Json): (r: Json.DecodeResult<RoomAliasesList>)
    ensures r.Success? <==> j.JString? || EventList(j).Success?
    ensures j.JString? ==> r == Success(Single(j.s))
    ensures !j.JString? && r.Success? ==> r.value == Multiple(EventList(j).value)
  {
    if j.JString? then Success(Single(j.s))
    else match EventList(j)
      case Success(xs) => Success(Multiple(xs))
      case Failure(_) => Failure("data did not match any variant of untagged enum RoomAliasesList")
  }

  function DecodeRoomAliases(j: Json.Json): Json.DecodeResult<RoomAliasesList> {
    var ms :- Json.Members(j);
    Json.Required(ms, "aliases", DecodeAliasesList)
  }

  function DecodePowerLevels(j: Json.Json): Json.DecodeResult<PowerLevelsContent> {
    var ms :- Json.Members(j);
    var ban :- Json.Required(ms, "ban", Json.DecodeI64);
    var events :- Json.Required(ms, "events", LevelMap);
    var eventsDefault :- Json.Required(ms, "events_default", Json.DecodeI64);
    var kick :- Json.Required(ms, "kick", Json.DecodeI64);
    var redact :- Json.Required(ms, "redact", Json.DecodeI64);
    var stateDefault :- Json.Required(ms, "state_default", Json.DecodeI64);
    var users :- Json.Required(ms, "users", LevelMap);
    var usersDefault :- Json.Required(ms, "users_default", Json.DecodeI64);
    Success(PowerLevelsContent(ban, events, eventsDefault, kick, redact, stateDefault, users, usersDefault))
  }

  /** `EmptyContent {}`: any object, whatever its members, or the empty
      array. */
  function DecodeEmpty(j: Json.Json): (r: Json.DecodeResult<()>)
    ensures r.Success? <==> j.JObject? || j == Json.JArray([])
  {
    Json.DecodeEmptyStruct(j)
  }

  // State keys, given the `state_key` member if the document has one. Only
  // an `Option` field may be absent.

  /** `UserStateKey`, a `Cow<Id<User>>`: any string literal. */
  function DecodeUserKey(f: Option<Json.Json>): (r: Json.DecodeResult<string>)
    ensures r.Success? <==> f.Some? && Json.IsText(f.value)
    ensures r.Success? ==> r.value == f.value.s
  {
    if f.None? then Failure("missing field `state_key`") else Json.DecodeOwned(f.value)
  }

  /** `&Id<ServerName>`: a string literal without escapes. */
  function DecodeServerNameKey(f: Option<Json.Json>): (r: Json.DecodeResult<string>)
    ensures r.Success? <==> f.Some? && f.value.JString?
    ensures r.Success? ==> f == Some(Json.JString(r.value))
  {
    if f.None? then Failure("missing field `state_key`") else Json.DecodeString(f.value)
  }

  /** `EmptyStateKey`'s deserialiser: a string, and it must be empty. */
  function DecodeEmptyKey(f: Option<Json.Json>): (r: Json.DecodeResult<()>)
    ensures r.Success? <==> f == Some(Json.JString(""))
  {
    if f.None? then Failure("missing field `state_key`")
    else
      var s :- Json.DecodeString(f.value);
      if |s| != 0 then Failure("Expected empty string") else Success(())
  }

  /** `Option<&str>`: absent and `null` are `None`. */
  function DecodeOtherKey(f: Option<Json.Json>): (r: Json.DecodeResult<Option<string>>)
    ensures r.Success? <==> f.None? || f.value.JNull? || f.value.JString?
    ensures r == Success(None) <==> f.None? || f.value.JNull?
    ensures r.Success? && r.value.Some? ==> f == Some(Json.JString(r.value.value))
  {
    if f.None? then Success(None) else Json.DecodeOption(f.value, Json.DecodeString)
  }

  /** `PDUTypeOnly`: the `type` member alone. */
  function TypeOnly(j: Json.Json): (r: Json.DecodeResult<string>)
    ensures r.Success? <==> j.JObject? && Json.CountKey(j.members, "type") == 1 && Json.Lookup(j.members, "type").value.JString?
  {
    var ms :- Json.Members(j);
    Json.Required(ms, "type", Json.DecodeString)
  }

  /** Each field of `p` is what its member of `ms` reads as. */
  ghost predicate ReadsAs<C, S>(ms: seq<Json.Member>, dc: Json.Json -> Json.DecodeResult<C>,
                                ds: Option<Json.Json> -> Json.DecodeResult<S>, p: PduOf<C, S>) {
    && Json.Required(ms, "auth_events", EventList) == Success(p.authEvents)
    && Json.Required(ms, "content", dc) == Success(p.content)
    && Json.Required(ms, "depth", Json.DecodeU64) == Success(p.depth)
    && Json.Optional(ms, "hashes", StringMap) == Success(p.hashes)
    && Json.Optional(ms, "origin", Json.DecodeString) == Success(p.origin)
    && Json.Required(ms, "origin_server_ts", Json.DecodeU64) == Success(p.originServerTs)
    && Json.Required(ms, "prev_events", EventList) == Success(p.prevEvents)
    && Json.Optional(ms, "prev_state", EventList) == Success(p.prevState)
    && Json.Required(ms, "room_id", Json.DecodeString) == Success(p.roomId)
    && Json.Required(ms, "sender", Json.DecodeOwned) == Success(p.sender)
    && Json.Optional(ms, "signatures", SignaturesMap) == Success(p.signatures)
    && Json.Field(ms, "state_key").Success? && ds(Json.Field(ms, "state_key").value) == Success(p.stateKey)
    && Json.Required(ms, "type", Json.DecodeString) == Success(p.pduType)
  }

  /** `#[derive(Deserialize)]` for `PDURef<C>`: the envelope's fields by name,
      with `dc` for the content and `ds` for the state key. */
  function ParseAs<C, S>(j: Json.Json, dc: Json.Json -> Json.DecodeResult<C>, ds: Option<Json.Json> -> Json.DecodeResult<S>): (r: Json.DecodeResult<PduOf<C, S>>)
    ensures r.Success? ==> TypeOnly(j) == Success(r.value.pduType)
    ensures r.Success? ==> Json.CountKey(j.members, "content") == 1 && dc(Json.Lookup(j.members, "content").value) == Success(r.value.content)
    ensures r.Success? ==> Json.Field(j.members, "state_key").Success? && ds(Json.Field(j.members, "state_key").value) == Success(r.value.stateKey)
    ensures r.Success? ==> EnvelopeWellFormed(r.value)
    ensures r.Success? ==> Json.Required(j.members, "room_id", Json.DecodeString) == Success(r.value.roomId)
    ensures r.Success? ==> ReadsAs(j.members, dc, ds, r.value)
  {
    var ms :- Json.Members(j);
    ParseFields(ms, dc, ds)
  }

  /** The members read field by field, in declaration order. */
  function ParseFields<C, S>(ms: seq<Json.Member>, dc: Json.Json -> Json.DecodeResult<C>, ds: Option<Json.Json> -> Json.DecodeResult<S>)
    : (r: Json.DecodeResult<PduOf<C, S>>)
    ensures r.Success? ==> ReadsAs(ms, dc, ds, r.value)
  {
    var authEvents :- Json.Required(ms, "auth_events", EventList);
    var content :- Json.Required(ms, "content", dc);
    var depth :- Json.Required(ms, "depth", Json.DecodeU64);
    var hashes :- Json.Optional(ms, "hashes", StringMap);
    var origin :- Json.Optional(ms, "origin", Json.DecodeString);
    var originServerTs :- Json.Required(ms, "origin_server_ts", Json.DecodeU64);
    var prevEvents :- Json.Required(ms, "prev_events", EventList);
    var prevState :- Json.Optional(ms, "prev_state", EventList);
    var roomId :- Json.Required(ms, "room_id", Json.DecodeString);
    var sender :- Json.Required(ms, "sender", Json.DecodeOwned);
    var signatures :- Json.Optional(ms, "signatures", SignaturesMap);
    var stateField :- Json.Field(ms, "state_key");
    var stateKey :- ds(stateField);
    var pduType :- Json.Required(ms, "type", Json.DecodeString);
    var p := PduOf(authEvents, content, depth, hashes, origin, originServerTs, prevEvents,
                   prevState, roomId, sender, signatures, stateKey, pduType);
    assert ReadsAs(ms, dc, ds, p);
    Success(p)
  }

  /** Parses with one content type and upcasts the result: the content is the
      upcast of the decoded `content` member, the state key the upcast of the
      decoded `state_key` member. */
  function ParseUpcast<C, S>(j: Json.Json, dc: Json.Json -> Json.DecodeResult<C>, ds: Option<Json.Json> -> Json.DecodeResult<S>,
                             upcastContent: C -> AnyContent, upcastState: S -> AnyState): (r: Json.DecodeResult<Pdu>)
    ensures r.Success? ==> TypeOnly(j) == Success(r.value.pduType) && EnvelopeWellFormed(r.value)
    ensures r.Success? ==> Json.CountKey(j.members, "content") == 1 && dc(Json.Lookup(j.members, "content").value).Success?
    ensures r.Success? ==> r.value.content == upcastContent(dc(Json.Lookup(j.members, "content").value).value)
    ensures r.Success? ==> Json.Field(j.members, "state_key").Success? && ds(Json.Field(j.members, "state_key").value).Success?
    ensures r.Success? ==> r.value.stateKey == upcastState(ds(Json.Field(j.members, "state_key").value).value)
  {
    var p :- ParseAs(j, dc, ds);
    Success(Upcast(p, upcastContent, upcastState))
  }

  /** `parse_pdu_ref`: read the type alone, then parse the whole document
      with the content and state-key types that the type selects, and upcast. */
  function Parse(j: Json.Json): (r: Json.DecodeResult<Pdu>)
    ensures TypeOnly(j).Failure? ==> r.Failure?
    ensures r.Success? ==> TypeOnly(j) == Success(r.value.pduType)
  {
    var t :- TypeOnly(j);
    match t
    case "m.room.member" =>
      ParseUpcast(j, DecodeMember, DecodeUserKey, UpcastMember, UpcastUserKey)
    case "m.room.create" =>
      ParseUpcast(j, DecodeCreate, DecodeEmptyKey, UpcastCreate, UpcastEmptyKey)
    case "m.room.history_visibility" =>
      ParseUpcast(j, DecodeHistoryVisibility, DecodeEmptyKey, UpcastHistoryVisibility, UpcastEmptyKey)
    case "m.room.join_rules" =>
      ParseUpcast(j, DecodeJoinRules, DecodeEmptyKey, UpcastJoinRules, UpcastEmptyKey)
    case "m.room.power_levels" =>
      ParseUpcast(j, DecodePowerLevels, DecodeEmptyKey, UpcastPowerLevels, UpcastEmptyKey)
    case "m.room.aliases" =>
      ParseUpcast(j, DecodeRoomAliases, DecodeServerNameKey, UpcastRoomAliases, UpcastServerNameKey)
    case _ =>
      ParseUpcast(j, DecodeEmpty, DecodeOtherKey, UpcastOther, UpcastOtherKey)
  }

  /** The event type selects the content and state-key variants, and the
      result keeps the envelope's well-formedness. */
  lemma ParseFits(j: Json.Json)
    ensures Parse(j).Success? ==> Fits(Parse(j).value) && EnvelopeWellFormed(Parse(j).value)
  {
    if TypeOnly(j).Success? {
      var t := TypeOnly(j).value;
      if t == "m.room.member" {
        assert KindOfType(t) == MemberKind;
      } else if t == "m.room.create" {
        assert KindOfType(t) == CreateKind;
      } else if t == "m.room.history_visibility" {
        assert KindOfType(t) == HistoryVisibilityKind;
      } else if t == "m.room.join_rules" {
        assert KindOfType(t) == JoinRulesKind;
      } else if t == "m.room.power_levels" {
        assert KindOfType(t) == PowerLevelsKind;
      } else if t == "m.room.aliases" {
        assert KindOfType(t) == RoomAliasesKind;
      } else {
        assert t !in TypeTable;
      }
    }
  }

  /** A string state key is the one the document carries; the empty key
      comes only from the empty string. */
  lemma ParseStateKey(j: Json.Json)
    requires Parse(j).Success?
    ensures Parse(j).value.stateKey.Empty? ==> Json.Lookup(j.members, "state_key") == Some(Json.JString(""))
    ensures Parse(j).value.stateKey.UserId? ==> Json.Lookup(j.members, "state_key").Some? && Json.IsText(Json.Lookup(j.members, "state_key").value)
                                                && Json.Lookup(j.members, "state_key").value.s == Parse(j).value.stateKey.user
    ensures Parse(j).value.stateKey.ServerName? ==> Json.Lookup(j.members, "state_key") == Some(Json.JString(Parse(j).value.stateKey.server))
    ensures Parse(j).value.stateKey == OtherKey(None) ==> Json.Lookup(j.members, "state_key") in {None, Some(Json.JNull)}
  {
    ParseFits(j);
  }

  /** The empty-state-key rule: an event type whose state key is `EmptyStateKey`
      fails to parse when its `state_key` is a non-empty string. */
  lemma NonEmptyStateKeyRejected(j: Json.Json, key: string)
    requires TypeOnly(j).Success?
    requires KindOfType(TypeOnly(j).value) in {CreateKind, JoinRulesKind, PowerLevelsKind, HistoryVisibilityKind}
    requires Json.Lookup(j.members, "state_key") == Some(Json.JString(key)) && key != ""
    ensures Parse(j).Failure?
  {
    if Parse(j).Success? {
      ParseFits(j);
      ParseStateKey(j);
    }
  }

  // ---------------------------------------------------------------------
  // Documents with their escapes resolved

  /** Every field decoder reads the escape-resolved document as it read the
      original, whenever it accepted the original. */
  lemma FieldDecodersKeepPlain()
    ensures Json.KeepsPlain(EventList) && Json.KeepsPlain(StringMap)
    ensures Json.KeepsPlain(SignaturesMap) && Json.KeepsPlain(LevelMap)
  {
    Json.PrimitivesKeepPlain();
    forall x | EventList(x).Success? ensures EventList(Json.Plain(x)) == EventList(x) {
      Json.SeqPlain(x, Json.DecodeString);
    }
    forall x | StringMap(x).Success? ensures StringMap(Json.Plain(x)) == StringMap(x) {
      Json.MapPlain(x, Json.DecodeString);
    }
    forall x | SignaturesMap(x).Success? ensures SignaturesMap(Json.Plain(x)) == SignaturesMap(x) {
      Json.MapPlain(x, StringMap);
    }
    forall x | LevelMap(x).Success? ensures LevelMap(Json.Plain(x)) == LevelMap(x) {
      Json.MapPlain(x, Json.DecodeI64);
    }
  }

  lemma StringFieldPlain(j: Json.Json, name: string)
    ensures StringField(j, name).Success? ==> StringField(Json.Plain(j), name) == StringField(j, name)
  {
    if j.JObject? {
      Json.PrimitivesKeepPlain();
      Json.RequiredPlain(j.members, name, Json.DecodeString);
    }
  }

  lemma PowerLevelsPlain(j: Json.Json)
    ensures DecodePowerLevels(j).Success? ==> DecodePowerLevels(Json.Plain(j)) == DecodePowerLevels(j)
  {
    if j.JObject? {
      var ms := j.members;
      Json.PrimitivesKeepPlain();
      FieldDecodersKeepPlain();
      Json.RequiredPlain(ms, "ban", Json.DecodeI64);
      Json.RequiredPlain(ms, "events", LevelMap);
      Json.RequiredPlain(ms, "events_default", Json.DecodeI64);
      Json.RequiredPlain(ms, "kick", Json.DecodeI64);
      Json.RequiredPlain(ms, "redact", Json.DecodeI64);
      Json.RequiredPlain(ms, "state_default", Json.DecodeI64);
      Json.RequiredPlain(ms, "users", LevelMap);
      Json.RequiredPlain(ms, "users_default", Json.DecodeI64);
    }
  }

  /** The same for the content decoders. */
  lemma ContentDecodersKeepPlain()
    ensures Json.KeepsPlain(DecodeMember) && Json.KeepsPlain(DecodeCreate)
    ensures Json.KeepsPlain(DecodeJoinRules) && Json.KeepsPlain(DecodeHistoryVisibility)
    ensures Json.KeepsPlain(DecodeRoomAliases) && Json.KeepsPlain(DecodePowerLevels) && Json.KeepsPlain(DecodeEmpty)
  {
    StringDecodersKeepPlain();
    RoomAliasesKeepsPlain();
    forall x ensures DecodePowerLevels(x).Success? ==> DecodePowerLevels(Json.Plain(x)) == DecodePowerLevels(x) {
      PowerLevelsPlain(x);
    }
  }

  lemma StringDecodersKeepPlain()
    ensures Json.KeepsPlain(DecodeMember) && Json.KeepsPlain(DecodeCreate)
    ensures Json.KeepsPlain(DecodeJoinRules) && Json.KeepsPlain(DecodeHistoryVisibility)
  {
    forall x ensures DecodeMember(x).Success? ==> DecodeMember(Json.Plain(x)) == DecodeMember(x) {
      StringFieldPlain(x, "membership");
    }
    forall x ensures DecodeCreate(x).Success? ==> DecodeCreate(Json.Plain(x)) == DecodeCreate(x) {
      StringFieldPlain(x, "creator");
    }
    forall x ensures DecodeJoinRules(x).Success? ==> DecodeJoinRules(Json.Plain(x)) == DecodeJoinRules(x) {
      StringFieldPlain(x, "join_rule");
    }
    forall x ensures DecodeHistoryVisibility(x).Success? ==> DecodeHistoryVisibility(Json.Plain(x)) == DecodeHistoryVisibility(x) {
      StringFieldPlain(x, "history_visibility");
    }
  }

  lemma RoomAliasesKeepsPlain()
    ensures Json.KeepsPlain(DecodeRoomAliases)
  {
    FieldDecodersKeepPlain();
    assert Json.KeepsPlain(DecodeAliasesList);
    forall x | DecodeRoomAliases(x).Success? ensures DecodeRoomAliases(Json.Plain(x)) == DecodeRoomAliases(x) {
      Json.RequiredPlain(x.members, "aliases", DecodeAliasesList);
    }
  }

  /** The same for the state-key decoders. */
  lemma StateDecodersKeepPlain()
    ensures Json.KeepsPlainField(DecodeUserKey) && Json.KeepsPlainField(DecodeServerNameKey)
    ensures Json.KeepsPlainField(DecodeEmptyKey) && Json.KeepsPlainField(DecodeOtherKey)
  {
  }

  lemma TypeOnlyPlain(j: Json.Json)
    ensures TypeOnly(j).Success? ==> TypeOnly(Json.Plain(j)) == TypeOnly(j)
  {
    if j.JObject? {
      Json.PrimitivesKeepPlain();
      Json.RequiredPlain(j.members, "type", Json.DecodeString);
    }
  }

  /** Members that read as the fields of `p` parse as `p`. */
  lemma ParseAsOfReads<C, S>(j: Json.Json, dc: Json.Json -> Json.DecodeResult<C>, ds: Option<Json.Json> -> Json.DecodeResult<S>,
                             p: PduOf<C, S>)
    requires j.JObject? && ReadsAs(j.members, dc, ds, p)
    ensures ParseAs(j, dc, ds) == Success(p)
  {
  }

  lemma ReadsAsPlain<C, S>(ms: seq<Json.Member>, dc: Json.Json -> Json.DecodeResult<C>, ds: Option<Json.Json> -> Json.DecodeResult<S>,
                           p: PduOf<C, S>)
    requires Json.KeepsPlain(dc) && Json.KeepsPlainField(ds) && ReadsAs(ms, dc, ds, p)
    ensures ReadsAs(Json.PlainMembers(ms), dc, ds, p)
  {
    Json.PrimitivesKeepPlain();
    FieldDecodersKeepPlain();
    Json.RequiredPlain(ms, "auth_events", EventList);
    Json.RequiredPlain(ms, "content", dc);
    Json.RequiredPlain(ms, "depth", Json.DecodeU64);
    Json.OptionalPlain(ms, "hashes", StringMap);
    Json.OptionalPlain(ms, "origin", Json.DecodeString);
    Json.RequiredPlain(ms, "origin_server_ts", Json.DecodeU64);
    Json.RequiredPlain(ms, "prev_events", EventList);
    Json.OptionalPlain(ms, "prev_state", EventList);
    Json.RequiredPlain(ms, "room_id", Json.DecodeString);
    Json.RequiredPlain(ms, "sender", Json.DecodeOwned);
    Json.OptionalPlain(ms, "signatures", SignaturesMap);
    Json.FieldPlain(ms, "state_key");
    Json.RequiredPlain(ms, "type", Json.DecodeString);
  }

  lemma ParseAsPlain<C, S>(j: Json.Json, dc: Json.Json -> Json.DecodeResult<C>, ds: Option<Json.Json> -> Json.DecodeResult<S>)
    requires Json.KeepsPlain(dc) && Json.KeepsPlainField(ds)
    ensures ParseAs(j, dc, ds).Success? ==> ParseAs(Json.Plain(j), dc, ds) == ParseAs(j, dc, ds)
  {
    if ParseAs(j, dc, ds).Success? {
      var p := ParseAs(j, dc, ds).value;
      ReadsAsPlain(j.members, dc, ds, p);
      ParseAsOfReads(Json.Plain(j), dc, ds, p);
    }
  }

  /** `parse_pdu_ref` reads the escape-resolved document as it read the
      original, whenever it accepted the original: every field it borrows
      was a literal without escapes, and the owned sender and user-id state
      key read the same text either way. */
  lemma ParseKeepsPlain(j: Json.Json)
    ensures Parse(j).Success? ==> Parse(Json.Plain(j)) == Parse(j)
  {
    if Parse(j).Success? {
      TypeOnlyPlain(j);
      ContentDecodersKeepPlain();
      StateDecodersKeepPlain();
      match TypeOnly(j).value
      case "m.room.member" =>
        ParseUpcastPlain(j, DecodeMember, DecodeUserKey, UpcastMember, UpcastUserKey);
      case "m.room.create" =>
        ParseUpcastPlain(j, DecodeCreate, DecodeEmptyKey, UpcastCreate, UpcastEmptyKey);
      case "m.room.history_visibility" =>
        ParseUpcastPlain(j, DecodeHistoryVisibility, DecodeEmptyKey, UpcastHistoryVisibility, UpcastEmptyKey);
      case "m.room.join_rules" =>
        ParseUpcastPlain(j, DecodeJoinRules, DecodeEmptyKey, UpcastJoinRules, UpcastEmptyKey);
      case "m.room.power_levels" =>
        ParseUpcastPlain(j, DecodePowerLevels, DecodeEmptyKey, UpcastPowerLevels, UpcastEmptyKey);
      case "m.room.aliases" =>
        ParseUpcastPlain(j, DecodeRoomAliases, DecodeServerNameKey, UpcastRoomAliases, UpcastServerNameKey);
      case _ =>
        ParseUpcastPlain(j, DecodeEmpty, DecodeOtherKey, UpcastOther, UpcastOtherKey);
    }
  }

  lemma ParseUpcastPlain<C, S>(j: Json.Json, dc: Json.Json -> Json.DecodeResult<C>, ds: Option<Json.Json> -> Json.DecodeResult<S>,
                               upcastContent: C -> AnyContent, upcastState: S -> AnyState)
    requires Json.KeepsPlain(dc) && Json.KeepsPlainField(ds)
    ensures ParseUpcast(j, dc, ds, upcastContent, upcastState).Success? ==>
              ParseUpcast(Json.Plain(j), dc, ds, upcastContent, upcastState) == ParseUpcast(j, dc, ds, upcastContent, upcastState)
  {
    ParseAsPlain(j, dc, ds);
  }

  // ---------------------------------------------------------------------
  // `get_signatures`

  /** `SignaturesRef::get_signatures`: the key map of the first server entry
      equal to `server`. */
  function GetSignatures(sigs: Signatures, server: string): (r: Option<Assoc<string>>)
    ensures r.Some? <==> exists i :: 0 <= i < |sigs| && sigs[i].0 == server
    ensures r.Some? ==> exists i :: 0 <= i < |sigs| && sigs[i] == (server, r.value) && forall k :: 0 <= k < i ==> sigs[k].0 != server
    decreases |sigs|
  {
    if |sigs| == 0 then None
    else if sigs[0].0 == server then Some(sigs[0].1)
    else
      var r := GetSignatures(sigs[1..], server);
      assert forall i :: 0 < i < |sigs| ==> sigs[i] == sigs[1..][i - 1];
      r
  }

  /** In a map with one entry per server, the first match is the map's entry. */
  lemma GetSignaturesIsLookup(sigs: Signatures, server: string)
    requires SortedMaps.Sorted(sigs)
    ensures GetSignatures(sigs, server) == SortedMaps.Get(sigs, server)
  {
    if GetSignatures(sigs, server).Some? {
      var i :| 0 <= i < |sigs| && sigs[i] == (server, GetSignatures(sigs, server).value);
      SortedMaps.GetAtIndex(sigs, i);
    }
  }

  // ---------------------------------------------------------------------
  // Serialisation

  const MemberName := "membership"
  const CreatorName := "creator"
  const JoinRuleName := "join_rule"
  const HistoryVisibilityName := "history_visibility"
  const AliasesName := "aliases"

  const LevelNames: seq<string> :=
    ["ban", "events", "events_default", "kick", "redact", "state_default", "users", "users_default"]

  function LevelFields(l: PowerLevelsContent): (r: seq<Option<Entry>>)
    ensures Labelled(r, LevelNames)
  {
    [Always("ban", Number(l.ban)),
     Always("events", AssocValue(l.events, NumberValue)),
     Always("events_default", Number(l.eventsDefault)),
     Always("kick", Number(l.kick)),
     Always("redact", Number(l.redact)),
     Always("state_default", Number(l.stateDefault)),
     Always("users", AssocValue(l.users, NumberValue)),
     Always("users_default", Number(l.usersDefault))]
  }

  function AliasesValue(a: RoomAliasesList): Value {
    match a
    case Single(s) => String(s)
    case Multiple(xs) => StringList(xs)
  }

  /** Each content struct written as the map of its fields. */
  function ContentValue(c: AnyContent): (r: Value)
    ensures r.Map?
  {
    match c
    case Member(m) => Struct([Always(MemberName, String(m))])
    case Create(s) => Struct([Always(CreatorName, String(s))])
    case JoinRules(s) => Struct([Always(JoinRuleName, String(s))])
    case PowerLevels(l) => Struct(LevelFields(l))
    case HistoryVisibility(s) => Struct([Always(HistoryVisibilityName, String(s))])
    case RoomAliases(a) => Struct([Always(AliasesName, AliasesValue(a))])
    case Other => Struct([])
  }

  /** The state key: an identifier's string, `""` for `EmptyStateKey`, and
      the option for `Other` (`null` when absent, if it is written at all). */
  function StateValue(s: AnyState): Value {
    match s
    case UserId(u) => String(u)
    case ServerName(n) => String(n)
    case Empty => String("")
    case OtherKey(k) => OrNull(k, StringValue)
  }

  function StringMapValue(m: Assoc<string>): Value {
    AssocValue(m, StringValue)
  }

  function SignaturesValue(s: Signatures): Value {
    AssocValue(s, StringMapValue)
  }

  /** The declared JSON names of the envelope, in declaration order. */
  const FieldNames: seq<string> := [
    "auth_events", "content", "depth", "hashes", "origin", "origin_server_ts", "prev_events",
    "prev_state", "room_id", "sender", "signatures", "state_key", "type"]

  /** The envelope as serde writes it: `hashes`, `origin` and `prev_state`
      skipped when `None`; `signatures` written only when `withSignatures`
      and present; `state_key` when `stateKey` is given. */
  function EnvelopeFields<C, S>(p: PduOf<C, S>, content: Value, stateKey: Option<Value>, withSignatures: bool): (r: seq<Option<Entry>>)
    ensures Labelled(r, FieldNames)
  {
    [Always("auth_events", StringList(p.authEvents)),
     Always("content", content),
     Always("depth", Number(p.depth)),
     SkipNone("hashes", p.hashes, StringMapValue),
     SkipNone("origin", p.origin, StringValue),
     Always("origin_server_ts", Number(p.originServerTs)),
     Always("prev_events", StringList(p.prevEvents)),
     SkipNone("prev_state", p.prevState, StringList),
     Always("room_id", String(p.roomId)),
     Always("sender", String(p.sender)),
     if withSignatures then SkipNone("signatures", p.signatures, SignaturesValue) else None,
     if stateKey.Some? then Always("state_key", stateKey.value) else None,
     Always("type", String(p.pduType))]
  }

  /** `Serialize for PDURef`: `signatures` is never written (it is what gets
      signed), and `state_key` is skipped when `missing_state` holds. */
  function RefToValue(p: Pdu): Value {
    Struct(EnvelopeFields(p, ContentValue(p.content),
                          if HasState(p.stateKey) then Some(StateValue(p.stateKey)) else None, false))
  }

  lemma FieldNamesAdjacentFirst()
    ensures forall i :: 0 <= i < 6 ==> Strings.Lt(FieldNames[i], FieldNames[i + 1])
  {
    var n := FieldNames;
    LtLiteral(n[0], n[1], 0);
    LtLiteral(n[1], n[2], 0);
    LtLiteral(n[2], n[3], 0);
    LtLiteral(n[3], n[4], 0);
    LtLiteral(n[4], n[5], 6);
    LtLiteral(n[5], n[6], 0);
  }

  lemma FieldNamesAdjacentLast()
    ensures forall i :: 6 <= i < 12 ==> Strings.Lt(FieldNames[i], FieldNames[i + 1])
  {
    var n := FieldNames;
    LtLiteral(n[6], n[7], 5);
    LtLiteral(n[7], n[8], 0);
    LtLiteral(n[8], n[9], 0);
    LtLiteral(n[9], n[10], 1);
    LtLiteral(n[10], n[11], 1);
    LtLiteral(n[11], n[12], 0);
  }

  lemma FieldNamesSorted()
    ensures StrictlySorted(FieldNames)
  {
    FieldNamesAdjacentFirst();
    FieldNamesAdjacentLast();
    SortedFromAdjacent(FieldNames);
  }

  lemma LevelNamesAdjacentFirst()
    ensures forall i :: 0 <= i < 4 ==> Strings.Lt(LevelNames[i], LevelNames[i + 1])
  {
    var n := LevelNames;
    LtLiteral(n[0], n[1], 0);
    LtLiteral(n[1], n[2], 6);
    LtLiteral(n[2], n[3], 0);
    LtLiteral(n[3], n[4], 0);
  }

  lemma LevelNamesAdjacentLast()
    ensures forall i :: 4 <= i < 7 ==> Strings.Lt(LevelNames[i], LevelNames[i + 1])
  {
    var n := LevelNames;
    LtLiteral(n[4], n[5], 0);
    LtLiteral(n[5], n[6], 0);
    LtLiteral(n[6], n[7], 5);
  }

  lemma LevelNamesSorted()
    ensures StrictlySorted(LevelNames)
  {
    LevelNamesAdjacentFirst();
    LevelNamesAdjacentLast();
    SortedFromAdjacent(LevelNames);
  }

  /** A well-formed content is written canonically. */
  lemma ContentCanonical(c: AnyContent)
    requires ContentWellFormed(c)
    ensures Canonical(ContentValue(c))
  {
    match c
    case PowerLevels(l) =>
      LevelNamesSorted();
      AssocCanonical(l.events, NumberValue);
      AssocCanonical(l.users, NumberValue);
      StructCanonical(LevelFields(l), LevelNames);
    case Member(m) => SingleField(MemberName, String(m));
    case Create(x) => SingleField(CreatorName, String(x));
    case JoinRules(x) => SingleField(JoinRuleName, String(x));
    case HistoryVisibility(x) => SingleField(HistoryVisibilityName, String(x));
    case RoomAliases(a) => SingleField(AliasesName, AliasesValue(a));
    case Other => SingleField("", Null);
  }

  function RefFields(p: Pdu): seq<Option<Entry>> {
    EnvelopeFields(p, ContentValue(p.content), if HasState(p.stateKey) then Some(StateValue(p.stateKey)) else None, false)
  }

  /** What `Serialize for PDURef` writes of the optional fields: never
      `signatures`; `hashes`, `origin` and `prev_state` exactly when present. */
  lemma RefToValueOptionals(p: Pdu)
    ensures GetFromMap(RefToValue(p), "signatures").None?
    ensures GetFromMap(RefToValue(p), "hashes").Some? <==> p.hashes.Some?
    ensures GetFromMap(RefToValue(p), "origin") == (if p.origin.Some? then Some(String(p.origin.value)) else None)
    ensures GetFromMap(RefToValue(p), "prev_state").Some? <==> p.prevState.Some?
  {
    var fields := RefFields(p);
    assert RefToValue(p) == Struct(fields);
    FieldNamesSorted();
    PresentGet(fields, FieldNames, 3);
    PresentGet(fields, FieldNames, 4);
    PresentGet(fields, FieldNames, 7);
    PresentGet(fields, FieldNames, 10);
  }

  /** What `Serialize for PDURef` writes of the state key, type and content:
      `state_key` exactly when `has_state` holds, as `""` for the empty key. */
  lemma RefToValueShape(p: Pdu)
    ensures GetFromMap(RefToValue(p), "state_key").Some? <==> HasState(p.stateKey)
    ensures GetFromMap(RefToValue(p), "state_key").None? <==> MissingState(p.stateKey)
    ensures p.stateKey.Empty? ==> GetFromMap(RefToValue(p), "state_key") == Some(String(""))
    ensures GetFromMap(RefToValue(p), "type") == Some(String(p.pduType))
    ensures GetFromMap(RefToValue(p), "content") == Some(ContentValue(p.content))
  {
    var fields := RefFields(p);
    assert RefToValue(p) == Struct(fields);
    FieldNamesSorted();
    PresentGet(fields, FieldNames, 1);
    PresentGet(fields, FieldNames, 11);
    PresentGet(fields, FieldNames, 12);
  }

  /** A well-formed PDU is written as a canonical map: the declared names
      are already in key order. */
  lemma RefToValueCanonical(p: Pdu)
    requires WellFormed(p)
    ensures Canonical(RefToValue(p))
  {
    var fields := RefFields(p);
    assert RefToValue(p) == Struct(fields);
    FieldNamesSorted();
    ContentCanonical(p.content);
    if p.hashes.Some? {
      AssocCanonical(p.hashes.value, StringValue);
    }
    StructCanonical(fields, FieldNames);
  }

  // ---------------------------------------------------------------------
  // Round trip: what is written parses back

  lemma StringMapRoundTrip(m: Assoc<string>)
    requires SortedMaps.Sorted(m)
    ensures StringMap(Unparse(StringMapValue(m))) == Success(m)
  {
    AssocRoundTrip(m, StringValue, Json.DecodeString);
  }

  lemma SignaturesRoundTrip(s: Signatures)
    requires SignaturesSorted(s)
    ensures SignaturesMap(Unparse(SignaturesValue(s))) == Success(s)
  {
    forall i | 0 <= i < |s| ensures StringMap(Unparse(StringMapValue(s[i].1))) == Success(s[i].1) {
      StringMapRoundTrip(s[i].1);
    }
    AssocRoundTrip(s, StringMapValue, StringMap);
  }

  lemma LevelMapRoundTrip(m: Assoc<int>)
    requires SortedMaps.Sorted(m) && SortedMaps.AllValues(m, IsI64)
    ensures LevelMap(Unparse(AssocValue(m, NumberValue))) == Success(m)
  {
    AssocRoundTrip(m, NumberValue, Json.DecodeI64);
  }

  /** `DecodePowerLevels` on an object whose eight fields read back. */
  lemma DecodePowerLevelsOf(ms: seq<Json.Member>, l: PowerLevelsContent)
    requires Json.Required(ms, "ban", Json.DecodeI64) == Success(l.ban)
    requires Json.Required(ms, "events", LevelMap) == Success(l.events)
    requires Json.Required(ms, "events_default", Json.DecodeI64) == Success(l.eventsDefault)
    requires Json.Required(ms, "kick", Json.DecodeI64) == Success(l.kick)
    requires Json.Required(ms, "redact", Json.DecodeI64) == Success(l.redact)
    requires Json.Required(ms, "state_default", Json.DecodeI64) == Success(l.stateDefault)
    requires Json.Required(ms, "users", LevelMap) == Success(l.users)
    requires Json.Required(ms, "users_default", Json.DecodeI64) == Success(l.usersDefault)
    ensures DecodePowerLevels(Json.JObject(ms)) == Success(l)
  {
  }

  /** Power-level field `ban` reads back. */
  lemma LevelFieldsReadBan(l: PowerLevelsContent)
    requires LevelsWellFormed(l)
    ensures Json.Required(UnparseEntries(Present(LevelFields(l))), "ban", Json.DecodeI64) == Success(l.ban)
  {
    var fields := LevelFields(l);
    LevelNamesSorted();
    StructRequired(fields, LevelNames, 0, Json.DecodeI64, l.ban);
  }

  /** Power-level field `events` reads back. */
  lemma LevelFieldsReadEvents(l: PowerLevelsContent)
    requires LevelsWellFormed(l)
    ensures Json.Required(UnparseEntries(Present(LevelFields(l))), "events", LevelMap) == Success(l.events)
  {
    var fields := LevelFields(l);
    LevelNamesSorted();
    LevelMapRoundTrip(l.events);
    StructRequired(fields, LevelNames, 1, LevelMap, l.events);
  }

  /** Power-level field `events_default` reads back. */
  lemma LevelFieldsReadEventsDefault(l: PowerLevelsContent)
    requires LevelsWellFormed(l)
    ensures Json.Required(UnparseEntries(Present(LevelFields(l))), "events_default", Json.DecodeI64) == Success(l.eventsDefault)
  {
    var fields := LevelFields(l);
    LevelNamesSorted();
    StructRequired(fields, LevelNames, 2, Json.DecodeI64, l.eventsDefault);
  }

  /** Power-level field `kick` reads back. */
  lemma LevelFieldsReadKick(l: PowerLevelsContent)
    requires LevelsWellFormed(l)
    ensures Json.Required(UnparseEntries(Present(LevelFields(l))), "kick", Json.DecodeI64) == Success(l.kick)
  {
    var fields := LevelFields(l);
    LevelNamesSorted();
    StructRequired(fields, LevelNames, 3, Json.DecodeI64, l.kick);
  }

  /** Power-level field `redact` reads back. */
  lemma LevelFieldsReadRedact(l: PowerLevelsContent)
    requires LevelsWellFormed(l)
    ensures Json.Required(UnparseEntries(Present(LevelFields(l))), "redact", Json.DecodeI64) == Success(l.redact)
  {
    var fields := LevelFields(l);
    LevelNamesSorted();
    StructRequired(fields, LevelNames, 4, Json.DecodeI64, l.redact);
  }

  /** Power-level field `state_default` reads back. */
  lemma LevelFieldsReadStateDefault(l: PowerLevelsContent)
    requires LevelsWellFormed(l)
    ensures Json.Required(UnparseEntries(Present(LevelFields(l))), "state_default", Json.DecodeI64) == Success(l.stateDefault)
  {
    var fields := LevelFields(l);
    LevelNamesSorted();
    StructRequired(fields, LevelNames, 5, Json.DecodeI64, l.stateDefault);
  }

  /** Power-level field `users` reads back. */
  lemma LevelFieldsReadUsers(l: PowerLevelsContent)
    requires LevelsWellFormed(l)
    ensures Json.Required(UnparseEntries(Present(LevelFields(l))), "users", LevelMap) == Success(l.users)
  {
    var fields := LevelFields(l);
    LevelNamesSorted();
    LevelMapRoundTrip(l.users);
    StructRequired(fields, LevelNames, 6, LevelMap, l.users);
  }

  /** Power-level field `users_default` reads back. */
  lemma LevelFieldsReadUsersDefault(l: PowerLevelsContent)
    requires LevelsWellFormed(l)
    ensures Json.Required(UnparseEntries(Present(LevelFields(l))), "users_default", Json.DecodeI64) == Success(l.usersDefault)
  {
    var fields := LevelFields(l);
    LevelNamesSorted();
    StructRequired(fields, LevelNames, 7, Json.DecodeI64, l.usersDefault);
  }

  lemma PowerLevelsRoundTrip(l: PowerLevelsContent)
    requires LevelsWellFormed(l)
    ensures DecodePowerLevels(Unparse(ContentValue(PowerLevels(l)))) == Success(l)
  {
    var ms := UnparseEntries(Present(LevelFields(l)));
    assert Unparse(ContentValue(PowerLevels(l))) == Json.JObject(ms);
    LevelFieldsReadBan(l);
    LevelFieldsReadEvents(l);
    LevelFieldsReadEventsDefault(l);
    LevelFieldsReadKick(l);
    LevelFieldsReadRedact(l);
    LevelFieldsReadStateDefault(l);
    LevelFieldsReadUsers(l);
    LevelFieldsReadUsersDefault(l);
    DecodePowerLevelsOf(ms, l);
  }

  /** A content struct of one string field parses back. */
  lemma StringFieldRoundTrip(name: string, x: string)
    ensures StringField(Unparse(Struct([Always(name, String(x))])), name) == Success(x)
  {
    StructLookup([Always(name, String(x))], [name], 0);
  }

  lemma AliasesRoundTrip(a: RoomAliasesList)
    ensures DecodeRoomAliases(Unparse(ContentValue(RoomAliases(a)))) == Success(a)
  {
    StructLookup([Always(AliasesName, AliasesValue(a))], [AliasesName], 0);
    if a.Multiple? {
      StringListRoundTrip(a.aliases);
    }
  }

  /** `ParseAs` on an object whose envelope fields read back. */
  lemma ParseAsOf<C, S>(ms: seq<Json.Member>, q: PduOf<C, S>, stateField: Option<Json.Json>,
                        dc: Json.Json -> Json.DecodeResult<C>, ds: Option<Json.Json> -> Json.DecodeResult<S>)
    requires Json.Required(ms, "auth_events", EventList) == Success(q.authEvents)
    requires Json.Required(ms, "content", dc) == Success(q.content)
    requires Json.Required(ms, "depth", Json.DecodeU64) == Success(q.depth)
    requires Json.Optional(ms, "hashes", StringMap) == Success(q.hashes)
    requires Json.Optional(ms, "origin", Json.DecodeString) == Success(q.origin)
    requires Json.Required(ms, "origin_server_ts", Json.DecodeU64) == Success(q.originServerTs)
    requires Json.Required(ms, "prev_events", EventList) == Success(q.prevEvents)
    requires Json.Optional(ms, "prev_state", EventList) == Success(q.prevState)
    requires Json.Required(ms, "room_id", Json.DecodeString) == Success(q.roomId)
    requires Json.Required(ms, "sender", Json.DecodeOwned) == Success(q.sender)
    requires Json.Optional(ms, "signatures", SignaturesMap) == Success(q.signatures)
    requires Json.Field(ms, "state_key") == Success(stateField) && ds(stateField) == Success(q.stateKey)
    requires Json.Required(ms, "type", Json.DecodeString) == Success(q.pduType)
    ensures ParseAs(Json.JObject(ms), dc, ds) == Success(q)
  {
  }

  /** The written envelope, with the signatures it reads back with. */
  function Written<C, S>(p: PduOf<C, S>, withSignatures: bool): (r: PduOf<C, S>)
    ensures r.signatures == (if withSignatures then p.signatures else None)
    ensures r.(signatures := p.signatures) == p
  {
    if withSignatures then p else p.(signatures := None)
  }

  /** Envelope field `auth_events` reads back. */
  lemma EnvelopeReadAuthEvents<C, S>(p: PduOf<C, S>, cv: Value, sv: Option<Value>, withSignatures: bool)
    requires EnvelopeWellFormed(p)
    ensures Json.Required(UnparseEntries(Present(EnvelopeFields(p, cv, sv, withSignatures))), "auth_events", EventList) == Success(p.authEvents)
  {
    var fields := EnvelopeFields(p, cv, sv, withSignatures);
    FieldNamesSorted();
    StringListRoundTrip(p.authEvents);
    StructRequired(fields, FieldNames, 0, EventList, p.authEvents);
  }

  /** Envelope field `content` reads back. */
  lemma EnvelopeReadContent<C, S>(p: PduOf<C, S>, cv: Value, sv: Option<Value>, withSignatures: bool,
                                dc: Json.Json -> Json.DecodeResult<C>)
    requires EnvelopeWellFormed(p)
    requires dc(Unparse(cv)) == Success(p.content)
    ensures Json.Required(UnparseEntries(Present(EnvelopeFields(p, cv, sv, withSignatures))), "content", dc) == Success(p.content)
  {
    var fields := EnvelopeFields(p, cv, sv, withSignatures);
    FieldNamesSorted();
    StructRequired(fields, FieldNames, 1, dc, p.content);
  }

  /** Envelope field `depth` reads back. */
  lemma EnvelopeReadDepth<C, S>(p: PduOf<C, S>, cv: Value, sv: Option<Value>, withSignatures: bool)
    requires EnvelopeWellFormed(p)
    ensures Json.Required(UnparseEntries(Present(EnvelopeFields(p, cv, sv, withSignatures))), "depth", Json.DecodeU64) == Success(p.depth)
  {
    var fields := EnvelopeFields(p, cv, sv, withSignatures);
    FieldNamesSorted();
    StructRequired(fields, FieldNames, 2, Json.DecodeU64, p.depth);
  }

  /** Envelope field `hashes` reads back, absent as `None`. */
  lemma EnvelopeReadHashes<C, S>(p: PduOf<C, S>, cv: Value, sv: Option<Value>, withSignatures: bool)
    requires EnvelopeWellFormed(p)
    ensures Json.Optional(UnparseEntries(Present(EnvelopeFields(p, cv, sv, withSignatures))), "hashes", StringMap) == Success(p.hashes)
  {
    var fields := EnvelopeFields(p, cv, sv, withSignatures);
    FieldNamesSorted();
    if p.hashes.Some? {
      StringMapRoundTrip(p.hashes.value);
    }
    StructOptional(fields, FieldNames, 3, StringMap, p.hashes);
  }

  /** Envelope field `origin` reads back, absent as `None`. */
  lemma EnvelopeReadOrigin<C, S>(p: PduOf<C, S>, cv: Value, sv: Option<Value>, withSignatures: bool)
    requires EnvelopeWellFormed(p)
    ensures Json.Optional(UnparseEntries(Present(EnvelopeFields(p, cv, sv, withSignatures))), "origin", Json.DecodeString) == Success(p.origin)
  {
    var fields := EnvelopeFields(p, cv, sv, withSignatures);
    FieldNamesSorted();
    StructOptional(fields, FieldNames, 4, Json.DecodeString, p.origin);
  }

  /** Envelope field `origin_server_ts` reads back. */
  lemma EnvelopeReadTimestamp<C, S>(p: PduOf<C, S>, cv: Value, sv: Option<Value>, withSignatures: bool)
    requires EnvelopeWellFormed(p)
    ensures Json.Required(UnparseEntries(Present(EnvelopeFields(p, cv, sv, withSignatures))), "origin_server_ts", Json.DecodeU64) == Success(p.originServerTs)
  {
    var fields := EnvelopeFields(p, cv, sv, withSignatures);
    FieldNamesSorted();
    StructRequired(fields, FieldNames, 5, Json.DecodeU64, p.originServerTs);
  }

  /** Envelope field `prev_events` reads back. */
  lemma EnvelopeReadPrevEvents<C, S>(p: PduOf<C, S>, cv: Value, sv: Option<Value>, withSignatures: bool)
    requires EnvelopeWellFormed(p)
    ensures Json.Required(UnparseEntries(Present(EnvelopeFields(p, cv, sv, withSignatures))), "prev_events", EventList) == Success(p.prevEvents)
  {
    var fields := EnvelopeFields(p, cv, sv, withSignatures);
    FieldNamesSorted();
    StringListRoundTrip(p.prevEvents);
    StructRequired(fields, FieldNames, 6, EventList, p.prevEvents);
  }

  /** Envelope field `prev_state` reads back, absent as `None`. */
  lemma EnvelopeReadPrevState<C, S>(p: PduOf<C, S>, cv: Value, sv: Option<Value>, withSignatures: bool)
    requires EnvelopeWellFormed(p)
    ensures Json.Optional(UnparseEntries(Present(EnvelopeFields(p, cv, sv, withSignatures))), "prev_state", EventList) == Success(p.prevState)
  {
    var fields := EnvelopeFields(p, cv, sv, withSignatures);
    FieldNamesSorted();
    if p.prevState.Some? {
      StringListRoundTrip(p.prevState.value);
    }
    StructOptional(fields, FieldNames, 7, EventList, p.prevState);
  }

  /** Envelope field `room_id` reads back. */
  lemma EnvelopeReadRoomId<C, S>(p: PduOf<C, S>, cv: Value, sv: Option<Value>, withSignatures: bool)
    requires EnvelopeWellFormed(p)
    ensures Json.Required(UnparseEntries(Present(EnvelopeFields(p, cv, sv, withSignatures))), "room_id", Json.DecodeString) == Success(p.roomId)
  {
    var fields := EnvelopeFields(p, cv, sv, withSignatures);
    FieldNamesSorted();
    StructRequired(fields, FieldNames, 8, Json.DecodeString, p.roomId);
  }

  /** Envelope field `sender` reads back. */
  lemma EnvelopeReadSender<C, S>(p: PduOf<C, S>, cv: Value, sv: Option<Value>, withSignatures: bool)
    requires EnvelopeWellFormed(p)
    ensures Json.Required(UnparseEntries(Present(EnvelopeFields(p, cv, sv, withSignatures))), "sender", Json.DecodeOwned) == Success(p.sender)
  {
    var fields := EnvelopeFields(p, cv, sv, withSignatures);
    FieldNamesSorted();
    StructRequired(fields, FieldNames, 9, Json.DecodeOwned, p.sender);
  }

  /** Envelope field `signatures` reads back when it was written. */
  lemma EnvelopeReadSignatures<C, S>(p: PduOf<C, S>, cv: Value, sv: Option<Value>, withSignatures: bool)
    requires EnvelopeWellFormed(p)
    ensures Json.Optional(UnparseEntries(Present(EnvelopeFields(p, cv, sv, withSignatures))), "signatures", SignaturesMap) == Success(Written(p, withSignatures).signatures)
  {
    var fields := EnvelopeFields(p, cv, sv, withSignatures);
    FieldNamesSorted();
    if withSignatures && p.signatures.Some? {
      SignaturesRoundTrip(p.signatures.value);
    }
    StructOptional(fields, FieldNames, 10, SignaturesMap, Written(p, withSignatures).signatures);
  }

  /** Envelope field `type` reads back. */
  lemma EnvelopeReadType<C, S>(p: PduOf<C, S>, cv: Value, sv: Option<Value>, withSignatures: bool)
    requires EnvelopeWellFormed(p)
    ensures Json.Required(UnparseEntries(Present(EnvelopeFields(p, cv, sv, withSignatures))), "type", Json.DecodeString) == Success(p.pduType)
  {
    var fields := EnvelopeFields(p, cv, sv, withSignatures);
    FieldNamesSorted();
    StructRequired(fields, FieldNames, 12, Json.DecodeString, p.pduType);
  }

  /** Envelope field `state_key` reads back as the raw value written. */
  lemma EnvelopeReadStateKey<C, S>(p: PduOf<C, S>, cv: Value, sv: Option<Value>, withSignatures: bool)
    requires EnvelopeWellFormed(p)
    ensures Json.Field(UnparseEntries(Present(EnvelopeFields(p, cv, sv, withSignatures))), "state_key") == Success(if sv.Some? then Some(Unparse(sv.value)) else None)
  {
    var fields := EnvelopeFields(p, cv, sv, withSignatures);
    FieldNamesSorted();
    StructField(fields, FieldNames, 11);
  }

  /** The envelope written with content `cv` and state key `sv` parses back to
      the same PDU, as long as `cv` and `sv` parse back to its content and
      state key. Unwritten signatures come back as `None`. */
  lemma ParseAsRoundTrip<C, S>(p: PduOf<C, S>, cv: Value, sv: Option<Value>, withSignatures: bool,
                               dc: Json.Json -> Json.DecodeResult<C>, ds: Option<Json.Json> -> Json.DecodeResult<S>)
    requires EnvelopeWellFormed(p)
    requires dc(Unparse(cv)) == Success(p.content)
    requires ds(if sv.Some? then Some(Unparse(sv.value)) else None) == Success(p.stateKey)
    ensures ParseAs(Unparse(Struct(EnvelopeFields(p, cv, sv, withSignatures))), dc, ds) == Success(Written(p, withSignatures))
  {
    var ms := UnparseEntries(Present(EnvelopeFields(p, cv, sv, withSignatures)));
    assert Unparse(Struct(EnvelopeFields(p, cv, sv, withSignatures))) == Json.JObject(ms);
    EnvelopeReadAuthEvents(p, cv, sv, withSignatures);
    EnvelopeReadContent(p, cv, sv, withSignatures, dc);
    EnvelopeReadDepth(p, cv, sv, withSignatures);
    EnvelopeReadHashes(p, cv, sv, withSignatures);
    EnvelopeReadOrigin(p, cv, sv, withSignatures);
    EnvelopeReadTimestamp(p, cv, sv, withSignatures);
    EnvelopeReadPrevEvents(p, cv, sv, withSignatures);
    EnvelopeReadPrevState(p, cv, sv, withSignatures);
    EnvelopeReadRoomId(p, cv, sv, withSignatures);
    EnvelopeReadSender(p, cv, sv, withSignatures);
    EnvelopeReadSignatures(p, cv, sv, withSignatures);
    EnvelopeReadType(p, cv, sv, withSignatures);
    EnvelopeReadStateKey(p, cv, sv, withSignatures);
    ParseAsOf(ms, Written(p, withSignatures), if sv.Some? then Some(Unparse(sv.value)) else None, dc, ds);
  }

  /** Parsing with one content type what was written for a PDU whose content
      and state key are the upcasts of `c` and `s`. */
  lemma ParseUpcastRoundTrip<C, S>(p: Pdu, c: C, s: S, sv: Option<Value>, withSignatures: bool,
                                   dc: Json.Json -> Json.DecodeResult<C>, ds: Option<Json.Json> -> Json.DecodeResult<S>,
                                   upcastContent: C -> AnyContent, upcastState: S -> AnyState)
    requires EnvelopeWellFormed(p)
    requires upcastContent(c) == p.content && upcastState(s) == p.stateKey
    requires dc(Unparse(ContentValue(p.content))) == Success(c)
    requires ds(if sv.Some? then Some(Unparse(sv.value)) else None) == Success(s)
    ensures ParseUpcast(Unparse(Struct(EnvelopeFields(p, ContentValue(p.content), sv, withSignatures))), dc, ds, upcastContent, upcastState)
            == Success(Written(p, withSignatures))
  {
    var q := WithParts(p, c, s);
    assert EnvelopeFields(q, ContentValue(p.content), sv, withSignatures) == EnvelopeFields(p, ContentValue(p.content), sv, withSignatures);
    ParseAsRoundTrip(q, ContentValue(p.content), sv, withSignatures, dc, ds);
    UpcastWithParts(p, c, s, upcastContent, upcastState);
  }

  /** Only the listed event types select a content type of their own. */
  lemma KindOfTypeInverse(t: string)
    ensures KindOfType(t) == MemberKind ==> t == "m.room.member"
    ensures KindOfType(t) == CreateKind ==> t == "m.room.create"
    ensures KindOfType(t) == HistoryVisibilityKind ==> t == "m.room.history_visibility"
    ensures KindOfType(t) == JoinRulesKind ==> t == "m.room.join_rules"
    ensures KindOfType(t) == PowerLevelsKind ==> t == "m.room.power_levels"
    ensures KindOfType(t) == RoomAliasesKind ==> t == "m.room.aliases"
    ensures KindOfType(t) == OtherKind ==> t !in TypeTable
  {
  }

  /** The type of a written PDU reads back alone. */
  lemma TypeOnlyWritten(p: Pdu, sv: Option<Value>, withSignatures: bool)
    requires EnvelopeWellFormed(p)
    ensures TypeOnly(Unparse(Struct(EnvelopeFields(p, ContentValue(p.content), sv, withSignatures)))) == Success(p.pduType)
  {
    var ms := UnparseEntries(Present(EnvelopeFields(p, ContentValue(p.content), sv, withSignatures)));
    assert Unparse(Struct(EnvelopeFields(p, ContentValue(p.content), sv, withSignatures))) == Json.JObject(ms);
    EnvelopeReadType(p, ContentValue(p.content), sv, withSignatures);
  }

  /** The state key written as its value, or left out when it is missing. */
  ghost predicate StateWritten(s: AnyState, sv: Option<Value>) {
    sv == Some(StateValue(s)) || (sv.None? && MissingState(s))
  }

  lemma ParseWrittenMember(p: Pdu, sv: Option<Value>, withSignatures: bool)
    requires WellFormed(p) && Fits(p) && StateWritten(p.stateKey, sv) && p.content.Member?
    ensures Parse(Unparse(Struct(EnvelopeFields(p, ContentValue(p.content), sv, withSignatures)))) == Success(Written(p, withSignatures))
  {
    TypeOnlyWritten(p, sv, withSignatures);
    KindOfTypeInverse(p.pduType);
    StringFieldRoundTrip(MemberName, p.content.membership);
    ParseUpcastRoundTrip(p, p.content.membership, p.stateKey.user, sv, withSignatures, DecodeMember, DecodeUserKey, UpcastMember, UpcastUserKey);
  }

  lemma ParseWrittenCreate(p: Pdu, sv: Option<Value>, withSignatures: bool)
    requires WellFormed(p) && Fits(p) && StateWritten(p.stateKey, sv) && p.content.Create?
    ensures Parse(Unparse(Struct(EnvelopeFields(p, ContentValue(p.content), sv, withSignatures)))) == Success(Written(p, withSignatures))
  {
    TypeOnlyWritten(p, sv, withSignatures);
    KindOfTypeInverse(p.pduType);
    StringFieldRoundTrip(CreatorName, p.content.creator);
    ParseUpcastRoundTrip(p, p.content.creator, (), sv, withSignatures, DecodeCreate, DecodeEmptyKey, UpcastCreate, UpcastEmptyKey);
  }

  lemma ParseWrittenHistoryVisibility(p: Pdu, sv: Option<Value>, withSignatures: bool)
    requires WellFormed(p) && Fits(p) && StateWritten(p.stateKey, sv) && p.content.HistoryVisibility?
    ensures Parse(Unparse(Struct(EnvelopeFields(p, ContentValue(p.content), sv, withSignatures)))) == Success(Written(p, withSignatures))
  {
    TypeOnlyWritten(p, sv, withSignatures);
    KindOfTypeInverse(p.pduType);
    StringFieldRoundTrip(HistoryVisibilityName, p.content.historyVisibility);
    ParseUpcastRoundTrip(p, p.content.historyVisibility, (), sv, withSignatures, DecodeHistoryVisibility, DecodeEmptyKey, UpcastHistoryVisibility, UpcastEmptyKey);
  }

  lemma ParseWrittenJoinRules(p: Pdu, sv: Option<Value>, withSignatures: bool)
    requires WellFormed(p) && Fits(p) && StateWritten(p.stateKey, sv) && p.content.JoinRules?
    ensures Parse(Unparse(Struct(EnvelopeFields(p, ContentValue(p.content), sv, withSignatures)))) == Success(Written(p, withSignatures))
  {
    TypeOnlyWritten(p, sv, withSignatures);
    KindOfTypeInverse(p.pduType);
    StringFieldRoundTrip(JoinRuleName, p.content.joinRule);
    ParseUpcastRoundTrip(p, p.content.joinRule, (), sv, withSignatures, DecodeJoinRules, DecodeEmptyKey, UpcastJoinRules, UpcastEmptyKey);
  }

  /** The content of a well-formed power-levels PDU reads back. */
  lemma PowerLevelsDecode(p: Pdu)
    requires WellFormed(p) && p.content.PowerLevels?
    ensures DecodePowerLevels(Unparse(ContentValue(p.content))) == Success(p.content.levels)
  {
    PowerLevelsRoundTrip(p.content.levels);
  }

  lemma ParseWrittenPowerLevels(p: Pdu, sv: Option<Value>, withSignatures: bool)
    requires WellFormed(p) && Fits(p) && StateWritten(p.stateKey, sv) && p.content.PowerLevels?
    ensures Parse(Unparse(Struct(EnvelopeFields(p, ContentValue(p.content), sv, withSignatures)))) == Success(Written(p, withSignatures))
  {
    TypeOnlyWritten(p, sv, withSignatures);
    KindOfTypeInverse(p.pduType);
    PowerLevelsDecode(p);
    ParseUpcastRoundTrip(p, p.content.levels, (), sv, withSignatures, DecodePowerLevels, DecodeEmptyKey, UpcastPowerLevels, UpcastEmptyKey);
  }

  lemma ParseWrittenRoomAliases(p: Pdu, sv: Option<Value>, withSignatures: bool)
    requires WellFormed(p) && Fits(p) && StateWritten(p.stateKey, sv) && p.content.RoomAliases?
    ensures Parse(Unparse(Struct(EnvelopeFields(p, ContentValue(p.content), sv, withSignatures)))) == Success(Written(p, withSignatures))
  {
    TypeOnlyWritten(p, sv, withSignatures);
    KindOfTypeInverse(p.pduType);
    AliasesRoundTrip(p.content.aliases);
    ParseUpcastRoundTrip(p, p.content.aliases, p.stateKey.server, sv, withSignatures, DecodeRoomAliases, DecodeServerNameKey, UpcastRoomAliases, UpcastServerNameKey);
  }

  lemma ParseWrittenOther(p: Pdu, sv: Option<Value>, withSignatures: bool)
    requires WellFormed(p) && Fits(p) && StateWritten(p.stateKey, sv) && p.content.Other?
    ensures Parse(Unparse(Struct(EnvelopeFields(p, ContentValue(p.content), sv, withSignatures)))) == Success(Written(p, withSignatures))
  {
    TypeOnlyWritten(p, sv, withSignatures);
    KindOfTypeInverse(p.pduType);
    assert Unparse(ContentValue(Other)) == Json.JObject([]);
    ParseUpcastRoundTrip(p, (), p.stateKey.key, sv, withSignatures, DecodeEmpty, DecodeOtherKey, UpcastOther, UpcastOtherKey);
  }

  /** `parse_pdu_ref` reads back a well-formed PDU whose content and state
      key fit its type, written with or without its signatures. */
  lemma ParseWritten(p: Pdu, sv: Option<Value>, withSignatures: bool)
    requires WellFormed(p) && Fits(p) && StateWritten(p.stateKey, sv)
    ensures Parse(Unparse(Struct(EnvelopeFields(p, ContentValue(p.content), sv, withSignatures)))) == Success(Written(p, withSignatures))
  {
    match p.content
    case Member(_) => ParseWrittenMember(p, sv, withSignatures);
    case Create(_) => ParseWrittenCreate(p, sv, withSignatures);
    case HistoryVisibility(_) => ParseWrittenHistoryVisibility(p, sv, withSignatures);
    case JoinRules(_) => ParseWrittenJoinRules(p, sv, withSignatures);
    case PowerLevels(_) => ParseWrittenPowerLevels(p, sv, withSignatures);
    case RoomAliases(_) => ParseWrittenRoomAliases(p, sv, withSignatures);
    case Other => ParseWrittenOther(p, sv, withSignatures);
  }

  /** `parse_pdu_ref` reads back what `Serialize for PDURef` writes, without
      the signatures it never writes, when no string it writes needs an
      escape (`RoomIdRead` shows why an escaped room id cannot come back). */
  lemma RefRoundTrip(p: Pdu)
    requires WellFormed(p) && Fits(p) && Unescaped(RefToValue(p))
    ensures Parse(Write(RefToValue(p))) == Success(p.(signatures := None))
  {
    WriteUnescaped(RefToValue(p));
    ParseWritten(p, if HasState(p.stateKey) then Some(StateValue(p.stateKey)) else None, false);
  }

  /** The room id of a parsed PDU is its `room_id` member read as a borrowed
      string: a document whose `room_id` is written with an escape, such as
      `"!a\/b:x"`, does not parse. */
  lemma RoomIdRead(j: Json.Json)
    ensures Parse(j).Success? ==> j.JObject? && Json.Required(j.members, "room_id", Json.DecodeString) == Success(Parse(j).value.roomId)
    ensures j.JObject? && (exists s :: Json.Lookup(j.members, "room_id") == Some(Json.JEscaped(s))) ==> Parse(j).Failure?
  {
    if Parse(j).Success? {
      ParseFits(j);
    }
  }
}

=== FILE: playground.dfy ===
/** Transaction ingestion and room replay (`playground.rs`). The node keeps
    two stores: a persistent one holding, per room, the raw PDU blobs in the
    order they arrived, and an ephemeral one holding, per room, the parsed
    events keyed by event id, an index from timestamp to event id, and the
    room's interner.

    The stores are plain values here: each operation returns the new state.
    A panic (`unwrap`, `expect`, the interner's limit) is a `Failure`
    carrying the panic message, and the `Failure` carries no state. What a
    panicking `ingest_transaction` leaves in the persistent store is
    modelled by `Ingest.PersistentLeft`. */
module Playground {
  import opened Wrappers
  import SortedMaps
  import Json
  import Crypto
  import MatrixTypes
  import CanonicalHash
  import opened Interner
  import PduRef
  import PduOwned
  import PduArc
  import ServerKeys
  import Edu

  type Pdu = PduRef.Pdu

  /** The one room whose events `ingest_transaction` also persists. */
  const SuperPublicRoom: string := "!jhTIqlwlxKKoPPHIgH:synapse-dev.demi.ro"

  const UnwrapNone: string := "called `Option::unwrap()` on a `None` value"
  const UnwrapErr: string := "called `Result::unwrap()` on an `Err` value"

  // ---------------------------------------------------------------------
  // State

  /** `ParsedPDU`: an event as the ephemeral store keeps it. */
  datatype ParsedPdu = ParsedPdu(
    eventId: string,
    arcEventId: Option<Handle>,
    pdu: PduArc.PduArc,
    blob: Json.Json,
    signatureCheck: Option<Outcome<string>>,
    hashCheck: Option<Result<(), CanonicalHash.HashError>>)

  /** An ephemeral room: events by event id (a `BTreeMap` ordered by the
      handle's content), the timestamp index, and the room's interner. */
  datatype EphemeralRoom = EphemeralRoom(
    pdus: map<string, ParsedPdu>,
    pdusByTimestamp: map<nat, Handle>,
    interner: Interner)

  /** `RoomPersistence`: the blobs appended so far, oldest first. */
  datatype PersistentRoom = PersistentRoom(pduBlobs: seq<Json.Json>)

  /** The parts of `State` the pipeline touches: persistent rooms in room-id
      order and ephemeral rooms. */
  datatype State = State(persistent: SortedMaps.Assoc<PersistentRoom>, ephemeral: map<string, EphemeralRoom>)

  /** What the pipeline reads but never changes: the crypto primitives and
      `State::get_server_key`, the cache of other servers' public keys. */
  datatype Env = Env(c: Crypto.Primitives, keys: ServerKeys.KeyLookup)

  /** `EphemeralRoom::default`. */
  function DefaultRoom(): (r: EphemeralRoom)
    ensures r.pdus == map[] && r.pdusByTimestamp == map[] && ValidInterner(r.interner)
  {
    EphemeralRoom(map[], map[], Empty())
  }

  // ---------------------------------------------------------------------
  // The two checks every PDU goes through

  /** `Result<(), &str>` of a signature check that did not panic. */
  function SignatureOutcome(v: ServerKeys.Verdict): (r: Outcome<string>)
    requires !v.Panicked?
    ensures r.Pass? <==> v.Verified?
    ensures r.Fail? ==> v == ServerKeys.Rejected(r.error)
  {
    match v
    case Verified => Pass
    case Rejected(reason) => Fail(reason)
  }

  /** The signatures taken with `unwrap`, `verify` against the sender's
      server, and `verify_content_hash` on the raw blob. Panics when the PDU
      has no signatures or a signature is malformed. */
  function Checks(env: Env, p: Pdu, blob: Json.Json): (r: Result<(Outcome<string>, Result<(), CanonicalHash.HashError>), string>)
    ensures r.Failure? <==> p.signatures.None? || SignatureVerdict(env, p).Panicked?
    ensures r.Success? ==> r.value.0 == SignatureOutcome(SignatureVerdict(env, p))
    ensures r.Success? ==> r.value.1 == CanonicalHash.VerifyContentHash(env.c, blob, false)
  {
    if p.signatures.None? then Failure(UnwrapNone)
    else
      var verdict := ServerKeys.VerifyPdu(env.c, env.keys, p, MatrixTypes.ServerNameOf(p.sender), p.signatures.value);
      if verdict.Panicked? then Failure(verdict.reason)
      else Success((SignatureOutcome(verdict), CanonicalHash.VerifyContentHash(env.c, blob, false)))
  }

  /** What `verify` says of a PDU that has signatures. */
  function SignatureVerdict(env: Env, p: Pdu): ServerKeys.Verdict {
    if p.signatures.None? then ServerKeys.Rejected(UnwrapNone)
    else ServerKeys.VerifyPdu(env.c, env.keys, p, MatrixTypes.ServerNameOf(p.sender), p.signatures.value)
  }

  // ---------------------------------------------------------------------
  // Interning an event

  /** An interner grows by at most one event id and what one PDU adds. */
  function StepSize(p: Pdu): nat {
    1 + PduArc.Size(p)
  }

  type Interned = Result<(Interner, Handle, PduArc.PduArc), string>

  /** What interning an event id and a PDU promises: it succeeds when every
      typed interner has room for the event, and then the handle names the
      event id, the interned PDU stands for the PDU, and the interner only
      grew, by at most the event's size. */
  ghost predicate InternSpec(i: Interner, id: string, p: Pdu, r: Interned) {
    && (PduArc.Room(i, StepSize(p)) ==> r.Success?)
    && (r.Success? ==>
          && r.value.1.content == id
          && PduArc.Erase(r.value.2) == p
          && Extends(i, r.value.0)
          && PduArc.Grew(i, r.value.0, StepSize(p))
          && (ValidInterner(i) ==> ValidInterner(r.value.0)))
  }

  lemma InternEventId(i: Interner, id: string, n: nat)
    requires PduArc.Room(i, 1 + n)
    ensures GetOrInsert(i, Events, id).Success?
    ensures var i1 := GetOrInsert(i, Events, id).value.0;
            Extends(i, i1) && PduArc.Grew(i, i1, 1) && PduArc.Room(i1, n)
  {
    PduArc.InternOne(i, Events, id);
    GetOrInsertExtends(i, Events, id);
  }

  /** Interning the event id and then the PDU succeeds when the interner
      has room for both. */
  lemma IdFirstSucceeds(i: Interner, id: string, p: Pdu)
    ensures PduArc.Room(i, StepSize(p)) ==>
              && GetOrInsert(i, Events, id).Success?
              && PduArc.FromPduRef(GetOrInsert(i, Events, id).value.0, p).Success?
  {
    if PduArc.Room(i, StepSize(p)) {
      InternEventId(i, id, PduArc.Size(p));
      PduArc.FromPduRefSucceeds(GetOrInsert(i, Events, id).value.0, p);
    }
  }

  /** Interning the PDU succeeds when the interner has room for it and the
      event id after it, and leaves room for the event id. */
  lemma PduFirstSucceeds(i: Interner, p: Pdu)
    ensures PduArc.Room(i, StepSize(p)) ==>
              PduArc.FromPduRef(i, p).Success? && PduArc.Room(PduArc.FromPduRef(i, p).value.0, 1)
  {
    if PduArc.Room(i, StepSize(p)) {
      PduArc.RoomLess(i, StepSize(p), PduArc.Size(p));
      PduArc.FromPduRefSucceeds(i, p);
      PduArc.RoomLeft(i, PduArc.FromPduRef(i, p).value.0, PduArc.Size(p), 1);
    }
  }

  lemma InternOneWhenRoom(i: Interner, id: string)
    ensures PduArc.Room(i, 1) ==> GetOrInsert(i, Events, id).Success?
  {
    if PduArc.Room(i, 1) {
      PduArc.InternOne(i, Events, id);
    }
  }

  /** Ingestion's order (`playground.rs` 669-671): the event id, then the
      PDU. */
  function InternEvent(i: Interner, id: string, p: Pdu): (r: Interned)
    ensures InternSpec(i, id, p, r)
    ensures r.Failure? ==> r.error == LimitMessage
  {
    IdFirstSucceeds(i, id, p);
    var (i1, h) :- GetOrInsert(i, Events, id);
    GetOrInsertExtends(i, Events, id);
    var (i2, arc) :- PduArc.FromPduRef(i1, p);
    ExtendsTransitive(i, i1, i2);
    Success((i2, h, arc))
  }

  /** Replay's order (`playground.rs` 573-574): the PDU, then the event
      id. */
  function InternLoaded(i: Interner, id: string, p: Pdu): (r: Interned)
    ensures InternSpec(i, id, p, r)
    ensures r.Failure? ==> r.error == LimitMessage
  {
    PduFirstSucceeds(i, p);
    ThenEventId(i, PduArc.FromPduRef(i, p), id, p)
  }

  /** The second half of replay's order: the event id, interned after the
      PDU went in as `first` describes. */
  function ThenEventId(i: Interner, first: Result<(Interner, PduArc.PduArc), string>, id: string, p: Pdu): (r: Interned)
    requires first.Success? ==>
               && PduArc.Erase(first.value.1) == p
               && Extends(i, first.value.0)
               && PduArc.Grew(i, first.value.0, PduArc.Size(p))
               && (ValidInterner(i) ==> ValidInterner(first.value.0))
    requires first.Failure? ==> first.error == LimitMessage
    requires PduArc.Room(i, StepSize(p)) ==> first.Success? && PduArc.Room(first.value.0, 1)
    ensures InternSpec(i, id, p, r)
    ensures r.Failure? ==> r.error == LimitMessage
  {
    var (i1, arc) :- first;
    Finish(i, i1, arc, id, p)
  }

  function Finish(i: Interner, i1: Interner, arc: PduArc.PduArc, id: string, p: Pdu): (r: Interned)
    requires PduArc.Erase(arc) == p && Extends(i, i1) && PduArc.Grew(i, i1, PduArc.Size(p))
    requires ValidInterner(i) ==> ValidInterner(i1)
    requires PduArc.Room(i, StepSize(p)) ==> PduArc.Room(i1, 1)
    ensures InternSpec(i, id, p, r)
    ensures r.Failure? ==> r.error == LimitMessage
  {
    InternOneWhenRoom(i1, id);
    var (i2, h) :- GetOrInsert(i1, Events, id);
    PduArc.InternGrows(i1, Events, id);
    ExtendsTransitive(i, i1, i2);
    Success((i2, h, arc))
  }

  // ---------------------------------------------------------------------
  // The steps the pipeline takes from the other modules

  type Checked = (Outcome<string>, Result<(), CanonicalHash.HashError>)

  /** The per-event steps ingestion and replay are built from: parsing a
      blob, the two checks, naming an event, and the two interning orders.
      The pipeline is stated over any steps that keep `Sound`; `RealSteps`
      are the ones the node runs. */
  datatype Steps = Steps(
    parse: Json.Json -> Json.DecodeResult<Pdu>,
    check: (Pdu, Json.Json) -> Result<Checked, string>,
    eventId: Pdu -> string,
    internIngested: (Interner, string, Pdu) -> Interned,
    internLoaded: (Interner, string, Pdu) -> Interned)

  /** Both interning orders keep `InternSpec`. */
  ghost predicate Sound(s: Steps) {
    && (forall i, id, p :: InternSpec(i, id, p, s.internIngested(i, id, p)))
    && (forall i, id, p :: InternSpec(i, id, p, s.internLoaded(i, id, p)))
  }

  /** The node's steps: `parse_pdu_ref` (and `parse_pdu`, which reads a
      document the same way), `Checks`, `generate_event_id`, and the two
      interning orders. */
  function RealSteps(env: Env): Steps {
    Steps(PduRef.Parse, (p, blob) => Checks(env, p, blob), p => ServerKeys.RefEventId(env.c, p).content,
          InternEvent, InternLoaded)
  }

  lemma RealStepsSound(env: Env)
    ensures Sound(RealSteps(env))
  {
    IngestOrderSound(env);
    LoadOrderSound(env);
  }

  lemma IngestOrderSound(env: Env)
    ensures forall i, id, p :: InternSpec(i, id, p, RealSteps(env).internIngested(i, id, p))
  {
    forall i, id, p ensures InternSpec(i, id, p, RealSteps(env).internIngested(i, id, p)) {
      assert RealSteps(env).internIngested(i, id, p) == InternEvent(i, id, p);
    }
  }

  lemma LoadOrderSound(env: Env)
    ensures forall i, id, p :: InternSpec(i, id, p, RealSteps(env).internLoaded(i, id, p))
  {
    forall i, id, p ensures InternSpec(i, id, p, RealSteps(env).internLoaded(i, id, p)) {
      assert RealSteps(env).internLoaded(i, id, p) == InternLoaded(i, id, p);
    }
  }

  // ---------------------------------------------------------------------
  // Stored records

  /** The record stored for PDU `p` under event id `id`: its interned copy,
      its raw blob and the given outcomes of the two checks. */
  ghost predicate Stored(rec: ParsedPdu, id: string, p: Pdu, blob: Json.Json, checked: Checked) {
    && rec.eventId == id
    && rec.arcEventId.Some? && rec.arcEventId.value.content == id
    && PduArc.Erase(rec.pdu) == p
    && rec.blob == blob
    && rec.signatureCheck == Some(checked.0)
    && rec.hashCheck == Some(checked.1)
  }

  /** The record carries the outcomes the checks give for this PDU and
      blob. */
  ghost predicate Recorded(s: Steps, rec: ParsedPdu, id: string, p: Pdu, blob: Json.Json) {
    s.check(p, blob).Success? && Stored(rec, id, p, blob, s.check(p, blob).value)
  }

  /** How storing one event changes a room's events and interner: the event
      is written under its id, replacing any earlier one, the other events
      stay, and the interner only grows. */
  ghost predicate StoredIn(before: EphemeralRoom, after: EphemeralRoom, id: string, p: Pdu) {
    && after.pdus.Keys == before.pdus.Keys + {id}
    && (forall k :: k in before.pdus && k != id ==> after.pdus[k] == before.pdus[k])
    && Extends(before.interner, after.interner)
    && PduArc.Grew(before.interner, after.interner, StepSize(p))
    && (ValidInterner(before.interner) ==> ValidInterner(after.interner))
  }

  /** Storing one event in a room, with `intern` one of the two orders: the
      record goes in under the event id with the interner `intern` returns.
      The timestamp index is not touched. */
  function StoreEvent(intern: (Interner, string, Pdu) -> Interned, room: EphemeralRoom, id: string, p: Pdu,
                      blob: Json.Json, checked: Checked): (r: Result<(EphemeralRoom, Handle), string>)
    requires forall i, id, p :: InternSpec(i, id, p, intern(i, id, p))
    ensures PduArc.Room(room.interner, StepSize(p)) ==> r.Success?
    ensures r.Success? ==> StoredIn(room, r.value.0, id, p) && Stored(r.value.0.pdus[id], id, p, blob, checked)
    ensures r.Success? ==> r.value.0.pdusByTimestamp == room.pdusByTimestamp && r.value.1.content == id
    ensures r.Success? ==> r.value.0.pdus[id].pdu.originServerTs == p.originServerTs
  {
    assert InternSpec(room.interner, id, p, intern(room.interner, id, p));
    var (i, h, arc) :- intern(room.interner, id, p);
    var rec := ParsedPdu(id, Some(h), arc, blob, Some(checked.0), Some(checked.1));
    Success((room.(pdus := room.pdus[id := rec], interner := i), h))
  }

  // ---------------------------------------------------------------------
  // `render_contents`

  /** `MessagePDU`: the `body` of the blob's `content`. */
  function MessageBody(blob: Json.Json): (r: Json.DecodeResult<string>)
    ensures r.Success? <==>
              && blob.JObject?
              && Json.Required(blob.members, "content", ContentBody).Success?
    ensures r.Success? ==> r.value == ContentBody(Json.Lookup(blob.members, "content").value).value
  {
    var ms :- Json.Members(blob);
    Json.Required(ms, "content", ContentBody)
  }

  /** `MessageContent`: a `body` borrowed as `&str`, so a string literal
      without escapes. */
  function ContentBody(j: Json.Json): (r: Json.DecodeResult<string>)
    ensures r.Success? <==> j.JObject? && Json.CountKey(j.members, "body") == 1
                            && Json.Lookup(j.members, "body").value.JString?
    ensures r.Success? ==> r.value == Json.Lookup(j.members, "body").value.s
  {
    var ms :- Json.Members(j);
    Json.Required(ms, "body", Json.DecodeString)
  }

  /** The one-line summary of an event, read from the plain PDU and its
      blob. Only a message whose blob has no body that `MessageContent` can
      borrow fails (the `unwrap` on the re-parse): a missing or non-string
      body, or one written with an escape (`EscapedBodyPanics`). */
  function Summary(p: Pdu, blob: Json.Json): (r: Result<string, string>)
    ensures r.Failure? <==> p.content.Other? && p.pduType == "m.room.message" && MessageBody(blob).Failure?
  {
    match p.content
    case Member(membership) => Success(p.sender + " " + membership)
    case Create(creator) => Success(creator + " created the room")
    case JoinRules(rule) => Success(p.sender + " changed join rules to " + rule)
    case PowerLevels(_) => Success(p.sender + " changed power levels")
    case HistoryVisibility(vis) => Success(p.sender + " made room " + vis)
    case RoomAliases(_) => Success(p.sender + " set room aliases")
    case Other =>
      if p.pduType == "m.room.message" then
        match MessageBody(blob)
        case Success(body) => Success(p.sender + " says \"" + body + "\"")
        case Failure(_) => Failure(UnwrapErr)
      else Success(p.sender + " unknown")
  }

  /** A message whose body is written with an escape, such as `"a\nb"`,
      cannot be borrowed, so rendering it panics. */
  lemma EscapedBodyPanics(p: Pdu, blob: Json.Json, content: seq<Json.Member>, body: string)
    requires p.content.Other? && p.pduType == "m.room.message"
    requires blob.JObject? && Json.Lookup(blob.members, "content") == Some(Json.JObject(content))
    requires Json.Lookup(content, "body") == Some(Json.JEscaped(body))
    ensures Summary(p, blob).Failure?
  {
  }

  /** `ParsedPDU::render_contents`, on the interned PDU. */
  function RenderContents(rec: ParsedPdu): (r: Result<string, string>)
    ensures r == Summary(PduArc.Erase(rec.pdu), rec.blob)
  {
    var a := rec.pdu;
    match a.content
    case Member(membership) => Success(a.sender.content + " " + membership.content)
    case Create(creator) => Success(creator.content + " created the room")
    case JoinRules(rule) => Success(a.sender.content + " changed join rules to " + rule.content)
    case PowerLevels(_, _, _, _, _, _, _, _) => Success(a.sender.content + " changed power levels")
    case HistoryVisibility(vis) => Success(a.sender.content + " made room " + vis.content)
    case RoomAliases(_) => Success(a.sender.content + " set room aliases")
    case Other =>
      if a.pduType.content == "m.room.message" then
        match MessageBody(rec.blob)
        case Success(body) => Success(a.sender.content + " says \"" + body + "\"")
        case Failure(_) => Failure(UnwrapErr)
      else Success(a.sender.content + " unknown")
  }

  /** A stored record renders as the event it was stored for. */
  lemma RenderStored(rec: ParsedPdu, id: string, p: Pdu, blob: Json.Json, checked: Checked)
    requires Stored(rec, id, p, blob, checked)
    ensures RenderContents(rec) == Summary(p, blob)
  {
  }
}

=== FILE: replay.dfy ===
/** Rebuilding the ephemeral store from the persistent one
    (`load_persistent_room` and `load_persistent_rooms`, `playground.rs`
    529-592): every stored blob is parsed again, checked, interned in its
    room (created on first use) and indexed by event id and by timestamp.

    As in `Ingest`, the steps are a parameter that keeps `Sound`, and a
    panic is a `Failure`. */
module Replay {
  import opened Wrappers
  import SortedMaps
  import Json
  import PduArc
  import opened Interner
  import opened Playground

  type Rooms = map<string, EphemeralRoom>

  /** `entry(room_id).or_default()`, read. */
  function RoomOf(rooms: Rooms, rid: string): (r: EphemeralRoom)
    ensures rid in rooms ==> r == rooms[rid]
    ensures rid !in rooms ==> r == DefaultRoom()
  {
    if rid in rooms then rooms[rid] else DefaultRoom()
  }

  /** How replaying one event changes its room: the event is stored under
      its id with the outcomes of its checks, and the timestamp index maps
      the event's timestamp to it, replacing an earlier event with the same
      timestamp. */
  ghost predicate LoadedInto(s: Steps, before: EphemeralRoom, after: EphemeralRoom, p: Pdu, blob: Json.Json) {
    var id := s.eventId(p);
    && StoredIn(before, after, id, p)
    && Recorded(s, after.pdus[id], id, p, blob)
    && IndexedAt(before.pdusByTimestamp, after.pdusByTimestamp, p.originServerTs, id)
  }

  /** The timestamp index after `insert(ts, handle)` of a handle to `id`. */
  ghost predicate IndexedAt(before: map<nat, Handle>, after: map<nat, Handle>, ts: nat, id: string) {
    && after.Keys == before.Keys + {ts}
    && after[ts].content == id
    && (forall t :: t in before && t != ts ==> after[t] == before[t])
  }

  /** A parsed blob: named, checked, and stored in its room, which is
      created when missing. */
  function LoadParsed(s: Steps, rooms: Rooms, p: Pdu, blob: Json.Json): (r: Result<Rooms, string>)
    requires Sound(s)
    ensures s.check(p, blob).Failure? ==> r == Failure(s.check(p, blob).error)
    ensures s.check(p, blob).Success? && PduArc.Room(RoomOf(rooms, p.roomId).interner, StepSize(p)) ==> r.Success?
    ensures r.Success? ==> r.value.Keys == rooms.Keys + {p.roomId}
    ensures r.Success? ==> forall rid :: rid in rooms && rid != p.roomId ==> r.value[rid] == rooms[rid]
    ensures r.Success? ==> LoadedInto(s, RoomOf(rooms, p.roomId), r.value[p.roomId], p, blob)
  {
    var id := s.eventId(p);
    var checked :- s.check(p, blob);
    var before := RoomOf(rooms, p.roomId);
    var (room, h) :- StoreEvent(s.internLoaded, before, id, p, blob, checked);
    var after := room.(pdusByTimestamp := room.pdusByTimestamp[room.pdus[id].pdu.originServerTs := h]);
    IndexedLoaded(s, before, checked, room, h, p, blob);
    Success(rooms[p.roomId := after])
  }

  /** A stored event whose handle then goes into the timestamp index under
      the event's timestamp is loaded into its room. */
  lemma IndexedLoaded(s: Steps, before: EphemeralRoom, checked: Checked, room: EphemeralRoom, h: Handle, p: Pdu, blob: Json.Json)
    requires Sound(s) && s.check(p, blob) == Success(checked)
    requires StoreEvent(s.internLoaded, before, s.eventId(p), p, blob, checked) == Success((room, h))
    ensures s.eventId(p) in room.pdus
    ensures LoadedInto(s, before, room.(pdusByTimestamp := room.pdusByTimestamp[room.pdus[s.eventId(p)].pdu.originServerTs := h]), p, blob)
  {
    var id := s.eventId(p);
    var after := room.(pdusByTimestamp := room.pdusByTimestamp[room.pdus[id].pdu.originServerTs := h]);
    assert StoredIn(before, after, id, p) by {
      assert after.pdus == room.pdus && after.interner == room.interner;
    }
    assert Recorded(s, after.pdus[id], id, p, blob) by {
      assert after.pdus == room.pdus;
    }
    assert IndexedAt(before.pdusByTimestamp, after.pdusByTimestamp, p.originServerTs, id);
  }

  /** One persisted blob: parsed (an `unwrap`), then loaded. */
  function LoadOne(s: Steps, rooms: Rooms, blob: Json.Json): (r: Result<Rooms, string>)
    requires Sound(s)
    ensures s.parse(blob).Failure? ==> r == Failure(UnwrapErr)
    ensures s.parse(blob).Success? && s.check(s.parse(blob).value, blob).Failure? ==>
              r == Failure(s.check(s.parse(blob).value, blob).error)
    ensures s.parse(blob).Success? && s.check(s.parse(blob).value, blob).Success?
            && PduArc.Room(RoomOf(rooms, s.parse(blob).value.roomId).interner, StepSize(s.parse(blob).value))
            ==> r.Success?
    ensures r.Success? ==> s.parse(blob).Success?
    ensures r.Success? ==>
              var p := s.parse(blob).value;
              && r.value.Keys == rooms.Keys + {p.roomId}
              && (forall rid :: rid in rooms && rid != p.roomId ==> r.value[rid] == rooms[rid])
              && LoadedInto(s, RoomOf(rooms, p.roomId), r.value[p.roomId], p, blob)
  {
    match s.parse(blob)
    case Failure(_) => Failure(UnwrapErr)
    case Success(p) => LoadParsed(s, rooms, p, blob)
  }

  /** The replay loop over one room's blobs, in stored order. */
  function LoadBlobs(s: Steps, rooms: Rooms, blobs: seq<Json.Json>): (r: Result<Rooms, string>)
    requires Sound(s)
    ensures r.Success? ==> rooms.Keys <= r.value.Keys
    decreases |blobs|
  {
    if |blobs| == 0 then Success(rooms)
    else
      var rooms1 :- LoadOne(s, rooms, blobs[0]);
      LoadBlobs(s, rooms1, blobs[1..])
  }

  /** The rooms the blobs belong to. */
  ghost function RoomsOf(s: Steps, blobs: seq<Json.Json>): set<string> {
    set k | 0 <= k < |blobs| && s.parse(blobs[k]).Success? :: s.parse(blobs[k]).value.roomId
  }

  /** The event ids of the blobs of room `rid`. */
  ghost function IdsOf(s: Steps, blobs: seq<Json.Json>, rid: string): set<string> {
    set k | 0 <= k < |blobs| && s.parse(blobs[k]).Success? && s.parse(blobs[k]).value.roomId == rid
          :: s.eventId(s.parse(blobs[k]).value)
  }

  /** The timestamps of the blobs of room `rid`. */
  ghost function TimestampsOf(s: Steps, blobs: seq<Json.Json>, rid: string): set<nat> {
    set k | 0 <= k < |blobs| && s.parse(blobs[k]).Success? && s.parse(blobs[k]).value.roomId == rid
          :: s.parse(blobs[k]).value.originServerTs
  }

  lemma OfCons(s: Steps, blobs: seq<Json.Json>, rid: string)
    requires |blobs| > 0 && s.parse(blobs[0]).Success?
    ensures var p := s.parse(blobs[0]).value;
            && RoomsOf(s, blobs) == {p.roomId} + RoomsOf(s, blobs[1..])
            && IdsOf(s, blobs, rid) == (if p.roomId == rid then {s.eventId(p)} else {}) + IdsOf(s, blobs[1..], rid)
            && TimestampsOf(s, blobs, rid) == (if p.roomId == rid then {p.originServerTs} else {}) + TimestampsOf(s, blobs[1..], rid)
  {
    assert forall k :: 0 < k < |blobs| ==> blobs[k] == blobs[1..][k - 1];
    assert forall k :: 0 <= k < |blobs| - 1 ==> blobs[1..][k] == blobs[k + 1];
  }

  /** A blob that cannot be loaded into any room: it does not parse, or the
      checks of the event it holds panic. */
  ghost predicate Unloadable(s: Steps, blob: Json.Json) {
    s.parse(blob).Failure? || s.check(s.parse(blob).value, blob).Failure?
  }

  /** A blob that does not parse, or whose checks panic, fails the replay,
      wherever it stands among the blobs. */
  lemma {:induction false} LoadBlobsFails(s: Steps, rooms: Rooms, blobs: seq<Json.Json>, k: nat)
    requires Sound(s) && k < |blobs| && Unloadable(s, blobs[k])
    ensures LoadBlobs(s, rooms, blobs).Failure?
    decreases |blobs|
  {
    var first := LoadOne(s, rooms, blobs[0]);
    if k > 0 && first.Success? {
      assert blobs[1..][k - 1] == blobs[k];
      LoadBlobsFails(s, first.value, blobs[1..], k - 1);
    }
  }

  /** What one replayed blob does to room `rid`: nothing unless it is the
      blob's room. */
  lemma LoadOneRoom(s: Steps, rooms: Rooms, blob: Json.Json, rid: string)
    requires Sound(s) && LoadOne(s, rooms, blob).Success?
    ensures var r := LoadOne(s, rooms, blob).value;
            var p := s.parse(blob).value;
            && (rid in r <==> rid in rooms || rid == p.roomId)
            && (rid != p.roomId ==> RoomOf(r, rid) == RoomOf(rooms, rid))
            && (rid == p.roomId ==> LoadedInto(s, RoomOf(rooms, rid), RoomOf(r, rid), p, blob))
  {
  }

  /** What one replayed blob adds to the events of room `rid`: its event id
      when it is the blob's room, nothing otherwise. */
  lemma LoadOneIdKeys(s: Steps, rooms: Rooms, blob: Json.Json, rid: string)
    requires Sound(s) && LoadOne(s, rooms, blob).Success?
    ensures var p := s.parse(blob).value;
            RoomOf(LoadOne(s, rooms, blob).value, rid).pdus.Keys
            == RoomOf(rooms, rid).pdus.Keys + (if p.roomId == rid then {s.eventId(p)} else {})
  {
    var p := s.parse(blob).value;
    if p.roomId == rid {
      LoadOneOwnRoom(s, rooms, blob);
    } else {
      LoadOneOtherRoom(s, rooms, blob, rid);
    }
  }

  /** What one replayed blob adds to the timestamp index of room `rid`: its
      timestamp when it is the blob's room, nothing otherwise. */
  lemma LoadOneTimestampKeys(s: Steps, rooms: Rooms, blob: Json.Json, rid: string)
    requires Sound(s) && LoadOne(s, rooms, blob).Success?
    ensures var p := s.parse(blob).value;
            RoomOf(LoadOne(s, rooms, blob).value, rid).pdusByTimestamp.Keys
            == RoomOf(rooms, rid).pdusByTimestamp.Keys + (if p.roomId == rid then {p.originServerTs} else {})
  {
    var p := s.parse(blob).value;
    if p.roomId == rid {
      LoadOneOwnRoom(s, rooms, blob);
    } else {
      LoadOneOtherRoom(s, rooms, blob, rid);
    }
  }

  /** One replayed blob leaves every other room as it was. */
  lemma LoadOneOtherRoom(s: Steps, rooms: Rooms, blob: Json.Json, rid: string)
    requires Sound(s) && LoadOne(s, rooms, blob).Success? && s.parse(blob).value.roomId != rid
    ensures RoomOf(LoadOne(s, rooms, blob).value, rid) == RoomOf(rooms, rid)
  {
  }

  /** One replayed blob, seen from its own room. */
  lemma LoadOneOwnRoom(s: Steps, rooms: Rooms, blob: Json.Json)
    requires Sound(s) && LoadOne(s, rooms, blob).Success?
    ensures var p := s.parse(blob).value;
            LoadedInto(s, RoomOf(rooms, p.roomId), RoomOf(LoadOne(s, rooms, blob).value, p.roomId), p, blob)
  {
  }

  /** Replay creates exactly the rooms the blobs name. */
  lemma {:induction false} LoadBlobsRooms(s: Steps, rooms: Rooms, blobs: seq<Json.Json>)
    requires Sound(s)
    ensures var r := LoadBlobs(s, rooms, blobs);
            r.Success? ==> r.value.Keys == rooms.Keys + RoomsOf(s, blobs)
    decreases |blobs|
  {
    var r := LoadBlobs(s, rooms, blobs);
    if |blobs| > 0 && r.Success? {
      var rooms1 := LoadOne(s, rooms, blobs[0]).value;
      LoadBlobsRooms(s, rooms1, blobs[1..]);
      OfCons(s, blobs, "");
    }
  }

  /** Adding the first blob's share, then the rest's, adds all of them. */
  lemma UnionStep<T>(after: set<T>, mid: set<T>, before: set<T>, head: set<T>, rest: set<T>, all: set<T>)
    requires mid == before + head && after == mid + rest && all == head + rest
    ensures after == before + all
  {
  }

  /** One step of the replay loop, seen from room `rid`: the first blob
      adds its event id and timestamp to the room when it belongs there, and
      the rest of the loop runs on the rooms that step leaves. */
  lemma LoadBlobsStep(s: Steps, rooms: Rooms, blobs: seq<Json.Json>, rid: string)
    requires Sound(s) && |blobs| > 0 && LoadBlobs(s, rooms, blobs).Success?
    ensures LoadOne(s, rooms, blobs[0]).Success?
    ensures var rooms1 := LoadOne(s, rooms, blobs[0]).value;
            var p := s.parse(blobs[0]).value;
            && LoadBlobs(s, rooms, blobs) == LoadBlobs(s, rooms1, blobs[1..])
            && RoomOf(rooms1, rid).pdus.Keys == RoomOf(rooms, rid).pdus.Keys + (if p.roomId == rid then {s.eventId(p)} else {})
            && RoomOf(rooms1, rid).pdusByTimestamp.Keys
               == RoomOf(rooms, rid).pdusByTimestamp.Keys + (if p.roomId == rid then {p.originServerTs} else {})
            && IdsOf(s, blobs, rid) == (if p.roomId == rid then {s.eventId(p)} else {}) + IdsOf(s, blobs[1..], rid)
            && TimestampsOf(s, blobs, rid) == (if p.roomId == rid then {p.originServerTs} else {}) + TimestampsOf(s, blobs[1..], rid)
  {
    LoadOneIdKeys(s, rooms, blobs[0], rid);
    LoadOneTimestampKeys(s, rooms, blobs[0], rid);
    OfCons(s, blobs, rid);
  }

  /** Each room gains exactly the event ids of its blobs. */
  lemma {:induction false} LoadBlobsIds(s: Steps, rooms: Rooms, blobs: seq<Json.Json>, rid: string)
    requires Sound(s)
    ensures var r := LoadBlobs(s, rooms, blobs);
            r.Success? && rid in r.value ==>
              r.value[rid].pdus.Keys == RoomOf(rooms, rid).pdus.Keys + IdsOf(s, blobs, rid)
    decreases |blobs|
  {
    var r := LoadBlobs(s, rooms, blobs);
    if |blobs| > 0 && r.Success? && rid in r.value {
      var rooms1 := LoadOne(s, rooms, blobs[0]).value;
      var p := s.parse(blobs[0]).value;
      LoadBlobsStep(s, rooms, blobs, rid);
      LoadBlobsIds(s, rooms1, blobs[1..], rid);
      UnionStep(r.value[rid].pdus.Keys, RoomOf(rooms1, rid).pdus.Keys, RoomOf(rooms, rid).pdus.Keys,
                if p.roomId == rid then {s.eventId(p)} else {}, IdsOf(s, blobs[1..], rid), IdsOf(s, blobs, rid));
    }
  }

  /** Each room's timestamp index gains exactly the timestamps of its
      blobs. */
  lemma {:induction false} LoadBlobsTimestamps(s: Steps, rooms: Rooms, blobs: seq<Json.Json>, rid: string)
    requires Sound(s)
    ensures var r := LoadBlobs(s, rooms, blobs);
            r.Success? && rid in r.value ==>
              r.value[rid].pdusByTimestamp.Keys == RoomOf(rooms, rid).pdusByTimestamp.Keys + TimestampsOf(s, blobs, rid)
    decreases |blobs|
  {
    var r := LoadBlobs(s, rooms, blobs);
    if |blobs| > 0 && r.Success? && rid in r.value {
      var rooms1 := LoadOne(s, rooms, blobs[0]).value;
      var p := s.parse(blobs[0]).value;
      LoadBlobsStep(s, rooms, blobs, rid);
      LoadBlobsTimestamps(s, rooms1, blobs[1..], rid);
      UnionStep(r.value[rid].pdusByTimestamp.Keys, RoomOf(rooms1, rid).pdusByTimestamp.Keys, RoomOf(rooms, rid).pdusByTimestamp.Keys,
                if p.roomId == rid then {p.originServerTs} else {}, TimestampsOf(s, blobs[1..], rid), TimestampsOf(s, blobs, rid));
    }
  }

  /** The event id of the last blob of room `rid` with timestamp `ts`. */
  ghost function LastAt(s: Steps, blobs: seq<Json.Json>, rid: string, ts: nat): Option<string>
    decreases |blobs|
  {
    if |blobs| == 0 then None
    else
      var later := LastAt(s, blobs[1..], rid, ts);
      if later.Some? then later
      else if s.parse(blobs[0]).Success? && s.parse(blobs[0]).value.roomId == rid
              && s.parse(blobs[0]).value.originServerTs == ts
      then Some(s.eventId(s.parse(blobs[0]).value))
      else None
  }

  /** A replay that succeeds ran its first blob, then the rest. */
  lemma LoadBlobsTail(s: Steps, rooms: Rooms, blobs: seq<Json.Json>)
    requires Sound(s) && |blobs| > 0 && LoadBlobs(s, rooms, blobs).Success?
    ensures LoadOne(s, rooms, blobs[0]).Success?
    ensures LoadBlobs(s, rooms, blobs) == LoadBlobs(s, LoadOne(s, rooms, blobs[0]).value, blobs[1..])
  {
  }

  /** What one replayed blob does to the timestamp `ts` of room `rid`: it
      points there when the blob is of that room and time, and is left as it
      was otherwise. */
  lemma LoadOneIndex(s: Steps, rooms: Rooms, blob: Json.Json, rid: string, ts: nat)
    requires Sound(s) && LoadOne(s, rooms, blob).Success?
    ensures var after := RoomOf(LoadOne(s, rooms, blob).value, rid).pdusByTimestamp;
            var before := RoomOf(rooms, rid).pdusByTimestamp;
            var p := s.parse(blob).value;
            && (p.roomId == rid && p.originServerTs == ts ==> ts in after && after[ts].content == s.eventId(p))
            && (!(p.roomId == rid && p.originServerTs == ts) ==>
                  && (ts in after <==> ts in before)
                  && (ts in before ==> after[ts] == before[ts]))
  {
    LoadOneRoom(s, rooms, blob, rid);
  }

  /** The timestamp index keeps, per timestamp, the last event replayed
      with it. */
  lemma {:induction false} LoadBlobsLastWins(s: Steps, rooms: Rooms, blobs: seq<Json.Json>, rid: string, ts: nat)
    requires Sound(s)
    ensures var r := LoadBlobs(s, rooms, blobs);
            r.Success? && rid in r.value && LastAt(s, blobs, rid, ts).Some? ==>
              && ts in r.value[rid].pdusByTimestamp
              && r.value[rid].pdusByTimestamp[ts].content == LastAt(s, blobs, rid, ts).value
    decreases |blobs|
  {
    var r := LoadBlobs(s, rooms, blobs);
    if |blobs| > 0 && r.Success? && rid in r.value && LastAt(s, blobs, rid, ts).Some? {
      var rooms1 := LoadOne(s, rooms, blobs[0]).value;
      LoadBlobsTail(s, rooms, blobs);
      LoadOneIndex(s, rooms, blobs[0], rid, ts);
      if LastAt(s, blobs[1..], rid, ts).Some? {
        LoadBlobsLastWins(s, rooms1, blobs[1..], rid, ts);
      } else {
        LoadBlobsKeepsOthers(s, rooms1, blobs[1..], rid, ts);
      }
    }
  }

  /** A timestamp no blob of the room carries keeps its old entry, or
      stays absent. */
  lemma {:induction false} LoadBlobsKeepsOthers(s: Steps, rooms: Rooms, blobs: seq<Json.Json>, rid: string, ts: nat)
    requires Sound(s)
    ensures var r := LoadBlobs(s, rooms, blobs);
            r.Success? && rid in r.value && LastAt(s, blobs, rid, ts).None? ==>
              && (ts in r.value[rid].pdusByTimestamp <==> ts in RoomOf(rooms, rid).pdusByTimestamp)
              && (ts in r.value[rid].pdusByTimestamp ==>
                    r.value[rid].pdusByTimestamp[ts] == RoomOf(rooms, rid).pdusByTimestamp[ts])
    decreases |blobs|
  {
    var r := LoadBlobs(s, rooms, blobs);
    if |blobs| > 0 && r.Success? && rid in r.value && LastAt(s, blobs, rid, ts).None? {
      LoadBlobsTail(s, rooms, blobs);
      LoadOneIndex(s, rooms, blobs[0], rid, ts);
      LoadBlobsKeepsOthers(s, LoadOne(s, rooms, blobs[0]).value, blobs[1..], rid, ts);
    }
  }

  /** The blob parses to an event of room `rid` named `id`. */
  ghost predicate Names(s: Steps, blob: Json.Json, rid: string, id: string) {
    s.parse(blob).Success? && s.parse(blob).value.roomId == rid && s.eventId(s.parse(blob).value) == id
  }

  /** The last blob of room `rid` whose event is named `id`, if any. */
  ghost function LastNamed(s: Steps, blobs: seq<Json.Json>, rid: string, id: string): (r: Option<Json.Json>)
    ensures r.Some? ==> r.value in blobs && Names(s, r.value, rid, id)
    decreases |blobs|
  {
    if |blobs| == 0 then None
    else
      var later := LastNamed(s, blobs[1..], rid, id);
      if later.Some? then later
      else if Names(s, blobs[0], rid, id) then Some(blobs[0])
      else None
  }

  /** What one replayed blob does to the event `id` of room `rid`: it is
      recorded from the blob when the blob names it, and left as it was
      otherwise. */
  lemma LoadOneRecord(s: Steps, rooms: Rooms, blob: Json.Json, rid: string, id: string)
    requires Sound(s) && LoadOne(s, rooms, blob).Success?
    ensures var after := RoomOf(LoadOne(s, rooms, blob).value, rid).pdus;
            var before := RoomOf(rooms, rid).pdus;
            && (Names(s, blob, rid, id) ==> id in after && Recorded(s, after[id], id, s.parse(blob).value, blob))
            && (!Names(s, blob, rid, id) ==>
                  && (id in after <==> id in before)
                  && (id in before ==> after[id] == before[id]))
  {
    LoadOneRoom(s, rooms, blob, rid);
  }

  /** Of several blobs of a room that name the same event, the last one is
      what the room holds under that id. */
  lemma {:induction false} LoadBlobsRecordsLast(s: Steps, rooms: Rooms, blobs: seq<Json.Json>, rid: string, id: string)
    requires Sound(s)
    ensures var r := LoadBlobs(s, rooms, blobs);
            r.Success? && LastNamed(s, blobs, rid, id).Some? ==>
              var blob := LastNamed(s, blobs, rid, id).value;
              && id in RoomOf(r.value, rid).pdus
              && Recorded(s, RoomOf(r.value, rid).pdus[id], id, s.parse(blob).value, blob)
    decreases |blobs|
  {
    var r := LoadBlobs(s, rooms, blobs);
    if |blobs| > 0 && r.Success? && LastNamed(s, blobs, rid, id).Some? {
      var rooms1 := LoadOne(s, rooms, blobs[0]).value;
      LoadBlobsTail(s, rooms, blobs);
      LoadOneRecord(s, rooms, blobs[0], rid, id);
      if LastNamed(s, blobs[1..], rid, id).Some? {
        LoadBlobsRecordsLast(s, rooms1, blobs[1..], rid, id);
      } else {
        LoadBlobsKeepsRecord(s, rooms1, blobs[1..], rid, id);
      }
    }
  }

  /** An id no blob of the room names keeps its old event, or stays
      absent. */
  lemma {:induction false} LoadBlobsKeepsRecord(s: Steps, rooms: Rooms, blobs: seq<Json.Json>, rid: string, id: string)
    requires Sound(s)
    ensures var r := LoadBlobs(s, rooms, blobs);
            r.Success? && LastNamed(s, blobs, rid, id).None? ==>
              && (id in RoomOf(r.value, rid).pdus <==> id in RoomOf(rooms, rid).pdus)
              && (id in RoomOf(rooms, rid).pdus ==> RoomOf(r.value, rid).pdus[id] == RoomOf(rooms, rid).pdus[id])
    decreases |blobs|
  {
    var r := LoadBlobs(s, rooms, blobs);
    if |blobs| > 0 && r.Success? && LastNamed(s, blobs, rid, id).None? {
      LoadBlobsTail(s, rooms, blobs);
      LoadOneRecord(s, rooms, blobs[0], rid, id);
      LoadBlobsKeepsRecord(s, LoadOne(s, rooms, blobs[0]).value, blobs[1..], rid, id);
    }
  }

  /** Replaying `a + b` is replaying `a`, then `b`. */
  lemma {:induction false} LoadBlobsAppend(s: Steps, rooms: Rooms, a: seq<Json.Json>, b: seq<Json.Json>)
    requires Sound(s)
    ensures LoadBlobs(s, rooms, a + b)
            == (var mid :- LoadBlobs(s, rooms, a); LoadBlobs(s, mid, b))
    decreases |a|
  {
    if |a| > 0 {
      assert (a + b)[0] == a[0] && (a + b)[1..] == a[1..] + b;
      var first := LoadOne(s, rooms, a[0]);
      if first.Success? {
        LoadBlobsAppend(s, first.value, a[1..], b);
      }
    } else {
      assert a + b == b;
    }
  }

  // ---------------------------------------------------------------------
  // Rooms of the persistent store

  /** `load_persistent_room`: the room must be in the persistent store (an
      `unwrap`); its blobs are replayed into the ephemeral store, and the
      persistent store is left as it was. */
  function LoadPersistentRoom(s: Steps, state: State, rid: string): (r: Result<State, string>)
    requires Sound(s)
    ensures rid !in SortedMaps.Keys(state.persistent) ==> r == Failure(UnwrapNone)
    ensures r.Success? ==> r.value.persistent == state.persistent
    ensures r.Success? ==> state.ephemeral.Keys <= r.value.ephemeral.Keys
  {
    match SortedMaps.Get(state.persistent, rid)
    case None => Failure(UnwrapNone)
    case Some(room) =>
      var rooms :- LoadBlobs(s, state.ephemeral, room.pduBlobs);
      Success(state.(ephemeral := rooms))
  }

  /** A persisted room holding a blob that cannot be loaded can never be
      replayed: every replay of it panics, whatever the ephemeral store. */
  lemma LoadPersistentRoomFails(s: Steps, state: State, rid: string, blob: Json.Json)
    requires Sound(s) && rid in SortedMaps.Keys(state.persistent)
    requires blob in SortedMaps.Get(state.persistent, rid).value.pduBlobs && Unloadable(s, blob)
    ensures LoadPersistentRoom(s, state, rid).Failure?
  {
    var blobs := SortedMaps.Get(state.persistent, rid).value.pduBlobs;
    var k :| 0 <= k < |blobs| && blobs[k] == blob;
    LoadBlobsFails(s, state.ephemeral, blobs, k);
  }

  /** The persistent rooms' ids in `BTreeSet` order, which is the store's
      own order. */
  function RoomIds(persistent: SortedMaps.Assoc<PersistentRoom>): (r: seq<string>)
    ensures |r| == |persistent|
    ensures forall k :: 0 <= k < |r| ==> r[k] in SortedMaps.Keys(persistent)
    ensures forall rid :: rid in SortedMaps.Keys(persistent) ==> rid in r
  {
    var r := seq(|persistent|, k requires 0 <= k < |persistent| => persistent[k].0);
    assert forall k :: 0 <= k < |persistent| ==> persistent[k].0 == r[k];
    r
  }

  /** The loop of `load_persistent_rooms` over the given room ids. */
  function LoadRooms(s: Steps, state: State, ids: seq<string>): (r: Result<State, string>)
    requires Sound(s)
    ensures r.Success? ==> r.value.persistent == state.persistent
    decreases |ids|
  {
    if |ids| == 0 then Success(state)
    else
      var state1 :- LoadPersistentRoom(s, state, ids[0]);
      LoadRooms(s, state1, ids[1..])
  }

  /** `load_persistent_rooms`. */
  function LoadPersistentRooms(s: Steps, state: State): (r: Result<State, string>)
    requires Sound(s)
    ensures r.Success? ==> r.value.persistent == state.persistent
  {
    LoadRooms(s, state, RoomIds(state.persistent))
  }

  /** The blobs of the given rooms, room after room. */
  function AllBlobs(persistent: SortedMaps.Assoc<PersistentRoom>, ids: seq<string>): seq<Json.Json>
    requires forall k :: 0 <= k < |ids| ==> ids[k] in SortedMaps.Keys(persistent)
    decreases |ids|
  {
    if |ids| == 0 then []
    else SortedMaps.Get(persistent, ids[0]).value.pduBlobs + AllBlobs(persistent, ids[1..])
  }

  /** Loading rooms one by one replays their blobs as one sequence, room
      after room. */
  lemma {:induction false} LoadRoomsReplaysAll(s: Steps, state: State, ids: seq<string>)
    requires Sound(s)
    requires forall k :: 0 <= k < |ids| ==> ids[k] in SortedMaps.Keys(state.persistent)
    ensures LoadRooms(s, state, ids)
            == (var rooms :- LoadBlobs(s, state.ephemeral, AllBlobs(state.persistent, ids));
                Success(state.(ephemeral := rooms)))
    decreases |ids|
  {
    if |ids| > 0 {
      var blobs := SortedMaps.Get(state.persistent, ids[0]).value.pduBlobs;
      LoadBlobsAppend(s, state.ephemeral, blobs, AllBlobs(state.persistent, ids[1..]));
      var first := LoadPersistentRoom(s, state, ids[0]);
      if first.Success? {
        LoadRoomsReplaysAll(s, first.value, ids[1..]);
      }
    }
  }

  /** `load_persistent_rooms` replays every persisted blob, rooms in room-id
      order, each room's blobs in stored order. */
  lemma LoadPersistentRoomsReplaysAll(s: Steps, state: State)
    requires Sound(s)
    ensures LoadPersistentRooms(s, state)
            == (var rooms :- LoadBlobs(s, state.ephemeral, AllBlobs(state.persistent, RoomIds(state.persistent)));
                Success(state.(ephemeral := rooms)))
  {
    LoadRoomsReplaysAll(s, state, RoomIds(state.persistent));
  }
}

=== FILE: routes_federation.dfy ===
/** The federation routes that publish and relay server keys
    (`routes_federation.rs` and `routes_federation/post_key_query.rs`): the
    server version, the node's own key document, and the notary key query
    answered from the cache of other servers' documents. */
module RoutesFederation {
  import opened Wrappers
  import SortedMaps
  import Crypto
  import opened CanonicalHash
  import opened SerdeStruct
  import opened ServerKeys

  type KeyPairs = SortedMaps.Assoc<Crypto.ServerKeyPair>

  // ---------------------------------------------------------------------
  // GET /_matrix/federation/v1/version

  datatype Server = Server(name: string, version: string)

  const SoftwareName: string := "fluctlight"

  /** `get_federation_v1_version`: the software name and the package version.
      A path version other than `v1` is only logged. */
  function FederationVersion(pathVersion: string, packageVersion: string): (r: Server)
    ensures r.name == SoftwareName && r.version == packageVersion
  {
    Server(SoftwareName, packageVersion)
  }

  /** The answer does not depend on the version named in the path. */
  lemma FederationVersionIgnoresPath(a: string, b: string, packageVersion: string)
    ensures FederationVersion(a, packageVersion) == FederationVersion(b, packageVersion)
  {
  }

  // ---------------------------------------------------------------------
  // The parts of a key document

  /** The public keys published: every key pair when no key id is asked
      for, else only the one with that id. */
  function SelectKeys(keyPairs: KeyPairs, keyId: Option<string>): (r: SortedMaps.Assoc<VerifyKey>)
    ensures SortedMaps.Keys(r) == set k | k in SortedMaps.Keys(keyPairs) && (keyId.None? || keyId == Some(k))
    decreases |keyPairs|
  {
    if |keyPairs| == 0 then []
    else
      var rest := SelectKeys(keyPairs[1..], keyId);
      SortedMaps.KeysCons(keyPairs[0], keyPairs[1..]);
      assert [keyPairs[0]] + keyPairs[1..] == keyPairs;
      if keyId.None? || keyId == Some(keyPairs[0].0) then
        SortedMaps.KeysCons((keyPairs[0].0, VerifyKey(keyPairs[0].1.publicKeyBase64)), rest);
        [(keyPairs[0].0, VerifyKey(keyPairs[0].1.publicKeyBase64))] + rest
      else rest
  }

  /** The selection keeps the map sorted, and each selected id maps to its
      pair's public key. */
  lemma {:induction false} SelectKeysEntries(keyPairs: KeyPairs, keyId: Option<string>, k: string)
    requires SortedMaps.Sorted(keyPairs)
    ensures SortedMaps.Sorted(SelectKeys(keyPairs, keyId))
    ensures k in SortedMaps.Keys(SelectKeys(keyPairs, keyId)) ==>
              SortedMaps.Get(SelectKeys(keyPairs, keyId), k) == Some(VerifyKey(SortedMaps.Get(keyPairs, k).value.publicKeyBase64))
    decreases |keyPairs|
  {
    if |keyPairs| > 0 {
      var rest := SelectKeys(keyPairs[1..], keyId);
      SortedMaps.SortedTail(keyPairs);
      SelectKeysEntries(keyPairs[1..], keyId, k);
      SortedMaps.GetCons(keyPairs[0], keyPairs[1..], k);
      assert [keyPairs[0]] + keyPairs[1..] == keyPairs;
      SortedMaps.HeadIsLeast(keyPairs);
      if keyId.None? || keyId == Some(keyPairs[0].0) {
        var head := (keyPairs[0].0, VerifyKey(keyPairs[0].1.publicKeyBase64));
        SortedMaps.SortedCons(head, rest);
        SortedMaps.GetCons(head, rest, k);
      }
    }
  }

  function Seconds(ms: nat): nat {
    ms / 1000
  }

  /** `min_by_key(as_secs)` over the pairs' expiry times: the earliest by
      whole seconds, the first such pair on a tie; `None` with no pairs. */
  function EarliestExpiry(keyPairs: KeyPairs): (r: Option<nat>)
    ensures r.None? <==> |keyPairs| == 0
    ensures r.Some? ==> exists i :: 0 <= i < |keyPairs| && keyPairs[i].1.validUntil == r.value
    ensures r.Some? ==> forall i :: 0 <= i < |keyPairs| ==> Seconds(r.value) <= Seconds(keyPairs[i].1.validUntil)
    decreases |keyPairs|
  {
    if |keyPairs| == 0 then None
    else
      var rest := EarliestExpiry(keyPairs[1..]);
      if rest.Some? && Seconds(rest.value) < Seconds(keyPairs[0].1.validUntil) then
        assert forall i :: 1 <= i < |keyPairs| ==> keyPairs[i] == keyPairs[1..][i - 1];
        rest
      else
        assert forall i :: 1 <= i < |keyPairs| ==> keyPairs[i] == keyPairs[1..][i - 1];
        Some(keyPairs[0].1.validUntil)
  }

  /** On a tie the first pair wins: the result is the expiry of a pair that
      every earlier pair's expiry exceeds by at least a second. */
  lemma {:induction false} EarliestExpiryFirst(keyPairs: KeyPairs)
    requires |keyPairs| > 0
    ensures exists i :: 0 <= i < |keyPairs| && keyPairs[i].1.validUntil == EarliestExpiry(keyPairs).value
                        && forall j :: 0 <= j < i ==> Seconds(keyPairs[j].1.validUntil) > Seconds(EarliestExpiry(keyPairs).value)
    decreases |keyPairs|
  {
    var r := EarliestExpiry(keyPairs).value;
    var tail := keyPairs[1..];
    var rest := EarliestExpiry(tail);
    if rest.Some? && Seconds(rest.value) < Seconds(keyPairs[0].1.validUntil) {
      assert r == rest.value;
      EarliestExpiryFirst(tail);
      var i :| 0 <= i < |tail| && tail[i].1.validUntil == r
               && forall j :: 0 <= j < i ==> Seconds(tail[j].1.validUntil) > Seconds(r);
      forall j | 0 <= j < i + 1 ensures Seconds(keyPairs[j].1.validUntil) > Seconds(r) {
        if j > 0 {
          assert keyPairs[j] == tail[j - 1];
        }
      }
      assert keyPairs[i + 1] == tail[i];
    } else {
      assert keyPairs[0].1.validUntil == r;
    }
  }

  // ---------------------------------------------------------------------
  // GET /_matrix/key/v2/server

  /** `get_key_v2_server`: the node's own key document. It names the node,
      publishes the selected public keys, has no old keys, expires with the
      earliest key pair, and is signed by every key pair over the document
      without its signatures, under the node's name only. */
  function KeyServer(c: Crypto.Primitives, serverName: string, keyPairs: KeyPairs, keyId: Option<string>): (r: KeysDocument)
    requires SortedMaps.Sorted(keyPairs)
    ensures r.serverName == serverName && r.oldVerifyKeys == Some([])
    ensures r.validUntilTs == EarliestExpiry(keyPairs) && r.verifyKeys == SelectKeys(keyPairs, keyId)
    ensures r.signatures.Some? && SortedMaps.Keys(r.signatures.value) == {serverName}
    ensures SortedMaps.Get(r.signatures.value, serverName) == Some(OwnSignatures(c, keyPairs, DocumentSigningText(r)))
  {
    var unsigned := KeysDocument(Some([]), serverName, None, EarliestExpiry(keyPairs), SelectKeys(keyPairs, keyId));
    var r := SignDocument(c, unsigned, serverName, keyPairs);
    assert r.(signatures := None) == unsigned.(signatures := None);
    SignaturesOnlyOwn(r.signatures.value, serverName);
    r
  }

  lemma SignaturesOnlyOwn(sigs: Signatures, serverName: string)
    requires SortedMaps.Get(sigs, serverName).Some?
    requires forall s :: s != serverName ==> SortedMaps.Get(sigs, s) == None
    ensures SortedMaps.Keys(sigs) == {serverName}
  {
    forall s | s in SortedMaps.Keys(sigs)
      ensures s == serverName
    {
      assert SortedMaps.Get(sigs, s).Some?;
    }
  }

  /** The node's key document verifies against the node's own keys, the way
      a remote server checks it. */
  lemma KeyServerVerifies(c: Crypto.Primitives, keys: KeyLookup, serverName: string, keyPairs: KeyPairs, keyId: Option<string>)
    requires SortedMaps.Sorted(keyPairs)
    requires Base64Inverse(c) && (forall i :: 0 <= i < |keyPairs| ==> SoundKeyPair(c, keyPairs[i].1))
    requires CacheKnows(keys, serverName, keyPairs)
    ensures var d := KeyServer(c, serverName, keyPairs, keyId);
            Verify(c, keys, DocumentSigningText(d), d.serverName, d.signatures.value) == Verified
  {
    var unsigned := KeysDocument(Some([]), serverName, None, EarliestExpiry(keyPairs), SelectKeys(keyPairs, keyId));
    SignedDocumentVerifies(c, keys, unsigned, serverName, keyPairs);
  }

  /** Asking for a key id the node does not have yields a document with no
      public keys, so `verify_keys` is left out of it. */
  lemma KeyServerUnknownKey(c: Crypto.Primitives, serverName: string, keyPairs: KeyPairs, keyId: string)
    requires SortedMaps.Sorted(keyPairs) && keyId !in SortedMaps.Keys(keyPairs)
    ensures GetFromMap(DocumentValue(KeyServer(c, serverName, keyPairs, Some(keyId))), "verify_keys").None?
  {
    var d := KeyServer(c, serverName, keyPairs, Some(keyId));
    if |d.verifyKeys| > 0 {
      assert d.verifyKeys[0].0 in SortedMaps.Keys(d.verifyKeys);
    }
    DocumentOptionals(d);
  }

  // ---------------------------------------------------------------------
  // POST /_matrix/key/v2/query, the version in `routes_federation.rs`

  /** The server name this version writes into its document. */
  const DevServerName: string := "fluctlight-dev.demi.ro"

  /** A key query: server name to the key ids asked for, each with a
      minimum validity time. */
  type KeyQuery = SortedMaps.Assoc<SortedMaps.Assoc<nat>>

  /** `post_key_v2_query` of `routes_federation.rs`: its loop over the query
      does nothing, so the answer is one document with no public keys, an
      empty old-key map and the fixed development server name, signed
      under the node's own name. */
  function OwnKeyQuery(c: Crypto.Primitives, serverName: string, keyPairs: KeyPairs, query: KeyQuery): (r: seq<KeysDocument>)
    requires SortedMaps.Sorted(keyPairs)
    ensures |r| == 1
    ensures r[0].serverName == DevServerName && r[0].verifyKeys == [] && r[0].oldVerifyKeys == Some([])
    ensures r[0].validUntilTs == EarliestExpiry(keyPairs)
    ensures r[0].signatures.Some? && SortedMaps.Keys(r[0].signatures.value) == {serverName}
    ensures SortedMaps.Get(r[0].signatures.value, serverName) == Some(OwnSignatures(c, keyPairs, DocumentSigningText(r[0])))
  {
    var unsigned := KeysDocument(Some([]), DevServerName, None, EarliestExpiry(keyPairs), []);
    var d := SignDocument(c, unsigned, serverName, keyPairs);
    assert d.(signatures := None) == unsigned.(signatures := None);
    SignaturesOnlyOwn(d.signatures.value, serverName);
    [d]
  }

  /** The query does not influence the answer. */
  lemma OwnKeyQueryIgnoresQuery(c: Crypto.Primitives, serverName: string, keyPairs: KeyPairs, a: KeyQuery, b: KeyQuery)
    requires SortedMaps.Sorted(keyPairs)
    ensures OwnKeyQuery(c, serverName, keyPairs, a) == OwnKeyQuery(c, serverName, keyPairs, b)
  {
  }

  /** Unless the node is the development server, the document names a
      server that did not sign it. */
  lemma OwnKeyQueryNamesOtherServer(c: Crypto.Primitives, serverName: string, keyPairs: KeyPairs, query: KeyQuery)
    requires SortedMaps.Sorted(keyPairs) && serverName != DevServerName
    ensures var d := OwnKeyQuery(c, serverName, keyPairs, query)[0];
            SortedMaps.Get(d.signatures.value, d.serverName).None?
  {
  }

  // ---------------------------------------------------------------------
  // POST /_matrix/key/v2/query, `post_key_query.rs`

  /** `post_key_v2_query` of `post_key_query.rs`: for each server of the
      query, in query order, the cached document of that server when there
      is one. The key ids asked for are ignored. */
  function CachedKeys(cache: map<string, KeysDocument>, query: KeyQuery): (r: seq<KeysDocument>)
    ensures |r| <= |query|
    ensures forall i :: 0 <= i < |r| ==> r[i] in cache.Values
    decreases |query|
  {
    if |query| == 0 then []
    else if query[0].0 in cache then [cache[query[0].0]] + CachedKeys(cache, query[1..])
    else CachedKeys(cache, query[1..])
  }

  /** The servers of the query that are in the cache, in query order. */
  function CachedServers(cache: map<string, KeysDocument>, query: KeyQuery): (r: seq<string>)
    ensures forall i :: 0 <= i < |r| ==> r[i] in cache
    ensures forall s :: s in r <==> s in cache && s in SortedMaps.Keys(query)
    decreases |query|
  {
    if |query| == 0 then []
    else
      var rest := CachedServers(cache, query[1..]);
      SortedMaps.KeysCons(query[0], query[1..]);
      assert [query[0]] + query[1..] == query;
      if query[0].0 in cache then [query[0].0] + rest else rest
  }

  /** The answer is the cached documents of exactly the cached servers the
      query names, in query order. */
  lemma {:induction false} CachedKeysAreCachedServers(cache: map<string, KeysDocument>, query: KeyQuery)
    ensures var servers := CachedServers(cache, query);
            CachedKeys(cache, query) == seq(|servers|, i requires 0 <= i < |servers| => cache[servers[i]])
    decreases |query|
  {
    if |query| > 0 {
      CachedKeysAreCachedServers(cache, query[1..]);
    }
  }

  /** The key ids asked for do not influence the answer: queries naming the
      same servers in the same order get the same answer. */
  lemma {:induction false} CachedKeysIgnoreKeyIds(cache: map<string, KeysDocument>, a: KeyQuery, b: KeyQuery)
    requires |a| == |b| && forall i :: 0 <= i < |a| ==> a[i].0 == b[i].0
    ensures CachedKeys(cache, a) == CachedKeys(cache, b)
    decreases |a|
  {
    if |a| > 0 {
      CachedKeysIgnoreKeyIds(cache, a[1..], b[1..]);
    }
  }

  /** The response: `server_keys` left out when no server was found. */
  function CachedKeysResponse(docs: seq<KeysDocument>): Value {
    Struct([if |docs| == 0 then None
            else Always("server_keys", List(seq(|docs|, i requires 0 <= i < |docs| => DocumentValue(docs[i]))))])
  }

  /** `server_keys` is written exactly when some server was found, and then
      holds one document per server found. */
  lemma CachedKeysResponseShape(docs: seq<KeysDocument>)
    ensures GetFromMap(CachedKeysResponse(docs), "server_keys").Some? <==> |docs| > 0
    ensures |docs| > 0 ==>
              var v := GetFromMap(CachedKeysResponse(docs), "server_keys").value;
              v.List? && |v.items| == |docs| && forall i :: 0 <= i < |docs| ==> v.items[i] == DocumentValue(docs[i])
  {
    var items := List(seq(|docs|, i requires 0 <= i < |docs| => DocumentValue(docs[i])));
    SingleField("server_keys", items);
    if |docs| == 0 {
      var none: seq<Option<Entry>> := [None];
      assert CachedKeysResponse(docs) == Struct(none);
      assert none[1..] == [];
    } else {
      assert GetFromMap(Map([Entry("server_keys", items)]), "server_keys") == Some(items);
    }
  }
}

=== FILE: serde_struct.dfy ===
/** How `#[derive(Serialize)]` writes a struct: a map of its fields in
    declaration order, leaving out each field whose `skip_serializing_if`
    holds. When the declared names are in key order, as in every struct the
    node signs or hashes, the written map is canonical. Also the writing of
    maps, lists and strings that these structs hold. */
module SerdeStruct {
  import opened Wrappers
  import Strings
  import SortedMaps
  import Json
  import opened CanonicalHash

  /** The entries a struct writes: one slot per declared field, `None` for a
      skipped field. */
  function Present(fields: seq<Option<Entry>>): seq<Entry>
    decreases |fields|
  {
    if |fields| == 0 then []
    else (if fields[0].Some? then [fields[0].value] else []) + Present(fields[1..])
  }

  function Struct(fields: seq<Option<Entry>>): Value {
    Map(Present(fields))
  }

  /** A field that is always written. */
  function Always(key: string, v: Value): Option<Entry> {
    Some(Entry(key, v))
  }

  /** A field with `skip_serializing_if = "Option::is_none"`. */
  function SkipNone<T>(key: string, o: Option<T>, f: T -> Value): Option<Entry> {
    if o.Some? then Some(Entry(key, f(o.value))) else None
  }

  /** An `Option` field that is always written: `None` is `null`. */
  function OrNull<T>(o: Option<T>, f: T -> Value): Value {
    if o.Some? then f(o.value) else Null
  }

  ghost predicate StrictlySorted(keys: seq<string>) {
    forall i, j :: 0 <= i < j < |keys| ==> Strings.Lt(keys[i], keys[j])
  }

  /** Slot `i`, when written, carries the `i`-th declared name. */
  ghost predicate Labelled(fields: seq<Option<Entry>>, keys: seq<string>) {
    && |fields| == |keys|
    && forall i :: 0 <= i < |fields| && fields[i].Some? ==> fields[i].value.key == keys[i]
  }

  lemma {:induction false} SortedFromAdjacent(keys: seq<string>)
    requires forall i :: 0 <= i < |keys| - 1 ==> Strings.Lt(keys[i], keys[i + 1])
    ensures StrictlySorted(keys)
    decreases |keys|
  {
    if |keys| > 1 {
      var tail := keys[1..];
      forall i | 0 <= i < |tail| - 1 ensures Strings.Lt(tail[i], tail[i + 1]) {
        assert tail[i] == keys[i + 1] && tail[i + 1] == keys[i + 2];
      }
      SortedFromAdjacent(tail);
      forall i, j | 0 <= i < j < |keys| ensures Strings.Lt(keys[i], keys[j]) {
        if i > 0 {
          assert keys[i] == tail[i - 1] && keys[j] == tail[j - 1];
        } else if j > 1 {
          assert keys[1] == tail[0] && keys[j] == tail[j - 1];
          Strings.LtTransitive(keys[0], keys[1], keys[j]);
        }
      }
    }
  }

  lemma LabelledTail(fields: seq<Option<Entry>>, keys: seq<string>)
    requires Labelled(fields, keys) && StrictlySorted(keys) && |keys| > 0
    ensures Labelled(fields[1..], keys[1..]) && StrictlySorted(keys[1..])
  {
    assert forall i :: 0 <= i < |keys| - 1 ==> keys[1..][i] == keys[i + 1] && fields[1..][i] == fields[i + 1];
  }

  /** Every written entry comes from a later slot than the first. */
  lemma {:induction false} PresentFrom(fields: seq<Option<Entry>>, keys: seq<string>, e: Entry)
    requires Labelled(fields, keys)
    requires e in Present(fields)
    ensures exists i :: 0 <= i < |fields| && fields[i] == Some(e) && e.key == keys[i]
    decreases |fields|
  {
    if fields[0].Some? && e == fields[0].value {
    } else {
      assert e in Present(fields[1..]);
      assert Labelled(fields[1..], keys[1..]) by {
        assert forall i :: 0 <= i < |fields| - 1 ==> keys[1..][i] == keys[i + 1] && fields[1..][i] == fields[i + 1];
      }
      PresentFrom(fields[1..], keys[1..], e);
      var i :| 0 <= i < |fields[1..]| && fields[1..][i] == Some(e) && e.key == keys[1..][i];
      assert fields[i + 1] == Some(e) && keys[i + 1] == keys[1..][i];
    }
  }

  /** The written keys strictly increase, so the map is in key order. */
  lemma {:induction false} PresentOrdered(fields: seq<Option<Entry>>, keys: seq<string>)
    requires Labelled(fields, keys) && StrictlySorted(keys)
    ensures KeysOrdered(Present(fields))
    decreases |fields|
  {
    if |fields| > 0 {
      LabelledTail(fields, keys);
      PresentOrdered(fields[1..], keys[1..]);
      if fields[0].Some? {
        var rest := Present(fields[1..]);
        var all := [fields[0].value] + rest;
        forall i, j | 0 <= i < j < |all| ensures Strings.Le(all[i].key, all[j].key) {
          if i == 0 {
            assert all[j] == rest[j - 1] && all[j] in rest;
            PresentFrom(fields[1..], keys[1..], all[j]);
            var k :| 0 <= k < |fields[1..]| && fields[1..][k] == Some(all[j]) && all[j].key == keys[1..][k];
            assert keys[1..][k] == keys[k + 1];
          } else {
            assert all[i] == rest[i - 1] && all[j] == rest[j - 1];
          }
        }
      }
    }
  }

  /** Reading a declared name back from the written map gives that slot. */
  lemma {:induction false} PresentGet(fields: seq<Option<Entry>>, keys: seq<string>, i: nat)
    requires Labelled(fields, keys) && StrictlySorted(keys) && i < |keys|
    ensures GetFromMap(Struct(fields), keys[i]) == if fields[i].Some? then Some(fields[i].value.value) else None
    decreases i
  {
    var es := Present(fields);
    var rest := Present(fields[1..]);
    LabelledTail(fields, keys);
    if i == 0 {
      if fields[0].Some? {
        assert es[0] == fields[0].value;
      } else {
        assert es == rest;
        assert GetFromMap(Map(es), keys[0]).None? by {
          if GetFromMap(Map(es), keys[0]).Some? {
            var k :| 0 <= k < |es| && es[k].key == keys[0];
            assert es[k] in rest;
            PresentFrom(fields[1..], keys[1..], es[k]);
            var m :| 0 <= m < |fields[1..]| && fields[1..][m] == Some(es[k]) && es[k].key == keys[1..][m];
            assert keys[1..][m] == keys[m + 1];
            Strings.LtIrreflexive(keys[0]);
          }
        }
      }
    } else {
      PresentGet(fields[1..], keys[1..], i - 1);
      assert keys[1..][i - 1] == keys[i] && fields[1..][i - 1] == fields[i];
      if fields[0].Some? {
        assert es == [fields[0].value] + rest;
        Strings.LtIrreflexive(keys[0]);
        assert fields[0].value.key != keys[i];
        GetCons(fields[0].value, rest, keys[i]);
      }
    }
  }

  lemma GetCons(x: Entry, rest: seq<Entry>, k: string)
    requires x.key != k
    ensures GetFromMap(Map([x] + rest), k) == GetFromMap(Map(rest), k)
  {
    assert ([x] + rest)[1..] == rest;
  }

  /** A struct with one field written, and one with none. */
  lemma SingleField(key: string, v: Value)
    ensures Struct([Always(key, v)]) == Map([Entry(key, v)])
    ensures Struct([]) == Map([])
  {
    var fields := [Always(key, v)];
    assert fields[1..] == [];
    assert Present(fields[1..]) == [];
    assert Present(fields) == [Entry(key, v)] + Present(fields[1..]);
  }

  /** A struct whose declared names are in key order, with canonical field
      values, is written canonically. */
  lemma StructCanonical(fields: seq<Option<Entry>>, keys: seq<string>)
    requires Labelled(fields, keys) && StrictlySorted(keys)
    requires forall i :: 0 <= i < |fields| && fields[i].Some? ==> Canonical(fields[i].value.value)
    ensures Canonical(Struct(fields))
  {
    PresentOrdered(fields, keys);
    var es := Present(fields);
    forall k | 0 <= k < |es| ensures Canonical(es[k].value) {
      PresentFrom(fields, keys, es[k]);
    }
  }

  // Collections.

  function StringValue(s: string): Value {
    String(s)
  }

  function NumberValue(n: int): Value {
    Number(n)
  }

  /** A `Vec` of strings. */
  function StringList(xs: seq<string>): (r: Value)
    ensures r.List? && |r.items| == |xs|
    ensures forall i :: 0 <= i < |xs| ==> r.items[i] == String(xs[i])
    ensures Canonical(r)
  {
    List(seq(|xs|, i requires 0 <= i < |xs| => String(xs[i])))
  }

  /** A string-keyed map, entry by entry in its (sorted) order. */
  function AssocValue<V>(m: SortedMaps.Assoc<V>, f: V -> Value): (r: Value)
    ensures r.Map? && |r.entries| == |m|
    ensures forall i :: 0 <= i < |m| ==> r.entries[i] == Entry(m[i].0, f(m[i].1))
  {
    Map(seq(|m|, i requires 0 <= i < |m| => Entry(m[i].0, f(m[i].1))))
  }

  /** A sorted map with canonical values is written canonically. */
  lemma AssocCanonical<V>(m: SortedMaps.Assoc<V>, f: V -> Value)
    requires SortedMaps.Sorted(m)
    requires forall i :: 0 <= i < |m| ==> Canonical(f(m[i].1))
    ensures Canonical(AssocValue(m, f))
  {
  }

  lemma {:induction false} LtLiteral(a: string, b: string, i: nat)
    requires i <= |a| && i <= |b| && a[..i] == b[..i]
    requires (i == |a| && i < |b|) || (i < |a| && i < |b| && a[i] < b[i])
    ensures Strings.Lt(a, b)
  {
    if i == |a| {
      Strings.LtPrefix(a, b);
    } else {
      Strings.LtAtIndex(a, b, i);
    }
  }

  // Reading written documents back.

  lemma UnparseMapCons(e: Entry, rest: seq<Entry>)
    ensures UnparseEntries([e] + rest) == [Json.Member(e.key, Unparse(e.value))] + UnparseEntries(rest)
  {
    assert ([e] + rest)[1..] == rest;
  }

  lemma CountKeyCons(m: Json.Member, ms: seq<Json.Member>, k: string)
    ensures Json.CountKey([m] + ms, k) == (if m.key == k then 1 else 0) + Json.CountKey(ms, k)
    ensures m.key == k ==> Json.Lookup([m] + ms, k) == Some(m.value)
    ensures m.key != k ==> Json.Lookup([m] + ms, k) == Json.Lookup(ms, k)
  {
    assert ([m] + ms)[1..] == ms;
  }

  /** A name that no slot carries is not in the written document. */
  lemma {:induction false} StructAbsent(fields: seq<Option<Entry>>, keys: seq<string>, k: string)
    requires Labelled(fields, keys)
    requires forall j :: 0 <= j < |keys| ==> keys[j] != k
    ensures Json.CountKey(UnparseEntries(Present(fields)), k) == 0
    decreases |fields|
  {
    if |fields| > 0 {
      assert Labelled(fields[1..], keys[1..]) by {
        assert forall i :: 0 <= i < |fields| - 1 ==> keys[1..][i] == keys[i + 1] && fields[1..][i] == fields[i + 1];
      }
      assert forall j :: 0 <= j < |keys| - 1 ==> keys[1..][j] == keys[j + 1];
      StructAbsent(fields[1..], keys[1..], k);
      if fields[0].None? {
        assert Present(fields) == Present(fields[1..]);
      } else {
        assert Present(fields) == [fields[0].value] + Present(fields[1..]);
        assert fields[0].value.key == keys[0];
        UnparseMapCons(fields[0].value, Present(fields[1..]));
        CountKeyCons(Json.Member(fields[0].value.key, Unparse(fields[0].value.value)), UnparseEntries(Present(fields[1..])), k);
      }
    }
  }

  /** A declared name occurs in the written document once when its slot is
      written and not at all otherwise, with the slot's value. */
  lemma {:induction false} StructLookup(fields: seq<Option<Entry>>, keys: seq<string>, i: nat)
    requires Labelled(fields, keys) && StrictlySorted(keys) && i < |keys|
    ensures Json.CountKey(UnparseEntries(Present(fields)), keys[i]) == (if fields[i].Some? then 1 else 0)
    ensures fields[i].Some? ==> Json.Lookup(UnparseEntries(Present(fields)), keys[i]) == Some(Unparse(fields[i].value.value))
    decreases i
  {
    LabelledTail(fields, keys);
    var rest := UnparseEntries(Present(fields[1..]));
    if i == 0 {
      forall j | 0 <= j < |keys[1..]| ensures keys[1..][j] != keys[0] {
        assert keys[1..][j] == keys[j + 1];
        Strings.LtIrreflexive(keys[0]);
      }
      StructAbsent(fields[1..], keys[1..], keys[0]);
    } else {
      StructLookup(fields[1..], keys[1..], i - 1);
      assert keys[1..][i - 1] == keys[i] && fields[1..][i - 1] == fields[i];
      Strings.LtIrreflexive(keys[0]);
      assert keys[0] != keys[i];
    }
    if fields[0].Some? {
      assert Present(fields) == [fields[0].value] + Present(fields[1..]);
      assert fields[0].value.key == keys[0];
      UnparseMapCons(fields[0].value, Present(fields[1..]));
      CountKeyCons(Json.Member(fields[0].value.key, Unparse(fields[0].value.value)), rest, keys[i]);
    } else {
      assert Present(fields) == Present(fields[1..]);
    }
  }

  /** A written slot read back as a required field. */
  lemma StructRequired<T>(fields: seq<Option<Entry>>, keys: seq<string>, i: nat, d: Json.Json -> Json.DecodeResult<T>, x: T)
    requires Labelled(fields, keys) && StrictlySorted(keys) && i < |keys|
    requires fields[i].Some? && d(Unparse(fields[i].value.value)) == Success(x)
    ensures Json.Required(UnparseEntries(Present(fields)), keys[i], d) == Success(x)
  {
    StructLookup(fields, keys, i);
  }

  /** A slot read back as an `Option` field: absent is `None`. */
  lemma StructOptional<T>(fields: seq<Option<Entry>>, keys: seq<string>, i: nat, d: Json.Json -> Json.DecodeResult<T>, x: Option<T>)
    requires Labelled(fields, keys) && StrictlySorted(keys) && i < |keys|
    requires fields[i].Some? ==> Json.DecodeOption(Unparse(fields[i].value.value), d) == Success(x)
    requires fields[i].None? ==> x.None?
    ensures Json.Optional(UnparseEntries(Present(fields)), keys[i], d) == Success(x)
  {
    StructLookup(fields, keys, i);
  }

  /** A slot read back as a raw field. */
  lemma StructField(fields: seq<Option<Entry>>, keys: seq<string>, i: nat)
    requires Labelled(fields, keys) && StrictlySorted(keys) && i < |keys|
    ensures Json.Field(UnparseEntries(Present(fields)), keys[i])
            == Success(if fields[i].Some? then Some(Unparse(fields[i].value.value)) else None)
  {
    StructLookup(fields, keys, i);
  }

  lemma {:induction false} UnparseItemsAt(items: seq<Value>, i: nat)
    requires i < |items|
    ensures UnparseItems(items)[i] == Unparse(items[i])
    decreases i
  {
    if i > 0 {
      UnparseItemsAt(items[1..], i - 1);
    }
  }

  lemma {:induction false} UnparseEntriesAt(es: seq<Entry>, i: nat)
    requires i < |es|
    ensures UnparseEntries(es)[i] == Json.Member(es[i].key, Unparse(es[i].value))
    decreases i
  {
    if i > 0 {
      UnparseEntriesAt(es[1..], i - 1);
    }
  }

  /** A written list of strings reads back as the same list. */
  lemma StringListRoundTrip(xs: seq<string>)
    ensures Json.DecodeSeq(Unparse(StringList(xs)), Json.DecodeString) == Success(xs)
  {
    var items := StringList(xs).items;
    forall i | 0 <= i < |xs| ensures UnparseItems(items)[i] == Json.JString(xs[i]) {
      UnparseItemsAt(items, i);
    }
    var r := Json.DecodeSeq(Unparse(StringList(xs)), Json.DecodeString);
    assert r.Success?;
    assert |r.value| == |UnparseItems(items)| == |xs|;
    assert forall i :: 0 <= i < |xs| ==> r.value[i] == xs[i];
    assert r.value == xs;
  }

  /** A written sorted map reads back as the same map when each written value
      reads back as itself. */
  lemma AssocRoundTrip<V>(m: SortedMaps.Assoc<V>, f: V -> Value, d: Json.Json -> Json.DecodeResult<V>)
    requires SortedMaps.Sorted(m)
    requires forall i :: 0 <= i < |m| ==> d(Unparse(f(m[i].1))) == Success(m[i].1)
    ensures Json.DecodeMap(Unparse(AssocValue(m, f)), d) == Success(m)
  {
    var es := AssocValue(m, f).entries;
    var ms := UnparseEntries(es);
    forall i | 0 <= i < |m| ensures ms[i] == Json.Member(m[i].0, Unparse(f(m[i].1))) {
      UnparseEntriesAt(es, i);
    }
    var decoded := Json.DecodeEntries(ms, d);
    assert decoded.Success?;
    assert decoded.value == m;
    assert m == [] + m;
    SortedMaps.FromEntriesSorted(m, []);
  }
}

=== FILE: server_keys.dfy ===
/** Signing, verification, hashing and event ids (`server_keys.rs`): the
    "Signing JSON" rules, the content hash of a PDU and event ids of room
    versions 4 and later in the Matrix Server-Server API.

    A document is signed and hashed through its serialisation: the message
    every primitive sees is the compact JSON text `Serialize` writes.
    Ed25519, SHA-256 and base64 stay uninterpreted (`Crypto.Primitives`). */
module ServerKeys {
  import opened Wrappers
  import SortedMaps
  import Crypto
  import MatrixTypes
  import opened CanonicalHash
  import opened SerdeStruct
  import PduRef
  import PduOwned

  type Signatures = PduRef.Signatures

  type Pdu = PduRef.Pdu

  // ---------------------------------------------------------------------
  // Signing

  /** One signature: Ed25519 over the message with the pair's secret key, in
      standard unpadded base64. */
  function SignatureText(c: Crypto.Primitives, kp: Crypto.ServerKeyPair, message: string): string {
    c.base64Std(c.sign(kp.secretKey, message))
  }

  /** The loop over the key pairs: one signature per pair, under its key id. */
  function OwnSignatures(c: Crypto.Primitives, keyPairs: SortedMaps.Assoc<Crypto.ServerKeyPair>, message: string): (r: SortedMaps.Assoc<string>)
    ensures SortedMaps.Keys(r) == SortedMaps.Keys(keyPairs)
    ensures SortedMaps.Sorted(keyPairs) ==> SortedMaps.Sorted(r)
    ensures |r| == |keyPairs| && forall k :: 0 <= k < |keyPairs| ==> r[k] == (keyPairs[k].0, SignatureText(c, keyPairs[k].1, message))
  {
    SortedMaps.MapValues(keyPairs, (kp: Crypto.ServerKeyPair) => SignatureText(c, kp, message))
  }

  /** A key id's own signature is the signature with its key pair. */
  lemma GetOwnSignature(c: Crypto.Primitives, keyPairs: SortedMaps.Assoc<Crypto.ServerKeyPair>, message: string, k: string)
    ensures SortedMaps.Get(OwnSignatures(c, keyPairs, message), k)
            == if SortedMaps.Get(keyPairs, k).Some? then Some(SignatureText(c, SortedMaps.Get(keyPairs, k).value, message)) else None
  {
    SortedMaps.GetMapValues(keyPairs, (kp: Crypto.ServerKeyPair) => SignatureText(c, kp, message), k);
  }

  /** The signature map after signing: `take().unwrap_or_default()`, then the
      own server's entry inserted, replacing an older one. */
  function AddSignatures(previous: Option<Signatures>, server: string, own: SortedMaps.Assoc<string>): (r: Signatures)
    requires previous.Some? ==> PduRef.SignaturesSorted(previous.value)
    requires SortedMaps.Sorted(own)
    ensures PduRef.SignaturesSorted(r)
    ensures SortedMaps.Get(r, server) == Some(own)
    ensures forall s :: s != server ==> SortedMaps.Get(r, s) == if previous.Some? then SortedMaps.Get(previous.value, s) else None
    ensures SortedMaps.Keys(r) == (if previous.Some? then SortedMaps.Keys(previous.value) else {}) + {server}
  {
    var m := previous.GetOr([]);
    SortedMaps.InsertValues(m, server, own, SortedMaps.Sorted);
    SortedMaps.Insert(m, server, own)
  }

  /** The text a PDU is signed over: the owned PDU without its signatures. */
  function PduSigningText(p: Pdu): string {
    Serialize(PduOwned.ToValue(p.(signatures := None)))
  }

  /** `Signable::sign` for the owned PDU. The signatures are taken out before
      the document is written, so the signed text does not depend on them;
      the own server's entry holds one signature per key pair; other
      servers' entries and every other field are kept. */
  function SignPdu(c: Crypto.Primitives, serverName: string, keyPairs: SortedMaps.Assoc<Crypto.ServerKeyPair>, p: Pdu): (r: Pdu)
    requires PduRef.EnvelopeWellFormed(p) && SortedMaps.Sorted(keyPairs)
    ensures r.(signatures := None) == p.(signatures := None)
    ensures PduRef.EnvelopeWellFormed(r) && r.signatures.Some?
    ensures SortedMaps.Get(r.signatures.value, serverName) == Some(OwnSignatures(c, keyPairs, PduSigningText(p)))
    ensures forall s :: s != serverName ==>
              SortedMaps.Get(r.signatures.value, s) == if p.signatures.Some? then SortedMaps.Get(p.signatures.value, s) else None
  {
    var message := PduSigningText(p);
    p.(signatures := Some(AddSignatures(p.signatures, serverName, OwnSignatures(c, keyPairs, message))))
  }

  /** Signing again re-signs the same text: the signatures already present do
      not enter what is signed. */
  lemma SigningTextIgnoresSignatures(p: Pdu, s: Option<Signatures>)
    ensures PduSigningText(p.(signatures := s)) == PduSigningText(p)
  {
  }

  // ---------------------------------------------------------------------
  // Verification

  const NotSignedMessage: string := "Not signed by the expected server"
  const NoKeysMessage: string := "No keys succeeded"
  /** The `expect` message when a stored signature is not a 64-byte base64 value. */
  const BadSignatureMessage: string := "Signature already validated"

  /** What `verify` comes to: `Ok(())`, an `Err`, or a panic of one of its
      `expect`s. */
  datatype Verdict = Verified | Rejected(reason: string) | Panicked(reason: string)

  /** `State::get_server_key`: the cached public key of a server's key id. */
  type KeyLookup = (string, string) -> Option<Crypto.Bytes>

  /** One signature against one public key: `None` when the text is not
      base64 or not 64 bytes long (`expect` panics), otherwise whether
      Ed25519 accepts it. */
  function CheckSignature(c: Crypto.Primitives, publicKey: Crypto.Bytes, message: string, signature: string): (r: Option<bool>)
    ensures r.Some? <==> c.base64StdDecode(signature).Some? && |c.base64StdDecode(signature).value| == Crypto.SignatureLength
  {
    match c.base64StdDecode(signature)
    case None => None
    case Some(bytes) =>
      if |bytes| != Crypto.SignatureLength then None
      else Some(c.verify(publicKey, message, bytes))
  }

  /** Whether entry `e` ends the loop: its key is known and the signature
      either verifies or makes `verify` panic. Entries with an unknown key
      and entries whose check fails are passed over. */
  predicate Decides(c: Crypto.Primitives, keys: KeyLookup, message: string, server: string, e: (string, string)) {
    keys(server, e.0).Some? && CheckSignature(c, keys(server, e.0).value, message, e.1) != Some(false)
  }

  /** The loop over one server's signatures, in key order. */
  function VerifyEntries(c: Crypto.Primitives, keys: KeyLookup, message: string, server: string, entries: SortedMaps.Assoc<string>): (r: Verdict)
    ensures r.Rejected? ==> r.reason == NoKeysMessage
    ensures r.Panicked? ==> r.reason == BadSignatureMessage
    decreases |entries|
  {
    if |entries| == 0 then Rejected(NoKeysMessage)
    else
      match keys(server, entries[0].0)
      case None => VerifyEntries(c, keys, message, server, entries[1..])
      case Some(publicKey) =>
        match CheckSignature(c, publicKey, message, entries[0].1)
        case None => Panicked(BadSignatureMessage)
        case Some(true) => Verified
        case Some(false) => VerifyEntries(c, keys, message, server, entries[1..])
  }

  /** The loop's outcome is fixed by the first entry that decides: none
      decides, and it is "No keys succeeded" (so also when every key id is
      unknown); the first verifies, and it is `Ok`, whatever comes after;
      the first cannot be decoded, and it panics. */
  lemma {:induction false} VerifyEntriesFirstDecides(c: Crypto.Primitives, keys: KeyLookup, message: string, server: string, entries: SortedMaps.Assoc<string>)
    ensures (forall j :: 0 <= j < |entries| ==> !Decides(c, keys, message, server, entries[j]))
            ==> VerifyEntries(c, keys, message, server, entries) == Rejected(NoKeysMessage)
    ensures forall j :: 0 <= j < |entries| && Decides(c, keys, message, server, entries[j])
                        && (forall i :: 0 <= i < j ==> !Decides(c, keys, message, server, entries[i])) ==>
              VerifyEntries(c, keys, message, server, entries)
              == if CheckSignature(c, keys(server, entries[j].0).value, message, entries[j].1) == Some(true) then Verified
                 else Panicked(BadSignatureMessage)
    decreases |entries|
  {
    if |entries| > 0 {
      var tail := entries[1..];
      assert forall j :: 0 < j < |entries| ==> entries[j] == tail[j - 1];
      VerifyEntriesFirstDecides(c, keys, message, server, tail);
      forall j | 0 <= j < |entries| && Decides(c, keys, message, server, entries[j])
                 && (forall i :: 0 <= i < j ==> !Decides(c, keys, message, server, entries[i]))
        ensures VerifyEntries(c, keys, message, server, entries)
                == if CheckSignature(c, keys(server, entries[j].0).value, message, entries[j].1) == Some(true) then Verified
                   else Panicked(BadSignatureMessage)
      {
        if j > 0 {
          assert !Decides(c, keys, message, server, entries[0]);
          assert forall i :: 0 <= i < j - 1 ==> !Decides(c, keys, message, server, tail[i]) by {
            forall i | 0 <= i < j - 1 ensures !Decides(c, keys, message, server, tail[i]) {
              assert tail[i] == entries[i + 1];
            }
          }
          assert tail[j - 1] == entries[j];
        }
      }
    }
  }

  /** `Verifiable::verify`: the first entry of the signature map for the
      expected server, then its signatures over `message`. */
  function Verify(c: Crypto.Primitives, keys: KeyLookup, message: string, server: string, signatures: Signatures): (r: Verdict)
    ensures PduRef.GetSignatures(signatures, server).None? <==> r == Rejected(NotSignedMessage)
    ensures PduRef.GetSignatures(signatures, server).Some? ==>
              r == VerifyEntries(c, keys, message, server, PduRef.GetSignatures(signatures, server).value)
  {
    match PduRef.GetSignatures(signatures, server)
    case None => Rejected(NotSignedMessage)
    case Some(entries) => VerifyEntries(c, keys, message, server, entries)
  }

  /** The text a PDU is verified over: `PDURef`'s serialisation, which never
      writes `signatures`. */
  function PduVerifyingText(p: Pdu): string {
    Serialize(PduRef.RefToValue(p))
  }

  /** `verify` on a parsed PDU. */
  function VerifyPdu(c: Crypto.Primitives, keys: KeyLookup, p: Pdu, server: string, signatures: Signatures): (r: Verdict)
    ensures PduRef.GetSignatures(signatures, server).None? <==> r == Rejected(NotSignedMessage)
  {
    Verify(c, keys, PduVerifyingText(p), server, signatures)
  }

  // ---------------------------------------------------------------------
  // Signing, then verifying

  /** What Ed25519 and base64 promise, stated of the uninterpreted
      primitives: a key pair's signatures are 64 bytes and verify under its
      public key, and decoding undoes encoding. */
  ghost predicate SoundKeyPair(c: Crypto.Primitives, kp: Crypto.ServerKeyPair) {
    forall m :: |c.sign(kp.secretKey, m)| == Crypto.SignatureLength && c.verify(kp.publicKey, m, c.sign(kp.secretKey, m))
  }

  ghost predicate Base64Inverse(c: Crypto.Primitives) {
    forall b :: c.base64StdDecode(c.base64Std(b)) == Some(b)
  }

  /** The key cache knows at least one of the server's key pairs, and what it
      knows of them is their public keys. */
  ghost predicate CacheKnows(keys: KeyLookup, server: string, keyPairs: SortedMaps.Assoc<Crypto.ServerKeyPair>) {
    && (exists i :: 0 <= i < |keyPairs| && keys(server, keyPairs[i].0).Some?)
    && (forall i :: 0 <= i < |keyPairs| && keys(server, keyPairs[i].0).Some? ==> keys(server, keyPairs[i].0).value == keyPairs[i].1.publicKey)
  }

  /** The signatures made by the signing loop pass the verifying loop. */
  lemma {:induction false} OwnSignaturesVerify(c: Crypto.Primitives, keys: KeyLookup, message: string, server: string,
                                               keyPairs: SortedMaps.Assoc<Crypto.ServerKeyPair>)
    requires Base64Inverse(c) && (forall i :: 0 <= i < |keyPairs| ==> SoundKeyPair(c, keyPairs[i].1))
    requires CacheKnows(keys, server, keyPairs)
    ensures VerifyEntries(c, keys, message, server, OwnSignatures(c, keyPairs, message)) == Verified
    decreases |keyPairs|
  {
    var own := OwnSignatures(c, keyPairs, message);
    var kp := keyPairs[0].1;
    if keys(server, keyPairs[0].0).Some? {
      var bytes := c.sign(kp.secretKey, message);
      assert own[0].1 == c.base64Std(bytes);
      assert CheckSignature(c, kp.publicKey, message, own[0].1) == Some(true);
    } else {
      var tail := keyPairs[1..];
      assert own[1..] == OwnSignatures(c, tail, message);
      var i :| 0 <= i < |keyPairs| && keys(server, keyPairs[i].0).Some?;
      assert tail[i - 1] == keyPairs[i];
      OwnSignaturesVerify(c, keys, message, server, tail);
    }
  }

  /** With a state key, `PDURef` writes exactly what the owned PDU writes
      without its signatures: the text verified is the text signed. */
  lemma VerifyingTextIsSigningText(p: Pdu, s: Option<Signatures>)
    requires PduRef.HasState(p.stateKey)
    ensures PduVerifyingText(p.(signatures := s)) == PduSigningText(p)
  {
    assert PduRef.RefToValue(p.(signatures := s)) == PduOwned.ToValue(p.(signatures := None));
  }

  /** A PDU this server signed verifies against its own signatures, read
      back as a `PDURef`, as long as the event has a state key. */
  lemma SignedPduVerifies(c: Crypto.Primitives, keys: KeyLookup, serverName: string,
                          keyPairs: SortedMaps.Assoc<Crypto.ServerKeyPair>, p: Pdu)
    requires PduRef.EnvelopeWellFormed(p) && SortedMaps.Sorted(keyPairs)
    requires PduRef.HasState(p.stateKey)
    requires Base64Inverse(c) && (forall i :: 0 <= i < |keyPairs| ==> SoundKeyPair(c, keyPairs[i].1))
    requires CacheKnows(keys, serverName, keyPairs)
    ensures var signed := SignPdu(c, serverName, keyPairs, p);
            VerifyPdu(c, keys, signed, serverName, signed.signatures.value) == Verified
  {
    var signed := SignPdu(c, serverName, keyPairs, p);
    VerifyingTextIsSigningText(p, signed.signatures);
    assert signed == p.(signatures := signed.signatures);
    PduRef.GetSignaturesIsLookup(signed.signatures.value, serverName);
    OwnSignaturesVerify(c, keys, PduSigningText(p), serverName, keyPairs);
  }

  /** Without a state key the two forms differ: the owned PDU writes
      `"state_key": null` where `PDURef` writes nothing, so the text verified
      is not the text signed. */
  lemma MissingStateTextsDiffer(p: Pdu)
    requires PduRef.MissingState(p.stateKey)
    ensures PduRef.RefToValue(p) != PduOwned.ToValue(p.(signatures := None))
  {
    PduRef.RefToValueShape(p);
    PduOwned.ToValueStateKey(p.(signatures := None));
  }

  // ---------------------------------------------------------------------
  // Hashing

  const Sha256Key: string := "sha256"

  /** `Hashable::hash` for the owned PDU. The hashes are taken out before the
      document is written, so the digest covers everything else; `sha256` is
      added only when absent, an existing value (even a different one) is
      kept, and the other entries and fields stay as they were. */
  function HashPdu(c: Crypto.Primitives, p: Pdu): (r: Pdu)
    requires PduRef.EnvelopeWellFormed(p)
    ensures r.(hashes := None) == p.(hashes := None)
    ensures PduRef.EnvelopeWellFormed(r) && r.hashes.Some?
    ensures var previous := if p.hashes.Some? then p.hashes.value else [];
            && SortedMaps.Get(r.hashes.value, Sha256Key)
               == (if SortedMaps.Get(previous, Sha256Key).Some? then SortedMaps.Get(previous, Sha256Key)
                   else Some(ContentHash(c, PduOwned.ToValue(p.(hashes := None)))))
            && (forall k :: k != Sha256Key ==> SortedMaps.Get(r.hashes.value, k) == SortedMaps.Get(previous, k))
            && SortedMaps.Keys(r.hashes.value) == SortedMaps.Keys(previous) + {Sha256Key}
  {
    var previous := p.hashes.GetOr([]);
    var digest := ContentHash(c, PduOwned.ToValue(p.(hashes := None)));
    var hashes := if SortedMaps.Get(previous, Sha256Key).Some? then previous else SortedMaps.Insert(previous, Sha256Key, digest);
    p.(hashes := Some(hashes))
  }

  /** Hashing twice is hashing once: the second call finds `sha256`. */
  lemma HashIdempotent(c: Crypto.Primitives, p: Pdu)
    requires PduRef.EnvelopeWellFormed(p)
    ensures HashPdu(c, HashPdu(c, p)) == HashPdu(c, p)
  {
    var h := HashPdu(c, p);
    assert SortedMaps.Get(h.hashes.value, Sha256Key).Some?;
  }

  // ---------------------------------------------------------------------
  // Event ids

  /** `EventHashable::generate_event_id`: `$` and the URL-safe unpadded
      base64 of the SHA-256 of the serialisation. Every string is a valid
      event id, so the `expect` never fires. */
  function EventId(c: Crypto.Primitives, v: Value): (r: MatrixTypes.Id)
    ensures r.kind == MatrixTypes.Event
    ensures |r.content| >= 1 && r.content[0] == '$' && r.content[1..] == c.base64Url(c.sha256(Serialize(v)))
  {
    var text := "$" + c.base64Url(c.sha256(Serialize(v)));
    match MatrixTypes.TryFromStr(MatrixTypes.Event, text)
    case Success(id) => id
    case Failure(_) => assert false; MatrixTypes.Id(MatrixTypes.Event, text)
  }

  /** The event id of a parsed PDU. */
  function RefEventId(c: Crypto.Primitives, p: Pdu): MatrixTypes.Id {
    EventId(c, PduRef.RefToValue(p))
  }

  /** The event id of an owned PDU. */
  function OwnedEventId(c: Crypto.Primitives, p: Pdu): MatrixTypes.Id {
    EventId(c, PduOwned.ToValue(p))
  }

  /** Two documents that serialise alike get one event id. */
  lemma EventIdOfText(c: Crypto.Primitives, a: Value, b: Value)
    requires Serialize(a) == Serialize(b)
    ensures EventId(c, a) == EventId(c, b)
  {
  }

  /** A parsed PDU's id does not depend on its signatures, so signing it,
      or adding a server's signatures, leaves its id unchanged. */
  lemma RefEventIdIgnoresSignatures(c: Crypto.Primitives, p: Pdu, s: Option<Signatures>)
    ensures RefEventId(c, p.(signatures := s)) == RefEventId(c, p)
  {
    assert PduRef.RefToValue(p.(signatures := s)) == PduRef.RefToValue(p);
  }

  /** Signing keeps the parsed form's id. */
  lemma SigningKeepsRefEventId(c: Crypto.Primitives, serverName: string, keyPairs: SortedMaps.Assoc<Crypto.ServerKeyPair>, p: Pdu)
    requires PduRef.EnvelopeWellFormed(p) && SortedMaps.Sorted(keyPairs)
    ensures RefEventId(c, SignPdu(c, serverName, keyPairs, p)) == RefEventId(c, p)
  {
    var signed := SignPdu(c, serverName, keyPairs, p);
    assert signed == p.(signatures := signed.signatures);
    RefEventIdIgnoresSignatures(c, p, signed.signatures);
  }

  /** An unsigned owned PDU with a state key has the id of its parsed form;
      once signed, the owned form's id covers the signatures too. */
  lemma OwnedEventIdMatchesRef(c: Crypto.Primitives, p: Pdu)
    requires p.signatures.None? && PduRef.HasState(p.stateKey)
    ensures OwnedEventId(c, p) == RefEventId(c, p)
  {
    assert PduOwned.ToValue(p) == PduRef.RefToValue(p);
  }

  // ---------------------------------------------------------------------
  // The server-keys document

  datatype OldVerifyKey = OldVerifyKey(expiredTs: nat, key: string)

  datatype VerifyKey = VerifyKey(key: string)

  /** `ServerKeys`: a server's published keys. Timestamps are milliseconds. */
  datatype KeysDocument = KeysDocument(
    oldVerifyKeys: Option<SortedMaps.Assoc<OldVerifyKey>>,
    serverName: string,
    signatures: Option<Signatures>,
    validUntilTs: Option<nat>,
    verifyKeys: SortedMaps.Assoc<VerifyKey>
  )

  const DocumentFieldNames: seq<string> := ["old_verify_keys", "server_name", "signatures", "valid_until_ts", "verify_keys"]

  function OldVerifyKeyValue(k: OldVerifyKey): Value {
    Struct([Always("expired_ts", Number(k.expiredTs)), Always("key", String(k.key))])
  }

  /** A timestamp, as its number of milliseconds. */
  function TimestampValue(ms: nat): Value {
    Number(ms)
  }

  function VerifyKeyValue(k: VerifyKey): Value {
    Struct([Always("key", String(k.key))])
  }

  /** `#[derive(Serialize)]` for `ServerKeys`: `old_verify_keys` and
      `signatures` skipped when `None`, `verify_keys` skipped when empty,
      `valid_until_ts` always written (`null` when `None`). */
  function DocumentFields(d: KeysDocument): (r: seq<Option<Entry>>)
    ensures Labelled(r, DocumentFieldNames)
  {
    [SkipNone("old_verify_keys", d.oldVerifyKeys, (m: SortedMaps.Assoc<OldVerifyKey>) => AssocValue(m, OldVerifyKeyValue)),
     Always("server_name", String(d.serverName)),
     SkipNone("signatures", d.signatures, PduRef.SignaturesValue),
     Always("valid_until_ts", OrNull(d.validUntilTs, TimestampValue)),
     if |d.verifyKeys| == 0 then None else Always("verify_keys", AssocValue(d.verifyKeys, VerifyKeyValue))]
  }

  function DocumentValue(d: KeysDocument): Value {
    Struct(DocumentFields(d))
  }

  lemma DocumentFieldNamesSorted()
    ensures StrictlySorted(DocumentFieldNames)
  {
    var n := DocumentFieldNames;
    LtLiteral(n[0], n[1], 0);
    LtLiteral(n[1], n[2], 1);
    LtLiteral(n[2], n[3], 0);
    LtLiteral(n[3], n[4], 1);
    SortedFromAdjacent(n);
  }

  /** The fields written only sometimes: each exactly when present. */
  lemma DocumentOptionals(d: KeysDocument)
    ensures GetFromMap(DocumentValue(d), "old_verify_keys").Some? <==> d.oldVerifyKeys.Some?
    ensures GetFromMap(DocumentValue(d), "signatures") == if d.signatures.Some? then Some(PduRef.SignaturesValue(d.signatures.value)) else None
    ensures GetFromMap(DocumentValue(d), "verify_keys").Some? <==> |d.verifyKeys| > 0
  {
    var fields := DocumentFields(d);
    DocumentFieldNamesSorted();
    PresentGet(fields, DocumentFieldNames, 0);
    PresentGet(fields, DocumentFieldNames, 2);
    PresentGet(fields, DocumentFieldNames, 4);
  }

  /** The fields always written; a missing expiry is written as `null`. */
  lemma DocumentAlways(d: KeysDocument)
    ensures GetFromMap(DocumentValue(d), "server_name") == Some(String(d.serverName))
    ensures GetFromMap(DocumentValue(d), "valid_until_ts") == Some(if d.validUntilTs.Some? then Number(d.validUntilTs.value) else Null)
  {
    var fields := DocumentFields(d);
    DocumentFieldNamesSorted();
    PresentGet(fields, DocumentFieldNames, 1);
    PresentGet(fields, DocumentFieldNames, 3);
    if d.validUntilTs.Some? {
      assert fields[3].value.value == TimestampValue(d.validUntilTs.value);
    }
  }

  /** The text a key document is signed over: the document without its
      signatures. */
  function DocumentSigningText(d: KeysDocument): string {
    Serialize(DocumentValue(d.(signatures := None)))
  }

  /** `ServerKeys::sign`: the same steps as `Signable::sign`, on a key
      document. */
  function SignDocument(c: Crypto.Primitives, d: KeysDocument, serverName: string, keyPairs: SortedMaps.Assoc<Crypto.ServerKeyPair>): (r: KeysDocument)
    requires d.signatures.Some? ==> PduRef.SignaturesSorted(d.signatures.value)
    requires SortedMaps.Sorted(keyPairs)
    ensures r.(signatures := None) == d.(signatures := None)
    ensures r.signatures.Some? && PduRef.SignaturesSorted(r.signatures.value)
    ensures SortedMaps.Get(r.signatures.value, serverName) == Some(OwnSignatures(c, keyPairs, DocumentSigningText(d)))
    ensures forall s :: s != serverName ==>
              SortedMaps.Get(r.signatures.value, s) == if d.signatures.Some? then SortedMaps.Get(d.signatures.value, s) else None
  {
    var message := DocumentSigningText(d);
    d.(signatures := Some(AddSignatures(d.signatures, serverName, OwnSignatures(c, keyPairs, message))))
  }

  /** A signed key document verifies the way the "Signing JSON" rules check
      it: its signatures taken out, the rest against the server's keys. */
  lemma SignedDocumentVerifies(c: Crypto.Primitives, keys: KeyLookup, d: KeysDocument, serverName: string,
                               keyPairs: SortedMaps.Assoc<Crypto.ServerKeyPair>)
    requires d.signatures.Some? ==> PduRef.SignaturesSorted(d.signatures.value)
    requires SortedMaps.Sorted(keyPairs)
    requires Base64Inverse(c) && (forall i :: 0 <= i < |keyPairs| ==> SoundKeyPair(c, keyPairs[i].1))
    requires CacheKnows(keys, serverName, keyPairs)
    ensures var signed := SignDocument(c, d, serverName, keyPairs);
            Verify(c, keys, DocumentSigningText(signed), serverName, signed.signatures.value) == Verified
  {
    var signed := SignDocument(c, d, serverName, keyPairs);
    assert signed.(signatures := None) == d.(signatures := None);
    PduRef.GetSignaturesIsLookup(signed.signatures.value, serverName);
    OwnSignaturesVerify(c, keys, DocumentSigningText(d), serverName, keyPairs);
  }
}

=== FILE: sorted_maps.dfy ===
/** Ordered maps with string-like keys (`BTreeMap<String, V>`, `VecMap1<&str, V>`,
    `BTreeMap<Box<Id<_>>, V>`), modelled as association lists whose keys strictly
    increase in `str` order. Iterating such a map visits the entries in list order. */
module SortedMaps {
  import opened Wrappers
  import Strings

  type Assoc<V> = seq<(string, V)>

  /** Keys strictly increase, so every key occurs once. */
  ghost predicate Sorted<V>(m: Assoc<V>) {
    forall i, j :: 0 <= i < j < |m| ==> Strings.Lt(m[i].0, m[j].0)
  }

  function Keys<V>(m: Assoc<V>): set<string> {
    set i | 0 <= i < |m| :: m[i].0
  }

  /** The value stored under `k`: the first entry with that key. */
  function Get<V>(m: Assoc<V>, k: string): (r: Option<V>)
    ensures r.Some? <==> k in Keys(m)
    ensures r.Some? ==> exists i :: 0 <= i < |m| && m[i] == (k, r.value)
    decreases |m|
  {
    if |m| == 0 then None
    else if m[0].0 == k then Some(m[0].1)
    else
      var r := Get(m[1..], k);
      assert forall i :: 0 < i < |m| ==> m[i] == m[1..][i - 1];
      assert Keys(m) == {m[0].0} + Keys(m[1..]);
      r
  }

  lemma SortedTail<V>(m: Assoc<V>)
    requires Sorted(m) && |m| > 0
    ensures Sorted(m[1..])
  {
  }

  /** In a sorted list, the value at position `i` is the value of its key. */
  lemma {:induction false} GetAtIndex<V>(m: Assoc<V>, i: nat)
    requires Sorted(m) && i < |m|
    ensures Get(m, m[i].0) == Some(m[i].1)
    decreases |m|
  {
    if i > 0 {
      Strings.LtIrreflexive(m[i].0);
      assert m[0].0 != m[i].0;
      GetAtIndex(m[1..], i - 1);
    }
  }

  lemma KeysCons<V>(x: (string, V), m: Assoc<V>)
    ensures Keys([x] + m) == {x.0} + Keys(m)
  {
    var r := [x] + m;
    assert r[0] == x;
    assert x.0 in Keys(r);
    forall y | y in Keys(m) ensures y in Keys(r) {
      var t :| 0 <= t < |m| && m[t].0 == y;
      assert r[t + 1] == m[t];
    }
    forall y | y in Keys(r) ensures y == x.0 || y in Keys(m) {
      var t :| 0 <= t < |r| && r[t].0 == y;
      if t > 0 {
        assert r[t] == m[t - 1];
      }
    }
  }

  lemma GetCons<V>(x: (string, V), m: Assoc<V>, k: string)
    ensures Get([x] + m, k) == if x.0 == k then Some(x.1) else Get(m, k)
  {
    assert ([x] + m)[1..] == m;
  }

  /** Putting a key smaller than every key of a sorted list in front keeps it sorted. */
  lemma SortedCons<V>(x: (string, V), m: Assoc<V>)
    requires Sorted(m)
    requires forall y :: y in Keys(m) ==> Strings.Lt(x.0, y)
    ensures Sorted([x] + m)
  {
    var r := [x] + m;
    forall i, j | 0 <= i < j < |r|
      ensures Strings.Lt(r[i].0, r[j].0)
    {
      if i == 0 {
        assert r[j] == m[j - 1];
        assert r[j].0 in Keys(m);
      } else {
        assert r[i] == m[i - 1] && r[j] == m[j - 1];
      }
    }
  }

  /** Every key after the head of a sorted list is larger than the head. */
  lemma HeadIsLeast<V>(m: Assoc<V>)
    requires Sorted(m) && |m| > 0
    ensures forall y :: y in Keys(m[1..]) ==> Strings.Lt(m[0].0, y)
  {
    forall y | y in Keys(m[1..]) ensures Strings.Lt(m[0].0, y) {
      var t :| 0 <= t < |m[1..]| && m[1..][t].0 == y;
      assert m[1..][t] == m[t + 1];
    }
  }

  /** A sorted list holds each key once, so it has as many entries as keys. */
  lemma {:induction false} KeysCount<V>(m: Assoc<V>)
    requires Sorted(m)
    ensures |Keys(m)| == |m|
    decreases |m|
  {
    if |m| > 0 {
      assert m == [m[0]] + m[1..];
      KeysCons(m[0], m[1..]);
      SortedTail(m);
      KeysCount(m[1..]);
      HeadIsLeast(m);
      Strings.LtIrreflexive(m[0].0);
      assert m[0].0 !in Keys(m[1..]);
    }
  }

  /** `BTreeMap::insert`: replaces the value of an existing key, otherwise adds
      the key at its sorted position. */
  function Insert<V>(m: Assoc<V>, k: string, v: V): (r: Assoc<V>)
    requires Sorted(m)
    ensures Sorted(r)
    ensures Keys(r) == Keys(m) + {k}
    ensures Get(r, k) == Some(v)
    ensures forall k' :: k' != k ==> Get(r, k') == Get(m, k')
    decreases |m|
  {
    if |m| == 0 then
      KeysCons((k, v), m);
      [(k, v)]
    else if m[0].0 == k then
      assert m == [m[0]] + m[1..];
      HeadIsLeast(m);
      KeysCons(m[0], m[1..]);
      KeysCons((k, v), m[1..]);
      SortedCons((k, v), m[1..]);
      forall k' ensures Get([(k, v)] + m[1..], k') == if k' == k then Some(v) else Get(m, k') {
        GetCons((k, v), m[1..], k');
        GetCons(m[0], m[1..], k');
      }
      [(k, v)] + m[1..]
    else if Strings.Lt(k, m[0].0) then
      assert m == [m[0]] + m[1..];
      HeadIsLeast(m);
      KeysCons(m[0], m[1..]);
      KeysCons((k, v), m);
      forall y | y in Keys(m) ensures Strings.Lt(k, y) {
        if y != m[0].0 {
          Strings.LtTransitive(k, m[0].0, y);
        }
      }
      SortedCons((k, v), m);
      forall k' ensures Get([(k, v)] + m, k') == if k' == k then Some(v) else Get(m, k') {
        GetCons((k, v), m, k');
      }
      [(k, v)] + m
    else
      assert m == [m[0]] + m[1..];
      Strings.LtTotal(m[0].0, k);
      HeadIsLeast(m);
      var rest := Insert(m[1..], k, v);
      KeysCons(m[0], m[1..]);
      KeysCons(m[0], rest);
      SortedCons(m[0], rest);
      forall k' ensures Get([m[0]] + rest, k') == if k' == k then Some(v) else Get(m, k') {
        GetCons(m[0], rest, k');
        GetCons(m[0], m[1..], k');
      }
      [m[0]] + rest
  }

  /** Builds a map from entries in document order, the later of two equal keys
      winning, as deserialising a JSON object into a `BTreeMap` does. */
  function FromEntries<V>(es: seq<(string, V)>, acc: Assoc<V>): (r: Assoc<V>)
    requires Sorted(acc)
    ensures Sorted(r)
    ensures Keys(r) == Keys(acc) + (set i | 0 <= i < |es| :: es[i].0)
    decreases |es|
  {
    if |es| == 0 then acc
    else
      EntryKeysCons(es);
      FromEntries(es[1..], Insert(acc, es[0].0, es[0].1))
  }

  /** The keys of a list of entries are its head's key and its tail's keys. */
  lemma EntryKeysCons<V>(es: seq<(string, V)>)
    requires |es| > 0
    ensures (set i | 0 <= i < |es| :: es[i].0) == {es[0].0} + (set i | 0 <= i < |es[1..]| :: es[1..][i].0)
  {
    assert forall i :: 0 < i < |es| ==> es[i] == es[1..][i - 1];
  }

  /** The value of the last entry with key `k`. */
  function LastValue<V>(es: seq<(string, V)>, k: string): Option<V>
    decreases |es|
  {
    if |es| == 0 then None
    else if es[|es| - 1].0 == k then Some(es[|es| - 1].1)
    else LastValue(es[..|es| - 1], k)
  }

  /** Later duplicate keys win: the map built from `es` holds, for every key,
      the value of its last entry, or the accumulator's value if none. */
  lemma {:induction false} FromEntriesLastWins<V>(es: seq<(string, V)>, acc: Assoc<V>, k: string)
    requires Sorted(acc)
    ensures Get(FromEntries(es, acc), k) == (if LastValue(es, k).Some? then LastValue(es, k) else Get(acc, k))
    decreases |es|
  {
    if |es| > 0 {
      var acc' := Insert(acc, es[0].0, es[0].1);
      FromEntriesLastWins(es[1..], acc', k);
      LastValueCons(es, k);
    }
  }

  lemma {:induction false} LastValueCons<V>(es: seq<(string, V)>, k: string)
    requires |es| > 0
    ensures LastValue(es, k) == (if LastValue(es[1..], k).Some? then LastValue(es[1..], k)
                                 else if es[0].0 == k then Some(es[0].1) else None)
    decreases |es|
  {
    if |es| > 1 && es[|es| - 1].0 != k {
      assert es[..|es| - 1][1..] == es[1..][..|es[1..]| - 1];
      LastValueCons(es[..|es| - 1], k);
    }
  }

  /** A key larger than the head is inserted after it. */
  lemma InsertPastHead<V>(m: Assoc<V>, k: string, v: V)
    requires Sorted(m) && |m| > 0 && Strings.Lt(m[0].0, k)
    ensures Insert(m, k, v) == [m[0]] + Insert(m[1..], k, v)
  {
    Strings.LtAsymmetric(m[0].0, k);
    Strings.LtIrreflexive(k);
  }

  /** Adding a key larger than every key of a sorted list appends it. */
  lemma {:induction false} InsertLargest<V>(m: Assoc<V>, k: string, v: V)
    requires Sorted(m)
    requires forall i :: 0 <= i < |m| ==> Strings.Lt(m[i].0, k)
    ensures Insert(m, k, v) == m + [(k, v)]
    decreases |m|
  {
    if |m| > 0 {
      var tail := m[1..];
      InsertPastHead(m, k, v);
      forall i | 0 <= i < |tail| ensures Strings.Lt(tail[i].0, k) {
        assert tail[i] == m[i + 1];
      }
      SortedTail(m);
      InsertLargest(tail, k, v);
      assert [m[0]] + (tail + [(k, v)]) == m + [(k, v)];
    } else {
      assert Insert(m, k, v) == [(k, v)];
    }
  }

  /** Both halves of a sorted list are sorted, and the first lies below the second. */
  lemma SortedParts<V>(a: Assoc<V>, b: Assoc<V>)
    requires Sorted(a + b)
    ensures Sorted(a) && Sorted(b)
    ensures forall i, j :: 0 <= i < |a| && 0 <= j < |b| ==> Strings.Lt(a[i].0, b[j].0)
  {
    var all := a + b;
    forall i, j | 0 <= i < j < |a| ensures Strings.Lt(a[i].0, a[j].0) {
      assert a[i] == all[i] && a[j] == all[j];
    }
    forall i, j | 0 <= i < j < |b| ensures Strings.Lt(b[i].0, b[j].0) {
      assert b[i] == all[|a| + i] && b[j] == all[|a| + j];
    }
    forall i, j | 0 <= i < |a| && 0 <= j < |b| ensures Strings.Lt(a[i].0, b[j].0) {
      assert a[i] == all[i] && b[j] == all[|a| + j];
    }
  }

  /** Entries already in strictly increasing key order, read into a map
      after the smaller entries of `acc`, come out as they went in. */
  lemma {:induction false} FromEntriesSorted<V>(es: seq<(string, V)>, acc: Assoc<V>)
    requires Sorted(acc + es)
    ensures Sorted(acc)
    ensures FromEntries(es, acc) == acc + es
    decreases |es|
  {
    SortedParts(acc, es);
    if |es| > 0 {
      var acc' := acc + [es[0]];
      assert acc' + es[1..] == acc + es;
      InsertLargest(acc, es[0].0, es[0].1);
      FromEntriesSorted(es[1..], acc');
      assert FromEntries(es, acc) == FromEntries(es[1..], acc');
    } else {
      assert acc + es == acc;
    }
  }

  /** Every value of the list satisfies `p`. */
  ghost predicate AllValues<V>(m: Assoc<V>, p: V -> bool) {
    forall i :: 0 <= i < |m| ==> p(m[i].1)
  }

  /** Inserting a value with property `p` into a map whose values all have it
      keeps every value with the property. */
  lemma {:induction false} InsertValues<V>(m: Assoc<V>, k: string, v: V, p: V -> bool)
    requires Sorted(m) && AllValues(m, p) && p(v)
    ensures AllValues(Insert(m, k, v), p)
    decreases |m|
  {
    if |m| > 0 {
      var tail := m[1..];
      assert forall i :: 0 <= i < |tail| ==> tail[i] == m[i + 1];
      if m[0].0 == k {
        assert Insert(m, k, v) == [(k, v)] + tail;
      } else if Strings.Lt(k, m[0].0) {
        assert Insert(m, k, v) == [(k, v)] + m;
      } else {
        SortedTail(m);
        InsertValues(tail, k, v, p);
        assert Insert(m, k, v) == [m[0]] + Insert(tail, k, v);
      }
    } else {
      assert Insert(m, k, v) == [(k, v)];
    }
  }

  /** A map read from entries whose values all have property `p` has only
      such values. */
  lemma {:induction false} FromEntriesValues<V>(es: seq<(string, V)>, acc: Assoc<V>, p: V -> bool)
    requires Sorted(acc) && AllValues(acc, p)
    requires forall i :: 0 <= i < |es| ==> p(es[i].1)
    ensures AllValues(FromEntries(es, acc), p)
    decreases |es|
  {
    if |es| > 0 {
      InsertValues(acc, es[0].0, es[0].1, p);
      assert forall i :: 0 <= i < |es| - 1 ==> es[1..][i] == es[i + 1];
      FromEntriesValues(es[1..], Insert(acc, es[0].0, es[0].1), p);
    }
  }

  /** The same keys in the same order, each value mapped through `f`. */
  function MapValues<V, W>(m: Assoc<V>, f: V -> W): (r: Assoc<W>)
    ensures |r| == |m| && forall i :: 0 <= i < |m| ==> r[i] == (m[i].0, f(m[i].1))
    ensures Keys(r) == Keys(m)
    ensures Sorted(m) ==> Sorted(r)
  {
    var r := seq(|m|, i requires 0 <= i < |m| => (m[i].0, f(m[i].1)));
    assert forall i :: 0 <= i < |m| ==> r[i].0 == m[i].0;
    r
  }

  /** A key's value in the mapped map is its old value, mapped. */
  lemma {:induction false} GetMapValues<V, W>(m: Assoc<V>, f: V -> W, k: string)
    ensures Get(MapValues(m, f), k) == if Get(m, k).Some? then Some(f(Get(m, k).value)) else None
    decreases |m|
  {
    if |m| > 0 {
      assert MapValues(m, f)[1..] == MapValues(m[1..], f);
      GetMapValues(m[1..], f, k);
    }
  }
}

=== FILE: strings.dfy ===
/** Text helpers: Rust's `str` ordering, decimal rendering and separator joins.

    Rust compares `str` values byte-wise on their UTF-8 encoding; UTF-8 preserves
    code-point order, so comparing `char` by `char` gives the same answer. */
module Strings {

  /** Strict lexicographic order of `str::cmp`. */
  predicate Lt(a: string, b: string)
    decreases |a|
  {
    if |a| == 0 then |b| > 0
    else |b| > 0 && (a[0] < b[0] || (a[0] == b[0] && Lt(a[1..], b[1..])))
  }

  predicate Le(a: string, b: string) {
    a == b || Lt(a, b)
  }

  lemma {:induction false} LtIrreflexive(a: string)
    ensures !Lt(a, a)
    decreases |a|
  {
    if |a| > 0 {
      LtIrreflexive(a[1..]);
    }
  }

  lemma {:induction false} LtAsymmetric(a: string, b: string)
    requires Lt(a, b)
    ensures !Lt(b, a)
    decreases |a|
  {
    if |a| > 0 && |b| > 0 && a[0] == b[0] {
      LtAsymmetric(a[1..], b[1..]);
    }
  }

  lemma {:induction false} LtTransitive(a: string, b: string, c: string)
    requires Lt(a, b) && Lt(b, c)
    ensures Lt(a, c)
    decreases |a|
  {
    if |a| > 0 && a[0] == b[0] && b[0] == c[0] {
      LtTransitive(a[1..], b[1..], c[1..]);
    }
  }

  lemma {:induction false} LtTotal(a: string, b: string)
    ensures a == b || Lt(a, b) || Lt(b, a)
    decreases |a|
  {
    if |a| > 0 && |b| > 0 && a[0] == b[0] {
      LtTotal(a[1..], b[1..]);
      if a[1..] == b[1..] {
        assert a == [a[0]] + a[1..] && b == [b[0]] + b[1..];
      }
    }
  }

  lemma LeTransitive(a: string, b: string, c: string)
    requires Le(a, b) && Le(b, c)
    ensures Le(a, c)
  {
    if a != b && b != c {
      LtTransitive(a, b, c);
    }
  }

  lemma LeTotal(a: string, b: string)
    ensures Le(a, b) || Le(b, a)
  {
    LtTotal(a, b);
  }

  lemma LeAntisymmetric(a: string, b: string)
    requires Le(a, b) && Le(b, a)
    ensures a == b
  {
    if a != b {
      LtAsymmetric(a, b);
    }
  }

  /** `a` sorts before `b` when they agree on the first `i` characters and
      `a` has the smaller character at position `i`. */
  lemma {:induction false} LtAtIndex(a: string, b: string, i: nat)
    requires i < |a| && i < |b|
    requires a[..i] == b[..i] && a[i] < b[i]
    ensures Lt(a, b)
    decreases i
  {
    if i > 0 {
      assert a[0] == a[..i][0] == b[..i][0] == b[0];
      assert a[1..][..i - 1] == a[1..i] == a[..i][1..];
      assert b[1..][..i - 1] == b[1..i] == b[..i][1..];
      LtAtIndex(a[1..], b[1..], i - 1);
    }
  }

  /** A proper prefix sorts first. */
  lemma {:induction false} LtPrefix(a: string, b: string)
    requires |a| < |b| && b[..|a|] == a
    ensures Lt(a, b)
    decreases |a|
  {
    if |a| > 0 {
      assert a[0] == b[0];
      assert b[1..][..|a| - 1] == a[1..];
      LtPrefix(a[1..], b[1..]);
    }
  }

  function DigitChar(d: nat): char
    requires d < 10
  {
    ['0', '1', '2', '3', '4', '5', '6', '7', '8', '9'][d]
  }

  /** Decimal rendering of a natural number, as `Display for u64` prints it. */
  function NatToString(n: nat): (s: string)
    ensures |s| > 0
    ensures forall i :: 0 <= i < |s| ==> '0' <= s[i] <= '9'
    decreases n
  {
    if n < 10 then [DigitChar(n)] else NatToString(n / 10) + [DigitChar(n % 10)]
  }

  /** Decimal rendering of an integer, with a leading '-' for negatives. */
  function IntToString(i: int): (s: string)
    ensures |s| > 0
    ensures (s[0] == '-') <==> i < 0
  {
    if i < 0 then "-" + NatToString(-i) else NatToString(i)
  }

  /** The parts separated by `sep`, with no leading or trailing separator. */
  function Join(parts: seq<string>, sep: string): string
    decreases |parts|
  {
    if |parts| == 0 then ""
    else if |parts| == 1 then parts[0]
    else parts[0] + sep + Join(parts[1..], sep)
  }

  /** Joining one more part adds one separator and the part. */
  lemma {:induction false} JoinAppend(parts: seq<string>, x: string, sep: string)
    requires |parts| > 0
    ensures Join(parts + [x], sep) == Join(parts, sep) + sep + x
    decreases |parts|
  {
    if |parts| > 1 {
      assert (parts + [x])[1..] == parts[1..] + [x];
      JoinAppend(parts[1..], x, sep);
    } else {
      assert parts + [x] == [parts[0], x];
      assert [parts[0], x][1..] == [x];
    }
  }

  predicate StartsWith(s: string, prefix: string) {
    |prefix| <= |s| && s[..|prefix|] == prefix
  }
}

=== FILE: wrappers.dfy ===
/** Failure-compatible wrappers shared by the whole model: Rust's `Option`,
    `Result` and a value-less pass/fail outcome. */
module Wrappers {

  /** Rust's `Option<T>`. */
  datatype Option<+T> = None | Some(value: T) {

    predicate IsFailure() {
      None?
    }

    function PropagateFailure<U>(): Option<U>
      requires None?
    {
      None
    }

    function Extract(): T
      requires Some?
    {
      value
    }

    function GetOr(default: T): T {
      match this
      case Some(v) => v
      case None => default
    }
  }

  /** Rust's `Result<R, E>`. */
  datatype Result<+R, +E> = Success(value: R) | Failure(error: E) {

    predicate IsFailure() {
      Failure?
    }

    function PropagateFailure<U>(): Result<U, E>
      requires Failure?
    {
      Failure(error)
    }

    function Extract(): R
      requires Success?
    {
      value
    }

    function MapFailure<NewE>(wrap: E -> NewE): Result<R, NewE> {
      match this
      case Success(v) => Success(v)
      case Failure(e) => Failure(wrap(e))
    }
  }

  /** A check that either passes or fails with a reason: Rust's `Result<(), E>`. */
  datatype Outcome<+E> = Pass | Fail(error: E)
}
